=== FILE: README.md ===
# x-fas parcel-shipment backend: a verified model of its business rules

The x-fas backend books, prices, tracks and pays for parcel shipments. It is a
FastAPI service over a MongoDB store. This project models the decisions its
routes and services make, as pure Dafny functions over immutable records:

- each document collection is a sequence of records;
- a write returns the new sequence;
- the clock, random draws, gateway replies and configuration are parameters.

It covers:

- the shipment lifecycle: statuses, booking, status updates, demo progression, the
  booking and order guards, tracking views and AWB validation;
- quotes and carriers: pricing, ordering, best-quote selection and the carrier stubs;
- payments: the COD charge, the wallet ledger, payment creation, webhooks, refunds,
  breakdowns and summaries;
- OTP issue and verification;
- contact data: Indian phone and postal-code normalisation, the address book with
  its default flags, the profile's address and payment-method lists, and SMS
  provider cleaning and fallback;
- content and reporting: blog slugs, posts, import and sitemap; dashboard
  counters, recent activity, profile completion and quick actions; admin role
  gates, status override and aggregate post-processing; notification gating and
  bulk sends.

The modules follow the repository's files:

| module | file(s) |
|---|---|
| `Shipments` | `shipment.dfy` — models/shipment.py |
| `Booking` | `booking.dfy` — services/booking_service.py |
| `BookingRoutes` | `booking_routes.dfy` — routes/booking.py |
| `Orders` | `orders.dfy` — routes/orders.py |
| `ShipmentRoutes` | `shipment_routes.dfy` — routes/shipments.py |
| `Tracking` | `tracking.dfy` — services/tracking_service.py |
| `Quotes` | `quotes.dfy` — models/quote.py, services/quote_service.py |
| `Carriers` | `carriers.dfy` — services/carrier_service.py |
| `Payments` | `payments.dfy` — models/payment.py, services/payment_service.py |
| `Otp` | `otp.dfy` — services/otp_service.py |
| `Phone` | `phone.dfy` — models/address_book.py validators, services/twilio_verify_service.py |
| `Sms` | `sms.dfy` — services/sms_service.py |
| `AddressBook` | `address_book.dfy` — models/address_book.py, services/address_book_service.py |
| `Profile` | `profile.dfy` — routes/profile.py |
| `Blog` | `blog.dfy` — services/blog_service.py |
| `Dashboard` | `dashboard.dfy` — services/dashboard_service.py |
| `Admin` | `admin.dfy` — routes/admin.py, services/admin_service.py |
| `Notifications` | `notifications.dfy` — services/notification_service.py |
| `Wrappers`, `Seqs`, `Text` | shared helpers: Option/Result and HTTP errors; Python list idioms (`index`, `max(key=)`, `sorted(reverse=True)`); `str` methods (`upper`, `lower`, `strip`, `replace`, `title`, `isdigit`) |

Conventions:

- Times are integer seconds on one clock. Money and rates are `real`.
- An HTTP error is `BadRequest`, `Forbidden` or `NotFound` (400, 403, 404).
  Where the source answers with a specific message, the model carries it.
- A lookup that the store answers with `find_one` is modelled as "the first
  matching record in store order".

Where the code and its documentation disagree, the model follows the code:

- There is no central transition table. `update_shipment_status` and the admin
  override accept any status.
- Two cancel policies disagree. routes/booking.py refuses only delivered,
  cancelled and returned, so a `lost` or `draft` shipment can be cancelled there.
  routes/orders.py allows only draft, booked and pickup_scheduled.
  `Orders.CancelPoliciesDisagree` states exactly where they differ.
- The tracking numbers `CarrierService.create_shipment` produces are not
  accepted by `validate_awb_format` (`Carriers.CreatedNumberFailsAwbCheck`).
- The "picked_up" milestone's keyword "pickup" also matches a "Pickup Scheduled"
  event, so a scheduled pickup stamps the picked-up milestone
  (`Tracking.PickupScheduledStampsPickedUp`).
- Changing an address's type in the profile routes does not clear the other
  defaults of the new type, so two defaults of one type can coexist
  (`Profile.TypeChangeKeepsTwoDefaults`).
- An explicit blog slug on update is slugified, but an explicit slug on
  creation is kept as given. Neither update path rechecks uniqueness.
- The dashboard's profile completion compares the user type with the literal
  "business"; a user stored as "BUSINESS" gets the 8 personal checks only.
- The revenue breakdown divides by a total that includes groups with no carrier
  name, so the named shares add up to less than 100 when such groups exist
  (`Admin.MarketSharesAddUp`).
- The `DELAY_NOTIFICATION` template is loaded but no sender uses it, and its
  placeholders are not supplied by any sender's data
  (`Notifications.DelayNeedsItsOwnData`).

## Model

| member | source | states |
|---|---|---|
| Shipments.ParseStatus | models/shipment.py:12-22 | a parsed status is one whose stored value is exactly the text |
| Shipments.StatusValuesRoundTrip | models/shipment.py:12-22 | there are exactly ten statuses with pairwise distinct values, and parsing a status's value gives the status back |
| Shipments.StatusValueText | models/shipment.py:12-22 | every stored status value is lower-case letters and underscores |
| Shipments.ShipmentNumber | models/shipment.py:91 | the default shipment number has length 10, starts "XF", is upper-case hex after the prefix, and agrees case-insensitively with the uuid's first eight characters |
| Shipments.NewShipment | models/shipment.py:87-121 | a new shipment is a draft with no events, no pickup or delivery date, no cancellation or reschedule count, created and updated now |
| Booking.AwbPrefix | services/booking_service.py:71-83 | the AWB prefix is one of XF, FX, DH, AR, UP, and XF for every carrier outside the table |
| Booking.AwbPrefixDistinct | services/booking_service.py:73-80 | the four named carriers get pairwise distinct prefixes, and only carriers outside the table get XF |
| Booking.GenerateAwb | services/booking_service.py:71-83 | the AWB is 12 characters: the carrier's prefix, then exactly the ten random digits drawn, in order |
| Booking.EstimatedDays | services/booking_service.py:85-94 | the estimated transit is 2 to 5 days, and 5 for an unknown carrier |
| Booking.CostMultiplier | services/booking_service.py:96-112 | the carrier's cost multiplier lies in [0.8, 1.4] |
| Booking.EstimateCost | services/booking_service.py:96-112 | the estimated cost is never below 200, never below weight x 150 x the carrier multiplier, and is one of the two |
| Booking.EstimateCostMonotone | services/booking_service.py:96-112 | a heavier parcel never costs less with the same carrier |
| Booking.StatusLabel | services/booking_service.py:124 | the event label has the length of the status value |
| Booking.StatusLabelRoundTrip | services/booking_service.py:124 | lower-casing the event label and turning spaces back into underscores recovers the status value |
| Booking.LowerStatusLabel | services/booking_service.py:124 | lower-casing the event label gives the status value with spaces for underscores, which is already lower-case |
| Booking.StatusLabelInjective | services/booking_service.py:124 | distinct statuses get distinct event labels |
| Booking.EventDescription | services/booking_service.py:126 | a non-empty description is kept; an empty one becomes "Shipment status updated to <value>" |
| Booking.UpdateStatus | services/booking_service.py:114-137 | any status may follow any status; exactly one event is appended after the unchanged old events; delivery date is set exactly when the new status is delivered; nothing else changes |
| Booking.NextInProgressionIsSuccessor | services/booking_service.py:162-179 | the progression table's next entry is defined exactly for booked through out-for-delivery |
| Booking.PathPositionIsIndex | services/booking_service.py:162-172 | `status_progression.index` places the six path statuses at positions 0 to 5, in lifecycle order, and finds no other status |
| Booking.Simulate | services/booking_service.py:155-184 | one demo step on the progression path moves to the successor through the status update with location "Transit Hub" and the description "Shipment progressed to " and the successor's label: the event, the update time and the delivery date are set and every other field is kept; with no successor the shipment is returned unchanged |
| Booking.SimulateNoOp | services/booking_service.py:171-184 | a delivered, draft, cancelled, returned or lost shipment is left exactly as it was |
| Booking.StepsToDelivered | services/booking_service.py:162-179 | a status has a distance to delivered exactly when it is on the progression, and distance 0 exactly when delivered |
| Booking.SuccessorCountsDown | services/booking_service.py:162-179 | every demo step on the progression brings the shipment one step closer to delivered, so repeated steps terminate at delivered |
| Booking.CreateBooking | services/booking_service.py:17-69 | a booking is booked, tracks the generated AWB, references "<carrier>_<awb>", estimates delivery from the carrier's days, is priced by the selected quote or by the estimate, has pending payment and exactly one "Booking Confirmed" event |
| BookingRoutes.FindById | routes/booking.py:116-118 | the lookup finds the first shipment with the id, and none exactly when no shipment has it |
| BookingRoutes.Guard | routes/booking.py:116-132 | an unknown id is 404 and another user's shipment is 403, in that order; success names the caller's shipment |
| BookingRoutes.NotFoundBeforeForbidden | routes/booking.py:116-132 | whether the answer is 404 does not depend on who asks |
| BookingRoutes.GetBooking | routes/booking.py:109-138 | the caller sees only their own shipment with that id, or the guard's error |
| BookingRoutes.FirstForCarrier | routes/booking.py:36-41 | the selected carrier quote is the first entry with the requested carrier name, and there is none exactly when no entry has that name |
| BookingRoutes.FindQuote | routes/booking.py:34-35 | the quote lookup finds the first quote with the id, and none exactly when no quote has it |
| BookingRoutes.SelectCarrierQuote | routes/booking.py:33-41 | a carrier quote is selected only from a given, found quote, and then it is that quote's first entry for the carrier |
| BookingRoutes.ConsumeQuote | routes/booking.py:53-64 | when a quote id is given and found, that quote becomes used with the selected carrier and time whether or not a carrier entry matched; otherwise the quotes are unchanged |
| BookingRoutes.CreateBookingRoute | routes/booking.py:22-75 | the route appends one booked shipment of the caller, priced by the selected quote when there is one and by the booking estimate otherwise |
| BookingRoutes.TrackByAwb | routes/booking.py:141-162 | tracking by AWB returns a shipment whose tracking number is exactly the AWB, and 404 exactly when none has it |
| BookingRoutes.CancelBooking | routes/booking.py:217-264 | after the guard, delivered, cancelled and returned are refused with 400 and no write; any other booking becomes exactly the status update to cancelled at the hub with "Shipment cancelled by customer" (update time and event time now, every other field kept), and no other record changes |
| BookingRoutes.CancelTwiceRefused | routes/booking.py:242-247 | once a cancellation succeeds the booking is still found and owned, and cancelling it again is refused with 400 |
| BookingRoutes.LostAndDraftCancellable | routes/booking.py:243 | the booking route cancels lost and draft shipments |
| BookingRoutes.UpdateBooking | routes/booking.py:165-214 | an update writes only the notes and tracking number, leaves updated_at as it was, and writes nothing when both are absent |
| BookingRoutes.UpdateBookingIgnoresStatus | routes/booking.py:191-208 | the status field of the update has no effect at all |
| BookingRoutes.SimulateRoute | routes/booking.py:267-304 | after the guard, the route performs exactly one demo step on the caller's shipment and leaves the rest of the store alone |
| Orders.StagePredicatesNest | routes/orders.py:67-70 | every reschedulable order is cancellable; draft is the only cancellable status without an invoice; invoice and label are available for the same statuses |
| Orders.CancelPoliciesDisagree | routes/orders.py:186-191 | everything orders may cancel, bookings may cancel too, and exactly picked up, in transit, out for delivery and lost are refused by orders but not by bookings |
| Orders.HasMore | routes/orders.py:88 | there is another page exactly when offset + limit is below the total |
| Orders.CancellationDeadline | routes/orders.py:524-532 | the deadline exists exactly when a pickup date does, and is two hours before it |
| Orders.FindOwned | routes/orders.py:110-119 | the lookup matches both id and owner, and finds nothing exactly when no shipment matches both |
| Orders.ForeignIsNotFound | routes/orders.py:173-182 | another user's shipment is not found, rather than forbidden |
| Orders.ShipmentDetails | routes/orders.py:101-160 | details are 404 exactly when the caller owns no such shipment, and otherwise carry the cancel, reschedule, invoice and label flags of its status, the label flag always equal to the invoice flag, and its cancellation deadline |
| Orders.ApplyCancel | routes/orders.py:193-220 | a cancel sets cancelled, records the reason, time, user and refund request, and appends exactly one "CANCELLED" event at "Customer Request" mentioning the reason; nothing else changes |
| Orders.CancelOrder | routes/orders.py:163-249 | cancel is 404 for an unowned id, 400 exactly when the status is not cancellable, and otherwise writes only the cancelled record; the refund status is "processing" exactly when a refund was requested |
| Orders.CancelOrderHitsOwned | routes/orders.py:193-196 | with unique ids, the record the update writes by id alone is the caller's own, and it ends cancelled |
| Orders.ApplyReschedule | routes/orders.py:289-315 | a reschedule sets the pickup date, the reason, the reschedule and update times, adds one to the count, appends one "RESCHEDULED" event, and keeps every other field, the status included |
| Orders.RescheduleOrder | routes/orders.py:252-336 | reschedule is 404 for an unowned id, 400 when the status is not reschedulable or the new date is not in the future, and otherwise writes only the rescheduled record |
| Orders.RescheduleCountsUp | routes/orders.py:289-315 | after two successful reschedules of the same order, ids unique, its count is two more than before, an absent count read as 0, and its pickup is the second one |
| Orders.RescheduleStep | routes/orders.py:289-315 | one reschedule, ids unique, leaves every id and owner where it was, the ids unique, the order at its stage with the new pickup and a count one up |
| Orders.RescheduleAgainSucceeds | routes/orders.py:264-287 | once rescheduled, an order may be rescheduled again to any pickup after the current time |
| Orders.DocumentGuard | routes/orders.py:339-434 | invoice and label are 404 for an unowned id, 400 exactly when the status is draft or cancelled, and otherwise return a shipment for which both are available |
| ShipmentRoutes.ShippingCost | routes/shipments.py:254-278 | a found carrier quote's total cost is the price; otherwise the default cost applies |
| ShipmentRoutes.DefaultShippingCostBounds | routes/shipments.py:266-278 | the default cost is between 200 and 250 plus 1% of the declared value, and exactly 200 without insurance or signature |
| ShipmentRoutes.CreateShipment | routes/shipments.py:26-100 | creation appends one draft shipment of the caller with one "Created" event, pending payment of the computed cost in INR, and no tracking number |
| ShipmentRoutes.QuotedPriceAgrees | routes/shipments.py:257-264 | with a selected carrier quote, the booking route and the shipment route charge the same amount |
| ShipmentRoutes.TrackShipment | routes/shipments.py:182-211 | tracking finds a shipment whose shipment number or tracking number is the text, and is 404 exactly when none matches |
| ShipmentRoutes.TrackShipmentCoversAwb | routes/shipments.py:189-200 | every AWB the booking route can track, the shipment route can track too |
| ShipmentRoutes.InitiatePaymentGuard | routes/shipments.py:214-252 | payment initiation is 404 for a missing shipment, 403 for another user's, 400 when already paid, and otherwise passes the guard; the route then fails at line 247, which is not modelled |
| ShipmentRoutes.PaymentGuardOrder | routes/shipments.py:221-240 | an unknown id is 404 for every caller, another user's shipment is 403 even when paid, and a shipment that passes is what the booking read shows |
| Tracking.ProgressPercentage | services/tracking_service.py:111-127 | progress is at most 100, is 100 exactly for delivered and returned, and 0 exactly for draft, cancelled and lost |
| Tracking.ProgressMonotone | services/tracking_service.py:111-127 | progress strictly increases along draft, booked, ..., delivered |
| Tracking.ProgressAdvances | services/tracking_service.py:111-127 | every demo step strictly increases progress |
| Tracking.MilestoneStateByPosition | services/tracking_service.py:129-201 | a milestone is completed when the status is at or past it, current when the status is just before it, and pending otherwise, including for draft, cancelled, returned and lost |
| Tracking.Keywords | services/tracking_service.py:205-212 | the "created" and "delivered" milestone ids have no keywords |
| Tracking.LastMention | services/tracking_service.py:213-220 | the search finds the newest event mentioning a keyword, and nothing exactly when no event mentions one |
| Tracking.MilestoneTimestamp | services/tracking_service.py:203-220 | a milestone timestamp exists exactly when some event mentions a keyword, is that event's time, and is absent for milestones without keywords |
| Tracking.Milestones | services/tracking_service.py:129-201 | there are six milestones in fixed order with the states by position; "created" is stamped with the creation time |
| Tracking.MilestonesShape | services/tracking_service.py:129-201 | completed milestones form a prefix, at most one milestone is current, and it directly follows the completed ones |
| Tracking.PositionShape | services/tracking_service.py:129-201 | by position alone: completed milestones form a prefix, at most one is current and it follows a completed one, the first is never current, and all six are pending exactly for a status off the path |
| Tracking.StatusEventStampsMilestone | services/tracking_service.py:203-220 | an event written by a status update to a milestone's status stamps that milestone, with it or a newer event |
| Tracking.PickupScheduledStampsPickedUp | services/tracking_service.py:208 | a lone "Pickup Scheduled" event stamps the picked-up milestone |
| Tracking.EstimateNextUpdate | services/tracking_service.py:222-266 | a next update is estimated exactly for statuses that have a successor, between 2 and 24 hours from now |
| Tracking.NextUpdateNamesSuccessor | services/tracking_service.py:222-266 | the expected status named is the status's successor, in words |
| Tracking.ValidateAwb | services/tracking_service.py:337-355 | after strip and upper-case, an AWB is valid exactly when it is XF, FX, DH, AR or UP plus 10 digits, or 10 to 15 digits alone; a valid one has 10 to 15 characters |
| Tracking.GeneratedAwbValid | services/booking_service.py:71-83 | every AWB the booking service generates passes the validator |
| Tracking.NextStatusValue | services/tracking_service.py:471-486 | the simulated sync advances only a status in its table, and only on a roll below 0.3 |
| Tracking.NextStatusAgreesWithSuccessor | services/tracking_service.py:474-480 | the sync's next-status map and the demo progression name the same successor for every status |
| Tracking.EnhancedInfo | services/tracking_service.py:56-109 | the tracking view carries the shipment's id, AWB and status, its progress, six milestones, and is never delayed once delivered |
| Tracking.NormalizedEntries | services/tracking_service.py:29-33 | normalised AWB entries are never empty |
| Tracking.NormalizeAwb | services/tracking_service.py:30 | a normalised AWB has no surrounding whitespace and no lower-case letter |
| Tracking.NormalizeAwbIdempotent | services/tracking_service.py:30 | normalising twice is the same as once |
| Tracking.TrackMultiple | services/tracking_service.py:18-54 | the not-found list is exactly the normalised entries that name no stored shipment, in entry order, and the tracked list is the enriched record of the shipment each remaining entry names, in entry order; the counts are the two lengths |
| Tracking.InfoOf | services/tracking_service.py:38-42 | entry by entry, the enriched record of the stored shipment each found entry names |
| Tracking.TrackMultipleEntries | services/tracking_service.py:29-49 | each normalised entry naming a stored shipment has that shipment's record among the results and is not listed as not found; each entry naming none is listed as not found |
| Tracking.TrackStepNotFound | services/tracking_service.py:29-45 | one entry in front of the rest puts its not-found listing, if any, in front of the rest's |
| Tracking.TrackStepShipments | services/tracking_service.py:29-42 | one entry in front of the rest puts its record, if found, in front of the rest's |
| Tracking.TrackOne | services/tracking_service.py:35-49 | one entry is either tracked, with a shipment carrying that AWB, or reported not found, and then no shipment carries it |
| Tracking.Tally | services/tracking_service.py:309-313 | the status tally counts each status as often as it occurs |
| Tracking.TallySum | services/tracking_service.py:309-313 | the tally's counts add up to the number of entries |
| Tracking.TrackingSummary | services/tracking_service.py:301-335 | there is no summary for no shipments; otherwise the total is the count, delayed shipments are at most the total, and the on-time rate lies in [0, 100] |
| Tracking.SummaryCountsSum | services/tracking_service.py:301-335 | the summary's status counts add up to the total shipments |
| Quotes.NewQuote | models/quote.py:63-80 | a new quote is active, expires 24 hours after creation, has no selected carrier or use time, and keeps the given carrier quotes |
| Quotes.PerKgRate | services/quote_service.py:104-116 | the per-kg rate lies in [85, 180], and is 150 for an unknown carrier |
| Quotes.BillableWeight | services/quote_service.py:118-127 | billable weight is at least 0.5 and at least the weight, and at least the volumetric weight when all three dimensions are given |
| Quotes.BaseRate | services/quote_service.py:104-135 | the base rate is the larger of the minimum charge and billable weight x rate, with the rate x 2.5 across countries |
| Quotes.BaseRateMonotone | services/quote_service.py:104-135 | a heavier parcel never gets a smaller base rate |
| Quotes.ServiceInfo | services/quote_service.py:137-148 | the service level is standard or express, and (standard, 5) for an unknown carrier |
| Quotes.ServiceDaysMatchBookingEstimate | services/quote_service.py:137-148 | the quote's delivery days agree with the booking service's estimate for every carrier |
| Quotes.Features | services/quote_service.py:150-167 | the features always start with real-time tracking and insurance; priority handling exactly for express and overnight; customs clearance exactly for the international carriers |
| Quotes.MockCarrierQuote | services/quote_service.py:59-102 | a quote exists exactly when the carrier is available, and its total is base + 15% fuel + 1% of value with insurance + 50 with signature |
| Quotes.MockQuoteAtLeastMinimum | services/quote_service.py:70-78 | every quote costs at least 1.15 x the minimum charge |
| Quotes.SortByCost | services/quote_service.py:55 | sorting by cost gives an ascending permutation of the quotes in which the quotes of each cost keep their input order, as `list.sort` is stable |
| Quotes.InsertByCost | services/quote_service.py:55 | inserting a quote into a cost-sorted list keeps it sorted and adds exactly that quote |
| Quotes.InsertKeepsTies | services/quote_service.py:55 | insertion puts the quote before every quote of its cost and keeps the order of the others |
| Quotes.CarrierQuotes | services/quote_service.py:28-57 | at most five quotes, ascending by total cost, exactly the available carriers' quotes, with equal-cost quotes in the order the carriers were asked |
| Quotes.CollectQuotes | services/quote_service.py:34-53 | the collected quotes are at most one per carrier, and each names a carrier that was asked |
| Quotes.CollectQuotesCount | services/quote_service.py:34-53 | one quote per available carrier, so five when all are available |
| Quotes.Recommendation | services/quote_service.py:194-246 | there is no recommendation exactly when there are no quotes; otherwise it is a listed quote with the greatest score, the first such quote in the list on a tie |
| Quotes.ProcessQuoteResponse | services/quote_service.py:169-192 | total_quotes is the count; cheapest and fastest are absent exactly for no quotes, and otherwise are the first listed quote of least cost and the first listed quote of fewest days, as `min` picks them |
| Quotes.LeastCostAndDays | services/quote_service.py:172-192 | the quotes `min` picks by cost and by days are listed quotes with the least cost and the fewest days |
| Quotes.CheapestOfSortedIsFirst | services/quote_service.py:172-192 | for the service's sorted quotes, the cheapest costs what the first one costs |
| Quotes.SortedHeadIsFirstCheapest | services/quote_service.py:55 | the head of the sorted quotes is the first cheapest quote in the order the carriers were asked |
| Carriers.LiveQuote | services/carrier_service.py:31-66 | a live carrier quote is never produced |
| Carriers.DefaultsGiveNoLiveQuote | services/carrier_service.py:11-29 | DHL, FedEx and UPS are configured and all disabled by default |
| Carriers.TrackWithCarrier | services/carrier_service.py:68-106 | DHL, FedEx and UPS get an empty result; any other carrier gets the "In Transit", "Mumbai, India" mock echoing the tracking number |
| Carriers.TrackDispatchIgnoresCase | services/carrier_service.py:71-76 | tracking dispatch is the same for a carrier name in any letter case |
| Carriers.CreateCarrierShipment | services/carrier_service.py:108-118 | creation always succeeds; the number is "XF", then exactly the first three characters of the carrier upper-cased, then the first clock reading; the reference is "REF_" plus the second clock reading; the delivery date and label link are the fixed mock values |
| Carriers.StampsAgreeIffReadingsAgree | services/carrier_service.py:114-115 | the number and the reference end in the same text exactly when the two clock readings agree |
| Carriers.CreatedNumberFailsAwbCheck | services/carrier_service.py:108-118 | for a carrier name of three or more characters and a 14-digit stamp, the created number fails the AWB validator |
| Payments.CodCharge | models/payment.py:197-208 | the COD charge is 0 at or above the free threshold, and otherwise base + percentage of value, clamped into [minimum, maximum] |
| Payments.CodChargeMonotone | models/payment.py:202-206 | below the threshold a larger value never gets a smaller charge |
| Payments.DefaultCodCharge | models/payment.py:190-208 | with the default settings the charge is 50 + 2% of value below 2000 and 0 from 2000 |
| Payments.NewWallet | models/payment.py:39-62 | a new wallet is empty, active and unfrozen, with limits 100000 balance, 25000 a day, and transactions from 10 to 50000 |
| Payments.UpdateWalletBalance | services/payment_service.py:42-105 | an update fails on an inactive or frozen wallet, over the daily limit for a deduction, on insufficient balance, or above the maximum balance; on success the balance moves by the amount, a deduction adds to the daily use, nothing else changes, and the transaction records the balance before and after |
| Payments.WalletMessagesDistinct | services/payment_service.py:50-69 | each wallet refusal has its own message |
| Payments.WalletUpdateKeepsInvariant | services/payment_service.py:42-105 | a successful update of a non-negative amount keeps the balance within [0, max] and the daily use within [0, limit] |
| Payments.DeductThenLoadRestores | services/payment_service.py:52-80 | a deduction followed by a load of the same amount restores the balance |
| Payments.GatewayFee | services/payment_service.py:139-141 | the gateway fee is 0 for wallet payments and amount x percentage / 100 otherwise |
| Payments.CreatePayment | services/payment_service.py:129-236 | a payment is refused exactly when the amount is outside [min, max]; otherwise it is appended with total = amount + fee; a wallet payment completes exactly when the wallet can be debited and then debits it, and otherwise fails leaving the wallet alone; a gateway payment is processing with order id "order_<hex>" when Razorpay is enabled and pending otherwise |
| Payments.FindPayment | services/payment_service.py:238-248 | the lookup finds a payment with the id, of the user when one is named, and nothing exactly when none matches |
| Payments.SetStatus | services/payment_service.py:255-283 | a status write stamps the time, sets completed_at only on completion, and records the gateway ids given |
| Payments.UpdatePaymentStatus | services/payment_service.py:250-287 | the update is absent and writes nothing exactly when no payment has the id |
| Payments.WebhookStatus | services/payment_service.py:316-330 | "payment.captured" maps to completed and "payment.failed" to failed, and nothing else maps |
| Payments.RazorpayWebhookAsWritten | services/payment_service.py:310-340 | as written, the webhook succeeds for the two events whenever stripping "order_" leaves a non-empty id, and writes nothing otherwise |
| Payments.WebhookMissesCreatedPayment | services/payment_service.py:198-206 | as written, a captured event for a payment just created with Razorpay changes no payment |
| Payments.FindByOrder | services/payment_service.py:316-340 | the corrected lookup finds the first payment whose gateway order id is the webhook's order id |
| Payments.RazorpayWebhook | services/payment_service.py:310-340 | the corrected webhook updates the payment with that gateway order id to the mapped status and leaves every other payment alone |
| Payments.WebhookCompletesCreatedPayment | services/payment_service.py:198-206 | with the corrected lookup, a captured event completes the payment just created |
| Payments.ProcessWebhook | services/payment_service.py:289-308 | only Razorpay webhooks are processed; any other provider is answered false with no write |
| Payments.CreateRefundAsWritten | services/payment_service.py:344-403 | as written, a refund of an unknown payment fails as not found, of an uncompleted one as not completed, and of more than the payment's amount as exceeding it; any other refund is applied, whatever was refunded before |
| Payments.RefundTwiceAsWritten | services/payment_service.py:354-355 | as written, two full refunds of a 100 payment both succeed and record 200 refunded |
| Payments.CreateRefund | services/payment_service.py:344-403 | the corrected refund fails in the same three ways, but measures the amount against what is left to refund, and applies any refund within it |
| Payments.CorrectedRefundIsStricter | services/payment_service.py:344-355 | the corrected refund refuses every request the one as written turns away before the wallet, with the same error, and every refund it grants, the one as written grants identically |
| Payments.FirstRefundAgrees | services/payment_service.py:344-355 | on a payment with nothing refunded yet, the two refunds agree |
| Payments.ApplyRefund | services/payment_service.py:357-403 | an applied refund raises the refunded amount of the first payment with the id and records the reason; a gateway payment's refund is processing and leaves the wallet alone; a wallet payment's refund completes exactly when the wallet takes the load, and otherwise fails with the wallet's refusal |
| Payments.RefundKeepsWithinAmount | services/payment_service.py:391-401 | with the corrected refund, the refunded total never exceeds the payment's amount |
| Payments.PaymentBreakdown | services/payment_service.py:501-535 | the COD charge applies only to COD; tax is 18% of value + shipping + COD; the wallet bonus applies only to wallet payments |
| Payments.BreakdownOrdering | services/payment_service.py:501-535 | paying by wallet is never dearer than paying by card, which is never dearer than COD |
| Payments.AvailableMethods | services/payment_service.py:547-563 | exactly the enabled methods are offered, wallet first and COD last when enabled |
| Payments.ShipmentPaymentSummary | services/payment_service.py:537-584 | the wallet can be used exactly when the balance covers the total; the gateway is needed exactly when it cannot and wallet payment is offered |
| Payments.SummaryCoversTotal | services/payment_service.py:570-573 | when the wallet covers the total nothing goes to the gateway; otherwise the gateway pays exactly what the balance leaves of the total |
| Otp.GenerateOtp | services/otp_service.py:20-22 | the code has one decimal digit per draw, the digit drawn |
| Otp.FindWaiting | services/otp_service.py:78-88 | the lookup finds the first unused code for the identifier and purpose, and nothing exactly when there is none |
| Otp.CreateOtp | services/otp_service.py:24-63 | creation removes every unused code for the pair, then adds one unused six-digit code with 0 of 3 attempts, expiring in 10 minutes |
| Otp.CreateOtpKeepsOneWaiting | services/otp_service.py:33-56 | after creation the pair has exactly one unused code, the new one |
| Otp.KeptApart | services/otp_service.py:48-53 | removing the unused codes of a pair leaves none of that pair and keeps at most one unused code for every other pair |
| Otp.VerifyOtp | services/otp_service.py:65-132 | with no unused code nothing changes; an expired or exhausted code is used up and fails; a wrong code adds an attempt and fails; the right code is used up and succeeds |
| Otp.OutcomeMessagesDistinct | services/otp_service.py:87-131 | each verification outcome has its own message |
| Otp.VerifyKeepsOneWaiting | services/otp_service.py:65-132 | verification never creates a second unused code for a pair |
| Otp.VerifiedOnlyOnce | services/otp_service.py:123-132 | after a successful verification, any further verification for the pair finds no code |
| Otp.CreateThenVerify | services/otp_service.py:24-132 | a code just created verifies with its own code until it expires, and any other code is refused as invalid |
| Otp.VerifyLiveRecord | services/otp_service.py:65-132 | an unexpired waiting code with attempts left verifies with its own code, and any other code is refused as invalid |
| Otp.WrongCodeStep | services/otp_service.py:112-121 | a wrong code adds exactly one attempt and leaves the code unused |
| Otp.ThreeWrongCodesLock | services/otp_service.py:101-121 | after three wrong codes even the right code fails |
| Phone.IndianNumberAsWritten | models/address_book.py:54-66 | as written, 10 digits starting 6 to 9 and 12 or 13 digits starting 91 are accepted |
| Phone.ThirteenDigitBranchAsWritten | models/address_book.py:63-64 | as written, the 13-digit branch yields a number that is not itself a normalised number |
| Phone.IndianNumber | models/address_book.py:54-66 | the corrected mapping accepts the same inputs and always yields "+91" followed by ten digits |
| Phone.ValidatePhone | models/address_book.py:54-66 | as written, after keeping only digits, a phone is accepted exactly when it has ten digits starting 6 to 9, or twelve or thirteen starting "91"; the result is "+" and twelve digits, normalised unless thirteen digits were given; a refusal carries the validation message |
| Phone.ValidatePhoneCorrected | models/address_book.py:54-66 | the corrected validator accepts the same inputs and always yields a normalised number |
| Phone.CorrectedAgreesBelowThirteen | models/address_book.py:54-66 | the two validators agree on every input without thirteen digits |
| Phone.NormalisedFixed | models/address_book.py:54-66 | a normalised number maps to itself |
| Phone.ValidatePhoneIdempotent | models/address_book.py:54-66 | as written, validating a validated phone gives it back whenever the input did not have thirteen digits |
| Phone.CorrectedIdempotent | models/address_book.py:54-66 | the corrected validator gives back every number it validated |
| Phone.ThirteenDigitsValidate | models/address_book.py:63-64 | as written, a thirteen-digit number starting "91" validates to "+" and its last twelve digits, which validation then refuses; corrected, it becomes "+91" and its last ten digits |
| Phone.PlusTwelveRevalidates | models/address_book.py:54-66 | a phone of "+" and twelve digits, the request model's output form, is validated again either to itself or to the invalid-phone error |
| Phone.MobileForms | models/address_book.py:54-66 | a mobile number, with "91" or with "+91" in front, normalises to the same "+91" form |
| Phone.ShortNumberRejected | tests/test_address_book.py:105-124 | "12345" is rejected |
| Phone.CheckPostal | models/address_book.py:69-74 | given the country the validator is handed, a postal code is refused exactly when that country is India and the code is not six digits; as the fields are declared, the stored model hands it no country (see Findings) |
| Phone.PostalAsWritten | models/address_book.py:36-37 | as written, the stored and creation checks accept every postal code, because `country` is declared after `postal_code` |
| Phone.FiveDigitPostalAccepted | models/address_book.py:125-129 | as written, an Indian five-digit code is accepted both by the stored-address check (lines 69-74) and at creation, because each reads the country before it is set; the corrected check refuses it |
| Phone.CreatePostal | models/address_book.py:125-129 | the corrected check, handed the address's own country (the same code as the stored-address check at lines 69-74), refuses exactly a non-six-digit code for India |
| Phone.UpdatePostalAsWritten | models/address_book.py:168-174 | as written, the update check demands six digits whatever the country |
| Phone.UkPostcodeRejectedAsWritten | models/address_book.py:168-174 | as written, a UK postcode is refused on update, though the corrected check accepts it |
| Phone.UpdatePostal | models/address_book.py:168-174 | the corrected update check refuses exactly a non-six-digit code when the country is India or not given |
| Phone.UpdateAgreesWithCreate | models/address_book.py:125-129 | the corrected update and creation checks agree whenever the country is given |
| Phone.IsPhoneNumber | services/twilio_verify_service.py:223-225 | a contact is a phone number exactly when it has no "@" and has a digit |
| Phone.FormatPhoneNumber | services/twilio_verify_service.py:199-221 | as written, an empty phone has no format; a phone validation accepts is formatted as validation gives it, thirteen-digit branch included; any other phone keeps a leading "+", gets "+" before its digits when it has ten or more, and has no format otherwise |
| Phone.FormatPhoneNumberCorrected | services/twilio_verify_service.py:199-221 | with the corrected thirteen-digit branch, formatting follows the corrected validator and is otherwise the same |
| Phone.FormatThirteenDigitsAsWritten | services/twilio_verify_service.py:212-213 | as written, a thirteen-digit number starting "91" is formatted to "+" and its last twelve digits, which is not an Indian number; corrected, to "+91" and its last ten digits |
| Phone.FormatAgreesWithValidate | services/twilio_verify_service.py:199-221 | every phone the address book accepts is formatted to the same number |
| Phone.FormatIdempotent | services/twilio_verify_service.py:199-221 | formatting a formatted phone changes nothing, thirteen-digit branch included |
| Phone.SendVerificationTarget | services/twilio_verify_service.py:37-120 | an unconfigured service refuses; email goes out as given; a phone is formatted first and refused when it cannot be |
| Phone.CheckVerificationTarget | services/twilio_verify_service.py:122-197 | a check formats the contact exactly when it is a formattable phone |
| Phone.SendAndCheckAgree | services/twilio_verify_service.py:37-197 | sending and checking a phone code address the same formatted number |
| Sms.CleanFast2SmsAsWritten | services/sms_service.py:35 | as written, cleaning removes every "91" and so never lengthens the number |
| Sms.Fast2SmsAsWrittenStrips | services/sms_service.py:35-36 | as written, a mobile number "91" + t, with no "1" in t, is cleaned to t and refused |
| Sms.Fast2SmsRefusesMobileAsWritten | services/sms_service.py:35-36 | as written, the valid mobile 9123456789 is cleaned to 23456789 and refused |
| Sms.CleanFast2Sms | services/sms_service.py:35-36 | the corrected cleaning removes only a leading country code |
| Sms.CleanFast2SmsMobile | services/sms_service.py:35-36 | a mobile number, with or without "91" or "+91", is cleaned to itself and accepted |
| Sms.Fast2SmsSend | services/sms_service.py:25-70 | as written, without a key the send fails with its message; a number the as-written cleaning does not reduce to a mobile number fails as an invalid format; otherwise it succeeds exactly when the gateway accepts, and fails with the gateway's error |
| Sms.Fast2SmsSendCorrected | services/sms_service.py:25-70 | with the corrected cleaning, the send succeeds exactly when a key is set, the cleaned number is a mobile number and the gateway accepts |
| Sms.Fast2SmsAsWrittenKeepsOneless | services/sms_service.py:35-36 | as written, a mobile number without the digit 1 is cleaned to itself |
| Sms.Fast2SmsSendMobiles | services/sms_service.py:35-42 | as written, a mobile number without the digit 1 is delivered whenever the gateway accepts, but "91" and digits without 1 is refused before the gateway; the corrected send delivers both |
| Sms.Msg91DropsCountryCodeAsWritten | services/sms_service.py:103-104 | as written, the mobile 9123456789 is taken to carry a country code already and is sent without one |
| Sms.CleanMsg91AsWritten | services/sms_service.py:103-104 | the as-written MSG91 cleaning is the corrected one, or the corrected one without its leading "91" |
| Sms.Msg91KeepsNinetyOneMobile | services/sms_service.py:103-104 | as written, a mobile number that starts with "91" is sent as it is, without a country code |
| Sms.CleanMsg91Mobile | services/sms_service.py:103-104 | a mobile number, with or without "91" or "+91", is cleaned to "91" plus the number |
| Sms.ExtractOtp | services/sms_service.py:112-116 | the extracted code is the first word of at least four digits, and empty exactly when there is none |
| Sms.WordsAreWords | services/sms_service.py:112-116 | splitting on whitespace gives non-empty words without whitespace |
| Sms.Msg91Send | services/sms_service.py:93-170 | without a key the send fails with its message and makes no request; the template route is taken exactly when a template id is set and the message carries a code; otherwise the gateway's reply decides |
| Sms.TwilioNumberAsWritten | services/sms_service.py:193-200 | as written, the number always gets a leading "+" |
| Sms.TwilioDropsCountryCodeAsWritten | services/sms_service.py:195-196 | as written, the mobile 9123456789 becomes +9123456789 |
| Sms.TwilioNumber | services/sms_service.py:193-200 | the corrected number always starts with "+" |
| Sms.TwilioNumberMobile | services/sms_service.py:193-200 | a mobile number in any of its three forms becomes "+91" plus the number, as the address book writes it |
| Sms.TwilioSend | services/sms_service.py:180-230 | the send succeeds exactly when all three credentials are set and the gateway accepts |
| Sms.ProviderOrder | services/sms_service.py:258-283 | development mode uses the console only; otherwise all three gateways in the preferred order, then the console |
| Sms.ModeSettings | services/sms_service.py:262 | SMS_MODE unset means development; set but empty, or "production", means production; the comparison ignores letter case |
| Sms.FirstSuccess | services/sms_service.py:285-314 | the service stops at the first provider that succeeds |
| Sms.SendVia | services/sms_service.py:285-314 | sending succeeds exactly when some provider succeeds, with the first successful provider's result; otherwise the last provider's failure is returned, or "All SMS providers failed" with no providers |
| Sms.SendSms | services/sms_service.py:285-314 | a send always succeeds, since the console comes last, and goes to the console in development |
| Sms.PreferredGatewayFirst | services/sms_service.py:268-278 | when the preferred gateway succeeds, its result is the answer |
| Sms.NoCredentialsMeansConsole | services/sms_service.py:285-314 | with no gateway credentials, production falls through to the console |
| AddressBook.CreateWithDefaults | models/address_book.py:91-108 | a new address defaults to type both, category other, country India, no default flags and no optional fields |
| AddressBook.NewAddress | services/address_book_service.py:77-102 | a stored address is active, unused, of the creating user, and keeps the request's flags |
| AddressBook.ToAddressDictKeepsFields | models/address_book.py:76-89 | the shipment address built from a saved address keeps every contact and location field |
| AddressBook.UnsetDefaults | services/address_book_service.py:436-442 | clearing a default flag touches only the user's addresses and only that flag |
| AddressBook.UnsetClears | services/address_book_service.py:436-442 | after clearing, the user has no address with that default |
| AddressBook.UnsetKeepsOneDefault | services/address_book_service.py:436-442 | clearing one kind of default keeps every user with at most one default of either kind at most one |
| AddressBook.CreateAddress | services/address_book_service.py:77-102 | the stored model validates the request again: creation fails, writing nothing, exactly when the phone (or the postal check) is refused again; otherwise it appends the address with the phone as validated again, and changes nothing in existing addresses but default flags, and those only for the same user |
| AddressBook.CreateRevalidatesPhone | models/address_book.py:54-66 | a request whose phone passed the request model is created exactly when its digits are not thirteen, and then keeps its phone |
| AddressBook.ThirteenDigitCreateFails | models/address_book.py:63-64 | every thirteen-digit number starting "91" passes the request model and is then refused on creation, with the store unchanged |
| AddressBook.CreateKeepsOneDefault | services/address_book_service.py:77-102 | after creation, refused or not, a user still has at most one default pickup and one default delivery address, the new one when it is created and asks to be |
| AddressBook.GetUserAddresses | services/address_book_service.py:104-134 | the listing is exactly the user's addresses passing the type, category and active filters, where pickup and delivery also list "both" |
| AddressBook.PickupListing | services/address_book_service.py:112-118 | an active address appears among pickup addresses exactly when it is not delivery-only |
| AddressBook.GetAddressById | services/address_book_service.py:136-151 | the lookup returns only the user's active address with the id |
| AddressBook.ApplyUpdate | services/address_book_service.py:153-196 | an update writes exactly the fields given, company, email and landmark included, keeps the id, owner, usage statistics and creation time, and stamps the time |
| AddressBook.ApplyUpdateIdempotent | services/address_book_service.py:172-187 | updating twice with the same fields is updating once at the later time |
| AddressBook.EmptyUpdateKeepsFields | services/address_book_service.py:153-196 | an empty update changes nothing but the time |
| AddressBook.UpdateAddress | services/address_book_service.py:153-196 | an update is refused exactly when the user has no active address with the id, or when it sets no default and writes only values the address already has at that instant (`modified_count` 0); otherwise a new default first clears the user's competing defaults, the address is patched in place and differs from before, and other users' addresses are untouched |
| AddressBook.ClearedOneDefault | services/address_book_service.py:174-178 | clearing competing defaults keeps at most one default of each kind, and none of the requested kind |
| AddressBook.UpdateKeepsOneDefault | services/address_book_service.py:153-196 | an update keeps at most one default per kind for the user |
| AddressBook.RepeatedUpdateUnreported | services/address_book_service.py:183-192 | repeating an update that sets no default at the same instant changes nothing and is reported as not updated |
| AddressBook.DeleteAddress | services/address_book_service.py:198-210 | deleting reports true exactly when the user has an address with the id that was not already deleted at that instant (`modified_count` > 0); the address is then marked inactive and kept in the store, and otherwise nothing changes |
| AddressBook.DeletedNotFound | services/address_book_service.py:198-210 | a deleted address is no longer found by id |
| AddressBook.RepeatedDeleteUnreported | services/address_book_service.py:198-206 | deleting again at the same instant changes nothing and reports false |
| AddressBook.BulkDelete | services/address_book_service.py:212-224 | bulk delete deactivates exactly the user's listed addresses and reports how many of them the write changed, leaving out those already deleted at that instant |
| AddressBook.BulkDeletedNotFound | services/address_book_service.py:212-220 | after a bulk delete no listed id of the user is found |
| AddressBook.SetDefaultAddress | services/address_book_service.py:226-248 | setting a default succeeds exactly for the user's active address and leaves other users' addresses alone |
| AddressBook.SetDefaultIsOnlyDefault | services/address_book_service.py:226-248 | afterwards the chosen address is the user's only default of that kind |
| AddressBook.IncrementUsage | services/address_book_service.py:333-348 | usage counting adds one and stamps the time on the user's active address only |
| AddressBook.UsageEntersSummaryPools | services/address_book_service.py:333-344 | a counted use raises the address's count by one, stamps it at `now`, and puts it in the summary's recent and most-used pools |
| AddressBook.ActiveOf | services/address_book_service.py:287-289 | the summary ranges over exactly the user's active addresses |
| AddressBook.RecentPool | services/address_book_service.py:304-306 | the recent pool is exactly the user's active addresses used within the last thirty days |
| AddressBook.UsedPool | services/address_book_service.py:312-313 | the used pool is exactly the user's active addresses with a positive usage count |
| AddressBook.GetSummary | services/address_book_service.py:284-331 | the summary counts the user's active addresses, with "both" counted as pickup and as delivery; the defaults are the first default of each kind; the recent list has min(5, recent pool) and the most-used list min(5, used pool) entries, each drawn from its pool and in descending order |
| AddressBook.SummaryCountsAddUp | services/address_book_service.py:294-305 | pickup + delivery counts equal the total plus the "both" count, since "both" counts in each |
| AddressBook.MostUsedAreTop | services/address_book_service.py:311-316 | any used address left out of the most-used list leaves the list non-empty and has no more uses than the last one listed |
| AddressBook.RecentAreTop | services/address_book_service.py:303-309 | any recently used address left out of the recent list leaves the list non-empty and was used no later than the last one listed |
| Seqs.TopBySorted | services/address_book_service.py:305-316 | the top k by a key, as `sorted(..., reverse=True)[:k]` gives them, are in descending key order |
| Seqs.TopBySub | services/address_book_service.py:305-316 | the top k are drawn from the list, each at most as often as it occurs there |
| Seqs.TopByLeavesSmaller | services/address_book_service.py:312-316 | no element left out of the top k has a greater key than the last one taken |
| AddressBook.GetDefaultAddresses | services/address_book_service.py:350-375 | the defaults returned are active addresses of the user with the matching flag |
| AddressBook.DefaultsAgreeWithSummary | services/address_book_service.py:284-375 | with one default per kind, the defaults endpoint and the summary report the same addresses |
| AddressBook.ImportAddresses | services/address_book_service.py:377-420 | every row is created, skipped as a duplicate, or an error; the store grows by the number created; there are at most as many errors as rows refused by the database or by the stored model's validation, and exactly that many without duplicate skipping, when nothing is skipped |
| AddressBook.Refusals | services/address_book_service.py:398-415 | row by row, whether the row is refused: by the database, or by the stored model's second validation of phone or postal code |
| AddressBook.ImportSkipsRepeat | services/address_book_service.py:377-420 | with duplicates skipped, importing the same validated request twice creates it once and skips the second, or reports both when the stored model refuses it |
| Profile.AddAddress | routes/profile.py:114-145 | adding appends the address and, when it is a default, clears the defaults of its type only |
| Profile.AddKeepsOneDefault | routes/profile.py:114-145 | after adding, each type still has at most one default |
| Profile.Patch | routes/profile.py:172-176 | an address patch writes each of the eleven fields when given and keeps it otherwise, keeps id and creation time, and stamps the update time |
| Profile.UpdateAddress | routes/profile.py:148-201 | updating an unknown id is refused as not found; otherwise every address with the id is patched, and when the patch makes it default the other addresses of its resulting type lose their default |
| Profile.EmptyPatchKeepsAddress | routes/profile.py:171-176 | a patch with no fields changes nothing but the update time |
| Profile.UpdateKeepsOneDefault | routes/profile.py:160-175 | an update that does not change an address's type keeps one default per type |
| Profile.TypeChangeKeepsTwoDefaults | routes/profile.py:160-175 | moving a default pickup address to delivery leaves two default delivery addresses |
| Profile.DeleteAddress | routes/profile.py:204-237 | deleting an unknown id is 404; otherwise exactly the addresses with other ids remain, each as often as before and in their order |
| Profile.DeleteKeepsOrder | routes/profile.py:219-222 | deleting from a list in two parts deletes from each part in place |
| Profile.DeleteKeepsOneDefault | routes/profile.py:204-237 | deletion keeps one default per type |
| Profile.ActiveMethods | routes/profile.py:242-246 | the listing is exactly the active payment methods |
| Profile.AddMethod | routes/profile.py:249-280 | adding a default method clears every other default |
| Profile.AddMethodKeepsOneDefault | routes/profile.py:249-280 | after adding, at most one method is default |
| Profile.PatchMethod | routes/profile.py:307-311 | a method patch writes label, default and active flag when given, keeps id, type, details, provider and creation time, and stamps the update time |
| Profile.UpdateMethod | routes/profile.py:283-335 | updating an unknown id is 404; otherwise the patched method replaces the first with the id |
| Profile.UpdateMethodKeepsOneDefault | routes/profile.py:283-335 | an update keeps at most one default method, and setting a default makes the updated method the only one |
| Profile.DeleteMethod | routes/profile.py:338-375 | deleting an unknown id is 404; otherwise the method is marked inactive and kept |
| Profile.DeletedMethodNotListed | routes/profile.py:338-375 | a deleted method no longer appears in the listing |
| Profile.VerifyErrorCode | routes/profile.py:380-446 | a failed send is a 500; every other refusal is a 400 |
| Profile.RequestEmailVerification | routes/profile.py:380-446 | a verified email is refused with no write; when Twilio Verify is configured and answers, it sends the code; otherwise a fresh "verify_email" code is stored and the request succeeds exactly when it was emailed or the server runs in development without SMTP |
| Profile.RequestPhoneVerification | routes/profile.py:449-516 | a verified or missing phone is refused with no write; with Twilio Verify the request succeeds exactly when the phone can be formatted and Twilio answers, storing nothing; otherwise a fresh "verify_phone" code is stored and the request succeeds exactly when the SMS went out |
| Profile.ConfirmEmailVerification | routes/profile.py:519-552 | confirmation succeeds exactly when the OTP store verifies the code, and then marks the email verified |
| Profile.RequestThenConfirmEmail | routes/profile.py:380-552 | in development without SMTP, the stored code confirms the email, and a further request is then refused as already verified |
| Blog.SlugIsSlug | services/blog_service.py:21-25 | every generated slug is lower-case letters, digits and single inner hyphens |
| Blog.Slug | services/blog_service.py:21-25 | every generated slug has the slug shape: lower-case letters, digits and single inner hyphens |
| Blog.SlugIdempotent | services/blog_service.py:21-25 | slugifying a slug changes nothing, and a text is its own slug exactly when it is a slug |
| Blog.CandidateInjective | services/blog_service.py:38-39 | distinct counters give distinct candidate slugs |
| Blog.UniqueSlug | services/blog_service.py:33-41 | the chosen slug is not taken; it is the base slug exactly when that is free, and otherwise "<slug>-<n>" for the first n whose candidate is free |
| Blog.PublishedAt | services/blog_service.py:43-48 | a post has a publish time exactly when published, or scheduled with a date; it is now or the scheduled date |
| Blog.CreatePost | services/blog_service.py:27-59 | a new post is appended with no views and a slug not yet taken: the requested slug (explicit and non-empty, else the title's) when free, otherwise that slug with "-n" for the least n whose candidate is free; every other field comes from the request, its publish time follows the status, and both stamps are now |
| Blog.UpdatedSlug | services/blog_service.py:134-139 | an update changes the slug exactly when it gives a title or slug; an explicit slug wins; either way the new slug is slugified |
| Blog.PatchPost | services/blog_service.py:130-145 | the patch writes title, content, category, status, scheduled time, featured and sticky when given, the regenerated slug, the update time, and a publish time only on a move into published; id, views and creation are kept |
| Blog.EmptyUpdateReportedIffNewTime | services/blog_service.py:130-154 | an update with no fields is reported exactly when it moves the update time |
| Blog.RepeatedPostUpdateUnreported | services/blog_service.py:147-154 | repeating an update at the same instant changes nothing and is reported as not updated |
| Blog.UpdatePost | services/blog_service.py:127-154 | updating is refused exactly when no post has the id or the patch writes only values the post already has (`modified_count` 0); otherwise the patched post, which differs from before, replaces the first post with the id |
| Blog.RepublishKeepsTime | services/blog_service.py:141-145 | publishing stamps a post that was not published with the publish reading, keeps the time of one already published, and a later publish keeps the first stamp |
| Blog.ListPosts | services/blog_service.py:61-108 | the listing is exactly the posts passing the filters, and the count is its length |
| Blog.PublicListingPublishedOnly | services/blog_service.py:73-77 | without a status filter only published posts are listed |
| Blog.GetBySlug | services/blog_service.py:110-125 | reading by slug finds the first post with it, adds one view to that post only when asked, and changes no other post |
| Blog.FindSlug | services/blog_service.py:113 | the slug lookup finds the first post with the slug, and nothing exactly when no post has it |
| Blog.FindPost | services/blog_service.py:141 | the id lookup finds the first post with the id, and nothing exactly when no post has it |
| Blog.ViewCounted | services/blog_service.py:117-123 | a counted read adds exactly one view in total; an uncounted read writes nothing |
| Blog.ImportRows | services/blog_service.py:250-270 | every row is a success or an error, and the error list has one entry per error |
| Blog.ImportRowsErrors | services/blog_service.py:250-270 | each failing row's error is reported with its row number, and every reported error is such a row's |
| Blog.FailuresReported | services/blog_service.py:250-270 | every failing row is reported with its row number and its message |
| Blog.ReportsAreFailures | services/blog_service.py:250-270 | every reported error names a row of the file whose outcome was exactly that error |
| Blog.ImportRowsOrdered | services/blog_service.py:250-270 | reported errors carry row numbers from the first row on, in strictly increasing order |
| Blog.ProcessCsvImport | services/blog_service.py:220-301 | an unreadable file gives one general error and no rows; otherwise successes and errors add up to the rows, and each error names a row between 1 and the total |
| Blog.StaticPages | services/blog_service.py:430-433 | the sitemap starts with the four static pages |
| Blog.Sitemap | services/blog_service.py:423-468 | the sitemap is the four static pages followed by one entry per published post, in store order: entry 4+k links to "/blog/<slug>" of the k-th published post of the store |
| Blog.SitemapListsPublished | services/blog_service.py:442-447 | every published post appears in the sitemap |
| Blog.PostEntries | services/blog_service.py:442-447 | each post gives one entry at "<base>/blog/<slug>" with priority 0.7, weekly, dated by its modification |
| Dashboard.ParseDatetime | services/dashboard_service.py:18-32 | a stored time parses to itself, ISO text to its value, and anything else to the epoch |
| Dashboard.FavoriteCarrier | services/dashboard_service.py:219-222 | the favourite carrier is a used carrier with the most shipments, the first to appear among carriers tied for most, and there is none exactly when there are no shipments |
| Dashboard.Spent | services/dashboard_service.py:159-160 | the amount spent is non-negative when the amounts are, and zero when none is set |
| Dashboard.CreatedSinceMonotone | services/dashboard_service.py:234-244 | a later cut-off never counts more shipments |
| Dashboard.GetStats | services/dashboard_service.py:132-244 | no shipments give the empty stats; otherwise the counters count their statuses, spent sums the amounts, the average and success rate divide by the total, the favourite carrier is the most used one seen first, the last shipment is the latest creation, and this week and month count creations in the last 7 and 30 days |
| Dashboard.StatusCountsDisjoint | services/dashboard_service.py:150-170 | active, delivered and cancelled shipments together are at most the total, and booked ones are among the active |
| Dashboard.StatsConsistent | services/dashboard_service.py:132-244 | this week's shipments are at most this month's, which are at most the total, and the success rate lies in [0, 100] |
| Dashboard.ActivitiesOf | services/dashboard_service.py:352-375 | a shipment yields its creation and its last two tracking events |
| Dashboard.RecentActivities | services/dashboard_service.py:342-380 | the feed holds `limit` activities, or all when fewer, newest first, drawn from the activities of the `limit` newest shipments, and none left out is newer than the last kept |
| Dashboard.RecentListsEveryCreation | services/dashboard_service.py:342-380 | with room for three activities per shipment, the creation of every shipment is listed |
| Dashboard.CreationListed | services/dashboard_service.py:352-360 | every shipment's creation appears among its activities |
| Dashboard.ActivitiesCount | services/dashboard_service.py:352-375 | the activities of a list are one per shipment plus one per event, up to two events per shipment |
| Dashboard.Checks | services/dashboard_service.py:507-579 | there are 8 checks, and 11 for a business user |
| Dashboard.TallyMissing | services/dashboard_service.py:568-575 | an item is reported missing exactly when its check fails |
| Dashboard.ProfileCompletion | services/dashboard_service.py:507-579 | completed plus missing equals the total, and the percentage is completed over total x 100 |
| Dashboard.EmailVerificationMissing | services/dashboard_service.py:540-545 | "Email Verification" is missing exactly when the email is not verified |
| Dashboard.QuickActions | services/dashboard_service.py:636-663 | the base actions are always offered; complete_profile is first exactly when completion is below 80%; verify_email and verify_phone appear exactly when unverified |
| Admin.CheckAdminRole | routes/admin.py:25-52 | an inactive user is refused first; otherwise access is granted exactly for admin, super_admin and manager in lower or upper case |
| Admin.CheckSuperAdminRole | routes/admin.py:54-80 | only super_admin in lower or upper case passes |
| Admin.AdminRoleForms | routes/admin.py:33-45 | an admin role is an admin base role spelled all lower-case or all upper-case |
| Admin.GatesNested | routes/admin.py:25-80 | every super admin passes the admin gate; a user, support or role-less caller passes neither |
| Admin.Page | services/admin_service.py:455-456 | a page holds at most `limit` records, taken in order from position `skip` |
| Admin.HasMoreIffNextPage | routes/admin.py:379 | has_more holds exactly when the next page is non-empty |
| Admin.ValidStatusIff | routes/admin.py:469-474 | a status is accepted exactly when it is one of the ten status values |
| Admin.FindBooking | routes/admin.py:477-485 | the override finds the first booking with the id |
| Admin.UpdateBookingStatusAsWritten | routes/admin.py:457-501 | as written, an invalid status is 400 and a valid one is 500 with no write |
| Admin.OverrideNeverApplies | routes/admin.py:481 | as written, no status override is ever applied |
| Admin.UpdateBookingStatus | routes/admin.py:457-501 | the corrected override is 400 for an invalid status, 404 when nothing is written, and otherwise sets status, time and admin on the booking |
| Admin.AnyStatusMayFollowAny | routes/admin.py:469-485 | the override allows any valid status after any status |
| Admin.UserGrowthRate | services/admin_service.py:105-107 | the growth rate is the change over last month's count x 100, and 0 without last month's users |
| Admin.GrowthRateSign | services/admin_service.py:105-107 | the rate is at least -100 and positive exactly when users grew |
| Admin.ShipmentStats | services/admin_service.py:110-188 | the total is the count, active and completed count their statuses, and the success rate is completed over total x 100, or 0 without shipments |
| Admin.ShipmentStatsConsistent | services/admin_service.py:186-189 | the success rate lies in [0, 100] |
| Admin.Pad2 | services/admin_service.py:271 | a month pads to two digits that read back as the month |
| Admin.PeriodRoundTrip | services/admin_service.py:271 | the year and month can be read back from the period label |
| Admin.PeriodInjective | services/admin_service.py:271 | distinct year-months get distinct labels |
| Admin.PeriodLength | services/admin_service.py:271 | a four-digit year gives a seven-character label |
| Admin.GrowthLabels | services/admin_service.py:265-277 | each growth point is labelled with its row's period and carries its new users and the 2.5 churn rate |
| Admin.Period | services/admin_service.py:270 | a period label is the year, a dash, and the two-digit month |
| Admin.GrowthFrom | services/admin_service.py:265-277 | one growth point per month row |
| Admin.GrowthRunning | services/admin_service.py:266-275 | each point's total is the previous total plus its new users |
| Admin.GrowthLast | services/admin_service.py:266-275 | the last point's total is the starting total plus all the sign-ups |
| Admin.GrowthBounds | services/admin_service.py:266-275 | every total lies between the starting total and the starting total plus all the sign-ups |
| Admin.GrowthMonotone | services/admin_service.py:266-275 | totals never decrease from one month to a later one |
| Admin.UserGrowthData | services/admin_service.py:236-279 | the growth series covers the first `months` rows, with period labels and a running total |
| Admin.GrowthTotals | services/admin_service.py:266-275 | the last total is the starting total plus all new users, every total lies between the two, and totals never decrease |
| Admin.BreakdownFrom | services/admin_service.py:221-232 | one row per group with a carrier name |
| Admin.BreakdownRows | services/admin_service.py:221-232 | each row's share is its revenue over the total x 100, and its average is revenue over count |
| Admin.Top50 | services/admin_service.py:217 | at most 50 groups are read, in order |
| Admin.RevenueBreakdown | services/admin_service.py:203-234 | the breakdown lists the named groups among the first 50, with shares of the total of those 50 |
| Admin.TotalRevenue | services/admin_service.py:219 | the total of the groups' revenue is non-negative when every revenue is, and positive when every revenue is and there is a group |
| Admin.RowOf | services/admin_service.py:226-232 | a breakdown row carries its group's name, revenue and count, an average rate that times the count gives the revenue, and its share of the total |
| Admin.MarketSharesAddUp | services/admin_service.py:219-232 | the shares add up to at most 100, and to exactly 100 when every group is named and revenue is positive |
| Admin.SharesAddUp | services/admin_service.py:219-232 | the shares of positive-count groups add up to the named revenue over the total x 100 |
| Admin.NamedAtMostTotal | services/admin_service.py:203-232 | the named revenue lies between 0 and the total, and equals it when every group is named |
| Admin.AnalyticsRows | services/admin_service.py:298-314 | one row per named carrier group, each with the group's counts, revenue and success rate |
| Admin.CarrierRevenue | services/admin_service.py:298 | the analytics total is non-negative for non-negative revenues and positive when one is positive |
| Admin.AnalyticsRow | services/admin_service.py:304-313 | an analytics row carries the group's name and shipments, a success rate that times the shipments gives 100 times the delivered count (0 without shipments), and its share of the revenue total |
| Admin.CarrierAnalytics | services/admin_service.py:281-316 | of the first 50 groups, one row per named carrier, sorted by shipments, most first, each row computed from its group |
| Admin.AnalyticsKeepsEveryCarrier | services/admin_service.py:316 | sorting keeps every row exactly once |
| Admin.ApplyRateUpdate | services/admin_service.py:47-63 | a rate update writes exactly the fields given, keeps the rest, and stamps the time and admin |
| Admin.RateUpdateLaws | services/admin_service.py:47-63 | an empty update only stamps, and applying an update twice is the same as once |
| Admin.RepeatedRateUpdateUnreported | services/admin_service.py:54-63 | repeating an update by the same admin at the same instant changes nothing and is reported as no update |
| Admin.FindRate | services/admin_service.py:55-58 | the lookup finds the first rate with the id |
| Admin.UpdateCarrierRate | services/admin_service.py:47-63 | an updated rate is returned exactly when the write changed a record |
| Admin.RateUpdateReported | services/admin_service.py:55-63 | a found rate updated at a new time is always reported |
| Notifications.SendEmail | services/notification_service.py:289-310 | an email goes out exactly when the data fills every placeholder of the subject and body |
| Notifications.SendSms | services/notification_service.py:312-331 | an SMS goes out exactly when the data fills every placeholder of the message |
| Notifications.EstimatedDeliveryText | services/notification_service.py:154 | an unknown delivery estimate reads "TBD" |
| Notifications.DeliveredTimeText | services/notification_service.py:262 | an unknown delivery time reads "Recently" |
| Notifications.BookingData | services/notification_service.py:145-156 | the booking data carries every placeholder its templates use |
| Notifications.StatusData | services/notification_service.py:183-192 | the status data carries every placeholder its templates use |
| Notifications.AlertData | services/notification_service.py:225-232 | the alert data carries every placeholder its templates use, with delivery time "6:00 PM" |
| Notifications.DeliveredData | services/notification_service.py:258-267 | the delivered data carries every placeholder its templates use |
| Notifications.SendBookingConfirmation | services/notification_service.py:142-178 | email is attempted exactly when email is enabled, and SMS exactly when SMS is enabled |
| Notifications.SendOn | services/notification_service.py:160-176 | email is attempted exactly when email is enabled and SMS exactly when SMS is enabled and wanted, each with its sender's result |
| Notifications.SendStatusUpdate | services/notification_service.py:180-220 | email follows the email switch; SMS goes out only for picked up, out for delivery and delivered |
| Notifications.SendDeliveryAlert | services/notification_service.py:222-253 | both channels follow their switches |
| Notifications.SendDeliveredConfirmation | services/notification_service.py:255-287 | both channels follow their switches |
| Notifications.BookingAlwaysRenders | services/notification_service.py:142-178 | every booking confirmation renders on each channel it uses |
| Notifications.StatusAlwaysRenders | services/notification_service.py:180-220 | every status update renders on each channel it uses |
| Notifications.AlertAlwaysRenders | services/notification_service.py:222-253 | every delivery alert renders on each channel it uses |
| Notifications.DeliveredAlwaysRenders | services/notification_service.py:255-287 | every delivered confirmation renders on each channel it uses |
| Notifications.DelayNeedsItsOwnData | services/notification_service.py:120-139 | the delay template cannot be rendered from the booking data, on either channel |
| Notifications.Dispatch | services/notification_service.py:424-438 | each template goes to its sender; a status update with no events, and the delay template, are sent as a booking confirmation |
| Notifications.TrackingUrl | services/notification_service.py:424 | the tracking link is the tracking base followed by the shipment's tracking number |
| Notifications.TrackingUrlNamesAwb | services/notification_service.py:424 | two shipments share a tracking link exactly when they share a tracking number |
| Notifications.SendBulk | services/notification_service.py:403-461 | the total is the number of ids; found shipments are sent and malformed ones failed, one detail each; without a store nothing is sent |
| Notifications.BulkCounts | services/notification_service.py:403-461 | sent counts found shipments and failed counts malformed ones, one detail each, so together they are at most the number of ids |
| Notifications.DetailCounts | services/notification_service.py:414-448 | one id gives one "sent" detail when its shipment is found, one "failed" detail when the record is malformed, and none when it is missing |
| Notifications.EventlessStatusUpdateConfirms | services/notification_service.py:426-438 | a bulk status update for a shipment without events sends the booking confirmation |

## Left out

- PDF invoice and label rendering (routes/orders.py:552-1070): document layout only.
- Password hashing, JWT handling and the user lookup behind `get_current_user`: identity is a parameter.
- The Razorpay signature check (services/payment_service.py:651-660): HMAC is not modelled.
- Database, SMTP, HTTP and gateway I/O: a gateway's reply is a parameter, and a store is a sequence.
- Random draws (AWB digits, OTP digits, the simulated sync's roll, mock carrier availability): these are parameters.
- Floating-point rounding (`round(x, 2)`) in prices and percentages: money is exact `real`.
- The simulated tracking sync's writes, `get_tracking_analytics` and `_get_delivery_insights`: these are reports over the same data with no further rule.
- routes/admin.py:554-590 and routes/shipments.py:247: these lines fail when called, and the behaviour is the same error-path shape as the modelled override.
- `get_otp_service` (services/otp_service.py:276-281): module wiring.
- AddressBook.SetDefaultAddress: setting "both" as the default kind is not modelled, since the service writes a flag per kind.
- The ordering and paging of listings other than the admin pages and the top-N reads: the order comes from the store's indexes.
- The blog search regex, `export_to_csv` and the SEO settings: text search and plain copying.
- Unicode in `\w`, `isdigit` and `title`: the model uses ASCII letters and digits.
- The text and formatting of message bodies, templates, enums and dates (`strftime`): only which placeholders a template needs is modelled.
- Exception texts built from `str(e)`: they depend on the database driver.
- Blog.Sitemap: the entries' `lastmod` date is a parameter, since it is a date formatting.
- Dashboard.GetStats: the average delivery time, the on-time rate and this month's spending (a calendar-month window) are not modelled.
- Monthly trends, carrier performance and address suggestions in the dashboard: groupings with mock constants.
- Admin carrier-rate create, list and delete, system alerts, KYC and GST review, the daily, courier, revenue and user-insight reports, and user management: store copies and reports without rules beyond the modelled paging.
- Admin.RevenueBreakdown: requires every group's count to be positive, which the aggregation guarantees since each group counts at least one shipment.
- Blog posts' excerpt, featured image, meta fields, tags, comment switch and author: stored text with no rule, so `PostCreate` and `PostUpdate` leave them out.
- Blog.CreatePost: the creation, update and publication times are one `now`, where the model's default factories and the service read the clock separately.
- Orders.RescheduleOrder: the route reads the clock four times (the future check, the update and reschedule stamps, the event); the model uses one `now` for all of them.
- Booking.UpdateStatus: the event time, the update time and the delivery date (services/booking_service.py:122, 131 and 135) are three clock readings; the model uses one `now` for all of them, and so do Booking.Simulate and BookingRoutes.CancelBooking, which go through it.
- Booking.CreateBooking: the estimated delivery (services/booking_service.py:28), the first event's time (line 46) and the record's creation and update times are separate clock readings; the model uses one `now`.
- Orders.ApplyCancel: the update time, the cancellation time and the event time (routes/orders.py:196, 198 and 211) are three clock readings; the model uses one `now`, and Orders.CancelOrder inherits it.
- Otp.CreateOtp: the expiry is computed from one clock reading (services/otp_service.py:34) and the creation time from a later one (line 42); the model uses one `now`, so its `expiresAt == createdAt + 600` is exact where the source's expiry can fall short of ten minutes after `created_at` by the time between the two readings.
- Notifications: notification preferences, queueing and tracking-notification setup return fixed values.

## Findings

| source | as written | input that shows it | evidently intended | confidence | as-written member | corrected member |
|---|---|---|---|---|---|---|
| services/payment_service.py:316-340 | the webhook strips "order_" from the gateway order id and looks up a payment with that id | a payment created with Razorpay has a uuid id and a gateway order id "order_<hex>", so a "payment.captured" webhook for it finds no payment | look the payment up by its stored gateway order id | not executed | Payments.WebhookMissesCreatedPayment | Payments.WebhookCompletesCreatedPayment |
| services/payment_service.py:354-355 | a refund is checked only against the payment amount, not against earlier refunds | two refunds of 100 on a completed 100 payment both succeed, refunding 200 | refuse a refund above the amount left to refund | not executed | Payments.RefundTwiceAsWritten | Payments.RefundKeepsWithinAmount |
| services/sms_service.py:35 | Fast2SMS cleaning removes every "91" in the number | the mobile 9123456789 becomes 23456789 and is refused | remove only a leading country code | not executed | Sms.Fast2SmsSendMobiles | Sms.Fast2SmsSendCorrected |
| services/sms_service.py:103-104 | MSG91 adds "91" only to 10-digit numbers not starting "91" | the mobile 9123456789 is sent as 9123456789, without a country code | add "91" to every 10-digit mobile number | not executed | Sms.Msg91DropsCountryCodeAsWritten | Sms.CleanMsg91Mobile |
| services/sms_service.py:195-196 | Twilio cleaning treats any number starting "91" as carrying the country code | the mobile 9123456789 becomes +9123456789 | "+91" plus every 10-digit mobile number | not executed | Sms.TwilioDropsCountryCodeAsWritten | Sms.TwilioNumberMobile |
| models/address_book.py:63-64 | a 13-digit number starting "91" drops its first digit | 9100123456789 becomes +100123456789, which validation then refuses, so creating a saved address with it fails (AddressBook.ThirteenDigitCreateFails) | a normalised "+91" number with ten digits after it | not executed | Phone.ThirteenDigitsValidate | Phone.ValidatePhoneCorrected |
| services/twilio_verify_service.py:212-213 | the 13-digit branch of the Twilio formatting drops the first digit too | 9100123456789 is sent to Twilio as +100123456789 | "+91" and the last ten digits | not executed | Phone.FormatThirteenDigitsAsWritten | Phone.FormatPhoneNumberCorrected |
| models/address_book.py:69-74 | the stored-address check reads the country before it is set (`country` is declared on line 37, after `postal_code` on line 36), so it never fires | a stored address with the Indian postal code 12345 is accepted | refuse a non-six-digit Indian postal code | not executed | Phone.FiveDigitPostalAccepted | Phone.CreatePostal |
| models/address_book.py:125-129 | the creation check reads the country before it is set, so it never fires | the Indian postal code 12345 is accepted at creation | refuse a non-six-digit Indian postal code | not executed | Phone.FiveDigitPostalAccepted | Phone.CreatePostal |
| models/address_book.py:168-174 | the update check applies the Indian rule whatever the country | the UK postcode SW1A1AA is refused on update | apply the six-digit rule to India only, as creation does | not executed | Phone.UkPostcodeRejectedAsWritten | Phone.UpdateAgreesWithCreate |
| routes/admin.py:481 | the status override calls `datetime.utcnow()` but routes/admin.py never imports `datetime` at module level | any valid status override fails with 500 and writes nothing | stamp the update time and apply the new status | not executed | Admin.OverrideNeverApplies | Admin.AnyStatusMayFollowAny |

=== FILE: address_book.dfy ===
/**
 The saved-address book: a user's pickup and delivery addresses with at most
 one default of each kind, soft deletion, usage statistics, a summary and
 bulk import. The store is the sequence of saved addresses; an update by id
 writes the first matching record. A create request's phone and postal code
 arrive validated once by the request model; creation builds the stored
 model, which validates them again (see CreateAddress and Phone).
 */
module AddressBook {
  import opened Wrappers
  import Seqs
  import Text
  import Phone

  datatype AddressType = PickupType | DeliveryType | BothType

  datatype AddressCategory = Home | Office | Warehouse | Shop | Other

  /** The two kinds of default an address can carry. */
  datatype DefaultKind = PickupDefault | DeliveryDefault

  datatype SavedAddress = SavedAddress(
    id: string,
    userId: string,
    addrLabel: string,
    addressType: AddressType,
    category: AddressCategory,
    name: string,
    company: Option<string>,
    phone: string,
    email: string,
    street: string,
    city: string,
    state: string,
    postalCode: string,
    country: string,
    landmark: Option<string>,
    isDefaultPickup: bool,
    isDefaultDelivery: bool,
    isActive: bool,
    usageCount: nat,
    lastUsedAt: Option<int>,
    createdAt: int,
    updatedAt: int)

  datatype AddressCreate = AddressCreate(
    addrLabel: string,
    addressType: AddressType,
    category: AddressCategory,
    name: string,
    company: Option<string>,
    phone: string,
    email: string,
    street: string,
    city: string,
    state: string,
    postalCode: string,
    country: string,
    landmark: Option<string>,
    isDefaultPickup: bool,
    isDefaultDelivery: bool)

  /** A create request with only the required fields given: every other field takes its default. */
  function CreateWithDefaults(addrLabel: string, name: string, phone: string, email: string, street: string,
                              city: string, state: string, postalCode: string): (c: AddressCreate)
    ensures c.addressType == BothType && c.category == Other && c.country == "India"
    ensures !c.isDefaultPickup && !c.isDefaultDelivery
    ensures c.company.None? && c.landmark.None?
    ensures c.addrLabel == addrLabel && c.phone == phone && c.postalCode == postalCode
  {
    AddressCreate(addrLabel, BothType, Other, name, None, phone, email, street, city, state, postalCode, "India", None, false, false)
  }

  /** The stored record for a create request: active, unused, stamped now. */
  function NewAddress(id: string, userId: string, c: AddressCreate, now: int): (a: SavedAddress)
    ensures a.id == id && a.userId == userId && a.isActive && a.usageCount == 0 && a.lastUsedAt.None?
    ensures a.isDefaultPickup == c.isDefaultPickup && a.isDefaultDelivery == c.isDefaultDelivery
    ensures a.createdAt == now && a.updatedAt == now
  {
    SavedAddress(id, userId, c.addrLabel, c.addressType, c.category, c.name, c.company, c.phone, c.email,
                 c.street, c.city, c.state, c.postalCode, c.country, c.landmark,
                 c.isDefaultPickup, c.isDefaultDelivery, true, 0, None, now, now)
  }

  /** The address fields a shipment takes from a saved address. */
  datatype AddressDict = AddressDict(
    name: string, company: Option<string>, phone: string, email: string, street: string,
    city: string, state: string, postalCode: string, country: string, landmark: Option<string>)

  /** `to_address_dict`: the ten address fields of a saved address. */
  function ToAddressDict(a: SavedAddress): AddressDict
  {
    AddressDict(a.name, a.company, a.phone, a.email, a.street, a.city, a.state, a.postalCode, a.country, a.landmark)
  }

  /** A saved address hands a shipment exactly the address fields it was created with. */
  lemma ToAddressDictKeepsFields(id: string, userId: string, c: AddressCreate, now: int)
    ensures var d := ToAddressDict(NewAddress(id, userId, c, now));
      && d.name == c.name && d.company == c.company && d.phone == c.phone && d.email == c.email
      && d.street == c.street && d.city == c.city && d.state == c.state && d.postalCode == c.postalCode
      && d.country == c.country && d.landmark == c.landmark
  {
  }

  predicate IsDefault(a: SavedAddress, kind: DefaultKind)
  {
    if kind == PickupDefault then a.isDefaultPickup else a.isDefaultDelivery
  }

  function SetDefaultFlag(a: SavedAddress, kind: DefaultKind, value: bool): (b: SavedAddress)
    ensures IsDefault(b, kind) == value
    ensures IsDefault(b, if kind == PickupDefault then DeliveryDefault else PickupDefault) ==
            IsDefault(a, if kind == PickupDefault then DeliveryDefault else PickupDefault)
    ensures b.(isDefaultPickup := a.isDefaultPickup, isDefaultDelivery := a.isDefaultDelivery) == a
  {
    if kind == PickupDefault then a.(isDefaultPickup := value) else a.(isDefaultDelivery := value)
  }

  /** At most one of the user's addresses is a default of this kind. */
  predicate OneDefault(store: seq<SavedAddress>, userId: string, kind: DefaultKind)
  {
    forall i, j :: 0 <= i < j < |store| && store[i].userId == userId && store[j].userId == userId ==>
      !(IsDefault(store[i], kind) && IsDefault(store[j], kind))
  }

  /** `_unset_default_addresses`: clears the flag on every one of the user's addresses, active or not. */
  function UnsetDefaults(store: seq<SavedAddress>, userId: string, kind: DefaultKind): (r: seq<SavedAddress>)
    ensures |r| == |store|
    ensures forall i :: 0 <= i < |r| ==>
      r[i] == (if store[i].userId == userId then SetDefaultFlag(store[i], kind, false) else store[i])
  {
    if store == [] then []
    else [if store[0].userId == userId then SetDefaultFlag(store[0], kind, false) else store[0]]
         + UnsetDefaults(store[1..], userId, kind)
  }

  /** After clearing, none of the user's addresses is a default of the kind, and every other user's is as before. */
  lemma UnsetClears(store: seq<SavedAddress>, userId: string, kind: DefaultKind)
    ensures forall i :: 0 <= i < |store| && store[i].userId == userId ==> !IsDefault(UnsetDefaults(store, userId, kind)[i], kind)
    ensures OneDefault(UnsetDefaults(store, userId, kind), userId, kind)
  {
  }

  /** Clearing one kind keeps at most one default of either kind for every user who had at most one. */
  lemma UnsetKeepsOneDefault(store: seq<SavedAddress>, userId: string, kind: DefaultKind, other: string, k2: DefaultKind)
    requires OneDefault(store, other, k2)
    ensures OneDefault(UnsetDefaults(store, userId, kind), other, k2)
  {
    var r := UnsetDefaults(store, userId, kind);
    forall i, j | 0 <= i < j < |r| && r[i].userId == other && r[j].userId == other
      ensures !(IsDefault(r[i], k2) && IsDefault(r[j], k2))
    {
      UnsetOnlyClears(store[i], userId, kind, k2);
      UnsetOnlyClears(store[j], userId, kind, k2);
    }
  }

  /** Clearing a flag never makes an address a default. */
  lemma UnsetOnlyClears(a: SavedAddress, userId: string, kind: DefaultKind, k2: DefaultKind)
    ensures IsDefault(if a.userId == userId then SetDefaultFlag(a, kind, false) else a, k2) ==> IsDefault(a, k2)
    ensures (if a.userId == userId then SetDefaultFlag(a, kind, false) else a).userId == a.userId
  {
  }

  /**
   Whether the stored model refuses a create request's fields when it
   validates them again: the phone through `validate_phone`, and the postal
   code through the check that, as declared, sees no country.
   */
  predicate Rejected(c: AddressCreate)
  {
    Phone.ValidatePhone(c.phone).Failure? || Phone.PostalAsWritten(c.postalCode, c.country).Failure?
  }

  /**
   `create_address`: the request is rebuilt as a stored `SavedAddress`,
   whose validators run again; if they refuse, the service fails and writes
   nothing. Otherwise it clears the user's pickup and/or delivery default
   when the new address claims it, then appends the new address carrying
   the phone as validated the second time.
   */
  function CreateAddress(store: seq<SavedAddress>, userId: string, id: string, c: AddressCreate, now: int)
    : (r: (Result<SavedAddress, string>, seq<SavedAddress>))
    ensures r.0.Failure? <==> Phone.ValidatePhone(c.phone).Failure? || Phone.PostalAsWritten(c.postalCode, c.country).Failure?
    ensures r.0.Failure? ==> r.1 == store
    ensures r.0.Failure? && Phone.ValidatePhone(c.phone).Failure? ==> r.0.error == Phone.InvalidPhone
    ensures r.0.Success? ==>
      r.0.value == NewAddress(id, userId, c.(phone := Phone.ValidatePhone(c.phone).value), now)
    ensures r.0.Success? ==> |r.1| == |store| + 1 && r.1[|store|] == r.0.value
    ensures r.0.Success? ==> forall i :: 0 <= i < |store| ==> r.1[i].userId != userId ==> r.1[i] == store[i]
    ensures r.0.Success? ==> forall i :: 0 <= i < |store| ==>
      r.1[i].(isDefaultPickup := store[i].isDefaultPickup, isDefaultDelivery := store[i].isDefaultDelivery) == store[i]
  {
    var phone := Phone.ValidatePhone(c.phone);
    var postal := Phone.PostalAsWritten(c.postalCode, c.country);
    if phone.Failure? || postal.Failure? then
      (Failure(if phone.Failure? then Phone.InvalidPhone else Phone.InvalidPostal), store)
    else
      var a := NewAddress(id, userId, c.(phone := phone.value, postalCode := postal.value), now);
      var s1 := if c.isDefaultPickup then UnsetDefaults(store, userId, PickupDefault) else store;
      var s2 := if c.isDefaultDelivery then UnsetDefaults(s1, userId, DeliveryDefault) else s1;
      (Success(a), s2 + [a])
  }

  /**
   A request whose phone passed the request model's validation is created
   exactly when its digits are not the thirteen-digit "91" form: that
   form's first-pass result starts "+1" and the stored model refuses it.
   A created address keeps the request's phone.
   */
  lemma CreateRevalidatesPhone(v: string, store: seq<SavedAddress>, userId: string, id: string, c: AddressCreate, now: int)
    requires Phone.ValidatePhone(v).Success? && c.phone == Phone.ValidatePhone(v).value
    ensures CreateAddress(store, userId, id, c, now).0.Success? <==> |Text.DigitsOf(v)| != 13
    ensures CreateAddress(store, userId, id, c, now).0.Success? ==> CreateAddress(store, userId, id, c, now).0.value.phone == c.phone
  {
    var d := Text.DigitsOf(v);
    if |d| == 13 {
      Phone.ThirteenDigitBranchAsWritten(d);
    } else {
      Phone.ValidatePhoneIdempotent(v);
    }
  }

  /**
   Every thirteen-digit number starting "91" (such as 9100123456789) passes
   the request's validation and is then refused on creation, leaving the
   store as it was.
   */
  lemma ThirteenDigitCreateFails(d: string, store: seq<SavedAddress>, userId: string, id: string, c: AddressCreate, now: int)
    requires |d| == 13 && Text.AllDigits(d) && Text.StartsWith(d, "91")
    requires c.phone == "+" + d[1..]
    ensures Phone.ValidatePhone(d) == Success(c.phone)
    ensures CreateAddress(store, userId, id, c, now) == (Failure(Phone.InvalidPhone), store)
  {
    Phone.ThirteenDigitsValidate(d);
  }

  /** Creating an address keeps at most one default of each kind per user, and a new default is the only one. */
  lemma CreateKeepsOneDefault(store: seq<SavedAddress>, userId: string, id: string, c: AddressCreate, now: int, kind: DefaultKind)
    requires OneDefault(store, userId, kind)
    ensures OneDefault(CreateAddress(store, userId, id, c, now).1, userId, kind)
    ensures var r := CreateAddress(store, userId, id, c, now);
      r.0.Success? && IsDefault(r.0.value, kind) ==>
      forall i :: 0 <= i < |store| && store[i].userId == userId ==> !IsDefault(r.1[i], kind)
  {
    var r := CreateAddress(store, userId, id, c, now);
    if r.0.Success? {
      var s1 := if c.isDefaultPickup then UnsetDefaults(store, userId, PickupDefault) else store;
      UnsetKeepsOneDefault(store, userId, PickupDefault, userId, kind);
      UnsetKeepsOneDefault(s1, userId, DeliveryDefault, userId, kind);
      UnsetClears(store, userId, PickupDefault);
      UnsetClears(s1, userId, DeliveryDefault);
      forall i, j | 0 <= i < j < |r.1| && r.1[i].userId == userId && r.1[j].userId == userId
        ensures !(IsDefault(r.1[i], kind) && IsDefault(r.1[j], kind))
      {
        if j == |store| && IsDefault(r.1[j], kind) {
          assert !IsDefault(r.1[i], kind);
        }
      }
    }
  }

  /** Whether an address is listed for a requested type: its own type or "both". */
  predicate TypeMatches(a: SavedAddress, t: Option<AddressType>)
  {
    t.None? || a.addressType == t.value || a.addressType == BothType
  }

  /** The filter `get_user_addresses` applies (ordering and paging are left to the database). */
  predicate Listed(a: SavedAddress, userId: string, t: Option<AddressType>, category: Option<AddressCategory>, active: Option<bool>)
  {
    a.userId == userId
    && (active.None? || a.isActive == active.value)
    && TypeMatches(a, t)
    && (category.None? || a.category == category.value)
  }

  function GetUserAddresses(store: seq<SavedAddress>, userId: string, t: Option<AddressType>,
                            category: Option<AddressCategory>, active: Option<bool>): (r: seq<SavedAddress>)
    ensures forall a :: a in r <==> a in store && Listed(a, userId, t, category, active)
  {
    var p := (a: SavedAddress) => Listed(a, userId, t, category, active);
    forall a ensures a in Seqs.Filter(store, p) <==> a in store && p(a) {
      Seqs.FilterMembers(store, p, a);
    }
    Seqs.Filter(store, p)
  }

  /** With the default active filter, a pickup listing holds the user's active pickup and both-way addresses. */
  lemma PickupListing(store: seq<SavedAddress>, userId: string, a: SavedAddress)
    requires a in store && a.userId == userId && a.isActive
    ensures a in GetUserAddresses(store, userId, Some(PickupType), None, Some(true)) <==> a.addressType != DeliveryType
  {
  }

  /** The first record with this id and owner, and when asked, only an active one. */
  function FindOwned(store: seq<SavedAddress>, userId: string, id: string, activeOnly: bool): (r: Option<nat>)
    ensures r.Some? ==> r.value < |store| && store[r.value].id == id && store[r.value].userId == userId
    ensures r.Some? && activeOnly ==> store[r.value].isActive
    ensures r.None? <==> forall k :: 0 <= k < |store| ==>
      !(store[k].id == id && store[k].userId == userId && (!activeOnly || store[k].isActive))
    ensures r.Some? ==> forall k :: 0 <= k < r.value ==>
      !(store[k].id == id && store[k].userId == userId && (!activeOnly || store[k].isActive))
  {
    if store == [] then None
    else if store[0].id == id && store[0].userId == userId && (!activeOnly || store[0].isActive) then Some(0)
    else
      match FindOwned(store[1..], userId, id, activeOnly)
      case None => None
      case Some(k) => Some(k + 1)
  }

  /** `get_address_by_id`: the user's active address with this id. */
  function GetAddressById(store: seq<SavedAddress>, userId: string, id: string): (r: Option<SavedAddress>)
    ensures r.Some? ==> r.value in store && r.value.id == id && r.value.userId == userId && r.value.isActive
    ensures r.None? <==> forall k :: 0 <= k < |store| ==> !(store[k].id == id && store[k].userId == userId && store[k].isActive)
  {
    match FindOwned(store, userId, id, true)
    case None => None
    case Some(i) => Some(store[i])
  }

  /** The fields an update may carry; None leaves a field as it is. */
  datatype AddressUpdate = AddressUpdate(
    addrLabel: Option<string>,
    addressType: Option<AddressType>,
    category: Option<AddressCategory>,
    name: Option<string>,
    company: Option<string>,
    phone: Option<string>,
    email: Option<string>,
    street: Option<string>,
    city: Option<string>,
    state: Option<string>,
    postalCode: Option<string>,
    country: Option<string>,
    landmark: Option<string>,
    isDefaultPickup: Option<bool>,
    isDefaultDelivery: Option<bool>,
    isActive: Option<bool>)

  /**
   Applies the fields the update gives. A company or landmark that is given
   replaces the stored one; one left out keeps it. The usage statistics and
   the creation time are not part of an update.
   */
  function ApplyUpdate(a: SavedAddress, u: AddressUpdate, now: int): (b: SavedAddress)
    ensures b.addrLabel == u.addrLabel.GetOr(a.addrLabel) && b.addressType == u.addressType.GetOr(a.addressType)
    ensures b.category == u.category.GetOr(a.category) && b.name == u.name.GetOr(a.name)
    ensures u.company.Some? ==> b.company == u.company
    ensures u.company.None? ==> b.company == a.company
    ensures b.phone == u.phone.GetOr(a.phone) && b.email == u.email.GetOr(a.email)
    ensures b.street == u.street.GetOr(a.street)
    ensures b.city == u.city.GetOr(a.city) && b.state == u.state.GetOr(a.state)
    ensures b.postalCode == u.postalCode.GetOr(a.postalCode) && b.country == u.country.GetOr(a.country)
    ensures u.landmark.Some? ==> b.landmark == u.landmark
    ensures u.landmark.None? ==> b.landmark == a.landmark
    ensures b.isDefaultPickup == u.isDefaultPickup.GetOr(a.isDefaultPickup)
    ensures b.isDefaultDelivery == u.isDefaultDelivery.GetOr(a.isDefaultDelivery)
    ensures b.isActive == u.isActive.GetOr(a.isActive)
    ensures b.id == a.id && b.userId == a.userId && b.createdAt == a.createdAt
    ensures b.usageCount == a.usageCount && b.lastUsedAt == a.lastUsedAt
    ensures b.updatedAt == now
  {
    a.(addrLabel := u.addrLabel.GetOr(a.addrLabel),
       addressType := u.addressType.GetOr(a.addressType),
       category := u.category.GetOr(a.category),
       name := u.name.GetOr(a.name),
       company := if u.company.Some? then u.company else a.company,
       phone := u.phone.GetOr(a.phone),
       email := u.email.GetOr(a.email),
       street := u.street.GetOr(a.street),
       city := u.city.GetOr(a.city),
       state := u.state.GetOr(a.state),
       postalCode := u.postalCode.GetOr(a.postalCode),
       country := u.country.GetOr(a.country),
       landmark := if u.landmark.Some? then u.landmark else a.landmark,
       isDefaultPickup := u.isDefaultPickup.GetOr(a.isDefaultPickup),
       isDefaultDelivery := u.isDefaultDelivery.GetOr(a.isDefaultDelivery),
       isActive := u.isActive.GetOr(a.isActive),
       updatedAt := now)
  }

  /** The update that gives no field. */
  const NoChanges := AddressUpdate(None, None, None, None, None, None, None, None, None, None, None, None, None, None, None, None)

  /** An update that gives no field only moves the update time. */
  lemma EmptyUpdateKeepsFields(a: SavedAddress, now: int)
    ensures ApplyUpdate(a, NoChanges, now) == a.(updatedAt := now)
  {
  }

  /**
   Updating twice with the same fields is the same as updating once: the
   record then carries the later time only.
   */
  lemma ApplyUpdateIdempotent(a: SavedAddress, u: AddressUpdate, t1: int, t2: int)
    ensures ApplyUpdate(ApplyUpdate(a, u, t1), u, t2) == ApplyUpdate(a, u, t2)
  {
  }

  /** The update asks for a default of either kind. */
  predicate SetsDefault(u: AddressUpdate)
  {
    u.isDefaultPickup == Some(true) || u.isDefaultDelivery == Some(true)
  }

  /**
   `update_address`: nothing for a missing, inactive or foreign address;
   otherwise a requested default first clears the user's defaults of that
   kind, and the given fields are written to the address. When that write
   changes nothing (Mongo's `modified_count` is 0) the service reports
   nothing too; a cleared default is then never at stake, since clearing
   only happens when the write sets a flag the clearing has just reset.
   */
  function UpdateAddress(store: seq<SavedAddress>, userId: string, id: string, u: AddressUpdate, now: int): (r: Option<(SavedAddress, seq<SavedAddress>)>)
    ensures r.None? <==>
      || FindOwned(store, userId, id, true).None?
      || (!SetsDefault(u) && var i := FindOwned(store, userId, id, false).value; ApplyUpdate(store[i], u, now) == store[i])
    ensures r.Some? ==> |r.value.1| == |store|
    ensures r.Some? ==>
      var i := FindOwned(store, userId, id, false).value;
      && r.value.0 == r.value.1[i]
      && r.value.0 == ApplyUpdate(if SetsDefault(u) then Cleared(store, userId, u)[i] else store[i], u, now)
      && r.value.0 != (if SetsDefault(u) then Cleared(store, userId, u)[i] else store[i])
      && forall k :: 0 <= k < |store| && store[k].userId != userId ==> r.value.1[k] == store[k]
  {
    match FindOwned(store, userId, id, true)
    case None => None
    case Some(_) =>
      var s := Cleared(store, userId, u);
      FindOwnedSameKeys(store, s, userId, id, false);
      var i := FindOwned(s, userId, id, false).value;
      var b := ApplyUpdate(s[i], u, now);
      if b == s[i] then None else Some((b, s[i := b]))
  }

  /** Finding by id and owner depends only on the ids, owners and, when asked, the active flags. */
  lemma {:induction false} FindOwnedSameKeys(store: seq<SavedAddress>, s: seq<SavedAddress>, userId: string, id: string, activeOnly: bool)
    requires |s| == |store|
    requires forall k :: 0 <= k < |store| ==>
      s[k].id == store[k].id && s[k].userId == store[k].userId && (activeOnly ==> s[k].isActive == store[k].isActive)
    ensures FindOwned(s, userId, id, activeOnly) == FindOwned(store, userId, id, activeOnly)
    decreases |store|
  {
    if store != [] {
      assert forall k :: 0 <= k < |store| - 1 ==> s[1..][k] == s[k + 1] && store[1..][k] == store[k + 1];
      FindOwnedSameKeys(store[1..], s[1..], userId, id, activeOnly);
    }
  }

  /** The store after the defaults an update asks for have been cleared. */
  function Cleared(store: seq<SavedAddress>, userId: string, u: AddressUpdate): (s: seq<SavedAddress>)
    ensures |s| == |store|
    ensures forall k :: 0 <= k < |store| ==> s[k].id == store[k].id && s[k].userId == store[k].userId && s[k].isActive == store[k].isActive
    ensures forall k :: 0 <= k < |store| && store[k].userId != userId ==> s[k] == store[k]
    ensures !SetsDefault(u) ==> s == store
    ensures u.isDefaultPickup == Some(true) ==> forall k :: 0 <= k < |store| && store[k].userId == userId ==> !s[k].isDefaultPickup
    ensures u.isDefaultDelivery == Some(true) ==> forall k :: 0 <= k < |store| && store[k].userId == userId ==> !s[k].isDefaultDelivery
  {
    var s1 := if u.isDefaultPickup == Some(true) then UnsetDefaults(store, userId, PickupDefault) else store;
    if u.isDefaultDelivery == Some(true) then UnsetDefaults(s1, userId, DeliveryDefault) else s1
  }

  /** The flag a field of an update sets for a kind of default. */
  function UpdateFlag(u: AddressUpdate, kind: DefaultKind): Option<bool>
  {
    if kind == PickupDefault then u.isDefaultPickup else u.isDefaultDelivery
  }

  /** Clearing for an update keeps at most one default, and none at all of a kind the update sets. */
  lemma ClearedOneDefault(store: seq<SavedAddress>, userId: string, u: AddressUpdate, kind: DefaultKind)
    requires OneDefault(store, userId, kind)
    ensures OneDefault(Cleared(store, userId, u), userId, kind)
    ensures UpdateFlag(u, kind) == Some(true) ==>
      forall k :: 0 <= k < |store| && store[k].userId == userId ==> !IsDefault(Cleared(store, userId, u)[k], kind)
  {
    var s1 := if u.isDefaultPickup == Some(true) then UnsetDefaults(store, userId, PickupDefault) else store;
    UnsetKeepsOneDefault(store, userId, PickupDefault, userId, kind);
    UnsetKeepsOneDefault(s1, userId, DeliveryDefault, userId, kind);
    UnsetClears(store, userId, PickupDefault);
    UnsetClears(s1, userId, DeliveryDefault);
  }

  /** Writing one address that gains no default keeps at most one default. */
  lemma WriteKeepsOneDefault(s: seq<SavedAddress>, i: nat, b: SavedAddress, userId: string, kind: DefaultKind)
    requires i < |s| && OneDefault(s, userId, kind)
    requires b.userId == s[i].userId
    requires IsDefault(b, kind) ==> IsDefault(s[i], kind)
    ensures OneDefault(s[i := b], userId, kind)
  {
    var r := s[i := b];
    forall a, c | 0 <= a < c < |r| && r[a].userId == userId && r[c].userId == userId
      ensures !(IsDefault(r[a], kind) && IsDefault(r[c], kind))
    {
      assert !(IsDefault(s[a], kind) && IsDefault(s[c], kind));
    }
  }

  /** Writing one address into a store where the user has no default of the kind leaves it the only possible one. */
  lemma WriteOnlyDefault(s: seq<SavedAddress>, i: nat, b: SavedAddress, userId: string, kind: DefaultKind)
    requires i < |s| && b.userId == s[i].userId
    requires forall k :: 0 <= k < |s| && s[k].userId == userId ==> !IsDefault(s[k], kind)
    ensures OneDefault(s[i := b], userId, kind)
    ensures var r := s[i := b]; forall k :: 0 <= k < |r| && r[k].userId == userId && IsDefault(r[k], kind) ==> k == i
  {
  }

  /** A successful update writes the updated address over its slot in the cleared store. */
  lemma UpdateShape(store: seq<SavedAddress>, userId: string, id: string, u: AddressUpdate, now: int)
    requires UpdateAddress(store, userId, id, u, now).Some?
    ensures var s := Cleared(store, userId, u);
      && FindOwned(s, userId, id, false).Some?
      && var i := FindOwned(s, userId, id, false).value;
      && i < |s|
      && UpdateAddress(store, userId, id, u, now).value == (ApplyUpdate(s[i], u, now), s[i := ApplyUpdate(s[i], u, now)])
  {
  }

  /** An update keeps at most one default of each kind per user; when it sets a default, the updated address is the only one. */
  lemma UpdateKeepsOneDefault(store: seq<SavedAddress>, userId: string, id: string, u: AddressUpdate, now: int, kind: DefaultKind)
    requires OneDefault(store, userId, kind)
    requires UpdateAddress(store, userId, id, u, now).Some?
    ensures OneDefault(UpdateAddress(store, userId, id, u, now).value.1, userId, kind)
    ensures UpdateFlag(u, kind) == Some(true) ==>
      var r := UpdateAddress(store, userId, id, u, now).value;
      forall k :: 0 <= k < |r.1| && r.1[k].userId == userId && IsDefault(r.1[k], kind) ==> r.1[k] == r.0
  {
    var s := Cleared(store, userId, u);
    ClearedOneDefault(store, userId, u, kind);
    UpdateShape(store, userId, id, u, now);
    var i := FindOwned(s, userId, id, false).value;
    var b := ApplyUpdate(s[i], u, now);
    var r := UpdateAddress(store, userId, id, u, now).value;
    assert r == (b, s[i := b]);
    if UpdateFlag(u, kind) == Some(true) {
      WriteOnlyDefault(s, i, b, userId, kind);
      assert r.1[i] == r.0;
    } else {
      WriteKeepsOneDefault(s, i, b, userId, kind);
    }
  }

  /**
   Repeating an update that sets no default at the same instant writes
   nothing new, so the service reports nothing the second time.
   */
  lemma RepeatedUpdateUnreported(store: seq<SavedAddress>, userId: string, id: string, u: AddressUpdate, now: int,
                                 once: Option<(SavedAddress, seq<SavedAddress>)>)
    requires !SetsDefault(u)
    requires once == UpdateAddress(store, userId, id, u, now) && once.Some?
    ensures UpdateAddress(once.value.1, userId, id, u, now).None?
  {
    var i := FindOwned(store, userId, id, false).value;
    var s' := once.value.1;
    FindOwnedSameKeys(store, s', userId, id, false);
    ApplyUpdateIdempotent(store[i], u, now, now);
  }

  /** Soft deletion writes nothing new to an address already inactive and stamped at this time. */
  predicate DeletedAt(a: SavedAddress, now: int)
  {
    !a.isActive && a.updatedAt == now
  }

  /**
   `delete_address`: soft; reports whether the write changed the user's
   address with that id (`modified_count`), so a missing address and one
   already deleted at this very time both report false.
   */
  function DeleteAddress(store: seq<SavedAddress>, userId: string, id: string, now: int): (r: (bool, seq<SavedAddress>))
    ensures r.0 <==> FindOwned(store, userId, id, false).Some? && !DeletedAt(store[FindOwned(store, userId, id, false).value], now)
    ensures |r.1| == |store|
    ensures r.0 ==> var i := FindOwned(store, userId, id, false).value;
      r.1 == store[i := store[i].(isActive := false, updatedAt := now)]
    ensures !r.0 ==> r.1 == store
  {
    match FindOwned(store, userId, id, false)
    case None => (false, store)
    case Some(i) =>
      if DeletedAt(store[i], now) then (false, store)
      else (true, store[i := store[i].(isActive := false, updatedAt := now)])
  }

  /** A deleted address is no longer found, yet it stays in the store. */
  lemma DeletedNotFound(store: seq<SavedAddress>, userId: string, id: string, now: int)
    requires forall a, b :: 0 <= a < b < |store| ==> store[a].id != store[b].id
    ensures |DeleteAddress(store, userId, id, now).1| == |store|
    ensures GetAddressById(DeleteAddress(store, userId, id, now).1, userId, id).None?
  {
    var r := DeleteAddress(store, userId, id, now);
    if r.0 {
      var i := FindOwned(store, userId, id, false).value;
      forall k | 0 <= k < |store| ensures !(r.1[k].id == id && r.1[k].userId == userId && r.1[k].isActive) {
        if k != i {
          assert store[k].id != store[i].id by {
            if k < i { assert store[k].id != store[i].id; } else { assert store[i].id != store[k].id; }
          }
        }
      }
    }
  }

  /** Deleting again at the same instant changes nothing and reports false. */
  lemma RepeatedDeleteUnreported(store: seq<SavedAddress>, userId: string, id: string, now: int)
    ensures var once := DeleteAddress(store, userId, id, now);
      DeleteAddress(once.1, userId, id, now) == (false, once.1)
  {
    var once := DeleteAddress(store, userId, id, now);
    FindOwnedSameKeys(store, once.1, userId, id, false);
  }

  /**
   `bulk_delete_addresses`: soft-deletes every one of the user's addresses
   named, and counts those the write changed (`modified_count`).
   */
  function BulkDelete(store: seq<SavedAddress>, userId: string, ids: seq<string>, now: int): (r: (nat, seq<SavedAddress>))
    ensures |r.1| == |store|
    ensures r.0 == Seqs.Count(store, (a: SavedAddress) => a.userId == userId && a.id in ids && !DeletedAt(a, now))
    ensures forall k :: 0 <= k < |store| ==>
      r.1[k] == (if store[k].userId == userId && store[k].id in ids then store[k].(isActive := false, updatedAt := now) else store[k])
  {
    if store == [] then (0, [])
    else
      var rest := BulkDelete(store[1..], userId, ids, now);
      var named := store[0].userId == userId && store[0].id in ids;
      var head := if named then store[0].(isActive := false, updatedAt := now) else store[0];
      var n: nat := (if named && !DeletedAt(store[0], now) then 1 else 0) + rest.0;
      assert forall k :: 1 <= k < |store| ==> ([head] + rest.1)[k] == rest.1[k - 1] && store[k] == store[1..][k - 1];
      (n, [head] + rest.1)
  }

  /** After a bulk delete none of the listed ids is found among the user's addresses. */
  lemma BulkDeletedNotFound(store: seq<SavedAddress>, userId: string, ids: seq<string>, now: int, id: string)
    requires id in ids
    ensures GetAddressById(BulkDelete(store, userId, ids, now).1, userId, id).None?
  {
  }

  /**
   `set_default_address`: clears the user's defaults of the kind, found or
   not, then sets the flag on the user's active address with the id.
   */
  function SetDefaultAddress(store: seq<SavedAddress>, userId: string, id: string, kind: DefaultKind, now: int): (r: (bool, seq<SavedAddress>))
    ensures |r.1| == |store|
    ensures r.0 <==> FindOwned(store, userId, id, true).Some?
    ensures forall k :: 0 <= k < |store| && store[k].userId != userId ==> r.1[k] == store[k]
  {
    var s := UnsetDefaults(store, userId, kind);
    match FindOwned(s, userId, id, true)
    case None => (false, s)
    case Some(i) => (true, s[i := SetDefaultFlag(s[i], kind, true).(updatedAt := now)])
  }

  /** After setting a default, the target is the user's only default of that kind. */
  lemma SetDefaultIsOnlyDefault(store: seq<SavedAddress>, userId: string, id: string, kind: DefaultKind, now: int)
    ensures OneDefault(SetDefaultAddress(store, userId, id, kind, now).1, userId, kind)
    ensures var r := SetDefaultAddress(store, userId, id, kind, now);
      r.0 ==> exists i :: 0 <= i < |r.1| && r.1[i].id == id && r.1[i].userId == userId && IsDefault(r.1[i], kind)
    ensures var r := SetDefaultAddress(store, userId, id, kind, now);
      !r.0 ==> forall i :: 0 <= i < |r.1| && r.1[i].userId == userId ==> !IsDefault(r.1[i], kind)
  {
    var s := UnsetDefaults(store, userId, kind);
    UnsetClears(store, userId, kind);
    var r := SetDefaultAddress(store, userId, id, kind, now);
    if r.0 {
      var i := FindOwned(s, userId, id, true).value;
      assert r.1[i].id == id && IsDefault(r.1[i], kind);
    }
  }

  /** `increment_usage`: one more use and a fresh last-used time, for the user's active address only. */
  function IncrementUsage(store: seq<SavedAddress>, userId: string, id: string, now: int): (r: (bool, seq<SavedAddress>))
    ensures |r.1| == |store|
    ensures r.0 <==> FindOwned(store, userId, id, true).Some?
    ensures !r.0 ==> r.1 == store
    ensures r.0 ==> var i := FindOwned(store, userId, id, true).value;
      && r.1[i].usageCount == store[i].usageCount + 1 && r.1[i].lastUsedAt == Some(now)
      && r.1[i].(usageCount := store[i].usageCount, lastUsedAt := store[i].lastUsedAt) == store[i]
      && forall k :: 0 <= k < |store| && k != i ==> r.1[k] == store[k]
  {
    match FindOwned(store, userId, id, true)
    case None => (false, store)
    case Some(i) => (true, store[i := store[i].(usageCount := store[i].usageCount + 1, lastUsedAt := Some(now))])
  }

  /**
   A counted use raises the address's count by one, keeps it the user's
   active address with that id, and puts it in both summary pools at `now`.
   */
  lemma UsageEntersSummaryPools(store: seq<SavedAddress>, userId: string, id: string, now: int)
    requires IncrementUsage(store, userId, id, now).0
    ensures var a := GetAddressById(store, userId, id).value;
      var b := GetAddressById(IncrementUsage(store, userId, id, now).1, userId, id);
      && b.Some? && b.value.usageCount == a.usageCount + 1 && b.value.lastUsedAt == Some(now)
      && b.value in RecentPool(IncrementUsage(store, userId, id, now).1, userId, now)
      && b.value in UsedPool(IncrementUsage(store, userId, id, now).1, userId)
  {
    var r := IncrementUsage(store, userId, id, now).1;
    FindOwnedSameKeys(store, r, userId, id, true);
    var i := FindOwned(store, userId, id, true).value;
    assert r[i] in r;
  }

  // Summary

  const RecentWindow: int := 30 * 24 * 3600

  datatype Summary = Summary(
    total: nat,
    pickup: nat,
    delivery: nat,
    both: nat,
    defaultPickup: Option<SavedAddress>,
    defaultDelivery: Option<SavedAddress>,
    recentlyUsed: seq<SavedAddress>,
    mostUsed: seq<SavedAddress>)

  function ActiveOf(store: seq<SavedAddress>, userId: string): (r: seq<SavedAddress>)
    ensures forall a :: a in r <==> a in store && a.userId == userId && a.isActive
  {
    var p := (a: SavedAddress) => a.userId == userId && a.isActive;
    forall a ensures a in Seqs.Filter(store, p) <==> a in store && p(a) {
      Seqs.FilterMembers(store, p, a);
    }
    Seqs.Filter(store, p)
  }

  /** The first address carrying the default of a kind. */
  function FirstDefault(xs: seq<SavedAddress>, kind: DefaultKind): (r: Option<SavedAddress>)
    ensures r.Some? ==> r.value in xs && IsDefault(r.value, kind)
    ensures r.None? <==> forall i :: 0 <= i < |xs| ==> !IsDefault(xs[i], kind)
  {
    if xs == [] then None
    else if IsDefault(xs[0], kind) then Some(xs[0])
    else FirstDefault(xs[1..], kind)
  }

  function LastUsedKey(a: SavedAddress): real { a.lastUsedAt.GetOr(0) as real }

  function UsageKey(a: SavedAddress): real { a.usageCount as real }

  /** Used within the last thirty days. */
  predicate Recent(a: SavedAddress, now: int)
  {
    a.lastUsedAt.Some? && a.lastUsedAt.value > now - RecentWindow
  }

  /** The user's active addresses used within the last thirty days, in store order. */
  function RecentPool(store: seq<SavedAddress>, userId: string, now: int): (r: seq<SavedAddress>)
    ensures forall a :: a in r <==> a in ActiveOf(store, userId) && Recent(a, now)
  {
    var p := (a: SavedAddress) => Recent(a, now);
    forall a ensures a in Seqs.Filter(ActiveOf(store, userId), p) <==> a in ActiveOf(store, userId) && p(a) {
      Seqs.FilterMembers(ActiveOf(store, userId), p, a);
    }
    Seqs.Filter(ActiveOf(store, userId), p)
  }

  /** The user's active addresses used at least once, in store order. */
  function UsedPool(store: seq<SavedAddress>, userId: string): (r: seq<SavedAddress>)
    ensures forall a :: a in r <==> a in ActiveOf(store, userId) && a.usageCount > 0
  {
    var p := (a: SavedAddress) => a.usageCount > 0;
    forall a ensures a in Seqs.Filter(ActiveOf(store, userId), p) <==> a in ActiveOf(store, userId) && p(a) {
      Seqs.FilterMembers(ActiveOf(store, userId), p, a);
    }
    Seqs.Filter(ActiveOf(store, userId), p)
  }

  /** The five most recently used of the pool, newest first. */
  function RecentlyUsed(store: seq<SavedAddress>, userId: string, now: int): (r: seq<SavedAddress>)
    ensures |r| == if |RecentPool(store, userId, now)| < 5 then |RecentPool(store, userId, now)| else 5
    ensures multiset(r) <= multiset(RecentPool(store, userId, now))
    ensures forall i :: 0 <= i < |r| ==> Recent(r[i], now) && r[i] in ActiveOf(store, userId)
    ensures forall i, j :: 0 <= i < j < |r| ==> LastUsedKey(r[j]) <= LastUsedKey(r[i])
  {
    var pool := RecentPool(store, userId, now);
    var r := Seqs.TopBy(pool, LastUsedKey, 5);
    Seqs.TopBySub(pool, LastUsedKey, 5, r);
    Seqs.TopBySorted(pool, LastUsedKey, 5, r);
    forall i | 0 <= i < |r| ensures Recent(r[i], now) && r[i] in ActiveOf(store, userId) {
      Seqs.InSub(r, pool, r[i]);
    }
    r
  }

  /** The five most used of the pool, most first. */
  function MostUsed(store: seq<SavedAddress>, userId: string): (r: seq<SavedAddress>)
    ensures |r| == if |UsedPool(store, userId)| < 5 then |UsedPool(store, userId)| else 5
    ensures multiset(r) <= multiset(UsedPool(store, userId))
    ensures forall i :: 0 <= i < |r| ==> r[i].usageCount > 0 && r[i] in ActiveOf(store, userId)
    ensures forall i, j :: 0 <= i < j < |r| ==> r[j].usageCount <= r[i].usageCount
  {
    var pool := UsedPool(store, userId);
    var r := Seqs.TopBy(pool, UsageKey, 5);
    Seqs.TopBySub(pool, UsageKey, 5, r);
    Seqs.TopBySorted(pool, UsageKey, 5, r);
    forall i | 0 <= i < |r| ensures r[i].usageCount > 0 && r[i] in ActiveOf(store, userId) {
      Seqs.InSub(r, pool, r[i]);
    }
    forall i, j | 0 <= i < j < |r| ensures r[j].usageCount <= r[i].usageCount {
      assert UsageKey(r[j]) <= UsageKey(r[i]);
    }
    r
  }

  /**
   `get_address_book_summary` over the user's active addresses: the counts by
   type, the first default of each kind, the five most recently used within
   thirty days (newest first) and the five most used (most first).
   */
  function GetSummary(store: seq<SavedAddress>, userId: string, now: int): (s: Summary)
    ensures s.total == |ActiveOf(store, userId)|
    ensures s.both == Seqs.Count(ActiveOf(store, userId), (a: SavedAddress) => a.addressType == BothType)
    ensures s.pickup == Seqs.Count(ActiveOf(store, userId), (a: SavedAddress) => a.addressType != DeliveryType)
    ensures s.delivery == Seqs.Count(ActiveOf(store, userId), (a: SavedAddress) => a.addressType != PickupType)
    ensures s.defaultPickup == FirstDefault(ActiveOf(store, userId), PickupDefault)
    ensures s.defaultDelivery == FirstDefault(ActiveOf(store, userId), DeliveryDefault)
    ensures |s.recentlyUsed| == if |RecentPool(store, userId, now)| < 5 then |RecentPool(store, userId, now)| else 5
    ensures |s.mostUsed| == if |UsedPool(store, userId)| < 5 then |UsedPool(store, userId)| else 5
    ensures multiset(s.recentlyUsed) <= multiset(RecentPool(store, userId, now))
    ensures multiset(s.mostUsed) <= multiset(UsedPool(store, userId))
    ensures forall i :: 0 <= i < |s.recentlyUsed| ==> Recent(s.recentlyUsed[i], now) && s.recentlyUsed[i] in ActiveOf(store, userId)
    ensures forall i, j :: 0 <= i < j < |s.recentlyUsed| ==> LastUsedKey(s.recentlyUsed[j]) <= LastUsedKey(s.recentlyUsed[i])
    ensures forall i :: 0 <= i < |s.mostUsed| ==> s.mostUsed[i].usageCount > 0 && s.mostUsed[i] in ActiveOf(store, userId)
    ensures forall i, j :: 0 <= i < j < |s.mostUsed| ==> s.mostUsed[j].usageCount <= s.mostUsed[i].usageCount
  {
    var xs := ActiveOf(store, userId);
    Summary(|xs|,
            Seqs.Count(xs, (a: SavedAddress) => a.addressType != DeliveryType),
            Seqs.Count(xs, (a: SavedAddress) => a.addressType != PickupType),
            Seqs.Count(xs, (a: SavedAddress) => a.addressType == BothType),
            FirstDefault(xs, PickupDefault),
            FirstDefault(xs, DeliveryDefault),
            RecentlyUsed(store, userId, now), MostUsed(store, userId))
  }

  /** Two-way addresses are counted under both pickup and delivery: pickup + delivery = total + both. */
  lemma SummaryCountsAddUp(store: seq<SavedAddress>, userId: string, now: int)
    ensures var s := GetSummary(store, userId, now);
      s.pickup + s.delivery == s.total + s.both
  {
    var xs := ActiveOf(store, userId);
    var pickOnly := (a: SavedAddress) => a.addressType == PickupType;
    var delOnly := (a: SavedAddress) => a.addressType == DeliveryType;
    var both := (a: SavedAddress) => a.addressType == BothType;
    var notDel := (a: SavedAddress) => a.addressType != DeliveryType;
    var notPick := (a: SavedAddress) => a.addressType != PickupType;
    var any := (a: SavedAddress) => true;
    var pickOrDel := (a: SavedAddress) => a.addressType != BothType;
    Seqs.CountDisjoint(xs, pickOnly, both, notDel);
    Seqs.CountDisjoint(xs, delOnly, both, notPick);
    Seqs.CountDisjoint(xs, pickOnly, delOnly, pickOrDel);
    Seqs.CountDisjoint(xs, pickOrDel, both, any);
    CountAll(xs, any);
  }

  lemma {:induction false} CountAll<T>(xs: seq<T>, p: T -> bool)
    requires forall x :: p(x)
    ensures Seqs.Count(xs, p) == |xs|
    decreases |xs|
  {
    if xs != [] {
      CountAll(xs[1..], p);
    }
  }

  /** The five most used are the top: any active, used address left out was used no more than the last one listed. */
  lemma MostUsedAreTop(store: seq<SavedAddress>, userId: string, now: int, a: SavedAddress)
    requires a in ActiveOf(store, userId) && a.usageCount > 0
    requires a !in GetSummary(store, userId, now).mostUsed
    ensures var s := GetSummary(store, userId, now); |s.mostUsed| > 0 && a.usageCount <= s.mostUsed[|s.mostUsed| - 1].usageCount
  {
    var usedPool := UsedPool(store, userId);
    var most := Seqs.TopBy(usedPool, UsageKey, 5);
    assert a in usedPool;
    Seqs.TopByLeavesSmaller(usedPool, UsageKey, 5, most, a);
  }

  /** The five most recent are the newest: any address used within the window and left out was used no later than the last one listed. */
  lemma RecentAreTop(store: seq<SavedAddress>, userId: string, now: int, a: SavedAddress)
    requires a in ActiveOf(store, userId) && Recent(a, now)
    requires a !in GetSummary(store, userId, now).recentlyUsed
    ensures var s := GetSummary(store, userId, now);
      |s.recentlyUsed| > 0 && a.lastUsedAt.value <= s.recentlyUsed[|s.recentlyUsed| - 1].lastUsedAt.value
  {
    var recentPool := RecentPool(store, userId, now);
    var recent := Seqs.TopBy(recentPool, LastUsedKey, 5);
    assert a in recentPool;
    Seqs.TopByLeavesSmaller(recentPool, LastUsedKey, 5, recent, a);
    Seqs.InSub(recent, recentPool, recent[|recent| - 1]);
  }

  // Default addresses

  predicate HasDefault(a: SavedAddress) { a.isDefaultPickup || a.isDefaultDelivery }

  function OtherKind(kind: DefaultKind): DefaultKind
  {
    if kind == PickupDefault then DeliveryDefault else PickupDefault
  }

  /** No two addresses of the sequence are defaults of the kind. */
  predicate AtMostOne(xs: seq<SavedAddress>, kind: DefaultKind)
  {
    forall a, b :: 0 <= a < b < |xs| ==> !(IsDefault(xs[a], kind) && IsDefault(xs[b], kind))
  }

  /** The loop of `get_default_addresses`: each address carrying the flag replaces the one found before. */
  function LastDefault(xs: seq<SavedAddress>, kind: DefaultKind, acc: Option<SavedAddress>): (r: Option<SavedAddress>)
    ensures r.None? <==> acc.None? && forall i :: 0 <= i < |xs| ==> !IsDefault(xs[i], kind)
    ensures (forall i :: 0 <= i < |xs| ==> !IsDefault(xs[i], kind)) ==> r == acc
  {
    if xs == [] then acc
    else LastDefault(xs[1..], kind, if IsDefault(xs[0], kind) then Some(xs[0]) else acc)
  }

  /**
   `get_default_addresses`: reads at most two of the user's active addresses
   that carry either default, in store order, and keeps the last of each kind.
   */
  function GetDefaultAddresses(store: seq<SavedAddress>, userId: string): (r: (Option<SavedAddress>, Option<SavedAddress>))
    ensures r.0.Some? ==> r.0.value in ActiveOf(store, userId) && r.0.value.isDefaultPickup
    ensures r.1.Some? ==> r.1.value in ActiveOf(store, userId) && r.1.value.isDefaultDelivery
  {
    var cands := Seqs.Filter(ActiveOf(store, userId), HasDefault);
    var read := ReadTwo(cands);
    LastDefaultIn(read, PickupDefault);
    LastDefaultIn(read, DeliveryDefault);
    (LastDefault(read, PickupDefault, None), LastDefault(read, DeliveryDefault, None))
  }

  lemma {:induction false} LastDefaultIn(xs: seq<SavedAddress>, kind: DefaultKind)
    ensures LastDefault(xs, kind, None).Some? ==>
      LastDefault(xs, kind, None).value in xs && IsDefault(LastDefault(xs, kind, None).value, kind)
  {
    var r := LastDefault(xs, kind, None);
    if r.Some? {
      LastDefaultFrom(xs, kind, None);
    }
  }

  lemma {:induction false} LastDefaultFrom(xs: seq<SavedAddress>, kind: DefaultKind, acc: Option<SavedAddress>)
    ensures var r := LastDefault(xs, kind, acc);
      r.Some? ==> r == acc || (r.value in xs && IsDefault(r.value, kind))
    decreases |xs|
  {
    if xs != [] {
      LastDefaultFrom(xs[1..], kind, if IsDefault(xs[0], kind) then Some(xs[0]) else acc);
    }
  }

  /** With at most one default of the kind, the loop ends on that one. */
  lemma {:induction false} LastDefaultUnique(xs: seq<SavedAddress>, kind: DefaultKind, acc: Option<SavedAddress>, i: nat)
    requires AtMostOne(xs, kind) && i < |xs| && IsDefault(xs[i], kind)
    ensures LastDefault(xs, kind, acc) == Some(xs[i])
    decreases |xs|
  {
    if i == 0 {
      assert forall k :: 0 < k < |xs| ==> !(IsDefault(xs[0], kind) && IsDefault(xs[k], kind));
      assert forall k :: 0 <= k < |xs[1..]| ==> !IsDefault(xs[1..][k], kind);
    } else {
      assert !IsDefault(xs[0], kind);
      LastDefaultUnique(xs[1..], kind, acc, i - 1);
    }
  }

  /** With at most one default of the kind, the first one is the one at any index holding it. */
  lemma {:induction false} FirstDefaultUnique(xs: seq<SavedAddress>, kind: DefaultKind, i: nat)
    requires AtMostOne(xs, kind) && i < |xs| && IsDefault(xs[i], kind)
    ensures FirstDefault(xs, kind) == Some(xs[i])
    decreases |xs|
  {
    if i > 0 {
      assert !IsDefault(xs[0], kind);
      FirstDefaultUnique(xs[1..], kind, i - 1);
    }
  }

  /** The user's active addresses keep the store's at-most-one-default property. */
  lemma ActiveAtMostOne(store: seq<SavedAddress>, userId: string, kind: DefaultKind)
    requires OneDefault(store, userId, kind)
    ensures AtMostOne(ActiveOf(store, userId), kind)
    ensures AtMostOne(Seqs.Filter(ActiveOf(store, userId), HasDefault), kind)
  {
    var rel := (a: SavedAddress, b: SavedAddress) => !(a.userId == userId && b.userId == userId && IsDefault(a, kind) && IsDefault(b, kind));
    var p := (a: SavedAddress) => a.userId == userId && a.isActive;
    Seqs.FilterPairwise(store, p, rel);
    var xs := ActiveOf(store, userId);
    var both := (a: SavedAddress, b: SavedAddress) => !(IsDefault(a, kind) && IsDefault(b, kind));
    Seqs.FilterPairwise(xs, HasDefault, both);
  }

  /** Before a default of one kind, every address read carries the other kind. */
  lemma {:induction false} BeforeDefaultIsOther(cands: seq<SavedAddress>, kind: DefaultKind, j: nat)
    requires AtMostOne(cands, kind) && j < |cands| && IsDefault(cands[j], kind)
    requires forall k :: 0 <= k < |cands| ==> HasDefault(cands[k])
    ensures forall a :: 0 <= a < j ==> IsDefault(cands[a], OtherKind(kind))
  {
    forall a | 0 <= a < j ensures IsDefault(cands[a], OtherKind(kind)) {
      assert !IsDefault(cands[a], kind);
    }
  }

  /** Filtering to addresses with some default keeps the first default of each kind. */
  lemma {:induction false} FirstDefaultFiltered(xs: seq<SavedAddress>, kind: DefaultKind)
    ensures FirstDefault(Seqs.Filter(xs, HasDefault), kind) == FirstDefault(xs, kind)
    decreases |xs|
  {
    if xs != [] {
      var rest := Seqs.Filter(xs[1..], HasDefault);
      FirstDefaultFiltered(xs[1..], kind);
      if HasDefault(xs[0]) {
        assert Seqs.Filter(xs, HasDefault) == [xs[0]] + rest;
        assert ([xs[0]] + rest)[1..] == rest;
      } else {
        assert Seqs.Filter(xs, HasDefault) == rest;
      }
    }
  }

  /** The first two candidates, as the database read returns them. */
  function ReadTwo(cands: seq<SavedAddress>): (r: seq<SavedAddress>)
    ensures |r| <= 2 && |r| <= |cands| && r == cands[..|r|]
    ensures |cands| <= 2 ==> r == cands
  {
    if |cands| < 2 then cands else cands[..2]
  }

  /** Among candidates holding at most one default of each kind, the two read hold the first default of either kind. */
  lemma ReadTwoFindsDefault(cands: seq<SavedAddress>, kind: DefaultKind)
    requires AtMostOne(cands, PickupDefault) && AtMostOne(cands, DeliveryDefault)
    requires forall k :: 0 <= k < |cands| ==> HasDefault(cands[k])
    ensures LastDefault(ReadTwo(cands), kind, None) == FirstDefault(cands, kind)
  {
    var read := ReadTwo(cands);
    match FirstDefault(cands, kind)
    case None =>
      assert forall k :: 0 <= k < |read| ==> read[k] == cands[k];
    case Some(v) =>
      var j :| 0 <= j < |cands| && cands[j] == v;
      BeforeDefaultIsOther(cands, kind, j);
      assert IsDefault(cands[0], OtherKind(kind)) || j == 0;
      assert |cands| > 1 ==> IsDefault(cands[1], OtherKind(kind)) || j <= 1;
      assert AtMostOne(cands, OtherKind(kind));
      assert j < 2;
      assert read[j] == v;
      assert AtMostOne(read, kind);
      LastDefaultUnique(read, kind, None, j);
  }

  /**
   When the store keeps at most one default of each kind per user, the two
   addresses read are enough: the defaults returned are the summary's.
   */
  lemma DefaultsAgreeWithSummary(store: seq<SavedAddress>, userId: string, now: int)
    requires OneDefault(store, userId, PickupDefault) && OneDefault(store, userId, DeliveryDefault)
    ensures GetDefaultAddresses(store, userId).0 == GetSummary(store, userId, now).defaultPickup
    ensures GetDefaultAddresses(store, userId).1 == GetSummary(store, userId, now).defaultDelivery
  {
    var xs := ActiveOf(store, userId);
    var cands := Seqs.Filter(xs, HasDefault);
    ActiveAtMostOne(store, userId, PickupDefault);
    ActiveAtMostOne(store, userId, DeliveryDefault);
    FirstDefaultFiltered(xs, PickupDefault);
    FirstDefaultFiltered(xs, DeliveryDefault);
    ReadTwoFindsDefault(cands, PickupDefault);
    ReadTwoFindsDefault(cands, DeliveryDefault);
  }

  // Import

  /** Another active address of the user at the same phone, street and postal code. */
  predicate Duplicate(store: seq<SavedAddress>, userId: string, c: AddressCreate)
  {
    exists k :: 0 <= k < |store| && store[k].userId == userId && store[k].isActive
      && store[k].phone == c.phone && store[k].street == c.street && store[k].postalCode == c.postalCode
  }

  datatype ImportResult = ImportResult(created: nat, skipped: nat, errors: seq<string>, store: seq<SavedAddress>)

  /** Per request, whether its creation is refused: by the database (`fails`) or by the stored model's validation. */
  function Refusals(cs: seq<AddressCreate>, fails: seq<bool>): (r: seq<bool>)
    requires |fails| == |cs|
    ensures |r| == |cs|
    ensures forall i :: 0 <= i < |cs| ==> r[i] == (fails[i] || Rejected(cs[i]))
  {
    if cs == [] then [] else [fails[0] || Rejected(cs[0])] + Refusals(cs[1..], fails[1..])
  }

  /**
   `import_addresses`: each address is skipped when duplicates are skipped
   and it duplicates an active one (including one imported just before),
   otherwise created; `fails` says which creations the database refuses.
   A creation refused by the database or by the stored model's validation
   is reported as an error.
   */
  function ImportAddresses(store: seq<SavedAddress>, userId: string, cs: seq<AddressCreate>, skipDuplicates: bool,
                           ids: seq<string>, fails: seq<bool>, now: int): (r: ImportResult)
    requires |ids| == |cs| && |fails| == |cs|
    ensures r.created + r.skipped + |r.errors| == |cs|
    ensures |r.store| == |store| + r.created
    ensures |r.errors| <= Seqs.Count(Refusals(cs, fails), (b: bool) => b)
    ensures !skipDuplicates ==> |r.errors| == Seqs.Count(Refusals(cs, fails), (b: bool) => b)
    ensures !skipDuplicates ==> r.skipped == 0
    decreases |cs|
  {
    if cs == [] then ImportResult(0, 0, [], store)
    else
      var c := cs[0];
      if skipDuplicates && Duplicate(store, userId, c) then
        var rest := ImportAddresses(store, userId, cs[1..], skipDuplicates, ids[1..], fails[1..], now);
        rest.(skipped := rest.skipped + 1)
      else
        var made := CreateAddress(store, userId, ids[0], c, now);
        if made.0.Failure? || fails[0] then
          var rest := ImportAddresses(store, userId, cs[1..], skipDuplicates, ids[1..], fails[1..], now);
          assert Refusals(cs, fails)[1..] == Refusals(cs[1..], fails[1..]);
          rest.(errors := ["Failed to import address '" + c.addrLabel + "'"] + rest.errors)
        else
          var rest := ImportAddresses(made.1, userId, cs[1..], skipDuplicates, ids[1..], fails[1..], now);
          assert Refusals(cs, fails)[1..] == Refusals(cs[1..], fails[1..]);
          rest.(created := rest.created + 1)
  }

  /**
   Importing the same request twice with duplicate skipping creates it once
   and skips the second, since the stored phone is the request's; a request
   the stored model refuses is reported twice. The request's phone is the
   request model's validated form.
   */
  lemma ImportSkipsRepeat(store: seq<SavedAddress>, userId: string, c: AddressCreate, ids: seq<string>, now: int)
    requires |ids| == 2
    requires Phone.PlusTwelve(c.phone)
    requires !Duplicate(store, userId, c)
    ensures var r := ImportAddresses(store, userId, [c, c], true, ids, [false, false], now);
      !Rejected(c) ==> r.created == 1 && r.skipped == 1 && r.errors == []
    ensures var r := ImportAddresses(store, userId, [c, c], true, ids, [false, false], now);
      Rejected(c) ==> r.created == 0 && r.skipped == 0 && |r.errors| == 2
  {
    assert [c, c][1..] == [c];
    Phone.PlusTwelveRevalidates(c.phone);
    var s1 := CreateAddress(store, userId, ids[0], c, now);
    if !Rejected(c) {
      assert s1.1[|store|].userId == userId && s1.1[|store|].isActive && s1.1[|store|].phone == c.phone;
      assert Duplicate(s1.1, userId, c);
    }
  }

}

=== FILE: admin.dfy ===
/**
 The administration layer: the role gates in front of every admin endpoint,
 the booking status override, paging flags, and the post-processing the
 admin service applies to its database aggregations (user growth, revenue
 by carrier, carrier analytics, headline rates) and to carrier-rate updates.
 The aggregations themselves run in the database; their output rows are the
 inputs here. Times are seconds; money is `real` rupees.
 */
module Admin {
  import opened Wrappers
  import opened Text
  import Seqs
  import opened Shipments
  import Tracking

  /** An HTTP refusal: the status code and its detail text. */
  datatype Refusal = Refusal(code: nat, detail: string)

  // Role gates

  /** The caller as the gates see it; a user stored before roles existed has no role. */
  datatype Caller = Caller(id: string, isActive: bool, role: Option<string>)

  /** A missing role counts as the plain "user" role. */
  function RoleOf(u: Caller): string { u.role.GetOr("user") }

  /** The three roles with admin access, as stored in lower case. */
  const AdminBases: set<string> := {"admin", "super_admin", "manager"}

  /** Admin access: the three roles in their lower- or upper-case form. */
  const AdminRoles: set<string> := {"admin", "super_admin", "manager", "ADMIN", "SUPER_ADMIN", "MANAGER"}

  const SuperAdminRoles: set<string> := {"super_admin", "SUPER_ADMIN"}

  /** `check_admin_role`: an inactive caller is refused first, then any role without admin access. */
  function CheckAdminRole(u: Caller): (r: Result<Caller, Refusal>)
    ensures !u.isActive ==> r == Failure(Refusal(403, "User is inactive"))
    ensures u.isActive && RoleOf(u) !in AdminRoles ==> r == Failure(Refusal(403, "Admin access required"))
    ensures r.Success? <==> u.isActive && RoleOf(u) in AdminRoles
    ensures r.Success? ==> r.value == u
  {
    if !u.isActive then Failure(Refusal(403, "User is inactive"))
    else if RoleOf(u) !in AdminRoles then Failure(Refusal(403, "Admin access required"))
    else Success(u)
  }

  /** `check_super_admin_role`: the same gate admitting only the super-admin role. */
  function CheckSuperAdminRole(u: Caller): (r: Result<Caller, Refusal>)
    ensures !u.isActive ==> r == Failure(Refusal(403, "User is inactive"))
    ensures u.isActive && RoleOf(u) !in SuperAdminRoles ==> r == Failure(Refusal(403, "Super admin access required"))
    ensures r.Success? <==> u.isActive && RoleOf(u) in SuperAdminRoles
  {
    if !u.isActive then Failure(Refusal(403, "User is inactive"))
    else if RoleOf(u) !in SuperAdminRoles then Failure(Refusal(403, "Super admin access required"))
    else Success(u)
  }

  /**
   A role has admin access exactly when it is one of the three admin roles
   written entirely in lower case or entirely in upper case; "Admin" and
   other mixed spellings are refused.
   */
  lemma RoleSpellings()
    ensures Upper("admin") == "ADMIN" && Upper("super_admin") == "SUPER_ADMIN" && Upper("manager") == "MANAGER"
    ensures Lower("ADMIN") == "admin" && Lower("SUPER_ADMIN") == "super_admin" && Lower("MANAGER") == "manager"
    ensures Lower("admin") == "admin" && Lower("super_admin") == "super_admin" && Lower("manager") == "manager"
  {
    LowerNoUpper("admin");
    LowerNoUpper("super_admin");
    LowerNoUpper("manager");
  }

  lemma AdminRoleForms(role: string)
    ensures role in AdminRoles <==> Lower(role) in AdminBases && (role == Lower(role) || role == Upper(Lower(role)))
  {
    RoleSpellings();
  }

  /** Whoever passes the super-admin gate passes the admin gate; users, support staff and role-less users pass neither. */
  lemma GatesNested(u: Caller)
    ensures CheckSuperAdminRole(u).Success? ==> CheckAdminRole(u).Success?
    ensures RoleOf(u) in {"user", "support"} ==> CheckAdminRole(u).Failure? && CheckSuperAdminRole(u).Failure?
    ensures u.role.None? ==> CheckAdminRole(u).Failure?
  {
  }

  // Paging

  /** `has_more` on the admin listings. */
  function HasMore(totalCount: nat, skip: nat, limit: nat): (b: bool)
  {
    totalCount > skip + limit
  }

  /** The window of a listing that `skip` and `limit` select. */
  function Page<T>(xs: seq<T>, skip: nat, limit: nat): (r: seq<T>)
    ensures |r| <= limit
    ensures |r| > 0 ==> skip + |r| <= |xs|
    ensures forall i :: 0 <= i < |r| ==> r[i] == xs[skip + i]
  {
    var lo := if skip < |xs| then skip else |xs|;
    var hi := if skip + limit < |xs| then skip + limit else |xs|;
    xs[lo..hi]
  }

  /** More results exist exactly when the page after this one is not empty. */
  lemma HasMoreIffNextPage<T>(xs: seq<T>, skip: nat, limit: nat)
    requires limit >= 1
    ensures HasMore(|xs|, skip, limit) <==> Page(xs, skip + limit, limit) != []
  {
  }

  // Booking status override

  /** The fields of a stored shipment the override reads and writes; the status is whatever string is stored. */
  datatype BookingDoc = BookingDoc(id: string, status: string, updatedAt: int, updatedBy: Option<string>)

  /** The detail of the 400 answer, listing the valid values in declaration order. */
  const InvalidStatusDetail: string :=
    "Invalid status. Valid options: ['draft', 'booked', 'pickup_scheduled', 'picked_up', 'in_transit', "
    + "'out_for_delivery', 'delivered', 'returned', 'cancelled', 'lost']"

  /** A status value is valid exactly when it is the stored value of some status. */
  lemma ValidStatusIff(s: string)
    ensures ParseStatus(s).Some? <==> exists st: Status :: StatusValue(st) == s
  {
    StatusValuesRoundTrip();
  }

  function FindBooking(store: seq<BookingDoc>, id: string): (r: Option<nat>)
    ensures r.Some? ==> r.value < |store| && store[r.value].id == id && forall k :: 0 <= k < r.value ==> store[k].id != id
    ensures r.None? <==> forall k :: 0 <= k < |store| ==> store[k].id != id
  {
    if store == [] then None
    else if store[0].id == id then Some(0)
    else
      var rest := FindBooking(store[1..], id);
      if rest.None? then None else Some(rest.value + 1)
  }

  /**
   `update_booking_status` as written: an invalid value is refused with 400;
   for a valid one the handler reads `datetime`, which the module never
   imports, so the request fails with 500 before anything is written.
   */
  function UpdateBookingStatusAsWritten(store: seq<BookingDoc>, id: string, newStatus: string, adminId: string, now: int)
    : (r: (Result<string, Refusal>, seq<BookingDoc>))
    ensures r.1 == store
    ensures ParseStatus(newStatus).None? ==> r.0 == Failure(Refusal(400, InvalidStatusDetail))
    ensures ParseStatus(newStatus).Some? ==> r.0.Failure? && r.0.error.code == 500
  {
    if ParseStatus(newStatus).None? then (Failure(Refusal(400, InvalidStatusDetail)), store)
    else (Failure(Refusal(500, "Error updating booking status: name 'datetime' is not defined")), store)
  }

  /** As written, no status can ever be set through the override, whatever the booking. */
  lemma OverrideNeverApplies(store: seq<BookingDoc>, id: string, st: Status, adminId: string, now: int)
    ensures var r := UpdateBookingStatusAsWritten(store, id, StatusValue(st), adminId, now);
      r.0.Failure? && r.0.error.code == 500 && r.1 == store
  {
    StatusValuesRoundTrip();
  }

  /**
   `update_booking_status` as intended: an invalid value is refused with 400;
   otherwise the first booking with the id gets the status, the time and the
   admin's id, and a write that changes nothing (or finds nothing) is a 404.
   */
  function UpdateBookingStatus(store: seq<BookingDoc>, id: string, newStatus: string, adminId: string, now: int)
    : (r: (Result<string, Refusal>, seq<BookingDoc>))
    ensures ParseStatus(newStatus).None? ==> r == (Failure(Refusal(400, InvalidStatusDetail)), store)
    ensures FindBooking(store, id).None? && ParseStatus(newStatus).Some? ==> r == (Failure(Refusal(404, "Booking not found")), store)
    ensures r.0.Success? ==> r.0.value == "Booking status updated to " + newStatus
    ensures r.0.Success? ==> ParseStatus(newStatus).Some? && FindBooking(store, id).Some?
    ensures r.0.Success? ==> var i := FindBooking(store, id).value;
      |r.1| == |store| && r.1[i] == BookingDoc(id, newStatus, now, Some(adminId))
      && forall k :: 0 <= k < |store| && k != i ==> r.1[k] == store[k]
    ensures r.0.Failure? ==> r.1 == store
  {
    if ParseStatus(newStatus).None? then (Failure(Refusal(400, InvalidStatusDetail)), store)
    else
      match FindBooking(store, id)
      case None => (Failure(Refusal(404, "Booking not found")), store)
      case Some(i) =>
        var doc := store[i].(status := newStatus, updatedAt := now, updatedBy := Some(adminId));
        if doc == store[i] then (Failure(Refusal(404, "Booking not found")), store)
        else (Success("Booking status updated to " + newStatus), store[i := doc])
  }

  /**
   No transition rule: any status may follow any other. Whatever a booking's
   current status, every status can be set on it at a later time.
   */
  lemma AnyStatusMayFollowAny(store: seq<BookingDoc>, id: string, st: Status, adminId: string, now: int)
    requires FindBooking(store, id).Some? && store[FindBooking(store, id).value].updatedAt != now
    ensures var r := UpdateBookingStatus(store, id, StatusValue(st), adminId, now);
      r.0.Success? && r.1[FindBooking(store, id).value].status == StatusValue(st)
  {
    StatusValuesRoundTrip();
  }

  // Headline rates

  /** `user_growth_rate`: the month-on-month change in new users, in percent; 0 when last month had none. */
  function UserGrowthRate(thisMonth: nat, lastMonth: nat): (r: real)
    ensures lastMonth == 0 ==> r == 0.0
    ensures lastMonth > 0 ==> r * lastMonth as real == (thisMonth as real - lastMonth as real) * 100.0
  {
    if lastMonth > 0 then ((thisMonth as real - lastMonth as real) / lastMonth as real) * 100.0 else 0.0
  }

  /** Growth never falls below -100%, and is positive exactly when this month beats last month. */
  lemma GrowthRateSign(thisMonth: nat, lastMonth: nat)
    requires lastMonth > 0
    ensures UserGrowthRate(thisMonth, lastMonth) >= -100.0
    ensures UserGrowthRate(thisMonth, lastMonth) > 0.0 <==> thisMonth > lastMonth
    ensures UserGrowthRate(thisMonth, lastMonth) == 0.0 <==> thisMonth == lastMonth
  {
    var l := lastMonth as real;
    var d := thisMonth as real - l;
    assert UserGrowthRate(thisMonth, lastMonth) == (d / l) * 100.0;
    assert d / l >= -1.0;
  }

  predicate IsActiveStatus(st: Status) { InFlight(st) }

  /** Delivered or returned: the statuses the admin view counts as completed. */
  predicate IsCompleted(st: Status) { st == Delivered || st == Returned }

  predicate ActiveOrCompleted(st: Status) { IsActiveStatus(st) || IsCompleted(st) }

  datatype ShipmentCounts = ShipmentCounts(total: nat, active: nat, completed: nat, successRate: real)

  /**
   The shipment part of `get_admin_stats`: totals, the in-flight and the
   completed counts, and the completed share in percent (0 with no shipments).
   */
  function ShipmentStats(statuses: seq<Status>): (c: ShipmentCounts)
    ensures c.total == |statuses|
    ensures c.active == Seqs.Count(statuses, IsActiveStatus) && c.completed == Seqs.Count(statuses, IsCompleted)
    ensures c.total == 0 ==> c.successRate == 0.0
    ensures c.total > 0 ==> c.successRate * c.total as real == c.completed as real * 100.0
  {
    var completed := Seqs.Count(statuses, IsCompleted);
    ShipmentCounts(|statuses|, Seqs.Count(statuses, IsActiveStatus), completed,
                   if |statuses| > 0 then (completed as real / |statuses| as real) * 100.0 else 0.0)
  }

  /** In-flight and completed shipments never overlap, and the success rate is a percentage. */
  lemma ShipmentStatsConsistent(statuses: seq<Status>)
    ensures var c := ShipmentStats(statuses);
      c.active + c.completed <= c.total && 0.0 <= c.successRate <= 100.0
  {
    Seqs.CountDisjoint(statuses, IsActiveStatus, IsCompleted, ActiveOrCompleted);
    var c := ShipmentStats(statuses);
    if c.total > 0 {
      Tracking.PercentBounds(c.completed, c.total);
    }
  }

  // User growth

  /** One row of the monthly sign-up aggregation, in year-then-month order. */
  datatype MonthCount = MonthCount(year: nat, month: nat, newUsers: nat)

  datatype GrowthPoint = GrowthPoint(period: string, newUsers: nat, totalUsers: nat, churnRate: real)

  /** `f"{n:02d}"`: at least two digits, zero-padded. */
  function Pad2(n: nat): (r: string)
    ensures AllDigits(r) && |r| >= 2
    ensures DecValue(r) == n
  {
    DecRoundTrip(n);
    if n < 10 then
      assert DecValue("0" + Dec(n)) == n by { DecValueLeadingZero(Dec(n)); }
      "0" + Dec(n)
    else Dec(n)
  }

  lemma {:induction false} DecValueLeadingZero(s: string)
    requires AllDigits(s)
    ensures AllDigits("0" + s) && DecValue("0" + s) == DecValue(s)
    decreases |s|
  {
    if s != [] {
      var t := "0" + s;
      assert t[..|t| - 1] == "0" + s[..|s| - 1];
      DecValueLeadingZero(s[..|s| - 1]);
    } else {
      assert DigitValue('0') == 0;
    }
  }

  /** The "YYYY-MM" period label. */
  function Period(year: nat, month: nat): (p: string)
    ensures |p| == |Dec(year)| + 1 + |Pad2(month)| && p[|Dec(year)|] == '-'
  {
    Dec(year) + "-" + Pad2(month)
  }

  /** A label reads back as its year and month. */
  lemma PeriodRoundTrip(year: nat, month: nat)
    ensures var p := Period(year, month); var n := |Dec(year)|;
      AllDigits(p[..n]) && DecValue(p[..n]) == year && AllDigits(p[n + 1..]) && DecValue(p[n + 1..]) == month
  {
    var p := Period(year, month);
    var n := |Dec(year)|;
    assert p[..n] == Dec(year);
    assert p[n + 1..] == Pad2(month);
    DecRoundTrip(year);
  }

  /** Distinct months get distinct labels. */
  lemma PeriodInjective(y1: nat, m1: nat, y2: nat, m2: nat)
    requires Period(y1, m1) == Period(y2, m2)
    ensures y1 == y2 && m1 == m2
  {
    var p := Period(y1, m1);
    var n1 := |Dec(y1)|;
    var n2 := |Dec(y2)|;
    PeriodRoundTrip(y1, m1);
    PeriodRoundTrip(y2, m2);
    assert n1 == n2;
  }

  /** Four-digit years give the seven-character "YYYY-MM" form for every month. */
  lemma PeriodLength(year: nat, month: nat)
    requires 1000 <= year <= 9999 && 1 <= month <= 12
    ensures |Period(year, month)| == 7
  {
    assert |Dec(year / 1000)| == 1;
    assert |Dec(year / 100)| == 2;
    assert |Dec(year / 10)| == 3;
  }

  /** The placeholder churn rate every growth point carries. */
  const MockChurnRate: real := 2.5

  /** One growth point per month row, counting on from `base` sign-ups. */
  function GrowthFrom(rows: seq<MonthCount>, base: nat): (r: seq<GrowthPoint>)
    ensures |r| == |rows|
    decreases |rows|
  {
    if rows == [] then []
    else
      var total := base + rows[0].newUsers;
      [GrowthPoint(Period(rows[0].year, rows[0].month), rows[0].newUsers, total, MockChurnRate)]
      + GrowthFrom(rows[1..], total)
  }

  /** The first point, then the points of the remaining months from the new total. */
  lemma GrowthStep(rows: seq<MonthCount>, base: nat, r: seq<GrowthPoint>, rest: seq<GrowthPoint>)
    requires rows != [] && r == GrowthFrom(rows, base) && rest == GrowthFrom(rows[1..], base + rows[0].newUsers)
    ensures r[0] == GrowthPoint(Period(rows[0].year, rows[0].month), rows[0].newUsers, base + rows[0].newUsers, MockChurnRate)
    ensures forall i :: 1 <= i < |r| ==> r[i] == rest[i - 1] && rows[i] == rows[1..][i - 1]
  {
  }

  /** Each point is labelled with its month and counts that month's sign-ups. */
  lemma {:induction false} GrowthLabels(rows: seq<MonthCount>, base: nat, r: seq<GrowthPoint>)
    requires r == GrowthFrom(rows, base)
    ensures forall i :: 0 <= i < |r| ==>
      r[i].period == Period(rows[i].year, rows[i].month) && r[i].newUsers == rows[i].newUsers && r[i].churnRate == MockChurnRate
    decreases |rows|
  {
    if rows != [] {
      var rest := GrowthFrom(rows[1..], base + rows[0].newUsers);
      GrowthLabels(rows[1..], base + rows[0].newUsers, rest);
      GrowthStep(rows, base, r, rest);
      forall i | 1 <= i < |r|
        ensures r[i].period == Period(rows[i].year, rows[i].month) && r[i].newUsers == rows[i].newUsers && r[i].churnRate == MockChurnRate
      {
        assert r[i] == rest[i - 1] && rows[i] == rows[1..][i - 1];
      }
    }
  }

  /** Each point adds its month's sign-ups to the previous total. */
  lemma {:induction false} GrowthRunning(rows: seq<MonthCount>, base: nat, r: seq<GrowthPoint>)
    requires r == GrowthFrom(rows, base)
    ensures |r| > 0 ==> r[0].totalUsers == base + rows[0].newUsers
    ensures forall i :: 1 <= i < |r| ==> r[i].totalUsers == r[i - 1].totalUsers + rows[i].newUsers
    decreases |rows|
  {
    if rows != [] {
      var rest := GrowthFrom(rows[1..], base + rows[0].newUsers);
      GrowthRunning(rows[1..], base + rows[0].newUsers, rest);
      GrowthStep(rows, base, r, rest);
      forall i | 1 <= i < |r| ensures r[i].totalUsers == r[i - 1].totalUsers + rows[i].newUsers {
        assert r[i] == rest[i - 1] && rows[i] == rows[1..][i - 1];
        if i > 1 {
          assert r[i - 1] == rest[i - 2];
        }
      }
    }
  }

  /** The database returns at most `months` rows; each point carries the running total of sign-ups. */
  function UserGrowthData(rows: seq<MonthCount>, months: nat): (r: seq<GrowthPoint>)
    ensures |r| == if months < |rows| then months else |rows|
    ensures forall i :: 0 <= i < |r| ==> r[i].period == Period(rows[i].year, rows[i].month) && r[i].newUsers == rows[i].newUsers
    ensures |r| > 0 ==> r[0].totalUsers == rows[0].newUsers
    ensures forall i :: 1 <= i < |r| ==> r[i].totalUsers == r[i - 1].totalUsers + rows[i].newUsers
  {
    var read := rows[..if months < |rows| then months else |rows|];
    GrowthLabels(read, 0, GrowthFrom(read, 0));
    GrowthRunning(read, 0, GrowthFrom(read, 0));
    GrowthFrom(read, 0)
  }

  function SumNew(rows: seq<MonthCount>): nat
  {
    if rows == [] then 0 else rows[0].newUsers + SumNew(rows[1..])
  }

  /** The last point's total is all the sign-ups counted. */
  lemma {:induction false} GrowthLast(rows: seq<MonthCount>, base: nat, r: seq<GrowthPoint>)
    requires rows != [] && r == GrowthFrom(rows, base)
    ensures r[|r| - 1].totalUsers == base + SumNew(rows)
    decreases |rows|
  {
    var total := base + rows[0].newUsers;
    var rest := GrowthFrom(rows[1..], total);
    GrowthStep(rows, base, r, rest);
    assert SumNew(rows) == rows[0].newUsers + SumNew(rows[1..]);
    if |rows| > 1 {
      GrowthLast(rows[1..], total, rest);
      assert r[|r| - 1] == rest[|rest| - 1];
    }
  }

  /** Every total lies between the starting total and the starting total plus all sign-ups. */
  lemma {:induction false} GrowthBounds(rows: seq<MonthCount>, base: nat, r: seq<GrowthPoint>)
    requires r == GrowthFrom(rows, base)
    ensures forall i :: 0 <= i < |r| ==> base <= r[i].totalUsers <= base + SumNew(rows)
    decreases |rows|
  {
    if rows != [] {
      var total := base + rows[0].newUsers;
      var rest := GrowthFrom(rows[1..], total);
      GrowthStep(rows, base, r, rest);
      GrowthBounds(rows[1..], total, rest);
      assert SumNew(rows) == rows[0].newUsers + SumNew(rows[1..]);
      forall i | 1 <= i < |r| ensures base <= r[i].totalUsers <= base + SumNew(rows) {
        assert r[i] == rest[i - 1];
      }
    }
  }

  /** Totals never fall. */
  lemma {:induction false} GrowthMonotone(rows: seq<MonthCount>, base: nat, r: seq<GrowthPoint>)
    requires r == GrowthFrom(rows, base)
    ensures forall i, j :: 0 <= i <= j < |r| ==> r[i].totalUsers <= r[j].totalUsers
    decreases |rows|
  {
    if rows != [] {
      var total := base + rows[0].newUsers;
      var rest := GrowthFrom(rows[1..], total);
      GrowthStep(rows, base, r, rest);
      GrowthBounds(rows[1..], total, rest);
      GrowthMonotone(rows[1..], total, rest);
    }
  }

  /** The last point's total is all the sign-ups counted, and totals never fall. */
  lemma GrowthTotals(rows: seq<MonthCount>, base: nat, r: seq<GrowthPoint>)
    requires rows != [] && r == GrowthFrom(rows, base)
    ensures r[|r| - 1].totalUsers == base + SumNew(rows)
    ensures forall i :: 0 <= i < |r| ==> base <= r[i].totalUsers <= base + SumNew(rows)
    ensures forall i, j :: 0 <= i <= j < |r| ==> r[i].totalUsers <= r[j].totalUsers
  {
    GrowthLast(rows, base, r);
    GrowthBounds(rows, base, r);
    GrowthMonotone(rows, base, r);
  }

  // Revenue breakdown

  /** One group of the revenue aggregation: a carrier name (possibly missing or empty), its revenue and shipment count. */
  datatype RevenueGroup = RevenueGroup(carrier: Option<string>, revenue: real, count: nat)

  datatype RevenueRow = RevenueRow(carrierName: string, totalRevenue: real, shipmentCount: nat, averageRate: real, marketShare: real)

  predicate Named(g: RevenueGroup) { g.carrier.Some? && g.carrier.value != "" }

  /** `sum(item["total_revenue"] ...)` over every group read. */
  function TotalRevenue(gs: seq<RevenueGroup>): (r: real)
    ensures (forall i :: 0 <= i < |gs| ==> gs[i].revenue >= 0.0) ==> r >= 0.0
    ensures (forall i :: 0 <= i < |gs| ==> gs[i].revenue > 0.0) && gs != [] ==> r > 0.0
  {
    if gs == [] then 0.0 else gs[0].revenue + TotalRevenue(gs[1..])
  }

  function Share(part: real, total: real): real
  {
    if total > 0.0 then (part / total) * 100.0 else 0.0
  }

  /** The row of a named group: its average rate and its share of `total`. */
  function RowOf(g: RevenueGroup, total: real): (r: RevenueRow)
    requires Named(g) && g.count > 0
    ensures r.carrierName == g.carrier.value && r.totalRevenue == g.revenue && r.shipmentCount == g.count
    ensures r.averageRate * r.shipmentCount as real == r.totalRevenue
    ensures r.marketShare == Share(r.totalRevenue, total)
  {
    RevenueRow(g.carrier.value, g.revenue, g.count, g.revenue / g.count as real, Share(g.revenue, total))
  }

  function BreakdownFrom(gs: seq<RevenueGroup>, total: real): (r: seq<RevenueRow>)
    requires forall i :: 0 <= i < |gs| ==> gs[i].count > 0
    ensures |r| == Seqs.Count(gs, Named)
    decreases |gs|
  {
    if gs == [] then []
    else
      var rest := BreakdownFrom(gs[1..], total);
      if Named(gs[0]) then [RowOf(gs[0], total)] + rest else rest
  }

  /** A row names its carrier, averages over at least one shipment and takes its share of `total`. */
  predicate GoodRow(row: RevenueRow, total: real)
  {
    && row.carrierName != "" && row.shipmentCount > 0
    && row.averageRate * row.shipmentCount as real == row.totalRevenue
    && row.marketShare == Share(row.totalRevenue, total)
  }

  /** A named group contributes its row ahead of the others; an unnamed one is skipped. */
  lemma BreakdownStep(gs: seq<RevenueGroup>, total: real, r: seq<RevenueRow>, rest: seq<RevenueRow>)
    requires gs != [] && forall i :: 0 <= i < |gs| ==> gs[i].count > 0
    requires r == BreakdownFrom(gs, total) && rest == BreakdownFrom(gs[1..], total)
    ensures Named(gs[0]) ==> r == [RowOf(gs[0], total)] + rest
    ensures !Named(gs[0]) ==> r == rest
  {
  }

  /** Every row is a good row. */
  lemma {:induction false} BreakdownRows(gs: seq<RevenueGroup>, total: real, r: seq<RevenueRow>)
    requires forall i :: 0 <= i < |gs| ==> gs[i].count > 0
    requires r == BreakdownFrom(gs, total)
    ensures forall i :: 0 <= i < |r| ==> GoodRow(r[i], total)
    decreases |gs|
  {
    if gs != [] {
      var rest := BreakdownFrom(gs[1..], total);
      BreakdownRows(gs[1..], total, rest);
      BreakdownStep(gs, total, r, rest);
      if Named(gs[0]) {
        forall i | 0 <= i < |r| ensures GoodRow(r[i], total) {
          if i > 0 { assert r[i] == rest[i - 1]; }
        }
      }
    }
  }

  /** At most fifty groups are read; the market shares are taken against all of them, named or not. */
  const MaxGroups: nat := 50

  function Top50<T>(xs: seq<T>): (r: seq<T>)
    ensures |r| <= |xs| && |r| <= MaxGroups && r == xs[..|r|]
    ensures |xs| <= MaxGroups ==> r == xs
  {
    if |xs| <= MaxGroups then xs else xs[..MaxGroups]
  }

  /**
   `get_revenue_breakdown`: the named carriers of the first fifty groups, in
   order, each with its average rate and its share of the revenue of all
   those groups. Every group counts at least the shipment that formed it.
   */
  function RevenueBreakdown(gs: seq<RevenueGroup>): (r: seq<RevenueRow>)
    requires forall i :: 0 <= i < |gs| ==> gs[i].count > 0
    ensures |r| == Seqs.Count(Top50(gs), Named)
    ensures forall i :: 0 <= i < |r| ==>
      (r[i].carrierName != "" && r[i].shipmentCount > 0
       && r[i].averageRate * r[i].shipmentCount as real == r[i].totalRevenue
       && r[i].marketShare == Share(r[i].totalRevenue, TotalRevenue(Top50(gs))))
  {
    var top := Top50(gs);
    BreakdownRows(top, TotalRevenue(top), BreakdownFrom(top, TotalRevenue(top)));
    BreakdownFrom(top, TotalRevenue(top))
  }

  function SumShares(rs: seq<RevenueRow>): real
  {
    if rs == [] then 0.0 else rs[0].marketShare + SumShares(rs[1..])
  }

  function NamedRevenue(gs: seq<RevenueGroup>): real
  {
    if gs == [] then 0.0 else (if Named(gs[0]) then gs[0].revenue else 0.0) + NamedRevenue(gs[1..])
  }

  lemma {:induction false} SharesAddUp(gs: seq<RevenueGroup>, total: real)
    requires forall i :: 0 <= i < |gs| ==> gs[i].count > 0
    requires total > 0.0
    ensures SumShares(BreakdownFrom(gs, total)) == (NamedRevenue(gs) / total) * 100.0
    decreases |gs|
  {
    if gs != [] {
      SharesAddUp(gs[1..], total);
      var rest := BreakdownFrom(gs[1..], total);
      if Named(gs[0]) {
        var r := BreakdownFrom(gs, total);
        assert r == [RowOf(gs[0], total)] + rest;
        assert r[1..] == rest;
        assert (gs[0].revenue / total) * 100.0 + (NamedRevenue(gs[1..]) / total) * 100.0
            == ((gs[0].revenue + NamedRevenue(gs[1..])) / total) * 100.0;
      }
    }
  }

  lemma {:induction false} NamedAtMostTotal(gs: seq<RevenueGroup>)
    requires forall i :: 0 <= i < |gs| ==> gs[i].revenue >= 0.0
    ensures 0.0 <= NamedRevenue(gs) <= TotalRevenue(gs)
    ensures Seqs.Count(gs, Named) == |gs| ==> NamedRevenue(gs) == TotalRevenue(gs)
    decreases |gs|
  {
    if gs != [] {
      NamedAtMostTotal(gs[1..]);
    }
  }

  /**
   With positive revenues the market shares add up to at most 100%, and to
   exactly 100% when no group lacks a carrier name; a group without a name
   still takes its part of the total.
   */
  lemma MarketSharesAddUp(gs: seq<RevenueGroup>)
    requires forall i :: 0 <= i < |gs| ==> gs[i].count > 0 && gs[i].revenue > 0.0
    ensures SumShares(RevenueBreakdown(gs)) <= 100.0
    ensures Seqs.Count(Top50(gs), Named) == |Top50(gs)| && gs != [] ==> SumShares(RevenueBreakdown(gs)) == 100.0
  {
    var top := Top50(gs);
    assert forall i :: 0 <= i < |top| ==> top[i] == gs[i];
    SharesOfGroups(top);
  }

  lemma SharesOfGroups(gs: seq<RevenueGroup>)
    requires forall i :: 0 <= i < |gs| ==> gs[i].count > 0 && gs[i].revenue > 0.0
    ensures SumShares(BreakdownFrom(gs, TotalRevenue(gs))) <= 100.0
    ensures Seqs.Count(gs, Named) == |gs| && gs != [] ==> SumShares(BreakdownFrom(gs, TotalRevenue(gs))) == 100.0
  {
    var total := TotalRevenue(gs);
    NamedAtMostTotal(gs);
    if gs == [] {
      ZeroShares(gs, total);
    } else {
      PositiveTotal(gs);
      SharesAddUp(gs, total);
      FractionAtMostOne(NamedRevenue(gs), total);
    }
  }

  lemma FractionAtMostOne(part: real, total: real)
    requires 0.0 <= part <= total && total > 0.0
    ensures (part / total) * 100.0 <= 100.0
    ensures part == total ==> (part / total) * 100.0 == 100.0
  {
  }

  lemma {:induction false} ZeroShares(gs: seq<RevenueGroup>, total: real)
    requires forall i :: 0 <= i < |gs| ==> gs[i].count > 0
    requires total <= 0.0
    ensures SumShares(BreakdownFrom(gs, total)) == 0.0
    decreases |gs|
  {
    if gs != [] {
      ZeroShares(gs[1..], total);
      if Named(gs[0]) {
        assert BreakdownFrom(gs, total) == [RowOf(gs[0], total)] + BreakdownFrom(gs[1..], total);
      }
    }
  }

  lemma {:induction false} PositiveTotal(gs: seq<RevenueGroup>)
    requires gs != [] && forall i :: 0 <= i < |gs| ==> gs[i].revenue > 0.0
    ensures TotalRevenue(gs) > 0.0
    decreases |gs|
  {
    if |gs| > 1 {
      PositiveTotal(gs[1..]);
    }
  }

  // Carrier analytics

  /** One group of the carrier aggregation: shipments, delivered ones and summed payment amounts. */
  datatype CarrierGroup = CarrierGroup(carrier: Option<string>, shipments: nat, delivered: nat, revenue: real)

  datatype CarrierRow = CarrierRow(
    carrierName: string, totalShipments: nat, successRate: real, averageDeliveryTime: real,
    customerRating: real, revenueContribution: real, costEfficiency: real, onTimePercentage: real)

  predicate NamedCarrier(g: CarrierGroup) { g.carrier.Some? && g.carrier.value != "" }

  /** The revenue of the groups whose revenue is non-zero. */
  function CarrierRevenue(gs: seq<CarrierGroup>): (r: real)
    ensures (forall i :: 0 <= i < |gs| ==> gs[i].revenue >= 0.0) ==> r >= 0.0
    ensures (forall i :: 0 <= i < |gs| ==> gs[i].revenue >= 0.0) && (exists i :: 0 <= i < |gs| && gs[i].revenue > 0.0) ==> r > 0.0
  {
    if gs == [] then 0.0 else (if gs[0].revenue != 0.0 then gs[0].revenue else 0.0) + CarrierRevenue(gs[1..])
  }

  function AnalyticsRow(g: CarrierGroup, total: real): (r: CarrierRow)
    requires NamedCarrier(g)
    ensures r.carrierName == g.carrier.value && r.totalShipments == g.shipments
    ensures g.shipments == 0 ==> r.successRate == 0.0
    ensures g.shipments > 0 ==> r.successRate * g.shipments as real == g.delivered as real * 100.0
    ensures r.revenueContribution == Share(g.revenue, total)
  {
    CarrierRow(g.carrier.value, g.shipments,
               if g.shipments > 0 then (g.delivered as real / g.shipments as real) * 100.0 else 0.0,
               3.2, 4.3, Share(g.revenue, total), 85.5, 92.3)
  }

  /** The rows of the named groups, in the order the groups came. */
  function AnalyticsRows(gs: seq<CarrierGroup>, total: real): (r: seq<CarrierRow>)
    ensures |r| == Seqs.Count(gs, NamedCarrier)
    ensures forall i :: 0 <= i < |r| ==> exists g :: g in gs && NamedCarrier(g) && r[i] == AnalyticsRow(g, total)
  {
    var named := Seqs.Filter(gs, NamedCarrier);
    var r := seq(|named|, i requires 0 <= i < |named| => AnalyticsRow(named[i], total));
    assert forall i :: 0 <= i < |r| ==> named[i] in gs && NamedCarrier(named[i]) && r[i] == AnalyticsRow(named[i], total);
    r
  }

  function ShipmentsKey(r: CarrierRow): real { r.totalShipments as real }

  /**
   `get_carrier_analytics`: a row per named carrier among the first fifty
   groups, with its delivered share and its share of the non-zero revenue,
   sorted by shipments, most first.
   */
  function CarrierAnalytics(gs: seq<CarrierGroup>): (r: seq<CarrierRow>)
    ensures |r| == Seqs.Count(Top50(gs), NamedCarrier)
    ensures forall i, j :: 0 <= i < j < |r| ==> r[j].totalShipments <= r[i].totalShipments
    ensures forall i :: 0 <= i < |r| ==> r[i] in AnalyticsRows(Top50(gs), CarrierRevenue(Top50(gs)))
  {
    var top := Top50(gs);
    var rows := AnalyticsRows(top, CarrierRevenue(top));
    var r := Seqs.TopBy(rows, ShipmentsKey, |rows|);
    Seqs.TopBySub(rows, ShipmentsKey, |rows|, r);
    Seqs.TopBySorted(rows, ShipmentsKey, |rows|, r);
    forall i | 0 <= i < |r|
      ensures r[i] in rows
    {
      assert r[i] in multiset(r);
    }
    r
  }

  /** Sorting loses no carrier: every named carrier read gets its row. */
  lemma AnalyticsKeepsEveryCarrier(gs: seq<CarrierGroup>)
    ensures multiset(CarrierAnalytics(gs)) == multiset(AnalyticsRows(Top50(gs), CarrierRevenue(Top50(gs))))
  {
    var rows := AnalyticsRows(Top50(gs), CarrierRevenue(Top50(gs)));
    var r := Seqs.TopBy(rows, ShipmentsKey, |rows|);
    assert r == CarrierAnalytics(gs);
    Seqs.TopBySub(rows, ShipmentsKey, |rows|, r);
    SubMultisetSameSize(r, rows);
  }

  lemma SubMultisetSameSize<T>(a: seq<T>, b: seq<T>)
    requires multiset(a) <= multiset(b) && |a| == |b|
    ensures multiset(a) == multiset(b)
  {
    var d := multiset(b) - multiset(a);
    assert multiset(b) == multiset(a) + d;
    assert |multiset(b)| == |multiset(a)| + |d|;
  }

  // Carrier rate updates

  datatype CarrierRate = CarrierRate(
    id: string,
    carrierName: string,
    serviceType: string,
    baseRatePerKg: real,
    fuelSurchargePercentage: real,
    insuranceRatePercentage: real,
    signatureFee: real,
    domesticMultiplier: real,
    internationalMultiplier: real,
    minWeight: real,
    maxWeight: real,
    coveredCountries: seq<string>,
    excludedPincodes: seq<string>,
    pickupCutoffTime: string,
    estimatedDeliveryDays: int,
    maxDimensions: map<string, real>,
    isActive: bool,
    effectiveFrom: int,
    effectiveUntil: Option<int>,
    createdBy: string,
    updatedBy: Option<string>,
    createdAt: int,
    updatedAt: int)

  /** Every field optional; a field left out (None) is not written. */
  datatype CarrierRateUpdate = CarrierRateUpdate(
    carrierName: Option<string>,
    serviceType: Option<string>,
    baseRatePerKg: Option<real>,
    fuelSurchargePercentage: Option<real>,
    insuranceRatePercentage: Option<real>,
    signatureFee: Option<real>,
    domesticMultiplier: Option<real>,
    internationalMultiplier: Option<real>,
    minWeight: Option<real>,
    maxWeight: Option<real>,
    coveredCountries: Option<seq<string>>,
    excludedPincodes: Option<seq<string>>,
    pickupCutoffTime: Option<string>,
    estimatedDeliveryDays: Option<int>,
    maxDimensions: Option<map<string, real>>,
    isActive: Option<bool>,
    effectiveUntil: Option<int>)

  const NoRateChanges: CarrierRateUpdate :=
    CarrierRateUpdate(None, None, None, None, None, None, None, None, None, None, None, None, None, None, None, None, None)

  /** The `$set` of `update_carrier_rate`: the fields given, plus who updated it and when. */
  function ApplyRateUpdate(rate: CarrierRate, u: CarrierRateUpdate, adminId: string, now: int): (r: CarrierRate)
    ensures r.id == rate.id && r.effectiveFrom == rate.effectiveFrom && r.createdBy == rate.createdBy && r.createdAt == rate.createdAt
    ensures r.updatedBy == Some(adminId) && r.updatedAt == now
    ensures r.carrierName == u.carrierName.GetOr(rate.carrierName) && r.serviceType == u.serviceType.GetOr(rate.serviceType)
    ensures r.baseRatePerKg == u.baseRatePerKg.GetOr(rate.baseRatePerKg)
    ensures r.fuelSurchargePercentage == u.fuelSurchargePercentage.GetOr(rate.fuelSurchargePercentage)
    ensures r.insuranceRatePercentage == u.insuranceRatePercentage.GetOr(rate.insuranceRatePercentage)
    ensures r.signatureFee == u.signatureFee.GetOr(rate.signatureFee)
    ensures r.domesticMultiplier == u.domesticMultiplier.GetOr(rate.domesticMultiplier)
    ensures r.internationalMultiplier == u.internationalMultiplier.GetOr(rate.internationalMultiplier)
    ensures r.minWeight == u.minWeight.GetOr(rate.minWeight) && r.maxWeight == u.maxWeight.GetOr(rate.maxWeight)
    ensures r.coveredCountries == u.coveredCountries.GetOr(rate.coveredCountries)
    ensures r.excludedPincodes == u.excludedPincodes.GetOr(rate.excludedPincodes)
    ensures r.pickupCutoffTime == u.pickupCutoffTime.GetOr(rate.pickupCutoffTime)
    ensures r.estimatedDeliveryDays == u.estimatedDeliveryDays.GetOr(rate.estimatedDeliveryDays)
    ensures r.maxDimensions == u.maxDimensions.GetOr(rate.maxDimensions)
    ensures r.isActive == u.isActive.GetOr(rate.isActive)
    ensures u.effectiveUntil.Some? ==> r.effectiveUntil == u.effectiveUntil
    ensures u.effectiveUntil.None? ==> r.effectiveUntil == rate.effectiveUntil
  {
    rate.(
      carrierName := u.carrierName.GetOr(rate.carrierName),
      serviceType := u.serviceType.GetOr(rate.serviceType),
      baseRatePerKg := u.baseRatePerKg.GetOr(rate.baseRatePerKg),
      fuelSurchargePercentage := u.fuelSurchargePercentage.GetOr(rate.fuelSurchargePercentage),
      insuranceRatePercentage := u.insuranceRatePercentage.GetOr(rate.insuranceRatePercentage),
      signatureFee := u.signatureFee.GetOr(rate.signatureFee),
      domesticMultiplier := u.domesticMultiplier.GetOr(rate.domesticMultiplier),
      internationalMultiplier := u.internationalMultiplier.GetOr(rate.internationalMultiplier),
      minWeight := u.minWeight.GetOr(rate.minWeight),
      maxWeight := u.maxWeight.GetOr(rate.maxWeight),
      coveredCountries := u.coveredCountries.GetOr(rate.coveredCountries),
      excludedPincodes := u.excludedPincodes.GetOr(rate.excludedPincodes),
      pickupCutoffTime := u.pickupCutoffTime.GetOr(rate.pickupCutoffTime),
      estimatedDeliveryDays := u.estimatedDeliveryDays.GetOr(rate.estimatedDeliveryDays),
      maxDimensions := u.maxDimensions.GetOr(rate.maxDimensions),
      isActive := u.isActive.GetOr(rate.isActive),
      effectiveUntil := if u.effectiveUntil.Some? then u.effectiveUntil else rate.effectiveUntil,
      updatedBy := Some(adminId),
      updatedAt := now)
  }

  /** An update with no fields only stamps the rate; applying an update twice is applying it once. */
  lemma RateUpdateLaws(rate: CarrierRate, u: CarrierRateUpdate, adminId: string, now: int)
    ensures ApplyRateUpdate(rate, NoRateChanges, adminId, now) == rate.(updatedBy := Some(adminId), updatedAt := now)
    ensures ApplyRateUpdate(ApplyRateUpdate(rate, u, adminId, now), u, adminId, now) == ApplyRateUpdate(rate, u, adminId, now)
  {
  }

  function FindRate(store: seq<CarrierRate>, id: string): (r: Option<nat>)
    ensures r.Some? ==> r.value < |store| && store[r.value].id == id && forall k :: 0 <= k < r.value ==> store[k].id != id
    ensures r.None? <==> forall k :: 0 <= k < |store| ==> store[k].id != id
  {
    if store == [] then None
    else if store[0].id == id then Some(0)
    else
      var rest := FindRate(store[1..], id);
      if rest.None? then None else Some(rest.value + 1)
  }

  /**
   `update_carrier_rate`: the first rate with the id is updated; the updated
   rate is returned only when the write changed it, and nothing else in the
   store changes.
   */
  function UpdateCarrierRate(store: seq<CarrierRate>, id: string, u: CarrierRateUpdate, adminId: string, now: int)
    : (r: (Option<CarrierRate>, seq<CarrierRate>))
    ensures FindRate(store, id).None? ==> r == (None, store)
    ensures FindRate(store, id).Some? ==> var i := FindRate(store, id).value;
      |r.1| == |store| && r.1[i] == ApplyRateUpdate(store[i], u, adminId, now)
      && (forall k :: 0 <= k < |store| && k != i ==> r.1[k] == store[k])
      && (r.0.Some? <==> r.1[i] != store[i])
      && (r.0.Some? ==> r.0.value == r.1[i])
  {
    match FindRate(store, id)
    case None => (None, store)
    case Some(i) =>
      var updated := ApplyRateUpdate(store[i], u, adminId, now);
      (if updated != store[i] then Some(updated) else None, store[i := updated])
  }

  /** The rate lookup sees only the ids. */
  lemma {:induction false} FindRateSeesIds(a: seq<CarrierRate>, b: seq<CarrierRate>, id: string)
    requires |a| == |b| && forall k :: 0 <= k < |a| ==> a[k].id == b[k].id
    ensures FindRate(a, id) == FindRate(b, id)
  {
    if a != [] {
      assert forall k :: 0 <= k < |a| - 1 ==> a[1..][k].id == b[1..][k].id by {
        forall k | 0 <= k < |a| - 1 ensures a[1..][k].id == b[1..][k].id {
          assert a[1..][k] == a[k + 1] && b[1..][k] == b[k + 1];
        }
      }
      FindRateSeesIds(a[1..], b[1..], id);
    }
  }

  /**
   Repeating an update by the same admin at the same instant changes nothing
   more, so the repeat is reported as no update.
   */
  lemma RepeatedRateUpdateUnreported(store: seq<CarrierRate>, id: string, u: CarrierRateUpdate, adminId: string, now: int,
                                     once: seq<CarrierRate>)
    requires FindRate(store, id).Some?
    requires once == UpdateCarrierRate(store, id, u, adminId, now).1
    ensures UpdateCarrierRate(once, id, u, adminId, now) == (None, once)
  {
    var i := FindRate(store, id).value;
    FindRateSeesIds(once, store, id);
    RateUpdateLaws(store[i], u, adminId, now);
    assert once[i] == ApplyRateUpdate(store[i], u, adminId, now);
    assert once[i := ApplyRateUpdate(once[i], u, adminId, now)] == once;
  }

  /** A rate last stamped at another time is always reported updated. */
  lemma RateUpdateReported(store: seq<CarrierRate>, id: string, u: CarrierRateUpdate, adminId: string, now: int)
    requires FindRate(store, id).Some? && store[FindRate(store, id).value].updatedAt != now
    ensures UpdateCarrierRate(store, id, u, adminId, now).0.Some?
  {
  }
}

=== FILE: blog.dfy ===
/**
 The blog service: slugs generated from titles, the rule that keeps a new
 post's slug unique, the publication time, updates, listing, view counting,
 CSV import bookkeeping and the sitemap. Character classes are ASCII.
 */
module Blog {
  import opened Wrappers
  import opened Text
  import Seqs

  // Slugs

  /** `\w` on ASCII: letters, digits and underscore. */
  predicate IsWordChar(c: char) { IsLetter(c) || IsDigit(c) || c == '_' }

  /** The characters a run of which collapses to one '-': whitespace, '_' and '-'. */
  predicate IsSep(c: char) { IsSpace(c) || c == '_' || c == '-' }

  /** Kept by the first substitution: word characters, whitespace and '-'. */
  predicate Kept(c: char) { IsWordChar(c) || IsSpace(c) || c == '-' }

  /** Characters that survive the first substitution, already lower-cased. */
  predicate AllKeptLower(s: string)
  {
    forall i :: 0 <= i < |s| ==> Kept(s[i]) && !IsUpper(s[i])
  }

  predicate SlugChar(c: char) { IsLower(c) || IsDigit(c) || c == '-' }

  predicate AllSlugChars(s: string)
  {
    forall i :: 0 <= i < |s| ==> SlugChar(s[i])
  }

  predicate NoDoubleDash(s: string)
  {
    forall i :: 0 <= i < |s| - 1 ==> !(s[i] == '-' && s[i + 1] == '-')
  }

  /** The shape of every generated slug: lower-case letters, digits and single inner dashes. */
  predicate IsSlug(s: string)
  {
    && AllSlugChars(s)
    && NoDoubleDash(s)
    && (s == [] || (s[0] != '-' && s[|s| - 1] != '-'))
  }

  /** `re.sub(r'[^\w\s-]', '', s)`: drops every other character. */
  function CleanChars(s: string): (r: string)
    ensures |r| <= |s|
    ensures forall i :: 0 <= i < |r| ==> Kept(r[i])
    ensures (forall i :: 0 <= i < |s| ==> !IsUpper(s[i])) ==> AllKeptLower(r)
    ensures (forall i :: 0 <= i < |s| ==> Kept(s[i])) ==> r == s
  {
    if s == [] then []
    else (if Kept(s[0]) then [s[0]] else []) + CleanChars(s[1..])
  }

  /** The input without its leading run of separators. */
  function DropSeps(s: string): (r: string)
    ensures |r| <= |s|
    ensures AllKeptLower(s) ==> AllKeptLower(r)
    ensures r == [] || !IsSep(r[0])
    ensures s != [] && IsSep(s[0]) ==> |r| < |s|
    ensures s == [] || !IsSep(s[0]) ==> r == s
  {
    if s != [] && IsSep(s[0]) then
      KeptLowerTail(s);
      DropSeps(s[1..])
    else s
  }

  /** `re.sub(r'[\s_-]+', '-', s)`: every maximal run of separators becomes one '-'. */
  function Collapse(s: string): (r: string)
    ensures r == [] <==> s == []
    ensures AllKeptLower(s) ==> AllSlugChars(r)
    ensures NoDoubleDash(r)
    ensures s != [] && !IsSep(s[0]) ==> r[0] == s[0]
    ensures s != [] && IsSep(s[0]) ==> r[0] == '-'
    decreases |s|
  {
    if s == [] then []
    else if IsSep(s[0]) then
      var t := DropSeps(s);
      var rest := Collapse(t);
      CollapseSepStep(t, rest);
      "-" + rest
    else
      var rest := Collapse(s[1..]);
      CollapseCharStep(s, rest);
      [s[0]] + rest
  }

  /** One '-' in place of a run of separators, followed by the collapse of what comes after the run. */
  lemma CollapseSepStep(t: string, rest: string)
    requires t == [] || !IsSep(t[0])
    requires rest == [] <==> t == []
    requires AllKeptLower(t) ==> AllSlugChars(rest)
    requires NoDoubleDash(rest)
    requires t != [] ==> rest[0] == t[0]
    ensures AllKeptLower(t) ==> AllSlugChars("-" + rest)
    ensures NoDoubleDash("-" + rest)
  {
    assert forall i :: 1 <= i < |"-" + rest| ==> ("-" + rest)[i] == rest[i - 1];
  }

  lemma KeptLowerTail(s: string)
    requires s != []
    ensures AllKeptLower(s) ==> AllKeptLower(s[1..])
  {
    assert forall i :: 0 <= i < |s[1..]| ==> s[1..][i] == s[i + 1];
  }

  /** A character that is no separator followed by the collapse of the rest. */
  lemma CollapseCharStep(s: string, rest: string)
    requires s != [] && !IsSep(s[0])
    requires rest == [] <==> s[1..] == []
    requires AllKeptLower(s[1..]) ==> AllSlugChars(rest)
    requires NoDoubleDash(rest)
    ensures AllKeptLower(s) ==> AllSlugChars([s[0]] + rest)
    ensures NoDoubleDash([s[0]] + rest)
  {
    KeptLowerTail(s);
    assert forall i :: 1 <= i < |[s[0]] + rest| ==> ([s[0]] + rest)[i] == rest[i - 1];
  }

  /** `strip('-')`. */
  function StripDashes(s: string): (r: string)
    ensures |r| <= |s|
    ensures AllSlugChars(s) ==> AllSlugChars(r)
    ensures NoDoubleDash(s) ==> NoDoubleDash(r)
    ensures r == [] || (r[0] != '-' && r[|r| - 1] != '-')
    ensures s == [] || (s[0] != '-' && s[|s| - 1] != '-') ==> r == s
  {
    RStripDash(LStripDash(s))
  }

  function LStripDash(s: string): (r: string)
    ensures |r| <= |s| && forall i :: 0 <= i < |r| ==> r[i] == s[|s| - |r| + i]
    ensures AllSlugChars(s) ==> AllSlugChars(r)
    ensures NoDoubleDash(s) ==> NoDoubleDash(r)
    ensures r == [] || r[0] != '-'
    ensures r != [] ==> r[|r| - 1] == s[|s| - 1]
    ensures s == [] || s[0] != '-' ==> r == s
  {
    if s != [] && s[0] == '-' then
      var r := LStripDash(s[1..]);
      assert forall i :: 0 <= i < |s| - 1 ==> s[1..][i] == s[i + 1];
      r
    else s
  }

  function RStripDash(s: string): (r: string)
    ensures |r| <= |s| && forall i :: 0 <= i < |r| ==> r[i] == s[i]
    ensures AllSlugChars(s) ==> AllSlugChars(r)
    ensures NoDoubleDash(s) ==> NoDoubleDash(r)
    ensures r != [] ==> r[0] == s[0]
    ensures r == [] || r[|r| - 1] != '-'
    ensures s == [] || s[|s| - 1] != '-' ==> r == s
  {
    if s != [] && s[|s| - 1] == '-' then RStripDash(s[..|s| - 1]) else s
  }

  /**
   `_generate_slug`: lower-case, drop other characters, collapse separator
   runs to '-', strip '-'. The result always has the slug shape.
   */
  function Slug(title: string): (r: string)
    ensures IsSlug(r)
  {
    LowerHasNoUpper(title);
    StripDashes(Collapse(CleanChars(Lower(title))))
  }

  lemma LowerHasNoUpper(s: string)
    ensures forall i :: 0 <= i < |Lower(s)| ==> !IsUpper(Lower(s)[i])
  {
  }

  /** Every generated slug has the slug shape: no whitespace, '_' or "--", and no dash at either end. */
  lemma SlugIsSlug(title: string)
    ensures IsSlug(Slug(title))
  {
    LowerHasNoUpper(title);
  }

  /** A separator-free string apart from single dashes collapses to itself. */
  /** Separators occur only as single dashes. */
  predicate SingleDashes(s: string)
  {
    && (forall i :: 0 <= i < |s| ==> s[i] == '-' || !IsSep(s[i]))
    && NoDoubleDash(s)
  }

  lemma SingleDashesTail(s: string)
    requires s != [] && SingleDashes(s)
    ensures SingleDashes(s[1..])
    ensures s[0] == '-' ==> DropSeps(s) == s[1..]
  {
    assert forall i :: 0 <= i < |s[1..]| ==> s[1..][i] == s[i + 1];
  }

  /** A separator-free string apart from single dashes collapses to itself. */
  lemma {:induction false} CollapseFixes(s: string)
    requires SingleDashes(s)
    ensures Collapse(s) == s
    decreases |s|
  {
    if s != [] {
      var t := s[1..];
      SingleDashesTail(s);
      CollapseFixes(t);
      assert s == [s[0]] + t;
    }
  }

  lemma LowerFixes(s: string)
    requires AllSlugChars(s)
    ensures Lower(s) == s
  {
  }

  lemma CleanFixes(s: string)
    requires AllSlugChars(s)
    ensures CleanChars(s) == s
  {
    assert forall i :: 0 <= i < |s| ==> Kept(s[i]);
  }

  lemma SlugCharsAreSingleDashes(s: string)
    requires AllSlugChars(s) && NoDoubleDash(s)
    ensures SingleDashes(s)
  {
  }

  /** A string of slug shape is its own slug. */
  lemma SlugFixesSlugs(s: string)
    requires IsSlug(s)
    ensures Slug(s) == s
  {
    LowerFixes(s);
    CleanFixes(s);
    SlugCharsAreSingleDashes(s);
    CollapseFixes(s);
    assert Slug(s) == StripDashes(Collapse(CleanChars(Lower(s))));
  }

  /** Slugging is idempotent, and a string is its own slug exactly when it has the slug shape. */
  lemma SlugIdempotent(title: string, s: string)
    ensures Slug(Slug(title)) == Slug(title)
    ensures Slug(s) == s <==> IsSlug(s)
  {
    SlugIsSlug(title);
    SlugFixesSlugs(Slug(title));
    SlugIsSlug(s);
    if IsSlug(s) {
      SlugFixesSlugs(s);
    }
  }

  /** The `counter`-th alternative to a taken slug. */
  function Candidate(slug: string, counter: nat): (r: string)
    ensures |r| > |slug| + 1 && r[..|slug|] == slug && r[|slug|] == '-'
  {
    slug + "-" + Dec(counter)
  }

  lemma CandidateInjective(slug: string, a: nat, b: nat)
    requires Candidate(slug, a) == Candidate(slug, b)
    ensures a == b
  {
    assert Candidate(slug, a)[|slug| + 1..] == Dec(a);
    assert Candidate(slug, b)[|slug| + 1..] == Dec(b);
    DecInjective(a, b);
  }

  /**
   The uniqueness loop of `create_blog_post`: a free slug is kept; a taken
   one becomes the first free of slug-1, slug-2, ... `counter` is 0 when the
   slug was free, else the suffix chosen.
   */
  method UniqueSlug(slug: string, existing: set<string>) returns (r: string, counter: nat)
    ensures r !in existing
    ensures counter == 0 <==> slug !in existing
    ensures counter == 0 ==> r == slug
    ensures counter > 0 ==> r == Candidate(slug, counter) && forall j :: 1 <= j < counter ==> Candidate(slug, j) in existing
  {
    if slug !in existing {
      return slug, 0;
    }
    counter := 1;
    r := Candidate(slug, 1);
    ghost var taken: set<string> := {};
    while r in existing
      invariant counter >= 1 && r == Candidate(slug, counter)
      invariant taken == set j | 1 <= j < counter :: Candidate(slug, j)
      invariant taken <= existing
      invariant forall j :: 1 <= j < counter ==> Candidate(slug, j) in existing
      decreases |existing| - |taken|
    {
      if r in taken {
        var j :| 1 <= j < counter && Candidate(slug, j) == r;
        CandidateInjective(slug, j, counter);
      }
      SubsetCard(taken + {r}, existing);
      taken := taken + {r};
      counter := counter + 1;
      r := Candidate(slug, counter);
    }
  }

  lemma {:induction false} SubsetCard<T>(a: set<T>, b: set<T>)
    requires a <= b
    ensures |a| <= |b|
    decreases |b|
  {
    if a != {} {
      var x :| x in a;
      SubsetCard(a - {x}, b - {x});
    }
  }

  // Posts

  datatype PostStatus = Draft | Published | Archived | Scheduled

  datatype Post = Post(
    id: string,
    title: string,
    slug: string,
    content: string,
    category: string,
    status: PostStatus,
    publishedAt: Option<int>,
    scheduledFor: Option<int>,
    viewCount: nat,
    featured: bool,
    sticky: bool,
    createdAt: int,
    updatedAt: int)

  datatype PostCreate = PostCreate(
    title: string, slug: Option<string>, content: string, category: string,
    status: PostStatus, scheduledFor: Option<int>, featured: bool, sticky: bool)

  /** Publication time on create: now when published, the scheduled time when scheduled with one, else none. */
  function PublishedAt(status: PostStatus, scheduledFor: Option<int>, now: int): (r: Option<int>)
    ensures r.Some? <==> status == Published || (status == Scheduled && scheduledFor.Some?)
    ensures r.Some? ==> r.value == (if status == Published then now else scheduledFor.value)
  {
    if status == Published then Some(now)
    else if status == Scheduled && scheduledFor.Some? then scheduledFor
    else None
  }

  function Slugs(store: seq<Post>): (r: set<string>)
    ensures forall s :: s in r <==> exists k :: 0 <= k < |store| && store[k].slug == s
  {
    set k | 0 <= k < |store| :: store[k].slug
  }

  /** The slug a create request asks for: its own when given and non-empty, otherwise the title's. */
  function BaseSlug(req: PostCreate): string
  {
    if req.slug.Some? && req.slug.value != "" then req.slug.value else Slug(req.title)
  }

  /**
   `create_blog_post`: an explicit, non-empty slug is used as given,
   otherwise the title's slug; either way it is made unique among the stored
   posts before the post is added: a taken slug becomes the first free of
   slug-1, slug-2, ...
   */
  method CreatePost(store: seq<Post>, req: PostCreate, id: string, now: int) returns (p: Post, store': seq<Post>)
    ensures p.slug !in Slugs(store)
    ensures BaseSlug(req) !in Slugs(store) ==> p.slug == BaseSlug(req)
    ensures BaseSlug(req) in Slugs(store) ==>
      exists n: nat :: n >= 1 && p.slug == Candidate(BaseSlug(req), n)
        && forall j :: 1 <= j < n ==> Candidate(BaseSlug(req), j) in Slugs(store)
    ensures p == Post(id, req.title, p.slug, req.content, req.category, req.status,
                      PublishedAt(req.status, req.scheduledFor, now), req.scheduledFor, 0,
                      req.featured, req.sticky, now, now)
    ensures req.slug.Some? && req.slug.value != "" && req.slug.value !in Slugs(store) ==> p.slug == req.slug.value
    ensures (req.slug.None? || req.slug.value == "") && Slug(req.title) !in Slugs(store) ==> p.slug == Slug(req.title)
    ensures p.publishedAt == PublishedAt(req.status, req.scheduledFor, now)
    ensures p.viewCount == 0 && p.status == req.status && p.title == req.title
    ensures store' == store + [p]
  {
    var base := BaseSlug(req);
    var slug, counter := UniqueSlug(base, Slugs(store));
    p := Post(id, req.title, slug, req.content, req.category, req.status, PublishedAt(req.status, req.scheduledFor, now),
              req.scheduledFor, 0, req.featured, req.sticky, now, now);
    store' := store + [p];
  }

  /** The fields of `BlogPostUpdate` the model keeps; `None` is a field not given. */
  datatype PostUpdate = PostUpdate(
    title: Option<string>, slug: Option<string>, content: Option<string>, category: Option<string>,
    status: Option<PostStatus>, scheduledFor: Option<int>, featured: Option<bool>, sticky: Option<bool>)

  /** The first post with the id. */
  function FindPost(store: seq<Post>, id: string): (r: Option<nat>)
    ensures r.Some? ==> r.value < |store| && store[r.value].id == id && forall k :: 0 <= k < r.value ==> store[k].id != id
    ensures r.None? <==> forall k :: 0 <= k < |store| ==> store[k].id != id
  {
    Seqs.FirstWhere(store, (p: Post) => p.id == id)
  }

  /** The slug an update writes: an explicit slug slugged again, else the new title's slug, else none. */
  function UpdatedSlug(u: PostUpdate): (r: Option<string>)
    ensures r.Some? <==> u.title.Some? || u.slug.Some?
    ensures r.Some? ==> IsSlug(r.value)
    ensures u.slug.Some? ==> r == Some(Slug(u.slug.value))
    ensures u.slug.None? && u.title.Some? ==> r == Some(Slug(u.title.value))
  {
    if u.slug.Some? then SlugIsSlug(u.slug.value); Some(Slug(u.slug.value))
    else if u.title.Some? then SlugIsSlug(u.title.value); Some(Slug(u.title.value))
    else None
  }

  /** The post an update writes: the given fields, the regenerated slug, and a publication time only on a move into "published". */
  function PatchPost(o: Post, u: PostUpdate, now: int, publishNow: int): (p: Post)
    ensures p.id == o.id && p.viewCount == o.viewCount && p.createdAt == o.createdAt && p.updatedAt == now
    ensures p.title == u.title.GetOr(o.title)
    ensures p.slug == UpdatedSlug(u).GetOr(o.slug)
    ensures p.content == u.content.GetOr(o.content)
    ensures p.category == u.category.GetOr(o.category)
    ensures p.status == u.status.GetOr(o.status)
    ensures p.scheduledFor == (if u.scheduledFor.Some? then u.scheduledFor else o.scheduledFor)
    ensures p.featured == u.featured.GetOr(o.featured)
    ensures p.sticky == u.sticky.GetOr(o.sticky)
    ensures p.publishedAt == (if u.status == Some(Published) && o.status != Published then Some(publishNow) else o.publishedAt)
  {
    o.(title := u.title.GetOr(o.title),
       slug := UpdatedSlug(u).GetOr(o.slug),
       content := u.content.GetOr(o.content),
       category := u.category.GetOr(o.category),
       status := u.status.GetOr(o.status),
       scheduledFor := if u.scheduledFor.Some? then u.scheduledFor else o.scheduledFor,
       featured := u.featured.GetOr(o.featured),
       sticky := u.sticky.GetOr(o.sticky),
       publishedAt := if u.status == Some(Published) && o.status != Published then Some(publishNow) else o.publishedAt,
       updatedAt := now)
  }

  /**
   `update_blog_post`: nothing when no post has the id; otherwise the post
   is patched in place, and the service reports nothing also when the patch
   changes nothing (Mongo's `modified_count` is 0). The update time and the
   publication time are two clock readings. Uniqueness of the slug is not
   checked again.
   */
  function UpdatePost(store: seq<Post>, id: string, u: PostUpdate, now: int, publishNow: int): (r: Option<(Post, seq<Post>)>)
    ensures r.None? <==> FindPost(store, id).None? || PatchPost(store[FindPost(store, id).value], u, now, publishNow) == store[FindPost(store, id).value]
    ensures r.Some? ==> var i := FindPost(store, id).value;
      && r.value.0 == PatchPost(store[i], u, now, publishNow)
      && r.value.0 != store[i]
      && r.value.1 == store[i := r.value.0]
  {
    match FindPost(store, id)
    case None => None
    case Some(i) =>
      var p := PatchPost(store[i], u, now, publishNow);
      if p == store[i] then None else Some((p, store[i := p]))
  }

  /** An update that gives no field is reported exactly when it moves the update time. */
  lemma EmptyUpdateReportedIffNewTime(store: seq<Post>, id: string, now: int, publishNow: int)
    requires FindPost(store, id).Some?
    ensures var u := PostUpdate(None, None, None, None, None, None, None, None);
      UpdatePost(store, id, u, now, publishNow).Some? <==> store[FindPost(store, id).value].updatedAt != now
  {
  }

  /** Repeating an update at the same instant writes nothing new, so the service reports nothing the second time. */
  lemma RepeatedPostUpdateUnreported(store: seq<Post>, id: string, u: PostUpdate, now: int, publishNow: int,
                                     once: Option<(Post, seq<Post>)>)
    requires once == UpdatePost(store, id, u, now, publishNow) && once.Some?
    ensures UpdatePost(once.value.1, id, u, now, publishNow).None?
  {
    var i := FindPost(store, id).value;
    var s' := once.value.1;
    assert forall k :: 0 <= k < |s'| ==> s'[k].id == store[k].id;
    assert FindPost(s', id) == Some(i) by {
      assert s'[i].id == id;
      assert forall k :: 0 <= k < i ==> s'[k].id != id;
    }
  }

  /**
   Publishing stamps a draft once: a post already published keeps its
   publication time, and publishing again later keeps the first stamp.
   */
  lemma RepublishKeepsTime(o: Post, u: PostUpdate, t1: int, p1: int, t2: int, p2: int)
    requires u.status == Some(Published)
    ensures var p := PatchPost(o, u, t1, p1);
      && p.status == Published
      && p.publishedAt == (if o.status == Published then o.publishedAt else Some(p1))
      && PatchPost(p, u, t2, p2).publishedAt == p.publishedAt
  {
  }

  /** The listing filter: the status asked for, published by default, then category and featured. */
  predicate Listed(p: Post, category: Option<string>, status: Option<PostStatus>, featuredOnly: bool)
  {
    p.status == status.GetOr(Published)
    && (category.None? || p.category == category.value)
    && (!featuredOnly || p.featured)
  }

  /** `get_blog_posts` without search, order and paging: the posts that pass the filter, and their number. */
  function ListPosts(store: seq<Post>, category: Option<string>, status: Option<PostStatus>, featuredOnly: bool): (r: (seq<Post>, nat))
    ensures forall p :: p in r.0 <==> p in store && Listed(p, category, status, featuredOnly)
    ensures r.1 == |r.0|
  {
    var f := (p: Post) => Listed(p, category, status, featuredOnly);
    forall p ensures p in Seqs.Filter(store, f) <==> p in store && f(p) {
      Seqs.FilterMembers(store, f, p);
    }
    var xs := Seqs.Filter(store, f);
    (xs, |xs|)
  }

  /** A public listing never shows a draft, archived or scheduled post. */
  lemma PublicListingPublishedOnly(store: seq<Post>, category: Option<string>, featuredOnly: bool)
    ensures forall p :: p in ListPosts(store, category, None, featuredOnly).0 ==> p.status == Published
  {
  }

  /** The first post with the slug. */
  function FindSlug(store: seq<Post>, slug: string): (r: Option<nat>)
    ensures r.Some? ==> r.value < |store| && store[r.value].slug == slug && forall k :: 0 <= k < r.value ==> store[k].slug != slug
    ensures r.None? <==> forall k :: 0 <= k < |store| ==> store[k].slug != slug
  {
    Seqs.FirstWhere(store, (p: Post) => p.slug == slug)
  }

  /** `get_blog_post_by_slug`: the first post with the slug, counted as one more view when asked. */
  function GetBySlug(store: seq<Post>, slug: string, incrementViews: bool): (r: Option<(Post, seq<Post>)>)
    ensures r.None? <==> FindSlug(store, slug).None?
    ensures r.Some? ==> var i := FindSlug(store, slug).value;
      && |r.value.1| == |store|
      && r.value.0 == r.value.1[i]
      && r.value.0 == store[i].(viewCount := store[i].viewCount + (if incrementViews then 1 else 0))
      && forall k :: 0 <= k < |store| && k != i ==> r.value.1[k] == store[k]
  {
    match FindSlug(store, slug)
    case None => None
    case Some(i) =>
      var p := store[i].(viewCount := store[i].viewCount + (if incrementViews then 1 else 0));
      Some((p, store[i := p]))
  }

  /** Total views across the store grow by exactly one per counted read. */
  function TotalViews(store: seq<Post>): nat
  {
    if store == [] then 0 else store[0].viewCount + TotalViews(store[1..])
  }

  lemma {:induction false} TotalViewsUpdate(store: seq<Post>, i: nat, p: Post)
    requires i < |store|
    ensures TotalViews(store[i := p]) + store[i].viewCount == TotalViews(store) + p.viewCount
    decreases |store|
  {
    if i > 0 {
      TotalViewsUpdate(store[1..], i - 1, p);
      assert store[i := p][1..] == store[1..][i - 1 := p];
    }
  }

  lemma ViewCounted(store: seq<Post>, slug: string)
    requires FindSlug(store, slug).Some?
    ensures TotalViews(GetBySlug(store, slug, true).value.1) == TotalViews(store) + 1
    ensures GetBySlug(store, slug, false).value.1 == store
  {
    var i := FindSlug(store, slug).value;
    TotalViewsUpdate(store, i, GetBySlug(store, slug, true).value.0);
  }

  // CSV import

  datatype ErrorRow = RowNumber(n: nat) | General

  datatype RowError = RowError(row: ErrorRow, message: string)

  datatype ImportSummary = ImportSummary(total: nat, success: nat, errorCount: nat, errors: seq<RowError>)

  /**
   The row loop of `process_csv_import`: `outcomes[i]` is the error row i
   raises, if any; errors are numbered from 1.
   */
  function ImportRows(outcomes: seq<Option<string>>, first: nat): (r: ImportSummary)
    ensures r.total == |outcomes| && r.success + r.errorCount == r.total && r.errorCount == |r.errors|
    decreases |outcomes|
  {
    if outcomes == [] then ImportSummary(0, 0, 0, [])
    else
      var rest := ImportRows(outcomes[1..], first + 1);
      match outcomes[0]
      case None => ImportSummary(rest.total + 1, rest.success + 1, rest.errorCount, rest.errors)
      case Some(e) => ImportSummary(rest.total + 1, rest.success, rest.errorCount + 1, [RowError(RowNumber(first), e)] + rest.errors)
  }

  /** The reports of all rows are those of the first row followed by those of the rest. */
  lemma ImportRowsStep(outcomes: seq<Option<string>>, first: nat, es: seq<RowError>, rest: seq<RowError>)
    requires outcomes != [] && es == ImportRows(outcomes, first).errors && rest == ImportRows(outcomes[1..], first + 1).errors
    ensures outcomes[0].None? ==> es == rest
    ensures outcomes[0].Some? ==> es == [RowError(RowNumber(first), outcomes[0].value)] + rest
  {
  }

  /** Each failing row is reported with its own number and message. */
  lemma {:induction false} FailuresReported(outcomes: seq<Option<string>>, first: nat, es: seq<RowError>)
    requires es == ImportRows(outcomes, first).errors
    ensures forall i :: 0 <= i < |outcomes| && outcomes[i].Some? ==> RowError(RowNumber(first + i), outcomes[i].value) in es
    decreases |outcomes|
  {
    if outcomes != [] {
      var tail := outcomes[1..];
      var rest := ImportRows(tail, first + 1).errors;
      FailuresReported(tail, first + 1, rest);
      ImportRowsStep(outcomes, first, es, rest);
      forall i | 0 <= i < |outcomes| && outcomes[i].Some? ensures RowError(RowNumber(first + i), outcomes[i].value) in es {
        if i == 0 {
          assert es[0] == RowError(RowNumber(first), outcomes[0].value);
        } else {
          assert outcomes[i] == tail[i - 1];
          var x := RowError(RowNumber(first + 1 + (i - 1)), tail[i - 1].value);
          assert x in rest;
          if outcomes[0].Some? {
            var j :| 0 <= j < |rest| && rest[j] == x;
            assert es[j + 1] == x;
          }
        }
      }
    }
  }

  /** Every report names a failing row and carries its message. */
  lemma {:induction false} ReportsAreFailures(outcomes: seq<Option<string>>, first: nat, es: seq<RowError>)
    requires es == ImportRows(outcomes, first).errors
    ensures forall e :: e in es ==> e.row.RowNumber? && first <= e.row.n < first + |outcomes| && outcomes[e.row.n - first] == Some(e.message)
    decreases |outcomes|
  {
    if outcomes != [] {
      var tail := outcomes[1..];
      var rest := ImportRows(tail, first + 1).errors;
      ReportsAreFailures(tail, first + 1, rest);
      ImportRowsStep(outcomes, first, es, rest);
      forall e | e in es ensures e.row.RowNumber? && first <= e.row.n < first + |outcomes| && outcomes[e.row.n - first] == Some(e.message) {
        if e in rest {
          assert outcomes[e.row.n - first] == tail[e.row.n - (first + 1)];
        } else {
          assert e == es[0];
        }
      }
    }
  }

  /** Each failing row is reported with its own number and message, and every report names a failing row. */
  lemma ImportRowsErrors(outcomes: seq<Option<string>>, first: nat)
    ensures forall i :: 0 <= i < |outcomes| && outcomes[i].Some? ==>
      RowError(RowNumber(first + i), outcomes[i].value) in ImportRows(outcomes, first).errors
    ensures forall e :: e in ImportRows(outcomes, first).errors ==>
      e.row.RowNumber? && first <= e.row.n < first + |outcomes| && outcomes[e.row.n - first] == Some(e.message)
  {
    FailuresReported(outcomes, first, ImportRows(outcomes, first).errors);
    ReportsAreFailures(outcomes, first, ImportRows(outcomes, first).errors);
  }

  /** Reports come in row order. */
  lemma {:induction false} ImportRowsOrdered(outcomes: seq<Option<string>>, first: nat)
    ensures forall a :: 0 <= a < |ImportRows(outcomes, first).errors| ==>
      ImportRows(outcomes, first).errors[a].row.RowNumber? && ImportRows(outcomes, first).errors[a].row.n >= first
    ensures forall a, b :: 0 <= a < b < |ImportRows(outcomes, first).errors| ==>
      ImportRows(outcomes, first).errors[a].row.n < ImportRows(outcomes, first).errors[b].row.n
    decreases |outcomes|
  {
    if outcomes != [] {
      ImportRowsOrdered(outcomes[1..], first + 1);
      var rest := ImportRows(outcomes[1..], first + 1).errors;
      assert forall a :: 0 <= a < |rest| ==> rest[a].row.RowNumber? && rest[a].row.n >= first + 1;
      assert forall a, b :: 0 <= a < b < |rest| ==> rest[a].row.n < rest[b].row.n;
      if outcomes[0].Some? {
        var es := [RowError(RowNumber(first), outcomes[0].value)] + rest;
        assert ImportRows(outcomes, first).errors == es;
        assert forall a :: 1 <= a < |es| ==> es[a] == rest[a - 1];
      } else {
        assert ImportRows(outcomes, first).errors == rest;
      }
    }
  }

  /**
   `process_csv_import`: a parse failure ends with no rows and one general
   error; otherwise the rows are processed from row 1.
   */
  function ProcessCsvImport(parsed: Result<seq<Option<string>>, string>): (r: ImportSummary)
    ensures parsed.Failure? ==> r == ImportSummary(0, 0, 0, [RowError(General, parsed.error)])
    ensures parsed.Success? ==> r.success + r.errorCount == r.total == |parsed.value|
    ensures parsed.Success? ==> forall e :: e in r.errors ==> e.row.RowNumber? && 1 <= e.row.n <= r.total
  {
    match parsed
    case Failure(e) => ImportSummary(0, 0, 0, [RowError(General, e)])
    case Success(rows) => ImportRowsErrors(rows, 1); ImportRows(rows, 1)
  }

  // Sitemap

  datatype SitemapEntry = SitemapEntry(url: string, priority: string, changefreq: string, lastmod: Option<string>)

  /** The four fixed pages every sitemap lists first. */
  function StaticPages(baseUrl: string): (r: seq<SitemapEntry>)
    ensures |r| == 4
  {
    [SitemapEntry(baseUrl + "/", "1.0", "daily", None),
     SitemapEntry(baseUrl + "/quote", "0.9", "weekly", None),
     SitemapEntry(baseUrl + "/track", "0.9", "weekly", None),
     SitemapEntry(baseUrl + "/blog", "0.8", "daily", None)]
  }

  /** `lastmod` is the formatted update date of each post, passed in. */
  function PostEntries(baseUrl: string, posts: seq<Post>, dates: seq<string>): (r: seq<SitemapEntry>)
    requires |dates| == |posts|
    ensures |r| == |posts|
    ensures forall k :: 0 <= k < |r| ==> r[k] == SitemapEntry(baseUrl + "/blog/" + posts[k].slug, "0.7", "weekly", Some(dates[k]))
  {
    seq(|posts|, k requires 0 <= k < |posts| => SitemapEntry(baseUrl + "/blog/" + posts[k].slug, "0.7", "weekly", Some(dates[k])))
  }

  function RenderEntry(e: SitemapEntry): string
  {
    "  <url>\n" + "    <loc>" + e.url + "</loc>\n" + "    <priority>" + e.priority + "</priority>\n"
    + "    <changefreq>" + e.changefreq + "</changefreq>\n"
    + (if e.lastmod.Some? then "    <lastmod>" + e.lastmod.value + "</lastmod>\n" else "")
    + "  </url>\n"
  }

  function RenderEntries(es: seq<SitemapEntry>): string
  {
    if es == [] then "" else RenderEntry(es[0]) + RenderEntries(es[1..])
  }

  const XmlHeader: string := "<?xml version=\"1.0\" encoding=\"UTF-8\"?>\n"
  const UrlsetOpen: string := "<urlset xmlns=\"http://www.sitemaps.org/schemas/sitemap/0.9\">\n"
  const UrlsetClose: string := "</urlset>"

  predicate IsPublished(p: Post) { p.status == Published }

  /**
   `generate_sitemap`: the four static pages, then one entry per published
   post in store order, inside one urlset.
   */
  function Sitemap(baseUrl: string, store: seq<Post>, dates: seq<string>): (r: (seq<SitemapEntry>, string))
    requires |dates| == |Seqs.Filter(store, IsPublished)|
    ensures |r.0| == 4 + Seqs.Count(store, IsPublished)
    ensures r.0[..4] == StaticPages(baseUrl)
    ensures forall k :: 4 <= k < |r.0| ==>
      var p := Seqs.Filter(store, IsPublished)[k - 4]; p in store && p.status == Published && r.0[k].url == baseUrl + "/blog/" + p.slug
    ensures r.1 == XmlHeader + UrlsetOpen + RenderEntries(r.0) + UrlsetClose
  {
    var published := Seqs.Filter(store, IsPublished);
    var es := StaticPages(baseUrl) + PostEntries(baseUrl, published, dates);
    (es, XmlHeader + UrlsetOpen + RenderEntries(es) + UrlsetClose)
  }

  /** Every published post's page is in the sitemap. */
  lemma SitemapListsPublished(baseUrl: string, store: seq<Post>, dates: seq<string>, p: Post)
    requires |dates| == |Seqs.Filter(store, IsPublished)|
    requires p in store && p.status == Published
    ensures exists k :: 4 <= k < |Sitemap(baseUrl, store, dates).0| && Sitemap(baseUrl, store, dates).0[k].url == baseUrl + "/blog/" + p.slug
  {
    var published := Seqs.Filter(store, IsPublished);
    Seqs.FilterMembers(store, IsPublished, p);
    var j :| 0 <= j < |published| && published[j] == p;
    assert Sitemap(baseUrl, store, dates).0[4 + j].url == baseUrl + "/blog/" + p.slug;
  }
}

=== FILE: booking.dfy ===
/**
 The booking service: AWB generation, the carrier tables, the fallback cost
 estimate, booking creation, the status-update primitive and the one-step
 demo progression. The clock and the random AWB digits are parameters.
 */
module Booking {
  import opened Wrappers
  import opened Text
  import opened Seqs
  import opened Shipments

  const Day: int := 86400

  /** The two-letter AWB prefix of a carrier; unknown carriers get "XF". */
  function AwbPrefix(carrier: string): (p: string)
    ensures p in {"XF", "FX", "DH", "AR", "UP"}
    ensures carrier !in {XFasSelf, FedEx, Dhl, Aramex, Ups} ==> p == "XF"
  {
    if carrier == XFasSelf then "XF"
    else if carrier == FedEx then "FX"
    else if carrier == Dhl then "DH"
    else if carrier == Aramex then "AR"
    else if carrier == Ups then "UP"
    else "XF"
  }

  /** The carriers with their own prefix are told apart by it. */
  lemma AwbPrefixDistinct()
    ensures AwbPrefix(FedEx) != AwbPrefix(Dhl) && AwbPrefix(FedEx) != AwbPrefix(Aramex)
    ensures AwbPrefix(FedEx) != AwbPrefix(Ups) && AwbPrefix(Dhl) != AwbPrefix(Aramex)
    ensures AwbPrefix(Dhl) != AwbPrefix(Ups) && AwbPrefix(Aramex) != AwbPrefix(Ups)
    ensures forall c :: AwbPrefix(c) == "XF" <==> c !in {FedEx, Dhl, Aramex, Ups}
  {
  }

  /** An AWB: the carrier prefix followed by ten random decimal digits, given as `draws`. */
  function GenerateAwb(carrier: string, draws: seq<nat>): (awb: string)
    requires |draws| == 10 && forall i :: 0 <= i < 10 ==> draws[i] < 10
    ensures |awb| == 12 && awb[..2] == AwbPrefix(carrier)
    ensures AllDigits(awb[2..])
    ensures forall i :: 0 <= i < 10 ==> DigitValue(awb[i + 2]) == draws[i]
  {
    AwbPrefix(carrier) + DigitString(draws)
  }

  /** Estimated transit days per carrier, five for unknown carriers. */
  function EstimatedDays(carrier: string): (d: nat)
    ensures 2 <= d <= 5
    ensures carrier !in {XFasSelf, FedEx, Dhl, Aramex, Ups} ==> d == 5
  {
    if carrier == XFasSelf then 3
    else if carrier == FedEx then 3
    else if carrier == Dhl then 2
    else if carrier == Aramex then 5
    else if carrier == Ups then 4
    else 5
  }

  /** The carrier's price multiplier over the flat per-kilogram rate. */
  function CostMultiplier(carrier: string): (m: real)
    ensures 0.8 <= m <= 1.4
  {
    if carrier == XFasSelf then 0.8
    else if carrier == FedEx then 1.3
    else if carrier == Dhl then 1.4
    else if carrier == Aramex then 1.1
    else if carrier == Ups then 1.2
    else 1.0
  }

  /** The fallback price when no quote is given: 150 per kg times the carrier multiplier, at least 200. */
  function EstimateCost(carrier: string, weight: real): (c: real)
    ensures c >= 200.0
    ensures c >= weight * 150.0 * CostMultiplier(carrier)
    ensures c == 200.0 || c == weight * 150.0 * CostMultiplier(carrier)
  {
    var base := weight * 150.0 * CostMultiplier(carrier);
    if base > 200.0 then base else 200.0
  }

  /** A heavier parcel never costs less. */
  lemma EstimateCostMonotone(carrier: string, w1: real, w2: real)
    requires w1 <= w2
    ensures EstimateCost(carrier, w1) <= EstimateCost(carrier, w2)
  {
    var m := CostMultiplier(carrier);
    assert w1 * 150.0 * m <= w2 * 150.0 * m by {
      assert (w2 - w1) * 150.0 * m >= 0.0;
    }
  }

  /** The event label of a status: its value with '_' replaced by ' ', title-cased. */
  function StatusLabel(st: Status): (lbl: string)
    ensures |lbl| == |StatusValue(st)|
  {
    Title(ReplaceChar(StatusValue(st), '_', ' '))
  }

  /** A label decodes back to its status value: lower-case it and turn spaces back into '_'. */
  lemma StatusLabelRoundTrip(st: Status)
    ensures ReplaceChar(Lower(StatusLabel(st)), ' ', '_') == StatusValue(st)
  {
    var v := StatusValue(st);
    var spaced := ReplaceChar(v, '_', ' ');
    LowerTitle(spaced);
    StatusValueText(st);
    var back := ReplaceChar(Lower(spaced), ' ', '_');
    forall i | 0 <= i < |v|
      ensures back[i] == v[i]
    {
      assert IsLower(v[i]) || v[i] == '_';
    }
  }

  /** Lower-casing a label gives the status value with '_' turned into ' '. */
  lemma LowerStatusLabel(st: Status)
    ensures Lower(StatusLabel(st)) == ReplaceChar(StatusValue(st), '_', ' ')
    ensures Lower(ReplaceChar(StatusValue(st), '_', ' ')) == ReplaceChar(StatusValue(st), '_', ' ')
  {
    var v := StatusValue(st);
    var spaced := ReplaceChar(v, '_', ' ');
    LowerTitle(spaced);
    StatusValueText(st);
    forall i | 0 <= i < |v|
      ensures Lower(spaced)[i] == spaced[i]
    {
      assert IsLower(v[i]) || v[i] == '_';
    }
  }

  /** Distinct statuses get distinct event labels. */
  lemma StatusLabelInjective(a: Status, b: Status)
    requires StatusLabel(a) == StatusLabel(b)
    ensures a == b
  {
    StatusLabelRoundTrip(a);
    StatusLabelRoundTrip(b);
    StatusValuesRoundTrip();
    assert ParseStatus(StatusValue(a)) == Some(a);
  }

  /** The description of a status event: the given one, or a default naming the status when it is empty. */
  function EventDescription(st: Status, description: string): (d: string)
    ensures description != [] ==> d == description
    ensures description == [] ==> d == "Shipment status updated to " + StatusValue(st)
  {
    if description == [] then "Shipment status updated to " + StatusValue(st) else description
  }

  /**
   The status-update primitive. No transition rule: any status may follow any
   other. Exactly one event is appended; the delivery date is stamped on
   DELIVERED; nothing else changes.
   */
  function UpdateStatus(s: Shipment, newStatus: Status, location: string, description: string, now: int): (r: Shipment)
    ensures r.status == newStatus
    ensures |r.events| == |s.events| + 1 && r.events[..|s.events|] == s.events
    ensures r.events[|s.events|] == TrackingEvent(now, StatusLabel(newStatus), location, EventDescription(newStatus, description))
    ensures r.updatedAt == now
    ensures r.deliveryDate == (if newStatus == Delivered then Some(now) else s.deliveryDate)
    ensures r.(status := s.status, events := s.events, updatedAt := s.updatedAt, deliveryDate := s.deliveryDate) == s
  {
    var ev := TrackingEvent(now, StatusLabel(newStatus), location, EventDescription(newStatus, description));
    s.(status := newStatus,
       events := s.events + [ev],
       updatedAt := now,
       deliveryDate := if newStatus == Delivered then Some(now) else s.deliveryDate)
  }

  /** The demo progression path. */
  const Progression: seq<Status> := [Booked, PickupScheduled, PickedUp, InTransit, OutForDelivery, Delivered]

  /** The status one step further along the progression, found as the source does: by position in the list. */
  function NextInProgression(st: Status): (r: Option<Status>)
  {
    match IndexOf(Progression, st)
    case None => None
    case Some(i) => if i < |Progression| - 1 then Some(Progression[i + 1]) else None
  }

  /** The successor of each status on the forward path, read off the lifecycle directly. */
  function Successor(st: Status): Option<Status>
  {
    match st
    case Booked => Some(PickupScheduled)
    case PickupScheduled => Some(PickedUp)
    case PickedUp => Some(InTransit)
    case InTransit => Some(OutForDelivery)
    case OutForDelivery => Some(Delivered)
    case _ => None
  }

  /** The list-position lookup and the direct successor table agree on every status. */
  lemma NextInProgressionIsSuccessor(st: Status)
    ensures NextInProgression(st) == Successor(st)
    ensures NextInProgression(st).Some? <==> st in Progression[..5]
  {
    assert Progression[0] == Booked && Progression[1] == PickupScheduled && Progression[2] == PickedUp;
    assert Progression[3] == InTransit && Progression[4] == OutForDelivery && Progression[5] == Delivered;
    assert Progression[..5] == [Booked, PickupScheduled, PickedUp, InTransit, OutForDelivery];
  }

  /**
   One demo step: a shipment on the progression path before DELIVERED moves to
   the next status with a "Transit Hub" event; any other shipment is returned
   unchanged.
   */
  function Simulate(s: Shipment, now: int): (r: Shipment)
    ensures Successor(s.status).None? ==> r == s
    ensures Successor(s.status).Some? ==>
      && r.status == Successor(s.status).value
      && |r.events| == |s.events| + 1
      && r.events[..|s.events|] == s.events
      && r.events[|s.events|] == TrackingEvent(now, StatusLabel(r.status), "Transit Hub", "Shipment progressed to " + StatusLabel(r.status))
      && r.updatedAt == now
      && r.deliveryDate == (if r.status == Delivered then Some(now) else s.deliveryDate)
      && r.(status := s.status, events := s.events, updatedAt := s.updatedAt, deliveryDate := s.deliveryDate) == s
  {
    NextInProgressionIsSuccessor(s.status);
    match NextInProgression(s.status)
    case None => s
    case Some(next) =>
      UpdateStatus(s, next, "Transit Hub", "Shipment progressed to " + StatusLabel(next), now)
  }

  /** The terminal and off-path statuses are fixed points of the demo step. */
  lemma SimulateNoOp(s: Shipment, now: int)
    requires s.status in {Delivered, Draft, Cancelled, Returned, Lost}
    ensures Simulate(s, now) == s
  {
    assert Successor(s.status).None?;
  }

  /** How many demo steps a status is from DELIVERED; None for a status off the path. */
  function StepsToDelivered(st: Status): (n: Option<nat>)
    ensures n.Some? <==> st in Progression
    ensures n == Some(0) <==> st == Delivered
  {
    match IndexOf(Progression, st)
    case None => None
    case Some(i) => Some(|Progression| - 1 - i)
  }

  /** The position of each status on the progression path, read off the lifecycle directly. */
  function PathPosition(st: Status): Option<nat>
  {
    match st
    case Booked => Some(0)
    case PickupScheduled => Some(1)
    case PickedUp => Some(2)
    case InTransit => Some(3)
    case OutForDelivery => Some(4)
    case Delivered => Some(5)
    case _ => None
  }

  /** The list lookup finds every status at its lifecycle position. */
  lemma PathPositionIsIndex(st: Status)
    ensures IndexOf(Progression, st) == PathPosition(st)
  {
    var r := IndexOf(Progression, st);
    if r.Some? {
      assert Progression[r.value] == st;
      assert r.value < 6;
    }
  }

  /** Each demo step on the path brings the shipment exactly one step closer to DELIVERED. */
  lemma SuccessorCountsDown(st: Status)
    requires st in Progression && st != Delivered
    ensures Successor(st).Some?
    ensures StepsToDelivered(Successor(st).value).Some?
    ensures StepsToDelivered(Successor(st).value).value + 1 == StepsToDelivered(st).value
  {
    PathPositionIsIndex(st);
    PathPositionIsIndex(Successor(st).value);
  }

  /** A booking: status BOOKED, one "Booking Confirmed" event, the AWB as tracking number, payment pending. */
  function CreateBooking(
    req: ShipmentCreate, userId: string, quotedTotal: Option<real>,
    awbDraws: seq<nat>, id: string, number: string, now: int): (s: Shipment)
    requires |awbDraws| == 10 && forall i :: 0 <= i < 10 ==> awbDraws[i] < 10
    ensures s.status == Booked && s.userId == userId && s.quoteId == req.quoteId
    ensures s.carrier.trackingNumber == Some(GenerateAwb(req.carrierName, awbDraws))
    ensures s.carrier.carrierReference == Some(req.carrierName + "_" + GenerateAwb(req.carrierName, awbDraws))
    ensures s.carrier.estimatedDelivery == Some(now + EstimatedDays(req.carrierName) * Day)
    ensures s.payment.status == PaymentPending
    ensures quotedTotal.Some? ==> s.payment.amount == quotedTotal.value
    ensures quotedTotal.None? ==> s.payment.amount == EstimateCost(req.carrierName, req.package.weight) >= 200.0
    ensures |s.events| == 1 && s.events[0].status == "Booking Confirmed" && s.events[0].location == Hub
    ensures s.deliveryDate.None? && s.pickupDate.None?
  {
    var awb := GenerateAwb(req.carrierName, awbDraws);
    var carrier := CarrierInfo(req.carrierName, req.serviceType, Some(awb),
                               Some(now + EstimatedDays(req.carrierName) * Day), Some(req.carrierName + "_" + awb));
    var amount := if quotedTotal.Some? then quotedTotal.value else EstimateCost(req.carrierName, req.package.weight);
    var event := TrackingEvent(now, "Booking Confirmed", Hub, "Shipment booked with " + req.carrierName + ". AWB: " + awb);
    var draft := NewShipment(id, userId, req.quoteId, number, req.sender, req.recipient, req.package,
                             carrier, PaymentInfo(amount, "INR", PaymentPending),
                             req.insuranceRequired, req.signatureRequired, req.notes, now);
    draft.(status := Booked, events := [event])
  }
}

=== FILE: booking_routes.dfy ===
/**
 The booking endpoints. The shipments collection is a sequence in natural
 order (a lookup returns the first match, as `find_one` does); the quotes
 collection likewise. Every endpoint that names a booking first answers 404
 for an unknown id and then 403 for another user's booking, and writes
 nothing in either case.
 */
module BookingRoutes {
  import opened Wrappers
  import opened Shipments
  import opened Quotes
  import opened Booking

  type Store = seq<Shipment>

  /** The position of the first shipment with this id. */
  function FindById(store: Store, id: string): (r: Option<nat>)
    ensures r.Some? ==> r.value < |store| && store[r.value].id == id
    ensures r.Some? ==> forall k :: 0 <= k < r.value ==> store[k].id != id
    ensures r.None? <==> forall k :: 0 <= k < |store| ==> store[k].id != id
  {
    if store == [] then None
    else if store[0].id == id then Some(0)
    else
      match FindById(store[1..], id)
      case None => None
      case Some(k) => Some(k + 1)
  }

  /** The ownership guard: 404 for an unknown id, then 403 for another user's booking. */
  function Guard(store: Store, id: string, user: string): (r: Result<nat, HttpError>)
    ensures r.Success? ==> r.value < |store| && store[r.value].id == id && store[r.value].userId == user
    ensures r == Failure(NotFound) <==> FindById(store, id).None?
    ensures r == Failure(Forbidden) <==> FindById(store, id).Some? && store[FindById(store, id).value].userId != user
    ensures r.Failure? ==> r.error in {NotFound, Forbidden}
  {
    match FindById(store, id)
    case None => Failure(NotFound)
    case Some(i) => if store[i].userId != user then Failure(Forbidden) else Success(i)
  }

  /** An unknown id is reported as 404 whoever asks, so a missing booking never reads as forbidden. */
  lemma NotFoundBeforeForbidden(store: Store, id: string, u1: string, u2: string)
    ensures Guard(store, id, u1) == Failure(NotFound) <==> Guard(store, id, u2) == Failure(NotFound)
  {
  }

  /** GET /bookings/{id}. */
  function GetBooking(store: Store, id: string, user: string): (r: Result<Shipment, HttpError>)
    ensures r.Success? ==> r.value in store && r.value.id == id && r.value.userId == user
    ensures r.Failure? ==> Guard(store, id, user).Failure? && r.error == Guard(store, id, user).error
  {
    match Guard(store, id, user)
    case Failure(e) => Failure(e)
    case Success(i) => Success(store[i])
  }

  /** The first quote entry for the named carrier. */
  function FirstForCarrier(qs: seq<CarrierQuote>, carrier: string): (r: Option<CarrierQuote>)
    ensures r.Some? ==> r.value in qs && r.value.carrierName == carrier
    ensures r.None? <==> forall k :: 0 <= k < |qs| ==> qs[k].carrierName != carrier
    ensures r.Some? ==> exists i :: 0 <= i < |qs| && qs[i] == r.value && forall k :: 0 <= k < i ==> qs[k].carrierName != carrier
  {
    if qs == [] then None
    else if qs[0].carrierName == carrier then Some(qs[0])
    else
      var rest := FirstForCarrier(qs[1..], carrier);
      if rest.Some? then
        ghost var i :| 0 <= i < |qs[1..]| && qs[1..][i] == rest.value && forall k :: 0 <= k < i ==> qs[1..][k].carrierName != carrier;
        assert qs[i + 1] == rest.value;
        rest
      else rest
  }

  function FindQuote(quotes: seq<Quote>, id: string): (r: Option<nat>)
    ensures r.Some? ==> r.value < |quotes| && quotes[r.value].id == id
    ensures r.Some? ==> forall k :: 0 <= k < r.value ==> quotes[k].id != id
    ensures r.None? <==> forall k :: 0 <= k < |quotes| ==> quotes[k].id != id
  {
    if quotes == [] then None
    else if quotes[0].id == id then Some(0)
    else
      match FindQuote(quotes[1..], id)
      case None => None
      case Some(k) => Some(k + 1)
  }

  /** Python truthiness of an optional id: present and non-empty. */
  predicate Given(quoteId: Option<string>) { quoteId.Some? && quoteId.value != [] }

  /** The carrier quote a booking is priced from: the stored quote's first entry for the requested carrier, if any. */
  function SelectCarrierQuote(quotes: seq<Quote>, quoteId: Option<string>, carrier: string): (r: Option<CarrierQuote>)
    ensures r.Some? ==> Given(quoteId) && FindQuote(quotes, quoteId.value).Some?
    ensures r.Some? ==> r.value.carrierName == carrier && r.value in quotes[FindQuote(quotes, quoteId.value).value].carrierQuotes
    ensures Given(quoteId) && FindQuote(quotes, quoteId.value).Some? ==>
              r == FirstForCarrier(quotes[FindQuote(quotes, quoteId.value).value].carrierQuotes, carrier)
  {
    if !Given(quoteId) then None
    else
      match FindQuote(quotes, quoteId.value)
      case None => None
      case Some(i) => FirstForCarrier(quotes[i].carrierQuotes, carrier)
  }

  /**
   Marking the quote used. Whenever a quote id is given and stored, it becomes
   USED with the carrier and time recorded: even when no carrier entry matched
   or the quote was already used. Nothing else changes.
   */
  function ConsumeQuote(quotes: seq<Quote>, quoteId: Option<string>, carrier: string, at: int): (r: seq<Quote>)
    ensures |r| == |quotes|
    ensures !Given(quoteId) || FindQuote(quotes, quoteId.value).None? ==> r == quotes
    ensures Given(quoteId) && FindQuote(quotes, quoteId.value).Some? ==>
              var i := FindQuote(quotes, quoteId.value).value;
              && r[i] == quotes[i].(status := Used, selectedCarrier := Some(carrier), usedAt := Some(at))
              && forall k :: 0 <= k < |quotes| && k != i ==> r[k] == quotes[k]
  {
    if !Given(quoteId) then quotes
    else
      match FindQuote(quotes, quoteId.value)
      case None => quotes
      case Some(i) => quotes[i := quotes[i].(status := Used, selectedCarrier := Some(carrier), usedAt := Some(at))]
  }

  /** POST /bookings: the booking is appended to the store and the quote, if given, is consumed. */
  function CreateBookingRoute(
    store: Store, quotes: seq<Quote>, req: ShipmentCreate, user: string,
    awbDraws: seq<nat>, id: string, number: string, now: int): (r: (Store, seq<Quote>, Shipment))
    requires |awbDraws| == 10 && forall i :: 0 <= i < 10 ==> awbDraws[i] < 10
    ensures r.0 == store + [r.2]
    ensures r.2.status == Booked && r.2.userId == user
    ensures SelectCarrierQuote(quotes, req.quoteId, req.carrierName).Some? ==>
              r.2.payment.amount == SelectCarrierQuote(quotes, req.quoteId, req.carrierName).value.totalCost
    ensures SelectCarrierQuote(quotes, req.quoteId, req.carrierName).None? ==>
              r.2.payment.amount == EstimateCost(req.carrierName, req.package.weight)
    ensures r.1 == ConsumeQuote(quotes, req.quoteId, req.carrierName, r.2.createdAt)
  {
    var cq := SelectCarrierQuote(quotes, req.quoteId, req.carrierName);
    var total := if cq.Some? then Some(cq.value.totalCost) else None;
    var s := CreateBooking(req, user, total, awbDraws, id, number, now);
    (store + [s], ConsumeQuote(quotes, req.quoteId, req.carrierName, s.createdAt), s)
  }

  /** GET /bookings/track/{awb}: the first shipment whose carrier tracking number is exactly `awb`. */
  function TrackByAwb(store: Store, awb: string): (r: Result<Shipment, HttpError>)
    ensures r.Success? ==> r.value in store && r.value.carrier.trackingNumber == Some(awb)
    ensures r.Failure? <==> forall k :: 0 <= k < |store| ==> store[k].carrier.trackingNumber != Some(awb)
    ensures r.Failure? ==> r.error == NotFound
  {
    if store == [] then Failure(NotFound)
    else if store[0].carrier.trackingNumber == Some(awb) then Success(store[0])
    else TrackByAwb(store[1..], awb)
  }

  /** The statuses the booking route refuses to cancel. */
  predicate BookingCancelRefused(st: Status) { st in {Delivered, Cancelled, Returned} }

  /**
   DELETE /bookings/{id}: after the guard, 400 for a delivered, cancelled or
   returned booking; otherwise the booking becomes CANCELLED with one hub event.
   */
  function CancelBooking(store: Store, id: string, user: string, now: int): (r: Result<Store, HttpError>)
    ensures Guard(store, id, user).Failure? ==> r == Failure(Guard(store, id, user).error)
    ensures Guard(store, id, user).Success? ==>
              var i := Guard(store, id, user).value;
              && (r.Failure? <==> BookingCancelRefused(store[i].status))
              && (r.Failure? ==> r.error == BadRequest)
              && (r.Success? ==>
                    && |r.value| == |store|
                    && r.value[i].status == Cancelled
                    && r.value[i].events == store[i].events + [TrackingEvent(now, StatusLabel(Cancelled), Hub, "Shipment cancelled by customer")]
                    && r.value[i].updatedAt == now
                    && r.value[i] == UpdateStatus(store[i], Cancelled, Hub, "Shipment cancelled by customer", now)
                    && forall k :: 0 <= k < |store| && k != i ==> r.value[k] == store[k])
  {
    match Guard(store, id, user)
    case Failure(e) => Failure(e)
    case Success(i) =>
      if BookingCancelRefused(store[i].status) then Failure(BadRequest)
      else
        var s := UpdateStatus(store[i], Cancelled, Hub, "Shipment cancelled by customer", now);
        assert s.events == store[i].events + [s.events[|store[i].events|]];
        Success(store[i := s])
  }

  /**
   Cancelling is final: once an owner's cancellation succeeds, the same
   booking is still found and owned, and cancelling it again is refused
   with 400 and changes nothing.
   */
  lemma CancelTwiceRefused(store: Store, id: string, user: string, now: int, later: int)
    requires CancelBooking(store, id, user, now).Success?
    ensures var s1 := CancelBooking(store, id, user, now).value;
      && Guard(s1, id, user) == Guard(store, id, user)
      && CancelBooking(s1, id, user, later) == Failure(BadRequest)
  {
    var i := Guard(store, id, user).value;
    var s1 := CancelBooking(store, id, user, now).value;
    assert forall k :: 0 <= k < |s1| ==> s1[k].id == store[k].id;
    assert FindById(s1, id) == FindById(store, id) by {
      FindByIdSameIds(store, s1, id);
    }
  }

  /** Two stores with the same ids position by position find an id at the same place. */
  lemma {:induction false} FindByIdSameIds(a: Store, b: Store, id: string)
    requires |a| == |b| && forall k :: 0 <= k < |a| ==> a[k].id == b[k].id
    ensures FindById(a, id) == FindById(b, id)
    decreases |a|
  {
    if a != [] {
      FindByIdSameIds(a[1..], b[1..], id);
    }
  }

  /** The booking route lets an owner cancel a LOST or DRAFT shipment. */
  lemma LostAndDraftCancellable(store: Store, id: string, user: string, now: int)
    requires Guard(store, id, user).Success?
    requires store[Guard(store, id, user).value].status in {Lost, Draft}
    ensures CancelBooking(store, id, user, now).Success?
  {
  }

  /**
   PUT /bookings/{id}: only the notes and the carrier tracking number can
   change; the requested status is ignored and updated_at keeps its old value.
   */
  function UpdateBooking(store: Store, id: string, user: string, upd: ShipmentUpdate): (r: Result<(Store, Shipment), HttpError>)
    ensures Guard(store, id, user).Failure? ==> r == Failure(Guard(store, id, user).error)
    ensures Guard(store, id, user).Success? ==> r.Success?
    ensures r.Success? ==>
              var i := Guard(store, id, user).value;
              var (st, s) := r.value;
              && |st| == |store| && st[i] == s
              && (forall k :: 0 <= k < |store| && k != i ==> st[k] == store[k])
              && s.status == store[i].status
              && s.updatedAt == store[i].updatedAt
              && s.notes == (if upd.notes.Some? then upd.notes else store[i].notes)
              && s.carrier.trackingNumber == (if upd.trackingNumber.Some? then upd.trackingNumber else store[i].carrier.trackingNumber)
              && s.(notes := store[i].notes, carrier := store[i].carrier) == store[i]
              && s.carrier.(trackingNumber := store[i].carrier.trackingNumber) == store[i].carrier
    ensures r.Success? && upd.notes.None? && upd.trackingNumber.None? ==> r.value.0 == store
  {
    match Guard(store, id, user)
    case Failure(e) => Failure(e)
    case Success(i) =>
      var s := store[i];
      var s1 := if upd.notes.Some? then s.(notes := upd.notes) else s;
      var s2 := if upd.trackingNumber.Some? then s1.(carrier := s1.carrier.(trackingNumber := upd.trackingNumber)) else s1;
      if upd.notes.None? && upd.trackingNumber.None? then Success((store, s))
      else Success((store[i := s2.(updatedAt := s.updatedAt)], s2.(updatedAt := s.updatedAt)))
  }

  /** A status in the update request never changes a booking through this endpoint. */
  lemma UpdateBookingIgnoresStatus(store: Store, id: string, user: string, upd: ShipmentUpdate, st: Status)
    requires Guard(store, id, user).Success?
    ensures UpdateBooking(store, id, user, upd.(status := Some(st))) == UpdateBooking(store, id, user, upd.(status := None))
  {
  }

  /** POST /bookings/{id}/simulate-progress: one demo step, written back even when it changed nothing. */
  function SimulateRoute(store: Store, id: string, user: string, now: int): (r: Result<Store, HttpError>)
    ensures Guard(store, id, user).Failure? ==> r == Failure(Guard(store, id, user).error)
    ensures Guard(store, id, user).Success? ==>
              var i := Guard(store, id, user).value;
              && r.Success?
              && r.value == store[i := Simulate(store[i], now)]
              && (Successor(store[i].status).None? ==> r.value == store)
  {
    match Guard(store, id, user)
    case Failure(e) => Failure(e)
    case Success(i) => Success(store[i := Simulate(store[i], now)])
  }
}

=== FILE: carriers.dfy ===
/**
 The carrier integration stubs: the per-carrier configuration with every
 live API disabled, the tracking dispatch with its mock fallback, and the
 mock shipment creation. The formatted clock reading is a parameter.
 */
module Carriers {
  import opened Wrappers
  import opened Text
  import opened Tracking

  datatype CarrierConfig = CarrierConfig(apiKey: string, baseUrl: string, enabled: bool)

  /** The three live integrations, all switched off. */
  const DefaultConfigs: map<string, CarrierConfig> := map[
    "DHL" := CarrierConfig("dhl_api_key", "https://api.dhl.com", false),
    "FedEx" := CarrierConfig("fedex_api_key", "https://apis.fedex.com", false),
    "UPS" := CarrierConfig("ups_api_key", "https://onlinetools.ups.com", false)]

  /** A price from a live carrier API; no integration exists, so there is no quote whether or not it is enabled. */
  function LiveQuote(config: CarrierConfig): (r: Option<real>)
    ensures r.None?
  {
    if !config.enabled then None else None
  }

  /** Out of the box no live carrier is enabled, so every live quote is absent. */
  lemma DefaultsGiveNoLiveQuote()
    ensures DefaultConfigs.Keys == {"DHL", "FedEx", "UPS"}
    ensures forall k :: k in DefaultConfigs ==> !DefaultConfigs[k].enabled && LiveQuote(DefaultConfigs[k]).None?
  {
  }

  datatype MockEvent = MockEvent(timestamp: string, status: string, location: string)

  /** A tracking reply: the empty dictionary of a live stub, or the fixed mock payload. */
  datatype TrackReply =
    | Empty
    | Mock(trackingNumber: string, status: string, location: string, estimatedDelivery: string, events: seq<MockEvent>)

  /** The carriers with a live tracking stub, matched on the lower-cased name. */
  predicate HasLiveStub(carrier: string)
  {
    Lower(carrier) in {"dhl", "fedex", "ups"}
  }

  /** Tracking with a carrier: the live stubs answer with nothing, every other carrier with an "In Transit" mock echoing the number. */
  function TrackWithCarrier(carrier: string, trackingNumber: string): (r: TrackReply)
    ensures r.Empty? <==> HasLiveStub(carrier)
    ensures r.Mock? ==> r.trackingNumber == trackingNumber && r.status == "In Transit" && r.location == "Mumbai, India"
  {
    var c := Lower(carrier);
    if c == "dhl" then Empty
    else if c == "fedex" then Empty
    else if c == "ups" then Empty
    else Mock(trackingNumber, "In Transit", "Mumbai, India", "2025-01-02",
              [MockEvent("2025-01-01T10:00:00Z", "Picked up", "Mumbai Hub")])
  }

  /** The dispatch ignores letter case in the carrier name. */
  lemma TrackDispatchIgnoresCase(carrier: string, trackingNumber: string)
    ensures TrackWithCarrier(Upper(carrier), trackingNumber) == TrackWithCarrier(carrier, trackingNumber)
    ensures TrackWithCarrier(Lower(carrier), trackingNumber) == TrackWithCarrier(carrier, trackingNumber)
  {
    LowerUpper(carrier);
    LowerLower(carrier);
  }

  datatype CreateReply = CreateReply(success: bool, trackingNumber: string, carrierReference: string,
                                     estimatedDelivery: string, labelUrl: string)

  /** Python's `carrier[:3]`. */
  function Head3(s: string): (r: string)
    ensures |r| == if |s| < 3 then |s| else 3
    ensures r == s[..|r|]
  {
    if |s| < 3 then s else s[..3]
  }

  /**
   The mock shipment creation. The source reads the clock twice, once for
   the tracking number and once for the reference, so each reading,
   formatted as %Y%m%d%H%M%S, is its own parameter. Always a success.
   */
  function CreateCarrierShipment(carrier: string, numberStamp: string, refStamp: string): (r: CreateReply)
    ensures r.success
    ensures |r.trackingNumber| == 2 + |Head3(carrier)| + |numberStamp| && |r.carrierReference| == 4 + |refStamp|
    ensures r.trackingNumber[..2] == "XF" && r.carrierReference[..4] == "REF_"
    ensures r.trackingNumber[|r.trackingNumber| - |numberStamp|..] == numberStamp && r.carrierReference[4..] == refStamp
    ensures r.trackingNumber[2..2 + |Head3(carrier)|] == Upper(Head3(carrier))
    ensures Lower(r.trackingNumber[2..2 + |Head3(carrier)|]) == Lower(Head3(carrier))
    ensures r.estimatedDelivery == "2025-01-05" && r.labelUrl == "https://example.com/label.pdf"
  {
    var code := Upper(Head3(carrier));
    LowerUpper(Head3(carrier));
    var tn := "XF" + code + numberStamp;
    assert tn[2..2 + |code|] == code;
    CreateReply(true, tn, "REF_" + refStamp, "2025-01-05", "https://example.com/label.pdf")
  }

  /**
   The tracking number and the reference end in the same clock text exactly
   when the two readings agree; readings that straddle a second give
   different suffixes.
   */
  lemma StampsAgreeIffReadingsAgree(carrier: string, numberStamp: string, refStamp: string)
    requires |numberStamp| == |refStamp|
    ensures var r := CreateCarrierShipment(carrier, numberStamp, refStamp);
            r.trackingNumber[|r.trackingNumber| - |numberStamp|..] == r.carrierReference[4..] <==> numberStamp == refStamp
  {
  }

  /**
   A tracking number from the mock creation, with a carrier name of three or
   more characters and a fourteen-digit clock reading, is nineteen characters
   long and so never passes the AWB format check.
   */
  lemma CreatedNumberFailsAwbCheck(carrier: string, stamp: string, refStamp: string)
    requires |carrier| >= 3 && |stamp| == 14 && AllDigits(stamp)
    ensures !ValidateAwb(CreateCarrierShipment(carrier, stamp, refStamp).trackingNumber)
  {
    var tn := CreateCarrierShipment(carrier, stamp, refStamp).trackingNumber;
    assert tn[0] == 'X';
    assert tn[|tn| - 1] == stamp[13];
    StripKeepsPlainEnds(tn);
  }
}

=== FILE: dashboard.dfy ===
/**
 The dashboard: counters over a user's shipments, the recent-activity feed,
 the profile-completion score and the quick actions it drives. Stored times
 arrive in any of the forms a document may hold them in; they are read with
 the 1970 epoch as the fallback. Times are seconds.
 */
module Dashboard {
  import opened Wrappers
  import Seqs
  import opened Shipments

  const Day: int := 24 * 3600

  /** A stored time: absent, a datetime, a string (with what ISO parsing makes of it), or another type. */
  datatype StoredTime = NoTime | At(t: int) | IsoText(iso: Option<int>) | OtherValue

  /** `_parse_datetime`: datetimes as they are, valid ISO strings parsed, everything else the epoch. */
  function ParseDatetime(v: StoredTime): (t: int)
    ensures v.At? ==> t == v.t
    ensures v.IsoText? && v.iso.Some? ==> t == v.iso.value
    ensures v.NoTime? || v.OtherValue? || (v.IsoText? && v.iso.None?) ==> t == 0
  {
    match v
    case NoTime => 0
    case At(t) => t
    case IsoText(iso) => iso.GetOr(0)
    case OtherValue => 0
  }

  /** The fields of a stored shipment the dashboard reads; a status outside the enumeration is None. */
  datatype ShipmentDoc = ShipmentDoc(
    id: string,
    status: Option<Status>,
    amount: Option<real>,
    carrier: string,
    createdAt: StoredTime,
    recipientCity: string,
    trackingNumber: Option<string>,
    events: seq<TrackingEvent>)

  datatype Stats = Stats(
    total: nat,
    active: nat,
    delivered: nat,
    pending: nat,
    cancelled: nat,
    totalSpent: real,
    averageCost: real,
    successRate: real,
    lastShipment: Option<int>,
    favoriteCarrier: Option<string>,
    thisWeek: nat,
    thisMonth: nat)

  const EmptyStats: Stats := Stats(0, 0, 0, 0, 0, 0.0, 0.0, 0.0, None, None, 0, 0)

  predicate IsDelivered(s: ShipmentDoc) { s.status == Some(Delivered) }
  predicate IsBooked(s: ShipmentDoc) { s.status == Some(Booked) }
  predicate IsCancelled(s: ShipmentDoc) { s.status == Some(Cancelled) }
  /** Booked, pickup scheduled, picked up, in transit or out for delivery. */
  predicate IsActive(s: ShipmentDoc) { s.status.Some? && InFlight(s.status.value) }

  /** The sum of the amounts that are set and non-zero. */
  function Spent(xs: seq<ShipmentDoc>): (r: real)
    ensures (forall i :: 0 <= i < |xs| ==> xs[i].amount.None? || xs[i].amount.value >= 0.0) ==> r >= 0.0
    ensures (forall i :: 0 <= i < |xs| ==> xs[i].amount.None?) ==> r == 0.0
  {
    if xs == [] then 0.0
    else (if xs[0].amount.Some? && xs[0].amount.value != 0.0 then xs[0].amount.value else 0.0) + Spent(xs[1..])
  }

  function CarrierCount(xs: seq<ShipmentDoc>, carrier: string): nat
  {
    Seqs.Count(xs, (s: ShipmentDoc) => s.carrier == carrier)
  }

  /**
   `max(carrier_usage, key=carrier_usage.get)`: the carrier used most; among
   equals, the one seen first, as the dictionary keeps first-seen order.
   */
  function FavoriteCarrier(xs: seq<ShipmentDoc>): (r: Option<string>)
    ensures r.None? <==> xs == []
    ensures r.Some? ==> exists i :: 0 <= i < |xs| && xs[i].carrier == r.value
    ensures r.Some? ==> forall i :: 0 <= i < |xs| ==> CarrierCount(xs, xs[i].carrier) <= CarrierCount(xs, r.value)
    ensures r.Some? ==> forall i :: 0 <= i < |xs| && CarrierCount(xs, xs[i].carrier) == CarrierCount(xs, r.value) ==>
                          exists j :: 0 <= j <= i && xs[j].carrier == r.value
  {
    if xs == [] then None
    else
      var key := (s: ShipmentDoc) => CarrierCount(xs, s.carrier) as real;
      var i := Seqs.ArgMax(xs, key);
      assert forall k :: 0 <= k < |xs| && CarrierCount(xs, xs[k].carrier) == CarrierCount(xs, xs[i].carrier) ==>
               exists j :: 0 <= j <= k && xs[j].carrier == xs[i].carrier by {
        forall k | 0 <= k < |xs| && CarrierCount(xs, xs[k].carrier) == CarrierCount(xs, xs[i].carrier)
          ensures exists j :: 0 <= j <= k && xs[j].carrier == xs[i].carrier {
          assert key(xs[k]) == key(xs[i]);
        }
      }
      Some(xs[i].carrier)
  }

  /** How many shipments were created at or after `since`. */
  function CreatedSince(xs: seq<ShipmentDoc>, since: int): (n: nat)
    ensures n <= |xs|
  {
    if xs == [] then 0 else (if ParseDatetime(xs[0].createdAt) >= since then 1 else 0) + CreatedSince(xs[1..], since)
  }

  /** A longer window holds at least as many shipments. */
  lemma {:induction false} CreatedSinceMonotone(xs: seq<ShipmentDoc>, later: int, earlier: int)
    requires earlier <= later
    ensures CreatedSince(xs, later) <= CreatedSince(xs, earlier)
    decreases |xs|
  {
    if xs != [] {
      CreatedSinceMonotone(xs[1..], later, earlier);
    }
  }

  /**
   `get_dashboard_stats`: all zeros without shipments; otherwise the counts
   by status (active being the five in-flight statuses and pending the booked
   ones), the money spent, the delivered share, the favourite carrier and the
   shipments of the last seven and thirty days.
   */
  function GetStats(xs: seq<ShipmentDoc>, now: int): (s: Stats)
    ensures xs == [] ==> s == EmptyStats
    ensures xs != [] ==> s.total == |xs| && s.delivered == Seqs.Count(xs, IsDelivered)
    ensures xs != [] ==> s.active == Seqs.Count(xs, IsActive) && s.pending == Seqs.Count(xs, IsBooked) && s.cancelled == Seqs.Count(xs, IsCancelled)
    ensures xs != [] ==> s.successRate == (s.delivered as real / s.total as real) * 100.0
    ensures s.favoriteCarrier == FavoriteCarrier(xs)
    ensures xs != [] ==> s.favoriteCarrier.Some? && s.totalSpent == Spent(xs) && s.averageCost == Spent(xs) / |xs| as real
    ensures xs != [] ==> (s.lastShipment.Some?
      && (forall i :: 0 <= i < |xs| ==> ParseDatetime(xs[i].createdAt) <= s.lastShipment.value)
      && (exists i :: 0 <= i < |xs| && ParseDatetime(xs[i].createdAt) == s.lastShipment.value))
    ensures xs != [] ==> s.thisWeek == CreatedSince(xs, now - 7 * Day) && s.thisMonth == CreatedSince(xs, now - 30 * Day)
  {
    if xs == [] then EmptyStats
    else
      var delivered := Seqs.Count(xs, IsDelivered);
      var latest := Seqs.ArgMax(xs, CreatedTime);
      Stats(|xs|, Seqs.Count(xs, IsActive), delivered, Seqs.Count(xs, IsBooked), Seqs.Count(xs, IsCancelled),
            Spent(xs), Spent(xs) / |xs| as real, (delivered as real / |xs| as real) * 100.0,
            Some(ParseDatetime(xs[latest].createdAt)), FavoriteCarrier(xs),
            CreatedSince(xs, now - 7 * Day), CreatedSince(xs, now - 30 * Day))
  }

  /** Counting with a stronger predicate gives no more. */
  lemma {:induction false} CountMonotone<T>(xs: seq<T>, p: T -> bool, q: T -> bool)
    requires forall x :: p(x) ==> q(x)
    ensures Seqs.Count(xs, p) <= Seqs.Count(xs, q)
    decreases |xs|
  {
    if xs != [] {
      CountMonotone(xs[1..], p, q);
    }
  }

  predicate ActiveOrDelivered(s: ShipmentDoc) { IsActive(s) || IsDelivered(s) }
  predicate Settled(s: ShipmentDoc) { ActiveOrDelivered(s) || IsCancelled(s) }

  /** No shipment is counted under two of active, delivered and cancelled. */
  lemma StatusCountsDisjoint(xs: seq<ShipmentDoc>)
    ensures Seqs.Count(xs, IsActive) + Seqs.Count(xs, IsDelivered) + Seqs.Count(xs, IsCancelled) <= |xs|
    ensures Seqs.Count(xs, IsBooked) <= Seqs.Count(xs, IsActive)
  {
    Seqs.CountDisjoint(xs, IsActive, IsDelivered, ActiveOrDelivered);
    Seqs.CountDisjoint(xs, ActiveOrDelivered, IsCancelled, Settled);
    CountMonotone(xs, IsBooked, IsActive);
  }

  /**
   The counters are consistent: active, delivered and cancelled shipments
   together are at most all of them, pending ones are among the active, the
   week's shipments are among the month's, and the success rate is a
   percentage.
   */
  lemma StatsConsistent(xs: seq<ShipmentDoc>, now: int)
    requires xs != []
    ensures var s := GetStats(xs, now);
      && s.active + s.delivered + s.cancelled <= s.total
      && s.pending <= s.active
      && s.thisWeek <= s.thisMonth <= s.total
      && 0.0 <= s.successRate <= 100.0
  {
    StatusCountsDisjoint(xs);
    CreatedSinceMonotone(xs, now - 7 * Day, now - 30 * Day);
    Percentage(Seqs.Count(xs, IsDelivered), |xs|);
  }

  lemma Percentage(part: nat, whole: nat)
    requires 0 < whole && part <= whole
    ensures 0.0 <= (part as real / whole as real) * 100.0 <= 100.0
  {
    assert part as real <= whole as real;
    assert part as real / whole as real <= 1.0;
  }

  // Recent activities

  datatype ActivityKind = ShipmentCreated | StatusUpdate

  datatype Activity = Activity(kind: ActivityKind, shipmentId: string, awb: Option<string>, timestamp: int, description: string)

  /** The last two elements, or all of them when there are fewer. */
  function LastTwo<T>(xs: seq<T>): (r: seq<T>)
    ensures |r| == (if |xs| < 2 then |xs| else 2)
    ensures forall i :: 0 <= i < |r| ==> r[i] == xs[|xs| - |r| + i]
  {
    if |xs| < 2 then xs else xs[|xs| - 2..]
  }

  /** The creation entry of a shipment followed by its last two events at most. */
  function ActivitiesOf(s: ShipmentDoc): (r: seq<Activity>)
    ensures 1 <= |r| <= 3 && |r| == 1 + |LastTwo(s.events)|
    ensures r[0].kind == ShipmentCreated && r[0].timestamp == ParseDatetime(s.createdAt)
    ensures forall k :: 1 <= k < |r| ==> r[k].kind == StatusUpdate && r[k].timestamp == LastTwo(s.events)[k - 1].timestamp
    ensures forall k :: 0 <= k < |r| ==> r[k].shipmentId == s.id && r[k].awb == s.trackingNumber
  {
    var evs := LastTwo(s.events);
    var head := Activity(ShipmentCreated, s.id, s.trackingNumber, ParseDatetime(s.createdAt), "Created shipment to " + s.recipientCity);
    var tail := seq(|evs|, k requires 0 <= k < |evs| => EventActivity(s, evs[k]));
    assert forall k :: 1 <= k <= |tail| ==> ([head] + tail)[k] == tail[k - 1];
    [head] + tail
  }

  /** The activity entry for one tracking event of a shipment. */
  function EventActivity(s: ShipmentDoc, e: TrackingEvent): Activity
  {
    Activity(StatusUpdate, s.id, s.trackingNumber, e.timestamp, "Shipment " + e.status + " at " + e.location)
  }

  function AllActivities(xs: seq<ShipmentDoc>): (r: seq<Activity>)
    ensures |r| <= 3 * |xs|
  {
    if xs == [] then [] else ActivitiesOf(xs[0]) + AllActivities(xs[1..])
  }

  function ActivityTime(a: Activity): real { a.timestamp as real }

  function CreatedTime(s: ShipmentDoc): real { ParseDatetime(s.createdAt) as real }

  /**
   `get_recent_activities`: the `limit` newest shipments, each contributing
   its creation and last two events, sorted newest first and cut to `limit`.
   */
  function RecentActivities(xs: seq<ShipmentDoc>, limit: nat): (r: seq<Activity>)
    ensures var pool := AllActivities(Seqs.TopBy(xs, CreatedTime, limit));
            |r| == if limit < |pool| then limit else |pool|
    ensures forall i, j :: 0 <= i < j < |r| ==> r[j].timestamp <= r[i].timestamp
    ensures multiset(r) <= multiset(AllActivities(Seqs.TopBy(xs, CreatedTime, limit)))
    ensures NothingNewerLeftOut(AllActivities(Seqs.TopBy(xs, CreatedTime, limit)), r)
  {
    var all := AllActivities(Seqs.TopBy(xs, CreatedTime, limit));
    var r := Seqs.TopBy(all, ActivityTime, limit);
    CutFeed(all, limit, r);
    r
  }

  /** Every entry of the feed that the cut leaves out is no newer than the last one kept. */
  predicate NothingNewerLeftOut(all: seq<Activity>, r: seq<Activity>)
  {
    forall a :: a in all && a !in r && |r| > 0 ==> a.timestamp <= r[|r| - 1].timestamp
  }

  /** The newest `limit` entries of a feed: newest first, drawn from the feed, and no entry left out is newer. */
  lemma CutFeed(all: seq<Activity>, limit: nat, r: seq<Activity>)
    requires r == Seqs.TopBy(all, ActivityTime, limit)
    ensures forall i, j :: 0 <= i < j < |r| ==> r[j].timestamp <= r[i].timestamp
    ensures multiset(r) <= multiset(all)
    ensures NothingNewerLeftOut(all, r)
  {
    Seqs.TopBySub(all, ActivityTime, limit, r);
    Seqs.TopBySorted(all, ActivityTime, limit, r);
    NewestFirst(r);
    forall a | a in all && a !in r && |r| > 0 ensures a.timestamp <= r[|r| - 1].timestamp {
      Seqs.TopByLeavesSmaller(all, ActivityTime, limit, r, a);
    }
  }

  /** A sub-multiset of the same size is the whole multiset. */
  lemma SameSizeSub<T>(a: seq<T>, b: seq<T>)
    requires multiset(a) <= multiset(b) && |a| == |b|
    ensures multiset(a) == multiset(b)
  {
    var d := multiset(b) - multiset(a);
    assert |multiset(b)| == |multiset(a)| + |d|;
  }

  /**
   With room for every activity of every shipment, the feed lists the
   creation of each of the user's shipments.
   */
  lemma RecentListsEveryCreation(xs: seq<ShipmentDoc>, limit: nat, s: ShipmentDoc)
    requires 3 * |xs| <= limit && s in xs
    ensures ActivitiesOf(s)[0] in RecentActivities(xs, limit)
  {
    var top := Seqs.TopBy(xs, CreatedTime, limit);
    Seqs.TopBySub(xs, CreatedTime, limit, top);
    SameSizeSub(top, xs);
    assert s in multiset(top);
    CreationListed(top, s);
    var pool := AllActivities(top);
    var r := RecentActivities(xs, limit);
    SameSizeSub(r, pool);
    assert ActivitiesOf(s)[0] in multiset(r);
  }

  /** Descending by `ActivityTime` is descending by timestamp. */
  lemma NewestFirst(r: seq<Activity>)
    requires forall i, j :: 0 <= i < j < |r| ==> ActivityTime(r[j]) <= ActivityTime(r[i])
    ensures forall i, j :: 0 <= i < j < |r| ==> r[j].timestamp <= r[i].timestamp
  {
    forall i, j | 0 <= i < j < |r| ensures r[j].timestamp <= r[i].timestamp {
      assert ActivityTime(r[j]) <= ActivityTime(r[i]);
    }
  }

  /** Every shipment read contributes its creation entry to the feed before it is cut. */
  lemma {:induction false} CreationListed(xs: seq<ShipmentDoc>, s: ShipmentDoc)
    requires s in xs
    ensures ActivitiesOf(s)[0] in AllActivities(xs)
    decreases |xs|
  {
    if xs[0] != s {
      CreationListed(xs[1..], s);
    }
  }

  /** The feed before the cut holds one creation entry per shipment and one entry per event kept, two at most per shipment. */
  lemma {:induction false} ActivitiesCount(xs: seq<ShipmentDoc>)
    ensures |AllActivities(xs)| == Seqs.Count(xs, (s: ShipmentDoc) => true) + Seqs.Count(xs, (s: ShipmentDoc) => |s.events| >= 1)
                                   + Seqs.Count(xs, (s: ShipmentDoc) => |s.events| >= 2)
    decreases |xs|
  {
    if xs != [] {
      ActivitiesCount(xs[1..]);
    }
  }

  // Profile completion

  datatype BusinessInfo = BusinessInfo(companyName: string, gstNumber: Option<string>, businessType: string)

  /** The user fields profile completion reads. */
  datatype UserDoc = UserDoc(
    firstName: string,
    lastName: string,
    phone: string,
    email: string,
    isEmailVerified: bool,
    isPhoneVerified: bool,
    savedAddresses: nat,
    activePaymentMethods: nat,
    userType: string,
    business: Option<BusinessInfo>)

  datatype Check = Check(name: string, done: bool)

  predicate Filled(s: string) { s != "" }

  /** The items completion checks, in order: eight for everyone, three more for a "business" user. */
  function Checks(u: UserDoc): (cs: seq<Check>)
    ensures |cs| == if u.userType == "business" then 11 else 8
    ensures cs[0] == Check("First Name", Filled(u.firstName)) && cs[1] == Check("Last Name", Filled(u.lastName))
    ensures cs[2] == Check("Phone Number", Filled(u.phone)) && cs[3] == Check("Email Address", Filled(u.email))
    ensures cs[4] == Check("Email Verification", u.isEmailVerified) && cs[5] == Check("Phone Verification", u.isPhoneVerified)
    ensures cs[6] == Check("At least one saved address", u.savedAddresses > 0)
    ensures cs[7] == Check("Payment method", u.activePaymentMethods > 0)
  {
    var basic := [Check("First Name", Filled(u.firstName)), Check("Last Name", Filled(u.lastName)),
                  Check("Phone Number", Filled(u.phone)), Check("Email Address", Filled(u.email)),
                  Check("Email Verification", u.isEmailVerified), Check("Phone Verification", u.isPhoneVerified),
                  Check("At least one saved address", u.savedAddresses > 0),
                  Check("Payment method", u.activePaymentMethods > 0)];
    if u.userType == "business" then
      var b := u.business;
      basic + [Check("Business Company Name", b.Some? && Filled(b.value.companyName)),
               Check("Business GST Number", b.Some? && b.value.gstNumber.Some? && Filled(b.value.gstNumber.value)),
               Check("Business Business Type", b.Some? && Filled(b.value.businessType))]
    else basic
  }

  datatype Completion = Completion(completed: nat, total: nat, missing: seq<string>)

  function Tally(cs: seq<Check>): (c: Completion)
    ensures c.total == |cs| && c.completed + |c.missing| == c.total
  {
    if cs == [] then Completion(0, 0, [])
    else
      var rest := Tally(cs[1..]);
      if cs[0].done then Completion(rest.completed + 1, rest.total + 1, rest.missing)
      else Completion(rest.completed, rest.total + 1, [cs[0].name] + rest.missing)
  }

  /** An item is reported missing exactly when its check fails (labels are distinct). */
  lemma {:induction false} TallyMissing(cs: seq<Check>, item: string)
    requires forall i, j :: 0 <= i < j < |cs| ==> cs[i].name != cs[j].name
    ensures item in Tally(cs).missing <==> exists i :: 0 <= i < |cs| && cs[i].name == item && !cs[i].done
    decreases |cs|
  {
    if cs != [] {
      TallyMissing(cs[1..], item);
      assert forall i :: 1 <= i < |cs| ==> cs[i] == cs[1..][i - 1];
      if cs[0].name == item {
        assert forall i :: 1 <= i < |cs| ==> cs[i].name != item;
      }
    }
  }

  /**
   `_calculate_profile_completion`: every item counted once, so completed and
   missing add up to 8, or to 11 for a "business" user; the percentage is the
   completed share (rounding to one decimal is not modelled).
   */
  function ProfileCompletion(u: UserDoc): (r: (Completion, real))
    ensures r.0.total == (if u.userType == "business" then 11 else 8)
    ensures r.0.completed + |r.0.missing| == r.0.total
    ensures r.1 == (r.0.completed as real / r.0.total as real) * 100.0
  {
    var c := Tally(Checks(u));
    (c, (c.completed as real / c.total as real) * 100.0)
  }

  /** Unverified email is reported missing, and a verified one is not. */
  lemma EmailVerificationMissing(u: UserDoc)
    ensures "Email Verification" in ProfileCompletion(u).0.missing <==> !u.isEmailVerified
  {
    var cs := Checks(u);
    assert forall i, j :: 0 <= i < j < |cs| ==> cs[i].name != cs[j].name;
    TallyMissing(cs, "Email Verification");
  }

  // Quick actions

  /** The four actions every dashboard starts with. */
  const BaseActions: seq<string> := ["create_shipment", "get_quote", "track_shipment", "manage_addresses"]

  /** What the profile summary says; none when the user is not found. */
  datatype ProfileSummary = ProfileSummary(percentage: real, emailVerified: bool, phoneVerified: bool)

  /**
   The enhanced quick actions: "complete_profile" first when the profile is
   under 80% complete, then the base actions, then a verification action for
   each unverified email or phone. A missing summary counts as 0% and
   unverified.
   */
  function QuickActions(summary: Option<ProfileSummary>): (r: seq<string>)
    ensures var pct := if summary.Some? then summary.value.percentage else 0.0;
      ("complete_profile" in r <==> pct < 80.0) && (pct < 80.0 ==> r[0] == "complete_profile")
    ensures "verify_email" in r <==> summary.None? || !summary.value.emailVerified
    ensures "verify_phone" in r <==> summary.None? || !summary.value.phoneVerified
    ensures forall a :: a in BaseActions ==> a in r
  {
    var pct := if summary.Some? then summary.value.percentage else 0.0;
    var email := summary.Some? && summary.value.emailVerified;
    var phone := summary.Some? && summary.value.phoneVerified;
    var front := if pct < 80.0 then ["complete_profile"] else [];
    var back := (if email then [] else ["verify_email"]) + (if phone then [] else ["verify_phone"]);
    front + BaseActions + back
  }
}

=== FILE: notifications.dfy ===
/**
 Shipment notifications. Each sender fills a template's placeholders from
 the shipment and reports, per enabled channel, whether the message could
 be rendered; delivery itself is a log line, so rendering is the whole
 outcome. Dates are rendered by a formatter passed in.
 */
module Notifications {
  import opened Wrappers
  import opened Shipments
  import Seqs

  datatype Template = BookingConfirmation | StatusUpdate | DeliveryAlert | DelayNotification | DeliveredConfirmation

  datatype Part = Subject | Body | SmsBody

  /** The placeholders each part of each template names. */
  function Placeholders(t: Template, part: Part): set<string>
  {
    match (t, part)
    case (BookingConfirmation, Subject) => {"shipment_number"}
    case (BookingConfirmation, Body) =>
      {"recipient_name", "awb", "shipment_number", "carrier", "service_type", "estimated_delivery",
       "sender_name", "sender_city", "recipient_city", "tracking_url"}
    case (BookingConfirmation, SmsBody) => {"shipment_number", "awb", "tracking_url"}
    case (StatusUpdate, Subject) => {"shipment_number"}
    case (StatusUpdate, Body) =>
      {"recipient_name", "status", "awb", "location", "update_time", "description", "tracking_url"}
    case (StatusUpdate, SmsBody) => {"awb", "status", "location", "tracking_url"}
    case (DeliveryAlert, Subject) => {"shipment_number"}
    case (DeliveryAlert, Body) => {"recipient_name", "awb", "delivery_time", "delivery_address", "tracking_url"}
    case (DeliveryAlert, SmsBody) => {"awb", "delivery_time"}
    case (DeliveredConfirmation, Subject) => {"shipment_number"}
    case (DeliveredConfirmation, Body) =>
      {"recipient_name", "awb", "delivery_time", "delivered_to", "delivery_location", "feedback_url"}
    case (DeliveredConfirmation, SmsBody) => {"awb", "delivery_time"}
    case (DelayNotification, Subject) => {"shipment_number"}
    case (DelayNotification, Body) => {"recipient_name", "awb", "original_date", "new_date", "delay_reason"}
    case (DelayNotification, SmsBody) => {"awb", "new_date", "delay_reason"}
  }

  /** `str.format(**data)` succeeds exactly when every placeholder has a value. */
  predicate Renders(t: Template, part: Part, data: map<string, string>)
  {
    Placeholders(t, part) <= data.Keys
  }

  /** `_send_email`: False when the subject or body cannot be rendered, True otherwise. */
  function SendEmail(t: Template, data: map<string, string>): (ok: bool)
    ensures ok <==> forall k :: k in Placeholders(t, Subject) + Placeholders(t, Body) ==> k in data
  {
    Renders(t, Subject, data) && Renders(t, Body, data)
  }

  /** `_send_sms`: False when the text message cannot be rendered, True otherwise. */
  function SendSms(t: Template, data: map<string, string>): (ok: bool)
    ensures ok <==> forall k :: k in Placeholders(t, SmsBody) ==> k in data
  {
    Renders(t, SmsBody, data)
  }

  /** Which channels are switched on; both are on by default. */
  datatype Channels = Channels(emailEnabled: bool, smsEnabled: bool)

  const DefaultChannels: Channels := Channels(true, true)

  /** The result dictionary: a key per channel attempted, with whether it went out. */
  datatype Sent = Sent(email: Option<bool>, sms: Option<bool>)

  /** A date formatted for a message. */
  type DateFormat = int -> string

  function AwbText(s: Shipment): string { s.carrier.trackingNumber.GetOr("None") }

  function ServiceText(t: ServiceType): string
  {
    match t
    case Standard => "standard"
    case Express => "express"
    case Overnight => "overnight"
    case Economy => "economy"
    case SameDay => "same_day"
  }

  /** The estimated delivery as shown in a booking confirmation: "TBD" when there is none. */
  function EstimatedDeliveryText(s: Shipment, fmt: DateFormat): (r: string)
    ensures s.carrier.estimatedDelivery.None? ==> r == "TBD"
    ensures s.carrier.estimatedDelivery.Some? ==> r == fmt(s.carrier.estimatedDelivery.value)
  {
    match s.carrier.estimatedDelivery
    case None => "TBD"
    case Some(t) => fmt(t)
  }

  /** The delivery time as shown in a delivered confirmation: "Recently" when there is no delivery date. */
  function DeliveredTimeText(s: Shipment, fmt: DateFormat): (r: string)
    ensures s.deliveryDate.None? ==> r == "Recently"
    ensures s.deliveryDate.Some? ==> r == fmt(s.deliveryDate.value)
  {
    match s.deliveryDate
    case None => "Recently"
    case Some(t) => fmt(t)
  }

  function BookingData(s: Shipment, trackingUrl: string, fmt: DateFormat): (d: map<string, string>)
    ensures d.Keys == Placeholders(BookingConfirmation, Body)
    ensures d["estimated_delivery"] == EstimatedDeliveryText(s, fmt) && d["tracking_url"] == trackingUrl
  {
    map[
      "recipient_name" := s.recipient.name, "sender_name" := s.sender.name,
      "sender_city" := s.sender.city, "recipient_city" := s.recipient.city,
      "awb" := AwbText(s), "shipment_number" := s.shipmentNumber,
      "carrier" := s.carrier.carrierName, "service_type" := ServiceText(s.carrier.serviceType),
      "estimated_delivery" := EstimatedDeliveryText(s, fmt), "tracking_url" := trackingUrl]
  }

  function StatusData(s: Shipment, ev: TrackingEvent, trackingUrl: string, fmt: DateFormat): (d: map<string, string>)
    ensures d.Keys == Placeholders(StatusUpdate, Body) + {"shipment_number"}
    ensures d["status"] == ev.status && d["location"] == ev.location && d["update_time"] == fmt(ev.timestamp)
  {
    map[
      "recipient_name" := s.recipient.name, "awb" := AwbText(s), "shipment_number" := s.shipmentNumber,
      "status" := ev.status, "location" := ev.location, "description" := ev.description,
      "update_time" := fmt(ev.timestamp), "tracking_url" := trackingUrl]
  }

  /** The delivery time an out-for-delivery alert promises. */
  const AlertDeliveryTime: string := "6:00 PM"

  function AlertData(s: Shipment, trackingUrl: string): (d: map<string, string>)
    ensures d.Keys == Placeholders(DeliveryAlert, Body) + {"shipment_number"}
    ensures d["delivery_time"] == AlertDeliveryTime
    ensures d["delivery_address"] == s.recipient.street + ", " + s.recipient.city
  {
    map[
      "recipient_name" := s.recipient.name, "awb" := AwbText(s), "shipment_number" := s.shipmentNumber,
      "delivery_time" := AlertDeliveryTime, "delivery_address" := s.recipient.street + ", " + s.recipient.city,
      "tracking_url" := trackingUrl]
  }

  function DeliveredData(s: Shipment, feedbackUrl: string, trackingUrl: string, fmt: DateFormat): (d: map<string, string>)
    ensures d.Keys == Placeholders(DeliveredConfirmation, Body) + {"shipment_number", "tracking_url"}
    ensures d["delivery_time"] == DeliveredTimeText(s, fmt) && d["delivered_to"] == s.recipient.name
    ensures d["delivery_location"] == s.recipient.city + ", " + s.recipient.state
  {
    map[
      "recipient_name" := s.recipient.name, "awb" := AwbText(s), "shipment_number" := s.shipmentNumber,
      "delivery_time" := DeliveredTimeText(s, fmt), "delivered_to" := s.recipient.name,
      "delivery_location" := s.recipient.city + ", " + s.recipient.state,
      "feedback_url" := feedbackUrl, "tracking_url" := trackingUrl]
  }

  /** Sends `t` over every enabled channel, SMS only when `smsWanted`. */
  function SendOn(ch: Channels, t: Template, data: map<string, string>, smsWanted: bool): (r: Sent)
    ensures r.email.Some? <==> ch.emailEnabled
    ensures r.sms.Some? <==> ch.smsEnabled && smsWanted
    ensures r.email.Some? ==> r.email.value == SendEmail(t, data)
    ensures r.sms.Some? ==> r.sms.value == SendSms(t, data)
  {
    Sent(if ch.emailEnabled then Some(SendEmail(t, data)) else None,
         if ch.smsEnabled && smsWanted then Some(SendSms(t, data)) else None)
  }

  /** `send_booking_confirmation`: both channels, as enabled. */
  function SendBookingConfirmation(ch: Channels, s: Shipment, trackingUrl: string, fmt: DateFormat): (r: Sent)
    ensures r.email.Some? <==> ch.emailEnabled
    ensures r.sms.Some? <==> ch.smsEnabled
  {
    SendOn(ch, BookingConfirmation, BookingData(s, trackingUrl, fmt), true)
  }

  /** The statuses worth a text message. */
  predicate Important(st: Status) { st == PickedUp || st == OutForDelivery || st == Delivered }

  /** `send_status_update`: e-mail as enabled; a text message only for the important statuses. */
  function SendStatusUpdate(ch: Channels, s: Shipment, ev: TrackingEvent, trackingUrl: string, fmt: DateFormat): (r: Sent)
    ensures r.email.Some? <==> ch.emailEnabled
    ensures r.sms.Some? <==> ch.smsEnabled && s.status in {PickedUp, OutForDelivery, Delivered}
  {
    SendOn(ch, StatusUpdate, StatusData(s, ev, trackingUrl, fmt), Important(s.status))
  }

  /** `send_delivery_alert`: both channels, as enabled. */
  function SendDeliveryAlert(ch: Channels, s: Shipment, trackingUrl: string): (r: Sent)
    ensures r.email.Some? <==> ch.emailEnabled
    ensures r.sms.Some? <==> ch.smsEnabled
  {
    SendOn(ch, DeliveryAlert, AlertData(s, trackingUrl), true)
  }

  /** `send_delivered_confirmation`: both channels, as enabled. */
  function SendDeliveredConfirmation(ch: Channels, s: Shipment, feedbackUrl: string, trackingUrl: string, fmt: DateFormat): (r: Sent)
    ensures r.email.Some? <==> ch.emailEnabled
    ensures r.sms.Some? <==> ch.smsEnabled
  {
    SendOn(ch, DeliveredConfirmation, DeliveredData(s, feedbackUrl, trackingUrl, fmt), true)
  }

  /** Every channel a booking confirmation attempts goes out: its data fills the template. */
  lemma BookingAlwaysRenders(ch: Channels, s: Shipment, trackingUrl: string, fmt: DateFormat)
    ensures var r := SendBookingConfirmation(ch, s, trackingUrl, fmt); r.email != Some(false) && r.sms != Some(false)
  {
    var d := BookingData(s, trackingUrl, fmt);
    assert Placeholders(BookingConfirmation, Subject) <= d.Keys;
    assert Placeholders(BookingConfirmation, SmsBody) <= d.Keys;
  }

  /** Every channel a status update attempts goes out. */
  lemma StatusAlwaysRenders(ch: Channels, s: Shipment, ev: TrackingEvent, trackingUrl: string, fmt: DateFormat)
    ensures var r := SendStatusUpdate(ch, s, ev, trackingUrl, fmt); r.email != Some(false) && r.sms != Some(false)
  {
    var d := StatusData(s, ev, trackingUrl, fmt);
    assert Placeholders(StatusUpdate, SmsBody) <= d.Keys;
  }

  /** Every channel a delivery alert attempts goes out. */
  lemma AlertAlwaysRenders(ch: Channels, s: Shipment, trackingUrl: string)
    ensures var r := SendDeliveryAlert(ch, s, trackingUrl); r.email != Some(false) && r.sms != Some(false)
  {
    var d := AlertData(s, trackingUrl);
    assert Placeholders(DeliveryAlert, SmsBody) <= d.Keys;
  }

  /** Every channel a delivered confirmation attempts goes out. */
  lemma DeliveredAlwaysRenders(ch: Channels, s: Shipment, feedbackUrl: string, trackingUrl: string, fmt: DateFormat)
    ensures var r := SendDeliveredConfirmation(ch, s, feedbackUrl, trackingUrl, fmt); r.email != Some(false) && r.sms != Some(false)
  {
    var d := DeliveredData(s, feedbackUrl, trackingUrl, fmt);
    assert Placeholders(DeliveredConfirmation, SmsBody) <= d.Keys;
  }

  /** Rendering fails for a template whose placeholders the data lacks: the delay template cannot be filled from a booking's data. */
  lemma DelayNeedsItsOwnData(s: Shipment, trackingUrl: string, fmt: DateFormat)
    ensures !SendEmail(DelayNotification, BookingData(s, trackingUrl, fmt))
    ensures !SendSms(DelayNotification, BookingData(s, trackingUrl, fmt))
  {
    assert "delay_reason" !in BookingData(s, trackingUrl, fmt);
  }

  // Bulk notifications

  /** What looking a shipment up gives: nothing, a document that fails validation, or a shipment. */
  datatype Lookup = Missing | Malformed(error: string) | Found(shipment: Shipment)

  datatype Detail = SentDetail(shipmentId: string, awb: string, result: Sent) | FailedDetail(shipmentId: string, error: string)

  datatype BulkResult = BulkResult(total: nat, sent: nat, failed: nat, details: seq<Detail>)

  const FeedbackUrl: string := "https://xfas.in/feedback"

  const TrackBase: string := "https://xfas.in/track/"

  /** The public tracking page of a shipment: the tracking base followed by its AWB. */
  function TrackingUrl(s: Shipment): (r: string)
    ensures |r| == |TrackBase| + |AwbText(s)| && r[..|TrackBase|] == TrackBase
  {
    TrackBase + AwbText(s)
  }

  /** Two shipments share a tracking link exactly when they show the same AWB. */
  lemma TrackingUrlNamesAwb(s: Shipment, t: Shipment)
    ensures TrackingUrl(s) == TrackingUrl(t) <==> AwbText(s) == AwbText(t)
  {
    if TrackingUrl(s) == TrackingUrl(t) {
      assert TrackingUrl(s)[|TrackBase|..] == AwbText(s);
      assert TrackingUrl(t)[|TrackBase|..] == AwbText(t);
    }
  }

  /** The sender a template selects; a status update for a shipment without events falls through to a booking confirmation. */
  function Dispatch(ch: Channels, t: Template, s: Shipment, fmt: DateFormat): (r: Sent)
    ensures t == StatusUpdate && s.events != [] ==> r == SendStatusUpdate(ch, s, s.events[|s.events| - 1], TrackingUrl(s), fmt)
    ensures t == DeliveryAlert ==> r == SendDeliveryAlert(ch, s, TrackingUrl(s))
    ensures t == DeliveredConfirmation ==> r == SendDeliveredConfirmation(ch, s, FeedbackUrl, TrackingUrl(s), fmt)
    ensures t == BookingConfirmation || t == DelayNotification || (t == StatusUpdate && s.events == [])
      ==> r == SendBookingConfirmation(ch, s, TrackingUrl(s), fmt)
  {
    var url := TrackingUrl(s);
    if t == StatusUpdate && s.events != [] then SendStatusUpdate(ch, s, s.events[|s.events| - 1], url, fmt)
    else if t == DeliveryAlert then SendDeliveryAlert(ch, s, url)
    else if t == DeliveredConfirmation then SendDeliveredConfirmation(ch, s, FeedbackUrl, url, fmt)
    else SendBookingConfirmation(ch, s, url, fmt)
  }

  function DetailOf(ch: Channels, t: Template, id: string, l: Lookup, fmt: DateFormat): seq<Detail>
  {
    match l
    case Missing => []
    case Malformed(e) => [FailedDetail(id, e)]
    case Found(s) => [SentDetail(id, AwbText(s), Dispatch(ch, t, s, fmt))]
  }

  function BulkDetails(ch: Channels, t: Template, ids: seq<string>, lookups: seq<Lookup>, fmt: DateFormat): (ds: seq<Detail>)
    requires |lookups| == |ids|
    decreases |ids|
  {
    if ids == [] then [] else DetailOf(ch, t, ids[0], lookups[0], fmt) + BulkDetails(ch, t, ids[1..], lookups[1..], fmt)
  }

  predicate IsSent(d: Detail) { d.SentDetail? }
  predicate IsFailed(d: Detail) { d.FailedDetail? }
  predicate IsFound(l: Lookup) { l.Found? }
  predicate IsMalformed(l: Lookup) { l.Malformed? }

  function CountSent(ds: seq<Detail>): nat
  {
    Seqs.Count(ds, IsSent)
  }

  function CountFailed(ds: seq<Detail>): nat
  {
    Seqs.Count(ds, IsFailed)
  }

  /** One lookup gives one sent detail when found, one failed detail when malformed, and nothing when missing. */
  lemma DetailCounts(ch: Channels, t: Template, id: string, l: Lookup, fmt: DateFormat)
    ensures CountSent(DetailOf(ch, t, id, l, fmt)) == (if IsFound(l) then 1 else 0)
    ensures CountFailed(DetailOf(ch, t, id, l, fmt)) == (if IsMalformed(l) then 1 else 0)
    ensures |DetailOf(ch, t, id, l, fmt)| == (if l.Missing? then 0 else 1)
  {
    var d := DetailOf(ch, t, id, l, fmt);
    if d != [] {
      assert d[1..] == [];
    }
  }

  /**
   `send_bulk_notifications`: one lookup per id (none at all without a
   database); a shipment found is one sent detail, a lookup that fails is
   one failed detail, and a missing shipment adds nothing.
   */
  function SendBulk(ch: Channels, t: Template, ids: seq<string>, lookups: Option<seq<Lookup>>, fmt: DateFormat): (r: BulkResult)
    requires lookups.Some? ==> |lookups.value| == |ids|
    ensures r.total == |ids|
    ensures lookups.None? ==> r.sent == 0 && r.failed == 0 && r.details == []
    ensures lookups.Some? ==> r.sent == Seqs.Count(lookups.value, IsFound)
    ensures lookups.Some? ==> r.failed == Seqs.Count(lookups.value, IsMalformed)
    ensures r.sent + r.failed == |r.details| <= r.total
  {
    match lookups
    case None => BulkResult(|ids|, 0, 0, [])
    case Some(ls) =>
      var ds := BulkDetails(ch, t, ids, ls, fmt);
      BulkCounts(ch, t, ids, ls, fmt);
      BulkResult(|ids|, CountSent(ds), CountFailed(ds), ds)
  }

  lemma {:induction false} BulkCounts(ch: Channels, t: Template, ids: seq<string>, ls: seq<Lookup>, fmt: DateFormat)
    requires |ls| == |ids|
    ensures var ds := BulkDetails(ch, t, ids, ls, fmt);
      && CountSent(ds) == Seqs.Count(ls, IsFound)
      && CountFailed(ds) == Seqs.Count(ls, IsMalformed)
      && CountSent(ds) + CountFailed(ds) == |ds| <= |ids|
    decreases |ids|
  {
    if ids != [] {
      BulkCounts(ch, t, ids[1..], ls[1..], fmt);
      var head := DetailOf(ch, t, ids[0], ls[0], fmt);
      var rest := BulkDetails(ch, t, ids[1..], ls[1..], fmt);
      DetailCounts(ch, t, ids[0], ls[0], fmt);
      Seqs.CountAppend(head, rest, IsSent);
      Seqs.CountAppend(head, rest, IsFailed);
    }
  }

  /** A status update for a shipment without events is sent as a booking confirmation. */
  lemma EventlessStatusUpdateConfirms(ch: Channels, id: string, s: Shipment, fmt: DateFormat)
    requires s.events == []
    ensures SendBulk(ch, StatusUpdate, [id], Some([Found(s)]), fmt).details
      == [SentDetail(id, AwbText(s), SendBookingConfirmation(ch, s, TrackingUrl(s), fmt))]
  {
  }
}

=== FILE: orders.dfy ===
/**
 The order-management endpoints: stage predicates, cancel, reschedule,
 invoice and label guards, pagination and the cancellation deadline.
 Lookups match on both id and owner, so another user's shipment is 404;
 writes then address the first shipment with the id, as the source's
 `update_one({"id": ...})` does.
 */
module Orders {
  import opened Wrappers
  import opened Shipments
  import opened BookingRoutes

  predicate CanCancel(st: Status) { st in {Draft, Booked, PickupScheduled} }

  predicate CanReschedule(st: Status) { st in {Booked, PickupScheduled} }

  predicate InvoiceAvailable(st: Status) { st !in {Draft, Cancelled} }

  predicate LabelAvailable(st: Status) { st !in {Draft, Cancelled} }

  /** Every reschedulable order is also cancellable, and a cancellable one has no invoice only while it is a draft. */
  lemma StagePredicatesNest(st: Status)
    ensures CanReschedule(st) ==> CanCancel(st)
    ensures CanCancel(st) && !InvoiceAvailable(st) <==> st == Draft
    ensures InvoiceAvailable(st) == LabelAvailable(st)
  {
  }

  /**
   The two cancel policies disagree: everything the order route may cancel
   the booking route may cancel too, but the booking route also cancels
   in-flight and lost shipments that the order route refuses.
   */
  lemma CancelPoliciesDisagree()
    ensures forall st :: CanCancel(st) ==> !BookingCancelRefused(st)
    ensures !CanCancel(Lost) && !BookingCancelRefused(Lost)
    ensures !CanCancel(InTransit) && !BookingCancelRefused(InTransit)
    ensures forall st :: !CanCancel(st) && !BookingCancelRefused(st) <==> st in {PickedUp, InTransit, OutForDelivery, Lost}
  {
    forall st ensures !CanCancel(st) && !BookingCancelRefused(st) <==> st in {PickedUp, InTransit, OutForDelivery, Lost} {
      match st
      case Draft => case Booked => case PickupScheduled => case PickedUp => case InTransit =>
      case OutForDelivery => case Delivered => case Returned => case Cancelled => case Lost =>
    }
  }

  /** Pagination: more results exist beyond this page. */
  function HasMore(total: int, offset: int, limit: int): (b: bool)
    ensures b <==> offset + limit < total
  {
    total > offset + limit
  }

  const TwoHours: int := 7200

  /** Cancellation is allowed until two hours before pickup; no pickup date, no deadline. */
  function CancellationDeadline(s: Shipment): (d: Option<int>)
    ensures d.Some? <==> s.pickupDate.Some?
    ensures d.Some? ==> d.value + TwoHours == s.pickupDate.value
  {
    match s.pickupDate
    case None => None
    case Some(p) => Some(p - TwoHours)
  }

  /** The first shipment with this id owned by this user. */
  function FindOwned(store: Store, id: string, user: string): (r: Option<nat>)
    ensures r.Some? ==> r.value < |store| && store[r.value].id == id && store[r.value].userId == user
    ensures r.None? <==> forall k :: 0 <= k < |store| ==> !(store[k].id == id && store[k].userId == user)
  {
    if store == [] then None
    else if store[0].id == id && store[0].userId == user then Some(0)
    else
      match FindOwned(store[1..], id, user)
      case None => None
      case Some(k) => Some(k + 1)
  }

  /** Another user's shipment is indistinguishable from a missing one. */
  lemma ForeignIsNotFound(store: Store, id: string, user: string)
    requires forall k :: 0 <= k < |store| && store[k].id == id ==> store[k].userId != user
    ensures FindOwned(store, id, user).None?
  {
  }

  /** GET /orders/{id}, with the stage flags the endpoint reports. */
  datatype OrderView = OrderView(shipment: Shipment, canCancel: bool, canReschedule: bool,
                                 invoiceAvailable: bool, labelAvailable: bool, cancellationDeadline: Option<int>)

  function ShipmentDetails(store: Store, id: string, user: string): (r: Result<OrderView, HttpError>)
    ensures r.Failure? <==> FindOwned(store, id, user).None?
    ensures r.Failure? ==> r.error == NotFound
    ensures r.Success? ==>
              && r.value.shipment.id == id && r.value.shipment.userId == user
              && r.value.canCancel == CanCancel(r.value.shipment.status)
              && r.value.canReschedule == CanReschedule(r.value.shipment.status)
              && r.value.invoiceAvailable == InvoiceAvailable(r.value.shipment.status)
              && r.value.labelAvailable == LabelAvailable(r.value.shipment.status)
              && r.value.cancellationDeadline == CancellationDeadline(r.value.shipment)
  {
    match FindOwned(store, id, user)
    case None => Failure(NotFound)
    case Some(i) =>
      var s := store[i];
      Success(OrderView(s, CanCancel(s.status), CanReschedule(s.status), InvoiceAvailable(s.status),
                        LabelAvailable(s.status), CancellationDeadline(s)))
  }

  datatype CancelOutcome = CancelOutcome(store: Store, refundStatus: string, estimatedRefundTime: Option<string>)

  /** The cancellation fields and event, applied to the addressed shipment. */
  function ApplyCancel(s: Shipment, reason: string, refund: bool, user: string, now: int): (r: Shipment)
    ensures r.status == Cancelled && r.updatedAt == now
    ensures r.cancellation == Some(Cancellation(reason, now, user, refund))
    ensures r.events == s.events + [TrackingEvent(now, "CANCELLED", "Customer Request",
                                                  "Shipment cancelled by customer. Reason: " + reason)]
    ensures r.(status := s.status, updatedAt := s.updatedAt, cancellation := s.cancellation, events := s.events) == s
  {
    var ev := TrackingEvent(now, "CANCELLED", "Customer Request", "Shipment cancelled by customer. Reason: " + reason);
    s.(status := Cancelled, updatedAt := now, cancellation := Some(Cancellation(reason, now, user, refund)),
       events := s.events + [ev])
  }

  /**
   POST /orders/{id}/cancel: 404 unless the user owns such a shipment, 400
   unless it is a draft, booked or pickup-scheduled; otherwise it is
   cancelled with one "CANCELLED" event, and the refund is "processing"
   exactly when one was requested.
   */
  function CancelOrder(store: Store, id: string, user: string, reason: string, refund: bool, now: int): (r: Result<CancelOutcome, HttpError>)
    ensures FindOwned(store, id, user).None? ==> r == Failure(NotFound)
    ensures FindOwned(store, id, user).Some? ==>
              (r.Failure? <==> !CanCancel(store[FindOwned(store, id, user).value].status))
    ensures r.Failure? ==> r.error in {NotFound, BadRequest}
    ensures r.Success? ==>
              && FindById(store, id).Some?
              && var w := FindById(store, id).value;
              && |r.value.store| == |store|
              && r.value.store[w] == ApplyCancel(store[w], reason, refund, user, now)
              && (forall k :: 0 <= k < |store| && k != w ==> r.value.store[k] == store[k])
              && (r.value.refundStatus == "processing" <==> refund)
              && (r.value.refundStatus == "pending" <==> !refund)
              && (r.value.estimatedRefundTime.Some? <==> refund)
  {
    match FindOwned(store, id, user)
    case None => Failure(NotFound)
    case Some(i) =>
      if !CanCancel(store[i].status) then Failure(BadRequest)
      else
        var w := FindById(store, id).value;
        var written := store[w := ApplyCancel(store[w], reason, refund, user, now)];
        Success(CancelOutcome(written, if refund then "processing" else "pending",
                              if refund then Some("3-5 business days") else None))
  }

  /** When ids are unique, the cancelled shipment is exactly the one the user owns. */
  lemma CancelOrderHitsOwned(store: Store, id: string, user: string, reason: string, refund: bool, now: int)
    requires forall a, b :: 0 <= a < b < |store| ==> store[a].id != store[b].id
    requires CancelOrder(store, id, user, reason, refund, now).Success?
    ensures FindById(store, id) == FindOwned(store, id, user)
    ensures CancelOrder(store, id, user, reason, refund, now).value.store[FindOwned(store, id, user).value].status == Cancelled
  {
  }

  /** The reschedule fields and event, applied to the addressed shipment. */
  function ApplyReschedule(s: Shipment, previousCount: nat, pickup: int, reason: Option<string>, dateText: string, now: int): (r: Shipment)
    ensures r.pickupDate == Some(pickup) && r.rescheduleCount == Some(previousCount + 1)
    ensures r.events == s.events + [TrackingEvent(now, "RESCHEDULED", "Customer Request", "Pickup rescheduled to " + dateText)]
    ensures r.rescheduleReason == reason && r.rescheduledAt == Some(now) && r.updatedAt == now
    ensures r.status == s.status
    ensures r.(pickupDate := s.pickupDate, updatedAt := s.updatedAt, rescheduledAt := s.rescheduledAt,
               rescheduleReason := s.rescheduleReason, rescheduleCount := s.rescheduleCount, events := s.events) == s
  {
    var ev := TrackingEvent(now, "RESCHEDULED", "Customer Request", "Pickup rescheduled to " + dateText);
    s.(pickupDate := Some(pickup), updatedAt := now, rescheduledAt := Some(now), rescheduleReason := reason,
       rescheduleCount := Some(previousCount + 1), events := s.events + [ev])
  }

  /**
   POST /orders/{id}/reschedule: 404 unless owned, 400 unless booked or
   pickup-scheduled, 400 unless the new pickup lies strictly in the future;
   otherwise the count goes up by one (an absent count counts as 0).
   `dateText` is the new date as the event description renders it.
   */
  function RescheduleOrder(store: Store, id: string, user: string, pickup: int, reason: Option<string>, dateText: string, now: int): (r: Result<Store, HttpError>)
    ensures FindOwned(store, id, user).None? ==> r == Failure(NotFound)
    ensures FindOwned(store, id, user).Some? ==>
              var s := store[FindOwned(store, id, user).value];
              (r.Failure? <==> !CanReschedule(s.status) || pickup <= now)
    ensures r.Failure? ==> r.error in {NotFound, BadRequest}
    ensures r.Success? ==>
              && FindById(store, id).Some?
              && var w := FindById(store, id).value;
              && var s := store[FindOwned(store, id, user).value];
              && r.value == store[w := ApplyReschedule(store[w], s.rescheduleCount.GetOr(0), pickup, reason, dateText, now)]
  {
    match FindOwned(store, id, user)
    case None => Failure(NotFound)
    case Some(i) =>
      if !CanReschedule(store[i].status) then Failure(BadRequest)
      else if pickup <= now then Failure(BadRequest)
      else
        var w := FindById(store, id).value;
        Success(store[w := ApplyReschedule(store[w], store[i].rescheduleCount.GetOr(0), pickup, reason, dateText, now)])
  }

  /** With unique ids the write addresses the shipment the lookup found. */
  lemma OwnedIsFirstById(store: Store, id: string, user: string)
    requires forall a, b :: 0 <= a < b < |store| ==> store[a].id != store[b].id
    requires FindOwned(store, id, user).Some?
    ensures FindById(store, id) == FindOwned(store, id, user)
  {
  }

  /** Two stores holding shipments with the same ids and owners, position by position. */
  predicate SameKeys(a: Store, b: Store)
  {
    |a| == |b| && forall k :: 0 <= k < |a| ==> a[k].id == b[k].id && a[k].userId == b[k].userId
  }

  /** The lookups see only ids and owners. */
  lemma {:induction false} LookupsSeeKeys(a: Store, b: Store, id: string, user: string)
    requires SameKeys(a, b)
    ensures FindOwned(a, id, user) == FindOwned(b, id, user)
    ensures FindById(a, id) == FindById(b, id)
  {
    if a != [] {
      assert SameKeys(a[1..], b[1..]) by {
        forall k | 0 <= k < |a| - 1 ensures a[1..][k].id == b[1..][k].id && a[1..][k].userId == b[1..][k].userId {
          assert a[1..][k] == a[k + 1] && b[1..][k] == b[k + 1];
        }
      }
      LookupsSeeKeys(a[1..], b[1..], id, user);
    }
  }

  /**
   One successful reschedule, ids unique: the ids and owners stay where
   they were, and the found shipment's count is one up at an unchanged stage.
   */
  lemma RescheduleStep(store: Store, id: string, user: string, p: int, d: string, t: int, once: Store)
    requires forall a, b :: 0 <= a < b < |store| ==> store[a].id != store[b].id
    requires RescheduleOrder(store, id, user, p, None, d, t) == Success(once)
    ensures SameKeys(once, store)
    ensures forall a, b :: 0 <= a < b < |once| ==> once[a].id != once[b].id
    ensures FindOwned(once, id, user) == FindOwned(store, id, user)
    ensures var i := FindOwned(store, id, user).value;
            && once[i].status == store[i].status
            && once[i].rescheduleCount.GetOr(0) == store[i].rescheduleCount.GetOr(0) + 1
            && once[i].rescheduleCount.Some?
            && once[i].pickupDate == Some(p)
  {
    OwnedIsFirstById(store, id, user);
    LookupsSeeKeys(once, store, id, user);
  }

  /** Once rescheduled, ids unique, the order may be rescheduled again to any later pickup. */
  lemma RescheduleAgainSucceeds(store: Store, id: string, user: string, p1: int, p2: int,
                                d1: string, d2: string, t1: int, t2: int, once: Store)
    requires forall a, b :: 0 <= a < b < |store| ==> store[a].id != store[b].id
    requires RescheduleOrder(store, id, user, p1, None, d1, t1) == Success(once)
    requires p2 > t2
    ensures RescheduleOrder(once, id, user, p2, None, d2, t2).Success?
  {
    RescheduleStep(store, id, user, p1, d1, t1, once);
  }

  /**
   Rescheduling the same order twice, ids unique, leaves it at the second
   pickup with a count two more than before (an absent count counts as 0).
   */
  lemma RescheduleCountsUp(store: Store, id: string, user: string, p1: int, p2: int,
                           d1: string, d2: string, t1: int, t2: int, once: Store, twice: Store)
    requires forall a, b :: 0 <= a < b < |store| ==> store[a].id != store[b].id
    requires RescheduleOrder(store, id, user, p1, None, d1, t1) == Success(once)
    requires RescheduleOrder(once, id, user, p2, None, d2, t2) == Success(twice)
    ensures var i := FindOwned(store, id, user).value;
            && twice[i].rescheduleCount == Some(store[i].rescheduleCount.GetOr(0) + 2)
            && twice[i].pickupDate == Some(p2)
  {
    RescheduleStep(store, id, user, p1, d1, t1, once);
    RescheduleStep(once, id, user, p2, d2, t2, twice);
  }

  /** GET /orders/{id}/invoice and /label: 404 unless owned, 400 for a draft or cancelled shipment. */
  function DocumentGuard(store: Store, id: string, user: string): (r: Result<Shipment, HttpError>)
    ensures FindOwned(store, id, user).None? <==> r == Failure(NotFound)
    ensures r == Failure(BadRequest) <==>
              FindOwned(store, id, user).Some? && !InvoiceAvailable(store[FindOwned(store, id, user).value].status)
    ensures r.Success? ==> InvoiceAvailable(r.value.status) && LabelAvailable(r.value.status) && r.value.userId == user
  {
    match FindOwned(store, id, user)
    case None => Failure(NotFound)
    case Some(i) => if store[i].status in {Draft, Cancelled} then Failure(BadRequest) else Success(store[i])
  }
}

=== FILE: otp.dfy ===
/**
 One-time passwords for e-mail and phone verification. A code is six random
 decimal digits, stored with an expiry ten minutes ahead and an attempt cap of
 three; creating one discards the unused codes for the same identifier and
 purpose. The store is the sequence of OTP records, a record's position
 standing for its document id.
 */
module Otp {
  import opened Wrappers
  import opened Text
  import Seqs

  const ExpiryMinutes: nat := 10
  const MaxAttempts: nat := 3
  const DefaultLength: nat := 6

  datatype OtpRecord = OtpRecord(
    identifier: string,
    identifierType: string,
    code: string,
    purpose: string,
    expiresAt: int,
    createdAt: int,
    isUsed: bool,
    attempts: nat,
    maxAttempts: nat,
    verifiedAt: Option<int>)

  /** A code of one digit per random draw; six draws give the default length. */
  function GenerateOtp(draws: seq<nat>): (code: string)
    requires forall i :: 0 <= i < |draws| ==> draws[i] < 10
    ensures |code| == |draws| && AllDigits(code)
    ensures forall i :: 0 <= i < |draws| ==> DigitValue(code[i]) == draws[i]
  {
    DigitString(draws)
  }

  /** A record still waiting to be verified for this identifier and purpose. */
  predicate Waiting(o: OtpRecord, identifier: string, purpose: string)
  {
    o.identifier == identifier && o.purpose == purpose && !o.isUsed
  }

  /** The first waiting record for the pair, as `find_one` returns it. */
  function FindWaiting(store: seq<OtpRecord>, identifier: string, purpose: string): (r: Option<nat>)
    ensures r.Some? ==> r.value < |store| && Waiting(store[r.value], identifier, purpose)
    ensures r.Some? ==> forall k :: 0 <= k < r.value ==> !Waiting(store[k], identifier, purpose)
    ensures r.None? <==> forall k :: 0 <= k < |store| ==> !Waiting(store[k], identifier, purpose)
  {
    if store == [] then None
    else if Waiting(store[0], identifier, purpose) then Some(0)
    else
      match FindWaiting(store[1..], identifier, purpose)
      case None => None
      case Some(k) => Some(k + 1)
  }

  /** Two records do not both wait for the same identifier and purpose. */
  predicate Apart(x: OtpRecord, y: OtpRecord)
  {
    x.isUsed || y.isUsed || x.identifier != y.identifier || x.purpose != y.purpose
  }

  /** At most one record waits for each identifier and purpose. */
  predicate OneWaitingPerPair(store: seq<OtpRecord>)
  {
    forall a, b :: 0 <= a < b < |store| ==> Apart(store[a], store[b])
  }

  /** The records that survive deleting the pair's waiting ones, in order. */
  function Kept(store: seq<OtpRecord>, identifier: string, purpose: string): seq<OtpRecord>
  {
    Seqs.Filter(store, (x: OtpRecord) => !Waiting(x, identifier, purpose))
  }

  /** Deleting the pair's waiting records keeps the others apart and leaves none waiting for the pair. */
  lemma KeptApart(store: seq<OtpRecord>, identifier: string, purpose: string)
    requires OneWaitingPerPair(store)
    ensures OneWaitingPerPair(Kept(store, identifier, purpose))
    ensures forall k :: 0 <= k < |Kept(store, identifier, purpose)| ==> !Waiting(Kept(store, identifier, purpose)[k], identifier, purpose)
  {
    Seqs.FilterPairwise(store, (x: OtpRecord) => !Waiting(x, identifier, purpose), Apart);
  }

  /**
   Creates an OTP: drops every waiting record for the pair, then stores a fresh
   unused record with no attempts, expiring ten minutes from now.
   */
  function CreateOtp(store: seq<OtpRecord>, identifier: string, purpose: string, identifierType: string,
                     draws: seq<nat>, now: int): (r: (OtpRecord, seq<OtpRecord>))
    requires |draws| == DefaultLength && forall i :: 0 <= i < |draws| ==> draws[i] < 10
    ensures r.0.identifier == identifier && r.0.purpose == purpose && r.0.identifierType == identifierType
    ensures |r.0.code| == DefaultLength && AllDigits(r.0.code)
    ensures r.0.expiresAt == now + ExpiryMinutes * 60 && r.0.createdAt == now
    ensures !r.0.isUsed && r.0.attempts == 0 && r.0.maxAttempts == MaxAttempts && r.0.verifiedAt.None?
    ensures |r.1| > 0 && r.1[|r.1| - 1] == r.0
    ensures forall o :: o in r.1[..|r.1| - 1] <==> o in store && !Waiting(o, identifier, purpose)
  {
    var o := OtpRecord(identifier, identifierType, GenerateOtp(draws), purpose,
                       now + ExpiryMinutes * 60, now, false, 0, MaxAttempts, None);
    var kept := Kept(store, identifier, purpose);
    forall x ensures x in kept <==> x in store && !Waiting(x, identifier, purpose) {
      Seqs.FilterMembers(store, (x: OtpRecord) => !Waiting(x, identifier, purpose), x);
    }
    assert (kept + [o])[..|kept|] == kept;
    (o, kept + [o])
  }

  datatype Outcome = Verified | NoOtp | Expired | TooManyAttempts | InvalidCode

  /** The message each outcome is reported with. */
  function OutcomeMessage(v: Outcome): string
  {
    match v
    case Verified => "OTP verified successfully"
    case NoOtp => "OTP not found or already used"
    case Expired => "OTP has expired"
    case TooManyAttempts => "Maximum verification attempts exceeded"
    case InvalidCode => "Invalid OTP code"
  }

  /** Each outcome has its own message, so a caller can tell them apart by text. */
  lemma OutcomeMessagesDistinct(v: Outcome, w: Outcome)
    requires v != w
    ensures OutcomeMessage(v) != OutcomeMessage(w)
  {
    assert |OutcomeMessage(v)| != |OutcomeMessage(w)|;
  }

  /**
   Verification: the waiting record for the pair is checked for expiry (now
   strictly after the expiry), then for the attempt cap, then for the code. An
   expired or exhausted record is retired, a wrong code costs one attempt, and
   the right code retires the record as verified.
   */
  function VerifyOtp(store: seq<OtpRecord>, identifier: string, code: string, purpose: string, now: int): (r: (Outcome, seq<OtpRecord>))
    ensures |r.1| == |store|
    ensures r.0 == NoOtp <==> FindWaiting(store, identifier, purpose).None?
    ensures r.0 == NoOtp ==> r.1 == store
    ensures r.0 != NoOtp ==>
      var i := FindWaiting(store, identifier, purpose).value;
      var o := store[i];
      && (forall k :: 0 <= k < |store| && k != i ==> r.1[k] == store[k])
      && (r.0 == Expired <==> now > o.expiresAt)
      && (r.0 == TooManyAttempts <==> now <= o.expiresAt && o.attempts >= o.maxAttempts)
      && (r.0 == Verified <==> now <= o.expiresAt && o.attempts < o.maxAttempts && o.code == code)
      && (r.0 == InvalidCode ==> r.1[i] == o.(attempts := o.attempts + 1))
      && (r.0 == Verified ==> r.1[i] == o.(isUsed := true, verifiedAt := Some(now)))
      && (r.0 in {Expired, TooManyAttempts} ==> r.1[i] == o.(isUsed := true))
  {
    match FindWaiting(store, identifier, purpose)
    case None => (NoOtp, store)
    case Some(i) =>
      var o := store[i];
      if now > o.expiresAt then (Expired, store[i := o.(isUsed := true)])
      else if o.attempts >= o.maxAttempts then (TooManyAttempts, store[i := o.(isUsed := true)])
      else if o.code != code then (InvalidCode, store[i := o.(attempts := o.attempts + 1)])
      else (Verified, store[i := o.(isUsed := true, verifiedAt := Some(now))])
  }

  /** Creating an OTP leaves exactly one waiting record for its pair: the new one, last in the store. */
  lemma CreateOtpKeepsOneWaiting(store: seq<OtpRecord>, identifier: string, purpose: string, identifierType: string,
                                 draws: seq<nat>, now: int)
    requires |draws| == DefaultLength && forall i :: 0 <= i < |draws| ==> draws[i] < 10
    requires OneWaitingPerPair(store)
    ensures
      var r := CreateOtp(store, identifier, purpose, identifierType, draws, now);
      && OneWaitingPerPair(r.1)
      && FindWaiting(r.1, identifier, purpose) == Some(|r.1| - 1)
  {
    var r := CreateOtp(store, identifier, purpose, identifierType, draws, now);
    var kept := Kept(store, identifier, purpose);
    KeptApart(store, identifier, purpose);
    assert r.1 == kept + [r.0];
    assert forall k :: 0 <= k < |kept| ==> r.1[k] == kept[k];
    forall a, b | 0 <= a < b < |r.1| ensures Apart(r.1[a], r.1[b]) {
      if b < |kept| {
        assert Apart(kept[a], kept[b]);
      } else {
        assert !Waiting(kept[a], identifier, purpose);
      }
    }
    FindsOnlyWaiting(r.1, identifier, purpose, |kept|);
  }

  /** When exactly one record waits for the pair, verification finds that one. */
  lemma FindsOnlyWaiting(store: seq<OtpRecord>, identifier: string, purpose: string, i: nat)
    requires i < |store| && Waiting(store[i], identifier, purpose)
    requires forall k :: 0 <= k < |store| && k != i ==> !Waiting(store[k], identifier, purpose)
    ensures FindWaiting(store, identifier, purpose) == Some(i)
  {
  }

  /** Verification keeps at most one waiting record per pair. */
  lemma VerifyKeepsOneWaiting(store: seq<OtpRecord>, identifier: string, code: string, purpose: string, now: int)
    requires OneWaitingPerPair(store)
    ensures OneWaitingPerPair(VerifyOtp(store, identifier, code, purpose, now).1)
  {
    var r := VerifyOtp(store, identifier, code, purpose, now);
    if r.0 != NoOtp {
      var i := FindWaiting(store, identifier, purpose).value;
      forall a, b | 0 <= a < b < |r.1| ensures Apart(r.1[a], r.1[b]) {
        assert Apart(store[a], store[b]);
      }
    }
  }

  /** A code verifies at most once: after success nothing waits for the pair, so any further attempt finds no OTP. */
  lemma VerifiedOnlyOnce(store: seq<OtpRecord>, identifier: string, code: string, purpose: string, now: int,
                         again: string, later: int)
    requires OneWaitingPerPair(store)
    requires VerifyOtp(store, identifier, code, purpose, now).0 == Verified
    ensures VerifyOtp(VerifyOtp(store, identifier, code, purpose, now).1, identifier, again, purpose, later).0 == NoOtp
  {
    var r := VerifyOtp(store, identifier, code, purpose, now);
    var i := FindWaiting(store, identifier, purpose).value;
    forall k | 0 <= k < |r.1| ensures !Waiting(r.1[k], identifier, purpose) {
      if k != i {
        assert Apart(store[k], store[i]) || Apart(store[i], store[k]) by {
          if k < i { assert Apart(store[k], store[i]); } else { assert Apart(store[i], store[k]); }
        }
      }
    }
  }

  /** A freshly created code verifies with itself any time up to its expiry, and a different code is refused. */
  lemma CreateThenVerify(store: seq<OtpRecord>, identifier: string, purpose: string, identifierType: string,
                         draws: seq<nat>, now: int, later: int, other: string)
    requires |draws| == DefaultLength && forall i :: 0 <= i < |draws| ==> draws[i] < 10
    requires OneWaitingPerPair(store) && later <= now + ExpiryMinutes * 60
    ensures
      var r := CreateOtp(store, identifier, purpose, identifierType, draws, now);
      && VerifyOtp(r.1, identifier, r.0.code, purpose, later).0 == Verified
      && (other != r.0.code ==> VerifyOtp(r.1, identifier, other, purpose, later).0 == InvalidCode)
  {
    var r := CreateOtp(store, identifier, purpose, identifierType, draws, now);
    CreateOtpKeepsOneWaiting(store, identifier, purpose, identifierType, draws, now);
    VerifyLiveRecord(r.1, identifier, purpose, later, |r.1| - 1, other);
  }

  /** The waiting record, unexpired and with attempts left, accepts its own code and refuses any other. */
  lemma VerifyLiveRecord(store: seq<OtpRecord>, identifier: string, purpose: string, now: int, i: nat, other: string)
    requires FindWaiting(store, identifier, purpose) == Some(i) && i < |store|
    requires now <= store[i].expiresAt && store[i].attempts < store[i].maxAttempts
    ensures VerifyOtp(store, identifier, store[i].code, purpose, now).0 == Verified
    ensures other != store[i].code ==> VerifyOtp(store, identifier, other, purpose, now).0 == InvalidCode
  {
  }

  /** One wrong code against the only waiting record costs an attempt and leaves it the one waiting. */
  lemma WrongCodeStep(store: seq<OtpRecord>, identifier: string, code: string, purpose: string, now: int, i: nat)
    requires OneWaitingPerPair(store) && FindWaiting(store, identifier, purpose) == Some(i)
    requires now <= store[i].expiresAt && store[i].attempts < store[i].maxAttempts && code != store[i].code
    ensures
      var r := VerifyOtp(store, identifier, code, purpose, now);
      && r == (InvalidCode, store[i := store[i].(attempts := store[i].attempts + 1)])
      && OneWaitingPerPair(r.1)
      && FindWaiting(r.1, identifier, purpose) == Some(i)
  {
    VerifyKeepsOneWaiting(store, identifier, code, purpose, now);
    var r := VerifyOtp(store, identifier, code, purpose, now);
    forall k | 0 <= k < |r.1| && k != i ensures !Waiting(r.1[k], identifier, purpose) {
      if k < i { assert Apart(store[k], store[i]); } else { assert Apart(store[i], store[k]); }
    }
    FindsOnlyWaiting(r.1, identifier, purpose, i);
  }

  /** Three wrong codes lock a fresh OTP: the right code is then refused even before it expires. */
  lemma ThreeWrongCodesLock(store: seq<OtpRecord>, identifier: string, purpose: string, identifierType: string,
                            draws: seq<nat>, now: int, wrong: string, t: int)
    requires |draws| == DefaultLength && forall i :: 0 <= i < |draws| ==> draws[i] < 10
    requires OneWaitingPerPair(store) && t <= now + ExpiryMinutes * 60
    requires wrong != CreateOtp(store, identifier, purpose, identifierType, draws, now).0.code
    ensures
      var c := CreateOtp(store, identifier, purpose, identifierType, draws, now);
      var s1 := VerifyOtp(c.1, identifier, wrong, purpose, t).1;
      var s2 := VerifyOtp(s1, identifier, wrong, purpose, t).1;
      var s3 := VerifyOtp(s2, identifier, wrong, purpose, t).1;
      VerifyOtp(s3, identifier, c.0.code, purpose, t).0 == TooManyAttempts
  {
    var c := CreateOtp(store, identifier, purpose, identifierType, draws, now);
    CreateOtpKeepsOneWaiting(store, identifier, purpose, identifierType, draws, now);
    var i := |c.1| - 1;
    WrongCodeStep(c.1, identifier, wrong, purpose, t, i);
    var s1 := VerifyOtp(c.1, identifier, wrong, purpose, t).1;
    WrongCodeStep(s1, identifier, wrong, purpose, t, i);
    var s2 := VerifyOtp(s1, identifier, wrong, purpose, t).1;
    WrongCodeStep(s2, identifier, wrong, purpose, t, i);
    var s3 := VerifyOtp(s2, identifier, wrong, purpose, t).1;
    assert s3[i].attempts == 3 && s3[i].maxAttempts == 3;
  }
}

=== FILE: payments.dfy ===
/**
 The payment service: the COD charge, the wallet ledger, payment creation,
 the Razorpay webhook, refunds, the payment breakdown and the shipment
 payment summary. Amounts are `real`; the final rounding to two decimals is
 not modelled. Clock readings and random ids are parameters.
 */
module Payments {
  import opened Wrappers
  import opened Text

  // COD charge

  /** The COD charge settings; a threshold of None or 0 means no free COD. */
  datatype CodConfig = CodConfig(
    baseCharge: real,
    percentageCharge: real,
    minimumCharge: real,
    maximumCharge: real,
    freeThreshold: Option<real>)

  const DefaultCod: CodConfig := CodConfig(50.0, 2.0, 25.0, 500.0, Some(2000.0))

  /** COD is free when a (non-zero) threshold is set and the value reaches it. */
  predicate CodExempt(c: CodConfig, value: real)
  {
    c.freeThreshold.Some? && c.freeThreshold.value != 0.0 && value >= c.freeThreshold.value
  }

  function MinR(a: real, b: real): real { if a <= b then a else b }

  function MaxR(a: real, b: real): real { if a >= b then a else b }

  /** The COD charge: nothing above the free threshold, else base plus a percentage, clamped to the limits. */
  function CodCharge(c: CodConfig, value: real): (r: real)
    ensures CodExempt(c, value) ==> r == 0.0
    ensures !CodExempt(c, value) ==> r >= c.minimumCharge
    ensures !CodExempt(c, value) && c.minimumCharge <= c.maximumCharge ==> r <= c.maximumCharge
    ensures (!CodExempt(c, value) && c.minimumCharge <= c.baseCharge + value * c.percentageCharge / 100.0 <= c.maximumCharge)
      ==> r == c.baseCharge + value * c.percentageCharge / 100.0
  {
    if CodExempt(c, value) then 0.0
    else
      var total := c.baseCharge + (value * c.percentageCharge) / 100.0;
      MaxR(c.minimumCharge, MinR(total, c.maximumCharge))
  }

  /** Below the free threshold a larger value never costs less. */
  lemma CodChargeMonotone(c: CodConfig, v1: real, v2: real)
    requires !CodExempt(c, v1) && !CodExempt(c, v2) && v1 <= v2 && c.percentageCharge >= 0.0
    ensures CodCharge(c, v1) <= CodCharge(c, v2)
  {
    assert (v2 - v1) * c.percentageCharge >= 0.0;
    assert v1 * c.percentageCharge <= v2 * c.percentageCharge;
  }

  /** With the default settings the charge below 2000 is 50 plus 2% of the value, and nothing from 2000 up. */
  lemma DefaultCodCharge(value: real)
    requires value >= 0.0
    ensures value < 2000.0 ==> CodCharge(DefaultCod, value) == 50.0 + value * 0.02
    ensures value >= 2000.0 ==> CodCharge(DefaultCod, value) == 0.0
  {
    if value < 2000.0 {
      assert value * 2.0 / 100.0 == value * 0.02;
    }
  }

  // Wallet ledger

  datatype TxType = PaymentTx | RefundTx | WalletLoad | WalletDeduct | Adjustment

  datatype Wallet = Wallet(
    id: string,
    userId: string,
    balance: real,
    currency: string,
    maxBalance: real,
    minTransaction: real,
    maxTransaction: real,
    isActive: bool,
    isFrozen: bool,
    lastTransactionAt: Option<int>,
    dailyLimit: real,
    dailyUsed: real,
    updatedAt: int)

  /** A fresh wallet with the default limits. */
  function NewWallet(id: string, userId: string, now: int): (w: Wallet)
    ensures w.balance == 0.0 && w.maxBalance == 100000.0 && w.dailyLimit == 25000.0 && w.dailyUsed == 0.0
    ensures w.minTransaction == 10.0 && w.maxTransaction == 50000.0
    ensures w.isActive && !w.isFrozen && w.currency == "INR"
    ensures WalletInvariant(w)
  {
    Wallet(id, userId, 0.0, "INR", 100000.0, 10.0, 50000.0, true, false, None, 25000.0, 0.0, now)
  }

  /** The balance stays within [0, max] and the daily usage within [0, limit]. */
  predicate WalletInvariant(w: Wallet)
  {
    0.0 <= w.balance <= w.maxBalance && 0.0 <= w.dailyUsed <= w.dailyLimit
  }

  datatype WalletTx = WalletTx(
    walletId: string,
    userId: string,
    txType: TxType,
    amount: real,
    balanceBefore: real,
    balanceAfter: real,
    referenceId: Option<string>,
    description: string)

  datatype WalletError = InactiveOrFrozen | DailyLimitExceeded | InsufficientBalance | MaxBalanceExceeded

  /** The message each wallet error is raised with. */
  function WalletMessage(e: WalletError): string
  {
    match e
    case InactiveOrFrozen => "Wallet is inactive or frozen"
    case DailyLimitExceeded => "Daily transaction limit exceeded"
    case InsufficientBalance => "Insufficient wallet balance"
    case MaxBalanceExceeded => "Maximum wallet balance limit exceeded"
  }

  /** Each wallet error has its own message. */
  lemma WalletMessagesDistinct(e: WalletError, f: WalletError)
    requires e != f
    ensures WalletMessage(e) != WalletMessage(f)
  {
    assert |WalletMessage(e)| != |WalletMessage(f)|;
  }

  function Abs(x: real): real { if x < 0.0 then -x else x }

  /** Loads and adjustments add to the balance; every other type takes from it. */
  predicate Credits(t: TxType) { t == WalletLoad || t == Adjustment }

  /**
   One ledger move: every check comes before the write, a deduction also
   counts against the daily limit, and the transaction records the balance
   before and after.
   */
  function UpdateWalletBalance(w: Wallet, amount: real, t: TxType, description: string,
                               reference: Option<string>, now: int): (r: Result<(Wallet, WalletTx), WalletError>)
    ensures !w.isActive || w.isFrozen ==> r == Failure(InactiveOrFrozen)
    ensures r.Success? <==>
      && w.isActive && !w.isFrozen
      && (t == WalletDeduct ==> w.dailyUsed + Abs(amount) <= w.dailyLimit)
      && (if Credits(t) then w.balance + amount <= w.maxBalance
          else w.balance >= amount && w.balance - amount <= w.maxBalance)
    ensures r.Success? ==>
      && r.value.0.balance == (if Credits(t) then w.balance + amount else w.balance - amount)
      && r.value.0.dailyUsed == (if t == WalletDeduct then w.dailyUsed + amount else w.dailyUsed)
      && r.value.0.(balance := w.balance, dailyUsed := w.dailyUsed, lastTransactionAt := w.lastTransactionAt,
                    updatedAt := w.updatedAt) == w
      && r.value.1.balanceBefore == w.balance && r.value.1.balanceAfter == r.value.0.balance
      && r.value.1.amount == amount && r.value.1.txType == t
  {
    if !w.isActive || w.isFrozen then Failure(InactiveOrFrozen)
    else if t == WalletDeduct && w.dailyUsed + Abs(amount) > w.dailyLimit then Failure(DailyLimitExceeded)
    else if !Credits(t) && w.balance < amount then Failure(InsufficientBalance)
    else
      var before := w.balance;
      var after := if Credits(t) then before + amount else before - amount;
      if after > w.maxBalance then Failure(MaxBalanceExceeded)
      else
        var w' := w.(balance := after,
                     lastTransactionAt := Some(now),
                     updatedAt := now,
                     dailyUsed := if t == WalletDeduct then w.dailyUsed + amount else w.dailyUsed);
        Success((w', WalletTx(w.id, w.userId, t, amount, before, after, reference, description)))
  }

  /** A successful move of a non-negative amount keeps the wallet invariant. */
  lemma WalletUpdateKeepsInvariant(w: Wallet, amount: real, t: TxType, description: string, reference: Option<string>, now: int)
    requires WalletInvariant(w) && amount >= 0.0
    requires UpdateWalletBalance(w, amount, t, description, reference, now).Success?
    ensures WalletInvariant(UpdateWalletBalance(w, amount, t, description, reference, now).value.0)
  {
  }

  /** Loading back what was deducted always succeeds and restores the balance. */
  lemma DeductThenLoadRestores(w: Wallet, amount: real, now: int, later: int)
    requires WalletInvariant(w) && amount >= 0.0
    requires UpdateWalletBalance(w, amount, WalletDeduct, "", None, now).Success?
    ensures
      var w1 := UpdateWalletBalance(w, amount, WalletDeduct, "", None, now).value.0;
      && UpdateWalletBalance(w1, amount, WalletLoad, "", None, later).Success?
      && UpdateWalletBalance(w1, amount, WalletLoad, "", None, later).value.0.balance == w.balance
  {
  }

  // Payments

  datatype PaymentMethod = CreditCard | DebitCard | NetBanking | UpiMethod | WalletMethod | Emi | CodMethod

  datatype Provider = Razorpay | Stripe | Paypal | UpiProvider | WalletProvider | CodProvider

  datatype PayStatus = Pending | Processing | Completed | Failed | PayCancelled | PayRefunded | PartiallyRefunded

  /** The payment settings that the modelled operations read. */
  datatype PaymentConfig = PaymentConfig(
    razorpayEnabled: bool,
    gatewayFeePercentage: real,
    minPaymentAmount: real,
    maxPaymentAmount: real,
    walletEnabled: bool,
    walletBonusPercentage: real,
    codEnabled: bool,
    cod: CodConfig,
    enableUpi: bool,
    enableNetBanking: bool,
    enableCards: bool,
    paymentTimeoutMinutes: nat)

  const DefaultConfig: PaymentConfig :=
    PaymentConfig(false, 2.5, 10.0, 100000.0, true, 1.0, true, DefaultCod, true, true, true, 15)

  datatype PaymentRequest = PaymentRequest(amount: real, payMethod: PaymentMethod, purpose: string)

  datatype Payment = Payment(
    id: string,
    userId: string,
    amount: real,
    provider: Provider,
    payMethod: PaymentMethod,
    status: PayStatus,
    providerPaymentId: Option<string>,
    providerOrderId: Option<string>,
    purpose: string,
    gatewayFee: real,
    totalAmount: real,
    refundedAmount: real,
    refundReason: Option<string>,
    error: Option<string>,
    completedAt: Option<int>,
    updatedAt: int,
    expiresAt: int)

  datatype PaymentError = BelowMinimum | AboveMaximum

  datatype Created = Created(payment: Payment, payments: seq<Payment>, wallet: Wallet, paymentUrl: Option<string>)

  /** The gateway fee: a percentage of the amount, except for wallet payments. */
  function GatewayFee(config: PaymentConfig, req: PaymentRequest): (fee: real)
    ensures req.payMethod == WalletMethod ==> fee == 0.0
    ensures req.payMethod != WalletMethod ==> fee == req.amount * config.gatewayFeePercentage / 100.0
  {
    if req.payMethod != WalletMethod then (req.amount * config.gatewayFeePercentage) / 100.0 else 0.0
  }

  /**
   Payment creation, given the user's wallet, the new payment id, the random
   order and payment suffixes and the clock. A wallet payment is settled at
   once from the wallet; a gateway payment is sent to Razorpay when that is
   enabled and otherwise stays pending. The payment is appended to the store.
   */
  function CreatePayment(req: PaymentRequest, userId: string, config: PaymentConfig, wallet: Wallet,
                         payments: seq<Payment>, id: string, orderHex: string, payHex: string, now: int): (r: Result<Created, PaymentError>)
    ensures r.Failure? <==> req.amount < config.minPaymentAmount || req.amount > config.maxPaymentAmount
    ensures r.Failure? ==> r.error == (if req.amount < config.minPaymentAmount then BelowMinimum else AboveMaximum)
    ensures r.Success? ==>
      var p := r.value.payment;
      && r.value.payments == payments + [p]
      && p.id == id && p.userId == userId && p.amount == req.amount && p.payMethod == req.payMethod
      && p.gatewayFee == GatewayFee(config, req) && p.totalAmount == req.amount + p.gatewayFee
      && p.refundedAmount == 0.0 && p.expiresAt == now + config.paymentTimeoutMinutes * 60
      && (r.value.paymentUrl.Some? <==> req.payMethod != WalletMethod && p.status == Processing)
    ensures r.Success? && req.payMethod == WalletMethod ==>
      var p := r.value.payment;
      var deduct := UpdateWalletBalance(wallet, req.amount, WalletDeduct, "Payment for " + req.purpose, Some(id), now);
      && p.provider == WalletProvider
      && (p.status == Completed <==> wallet.balance >= req.amount && deduct.Success?)
      && (p.status != Completed ==> p.status == Failed && r.value.wallet == wallet && p.error.Some?)
      && (p.status == Completed ==> r.value.wallet == deduct.value.0 && r.value.wallet.balance == wallet.balance - req.amount)
    ensures r.Success? && req.payMethod != WalletMethod ==>
      var p := r.value.payment;
      && p.provider == Razorpay && r.value.wallet == wallet
      && p.status == (if config.razorpayEnabled then Processing else Pending)
      && p.providerOrderId == (if config.razorpayEnabled then Some("order_" + orderHex) else None)
  {
    if req.amount < config.minPaymentAmount then Failure(BelowMinimum)
    else if req.amount > config.maxPaymentAmount then Failure(AboveMaximum)
    else
      var fee := GatewayFee(config, req);
      var provider := if req.payMethod == WalletMethod then WalletProvider else Razorpay;
      var p := Payment(id, userId, req.amount, provider, req.payMethod, Pending, None, None, req.purpose,
                       fee, req.amount + fee, 0.0, None, None, None, now, now + config.paymentTimeoutMinutes * 60);
      var (p', w') :=
        if req.payMethod == WalletMethod then
          if wallet.balance < req.amount then
            (p.(status := Failed, error := Some("Insufficient wallet balance")), wallet)
          else
            match UpdateWalletBalance(wallet, req.amount, WalletDeduct, "Payment for " + req.purpose, Some(id), now)
            case Failure(e) => (p.(status := Failed, error := Some(WalletMessage(e))), wallet)
            case Success((w1, _)) => (p.(status := Completed, completedAt := Some(now)), w1)
        else if config.razorpayEnabled then
          (p.(providerOrderId := Some("order_" + orderHex), providerPaymentId := Some("pay_" + payHex), status := Processing), wallet)
        else (p, wallet);
      var url := if req.payMethod != WalletMethod && p'.status == Processing
                 then Some("https://checkout.razorpay.com/v1/checkout.js") else None;
      Success(Created(p', payments + [p'], w', url))
  }

  // Payment status updates and the Razorpay webhook

  /** No two payments share an id. */
  predicate UniqueIds(payments: seq<Payment>)
  {
    forall a, b :: 0 <= a < b < |payments| ==> payments[a].id != payments[b].id
  }

  /** The first payment with this id, and (when given) this owner. */
  function FindPayment(payments: seq<Payment>, id: string, user: Option<string>): (r: Option<nat>)
    ensures r.Some? ==> r.value < |payments| && payments[r.value].id == id
    ensures r.Some? && user.Some? ==> payments[r.value].userId == user.value
    ensures r.None? <==> forall k :: 0 <= k < |payments| ==> !(payments[k].id == id && (user.None? || payments[k].userId == user.value))
    ensures r.Some? ==> forall k :: 0 <= k < r.value ==> !(payments[k].id == id && (user.None? || payments[k].userId == user.value))
  {
    if payments == [] then None
    else if payments[0].id == id && (user.None? || payments[0].userId == user.value) then Some(0)
    else
      match FindPayment(payments[1..], id, user)
      case None => None
      case Some(k) => Some(k + 1)
  }

  /** The part of a webhook payload that is read: the order id ("" when absent) and the provider's payment id. */
  datatype WebhookPayload = WebhookPayload(orderId: string, paymentId: Option<string>)

  /** Sets the status of the payment at `i`, records the provider's payment id if given, and stamps completion. */
  function SetStatus(p: Payment, status: PayStatus, data: WebhookPayload, now: int): (q: Payment)
    ensures q.status == status && q.updatedAt == now
    ensures q.completedAt == (if status == Completed then Some(now) else p.completedAt)
    ensures q.providerPaymentId == (if data.paymentId.Some? then data.paymentId else p.providerPaymentId)
    ensures q.(status := p.status, updatedAt := p.updatedAt, completedAt := p.completedAt, providerPaymentId := p.providerPaymentId) == p
  {
    p.(status := status,
       updatedAt := now,
       providerPaymentId := if data.paymentId.Some? then data.paymentId else p.providerPaymentId,
       completedAt := if status == Completed then Some(now) else p.completedAt)
  }

  /**
   Sets a payment's status by id (typically from a webhook): the first payment
   with the id is rewritten, and None reports an unknown id.
   */
  function UpdatePaymentStatus(payments: seq<Payment>, paymentId: string, status: PayStatus, data: WebhookPayload, now: int): (r: (Option<Payment>, seq<Payment>))
    ensures r.0.None? <==> forall k :: 0 <= k < |payments| ==> payments[k].id != paymentId
    ensures r.0.None? ==> r.1 == payments
    ensures r.0.Some? ==>
      var i := FindPayment(payments, paymentId, None).value;
      && r.1 == payments[i := r.0.value]
      && r.0.value == SetStatus(payments[i], status, data, now)
      && forall k :: 0 <= k < i ==> payments[k].id != paymentId
  {
    match FindPayment(payments, paymentId, None)
    case None => (None, payments)
    case Some(i) =>
      var q := SetStatus(payments[i], status, data, now);
      (Some(q), payments[i := q])
  }

  /** The event types the webhook acts on, and the status each sets. */
  function WebhookStatus(eventType: string): (r: Option<PayStatus>)
    ensures r == Some(Completed) <==> eventType == "payment.captured"
    ensures r == Some(Failed) <==> eventType == "payment.failed"
    ensures r.Some? ==> r.value in {Completed, Failed}
  {
    if eventType == "payment.captured" then Some(Completed)
    else if eventType == "payment.failed" then Some(Failed)
    else None
  }

  /**
   The Razorpay webhook as written: the payment id is the order id with every
   "order_" removed, and the payment is looked up by its own id. Reports true
   for a known event with a non-empty id, whether or not a payment was found.
   */
  function RazorpayWebhookAsWritten(eventType: string, data: WebhookPayload, payments: seq<Payment>, now: int): (r: (bool, seq<Payment>))
    ensures r.0 <==> WebhookStatus(eventType).Some? && ReplaceAll(data.orderId, "order_", "") != ""
    ensures |r.1| == |payments|
    ensures !r.0 ==> r.1 == payments
  {
    var pid := ReplaceAll(data.orderId, "order_", "");
    match WebhookStatus(eventType)
    case None => (false, payments)
    case Some(status) =>
      if pid == "" then (false, payments)
      else (true, UpdatePaymentStatus(payments, pid, status, data, now).1)
  }

  /** When the stripped order id names no payment, the webhook as written changes nothing but still reports success. */
  lemma WebhookAsWrittenUnmatched(eventType: string, data: WebhookPayload, payments: seq<Payment>, now: int)
    requires WebhookStatus(eventType).Some?
    requires ReplaceAll(data.orderId, "order_", "") != ""
    requires forall k :: 0 <= k < |payments| ==> payments[k].id != ReplaceAll(data.orderId, "order_", "")
    ensures RazorpayWebhookAsWritten(eventType, data, payments, now) == (true, payments)
  {
  }

  /** The order id "order_" + h is stripped back to h when h has no '_'. */
  lemma StripOrderPrefix(h: string)
    requires forall i :: 0 <= i < |h| ==> h[i] != '_'
    ensures ReplaceAll("order_" + h, "order_", "") == h
  {
    var oid := "order_" + h;
    assert oid[..6] == "order_" && oid[6..] == h;
    AbsentCharNotContained(h, "order_", 5);
    RemoveAllShorter(h, "order_");
  }

  /**
   A gateway payment created with Razorpay enabled gets the order id
   "order_" + a twelve-character suffix, while payment ids are 32-character
   uuid strings; the webhook as written strips the order id back to the
   suffix and looks it up as a payment id, so the captured event for that very
   order updates no payment at all, yet reports success.
   */
  lemma WebhookMissesCreatedPayment(req: PaymentRequest, userId: string, config: PaymentConfig, wallet: Wallet,
                                    payments: seq<Payment>, id: string, orderHex: string, payHex: string, now: int, later: int)
    requires config.razorpayEnabled && req.payMethod != WalletMethod
    requires config.minPaymentAmount <= req.amount <= config.maxPaymentAmount
    requires |id| == 32 && forall k :: 0 <= k < |payments| ==> |payments[k].id| == 32
    requires |orderHex| == 12 && forall i :: 0 <= i < 12 ==> orderHex[i] != '_'
    ensures
      var c := CreatePayment(req, userId, config, wallet, payments, id, orderHex, payHex, now).value;
      var w := RazorpayWebhookAsWritten("payment.captured", WebhookPayload(c.payment.providerOrderId.value, None), c.payments, later);
      && c.payment.status == Processing
      && w == (true, c.payments)
  {
    var c := CreatePayment(req, userId, config, wallet, payments, id, orderHex, payHex, now).value;
    var data := WebhookPayload("order_" + orderHex, None);
    StripOrderPrefix(orderHex);
    assert c.payments == payments + [c.payment];
    assert forall k :: 0 <= k < |c.payments| ==> |c.payments[k].id| == 32;
    WebhookAsWrittenUnmatched("payment.captured", data, c.payments, later);
  }

  /** The first payment whose provider order id is this one. */
  function FindByOrder(payments: seq<Payment>, orderId: string): (r: Option<nat>)
    ensures r.Some? ==> r.value < |payments| && payments[r.value].providerOrderId == Some(orderId)
    ensures r.Some? ==> forall k :: 0 <= k < r.value ==> payments[k].providerOrderId != Some(orderId)
    ensures r.None? <==> forall k :: 0 <= k < |payments| ==> payments[k].providerOrderId != Some(orderId)
  {
    if payments == [] then None
    else if payments[0].providerOrderId == Some(orderId) then Some(0)
    else
      match FindByOrder(payments[1..], orderId)
      case None => None
      case Some(k) => Some(k + 1)
  }

  /**
   The Razorpay webhook with the payment looked up by the order id it was
   created with, then updated by its own id. Every other payment is left as it
   was when payment ids are unique.
   */
  function RazorpayWebhook(eventType: string, data: WebhookPayload, payments: seq<Payment>, now: int): (r: (bool, seq<Payment>))
    ensures r.0 <==> WebhookStatus(eventType).Some? && data.orderId != ""
    ensures |r.1| == |payments|
    ensures !r.0 || FindByOrder(payments, data.orderId).None? ==> r.1 == payments
    ensures r.0 && FindByOrder(payments, data.orderId).Some? && UniqueIds(payments) ==>
      var i := FindByOrder(payments, data.orderId).value;
      && r.1[i] == SetStatus(payments[i], WebhookStatus(eventType).value, data, now)
      && forall k :: 0 <= k < |payments| && k != i ==> r.1[k] == payments[k]
  {
    match WebhookStatus(eventType)
    case None => (false, payments)
    case Some(status) =>
      if data.orderId == "" then (false, payments)
      else
        match FindByOrder(payments, data.orderId)
        case None => (true, payments)
        case Some(i) => (true, UpdatePaymentStatus(payments, payments[i].id, status, data, now).1)
  }

  /** With the order-id lookup, the captured event for a freshly created gateway payment completes that payment. */
  lemma WebhookCompletesCreatedPayment(req: PaymentRequest, userId: string, config: PaymentConfig, wallet: Wallet,
                                       payments: seq<Payment>, id: string, orderHex: string, payHex: string, now: int, later: int)
    requires config.razorpayEnabled && req.payMethod != WalletMethod
    requires config.minPaymentAmount <= req.amount <= config.maxPaymentAmount
    requires forall k :: 0 <= k < |payments| ==> payments[k].providerOrderId != Some("order_" + orderHex)
    requires UniqueIds(payments) && forall k :: 0 <= k < |payments| ==> payments[k].id != id
    ensures
      var c := CreatePayment(req, userId, config, wallet, payments, id, orderHex, payHex, now).value;
      var w := RazorpayWebhook("payment.captured", WebhookPayload("order_" + orderHex, None), c.payments, later);
      && w.0
      && w.1[|payments|].status == Completed && w.1[|payments|].completedAt == Some(later)
      && w.1[..|payments|] == payments
  {
    var c := CreatePayment(req, userId, config, wallet, payments, id, orderHex, payHex, now).value;
    CapturedCompletesAppended(payments, c.payment, "order_" + orderHex, later);
  }

  /** The captured event for the order id of a payment appended last completes that payment and no other. */
  lemma CapturedCompletesAppended(payments: seq<Payment>, p: Payment, oid: string, later: int)
    requires oid != "" && p.providerOrderId == Some(oid)
    requires forall k :: 0 <= k < |payments| ==> payments[k].providerOrderId != Some(oid)
    requires UniqueIds(payments) && forall k :: 0 <= k < |payments| ==> payments[k].id != p.id
    ensures
      var w := RazorpayWebhook("payment.captured", WebhookPayload(oid, None), payments + [p], later);
      && w.0
      && w.1[|payments|].status == Completed && w.1[|payments|].completedAt == Some(later)
      && w.1[..|payments|] == payments
  {
    var ps := payments + [p];
    assert ps[|payments|] == p;
    assert forall k :: 0 <= k < |payments| ==> ps[k] == payments[k];
    assert FindByOrder(ps, oid) == Some(|payments|);
    assert UniqueIds(ps);
  }

  /** Only Razorpay webhooks are processed. */
  function ProcessWebhook(provider: Provider, eventType: string, data: WebhookPayload, payments: seq<Payment>, now: int): (r: (bool, seq<Payment>))
    ensures provider != Razorpay ==> r == (false, payments)
    ensures provider == Razorpay ==> r == RazorpayWebhook(eventType, data, payments, now)
  {
    if provider == Razorpay then RazorpayWebhook(eventType, data, payments, now) else (false, payments)
  }

  // Refunds

  datatype RefundRequest = RefundRequest(paymentId: string, amount: real, reason: string)

  datatype RefundResponse = RefundResponse(
    id: string,
    paymentId: string,
    amount: real,
    status: PayStatus,
    reason: string,
    providerRefundId: Option<string>,
    processedAt: Option<int>)

  datatype RefundError = PaymentNotFound | NotCompleted | ExceedsPayment | WalletRefused(e: WalletError)

  datatype Refunded = Refunded(response: RefundResponse, payments: seq<Payment>, wallet: Wallet)

  /**
   The refund after its amount check: a wallet payment is paid back into the
   wallet at once, any other refund is handed to the provider; then the
   payment's refunded amount grows by the refund.
   */
  function ApplyRefund(req: RefundRequest, userId: string, payments: seq<Payment>, i: nat, wallet: Wallet,
                       refundId: string, rfndHex: string, now: int): (r: Result<Refunded, RefundError>)
    requires i < |payments|
    ensures r.Success? ==>
      var j := FindPayment(payments, payments[i].id, None).value;
      && r.value.payments == payments[j := payments[j].(refundedAmount := payments[i].refundedAmount + req.amount,
                                                        refundReason := Some(req.reason), updatedAt := now)]
      && r.value.response.amount == req.amount && r.value.response.paymentId == payments[i].id
      && r.value.response.status == (if payments[i].payMethod == WalletMethod then Completed else Processing)
    ensures payments[i].payMethod != WalletMethod ==> r.Success? && r.value.wallet == wallet
    ensures payments[i].payMethod == WalletMethod ==>
      var load := UpdateWalletBalance(wallet, req.amount, WalletLoad, "Refund for " + payments[i].purpose + ": " + req.reason, Some(payments[i].id), now);
      && (r.Success? <==> load.Success?)
      && (r.Success? ==> r.value.wallet == load.value.0)
      && (r.Failure? ==> r.error == WalletRefused(load.error))
  {
    var p := payments[i];
    var j := FindPayment(payments, p.id, None).value;
    var written := payments[j := payments[j].(refundedAmount := p.refundedAmount + req.amount,
                                               refundReason := Some(req.reason), updatedAt := now)];
    if p.payMethod == WalletMethod then
      match UpdateWalletBalance(wallet, req.amount, WalletLoad, "Refund for " + p.purpose + ": " + req.reason, Some(p.id), now)
      case Failure(e) => Failure(WalletRefused(e))
      case Success((w', _)) =>
        Success(Refunded(RefundResponse(refundId, p.id, req.amount, Completed, req.reason, None, Some(now)), written, w'))
    else
      Success(Refunded(RefundResponse(refundId, p.id, req.amount, Processing, req.reason, Some("rfnd_" + rfndHex), None), written, wallet))
  }

  /**
   create_refund as written: the payment must exist for this user and be
   completed, and the refund may not exceed the payment amount; the amounts
   already refunded are not taken into account.
   */
  function CreateRefundAsWritten(req: RefundRequest, userId: string, payments: seq<Payment>, wallet: Wallet,
                                 refundId: string, rfndHex: string, now: int): (r: Result<Refunded, RefundError>)
    ensures FindPayment(payments, req.paymentId, Some(userId)).None? ==> r == Failure(PaymentNotFound)
    ensures FindPayment(payments, req.paymentId, Some(userId)).Some? ==>
      var i := FindPayment(payments, req.paymentId, Some(userId)).value;
      && (payments[i].status != Completed ==> r == Failure(NotCompleted))
      && (payments[i].status == Completed && req.amount > payments[i].amount ==> r == Failure(ExceedsPayment))
      && (payments[i].status == Completed && req.amount <= payments[i].amount ==>
            r == ApplyRefund(req, userId, payments, i, wallet, refundId, rfndHex, now))
  {
    match FindPayment(payments, req.paymentId, Some(userId))
    case None => Failure(PaymentNotFound)
    case Some(i) =>
      if payments[i].status != Completed then Failure(NotCompleted)
      else if req.amount > payments[i].amount then Failure(ExceedsPayment)
      else ApplyRefund(req, userId, payments, i, wallet, refundId, rfndHex, now)
  }

  /** Two full refunds of the same completed card payment both go through: 200 refunded on a payment of 100. */
  lemma RefundTwiceAsWritten(p: Payment, wallet: Wallet, now: int)
    requires p.userId == "u" && p.id == "p" && p.amount == 100.0 && p.status == Completed
    requires p.payMethod == CreditCard && p.refundedAmount == 0.0
    ensures
      var req := RefundRequest("p", 100.0, "r");
      var r1 := CreateRefundAsWritten(req, "u", [p], wallet, "r1", "a", now);
      && r1.Success?
      && var r2 := CreateRefundAsWritten(req, "u", r1.value.payments, wallet, "r2", "b", now);
      && r2.Success? && r2.value.payments[0].refundedAmount == 200.0 > r2.value.payments[0].amount
  {
    var req := RefundRequest("p", 100.0, "r");
    var r1 := CreateRefundAsWritten(req, "u", [p], wallet, "r1", "a", now);
    assert FindPayment([p], "p", Some("u")) == Some(0);
    assert FindPayment([p], "p", None) == Some(0);
    var q := r1.value.payments[0];
    assert r1.value.payments == [q];
    assert FindPayment([q], "p", Some("u")) == Some(0);
    assert FindPayment([q], "p", None) == Some(0);
  }

  /** A payment has never been refunded more than it was for. */
  predicate RefundsWithinAmount(p: Payment)
  {
    0.0 <= p.refundedAmount <= p.amount
  }

  /** create_refund with the amount check against what is still refundable. */
  function CreateRefund(req: RefundRequest, userId: string, payments: seq<Payment>, wallet: Wallet,
                        refundId: string, rfndHex: string, now: int): (r: Result<Refunded, RefundError>)
    ensures FindPayment(payments, req.paymentId, Some(userId)).None? ==> r == Failure(PaymentNotFound)
    ensures FindPayment(payments, req.paymentId, Some(userId)).Some? ==>
      var i := FindPayment(payments, req.paymentId, Some(userId)).value;
      && (payments[i].status != Completed ==> r == Failure(NotCompleted))
      && (payments[i].status == Completed && req.amount > payments[i].amount - payments[i].refundedAmount ==>
            r == Failure(ExceedsPayment))
      && (payments[i].status == Completed && req.amount <= payments[i].amount - payments[i].refundedAmount ==>
            r == ApplyRefund(req, userId, payments, i, wallet, refundId, rfndHex, now))
  {
    match FindPayment(payments, req.paymentId, Some(userId))
    case None => Failure(PaymentNotFound)
    case Some(i) =>
      if payments[i].status != Completed then Failure(NotCompleted)
      else if req.amount > payments[i].amount - payments[i].refundedAmount then Failure(ExceedsPayment)
      else ApplyRefund(req, userId, payments, i, wallet, refundId, rfndHex, now)
  }

  /**
   The corrected refund refuses every request the refund as written turns
   away before touching the wallet, with the same error, and every refund it
   grants the refund as written grants identically.
   */
  lemma CorrectedRefundIsStricter(req: RefundRequest, userId: string, payments: seq<Payment>, wallet: Wallet,
                                  refundId: string, rfndHex: string, now: int,
                                  asWritten: Result<Refunded, RefundError>, corrected: Result<Refunded, RefundError>)
    requires forall k :: 0 <= k < |payments| ==> RefundsWithinAmount(payments[k])
    requires asWritten == CreateRefundAsWritten(req, userId, payments, wallet, refundId, rfndHex, now)
    requires corrected == CreateRefund(req, userId, payments, wallet, refundId, rfndHex, now)
    ensures asWritten.Failure? && !asWritten.error.WalletRefused? ==> corrected == asWritten
    ensures corrected.Success? ==> asWritten == corrected
  {
    var found := FindPayment(payments, req.paymentId, Some(userId));
    if found.Some? {
      assert RefundsWithinAmount(payments[found.value]);
    }
  }

  /** On a payment with nothing refunded yet the two refunds agree. */
  lemma FirstRefundAgrees(req: RefundRequest, userId: string, payments: seq<Payment>, wallet: Wallet,
                          refundId: string, rfndHex: string, now: int)
    ensures var found := FindPayment(payments, req.paymentId, Some(userId));
            found.Some? && payments[found.value].refundedAmount == 0.0 ==>
              CreateRefund(req, userId, payments, wallet, refundId, rfndHex, now)
              == CreateRefundAsWritten(req, userId, payments, wallet, refundId, rfndHex, now)
  {
  }

  /**
   With the corrected check, refunds of non-negative amounts never take a
   payment past its amount, however many are made, provided payment ids are
   unique.
   */
  lemma RefundKeepsWithinAmount(req: RefundRequest, userId: string, payments: seq<Payment>, wallet: Wallet,
                                refundId: string, rfndHex: string, now: int)
    requires req.amount >= 0.0
    requires forall k :: 0 <= k < |payments| ==> RefundsWithinAmount(payments[k])
    requires UniqueIds(payments)
    requires CreateRefund(req, userId, payments, wallet, refundId, rfndHex, now).Success?
    ensures
      var after := CreateRefund(req, userId, payments, wallet, refundId, rfndHex, now).value.payments;
      |after| == |payments| && forall k :: 0 <= k < |after| ==> RefundsWithinAmount(after[k])
  {
    var i := FindPayment(payments, req.paymentId, Some(userId)).value;
    var j := FindPayment(payments, payments[i].id, None).value;
    assert j == i;
  }

  // Breakdown and summary

  datatype Breakdown = Breakdown(subtotal: real, shippingCharges: real, codCharges: real, taxAmount: real,
                                 walletDiscount: real, totalAmount: real)

  /** The payment breakdown: COD charge for COD, 18% tax on the taxable amount, a wallet bonus off the subtotal. */
  function PaymentBreakdown(config: PaymentConfig, shipmentValue: real, shipping: real, pm: PaymentMethod): (b: Breakdown)
    ensures b.codCharges == (if pm == CodMethod then CodCharge(config.cod, shipmentValue) else 0.0)
    ensures b.taxAmount == (shipmentValue + shipping + b.codCharges) * 0.18
    ensures b.walletDiscount == (if pm == WalletMethod then shipmentValue * config.walletBonusPercentage / 100.0 else 0.0)
    ensures b.totalAmount == (shipmentValue + shipping + b.codCharges) * 1.18 - b.walletDiscount
  {
    var cod := if pm == CodMethod then CodCharge(config.cod, shipmentValue) else 0.0;
    var tax := (shipmentValue + shipping + cod) * 0.18;
    var discount := if pm == WalletMethod then shipmentValue * (config.walletBonusPercentage / 100.0) else 0.0;
    Breakdown(shipmentValue, shipping, cod, tax, discount, shipmentValue + shipping + cod + tax - discount)
  }

  /** Paying by wallet never costs more than by card, and COD never less, for non-negative values and settings. */
  lemma BreakdownOrdering(config: PaymentConfig, value: real, shipping: real)
    requires value >= 0.0 && config.walletBonusPercentage >= 0.0 && config.cod.minimumCharge >= 0.0
    ensures PaymentBreakdown(config, value, shipping, WalletMethod).totalAmount <= PaymentBreakdown(config, value, shipping, CreditCard).totalAmount
    ensures PaymentBreakdown(config, value, shipping, CreditCard).totalAmount <= PaymentBreakdown(config, value, shipping, CodMethod).totalAmount
  {
    assert value * config.walletBonusPercentage >= 0.0;
  }

  /** Whether the settings offer a method; EMI is never listed. */
  predicate Offered(config: PaymentConfig, m: PaymentMethod)
  {
    match m
    case WalletMethod => config.walletEnabled
    case CreditCard => config.enableCards
    case DebitCard => config.enableCards
    case NetBanking => config.enableNetBanking
    case UpiMethod => config.enableUpi
    case CodMethod => config.codEnabled
    case Emi => false
  }

  /** The methods offered, in the order they are listed. */
  function AvailableMethods(config: PaymentConfig): (ms: seq<PaymentMethod>)
    ensures forall m :: m in ms <==> Offered(config, m)
    ensures config.walletEnabled ==> |ms| > 0 && ms[0] == WalletMethod
    ensures config.codEnabled ==> |ms| > 0 && ms[|ms| - 1] == CodMethod
    ensures |ms| <= 6
  {
    var part1 := if config.walletEnabled then [WalletMethod] else [];
    var part2 := if config.enableCards then [CreditCard, DebitCard] else [];
    var part3 := if config.enableNetBanking then [NetBanking] else [];
    var part4 := if config.enableUpi then [UpiMethod] else [];
    var part5 := if config.codEnabled then [CodMethod] else [];
    forall m ensures m in part1 + part2 + part3 + part4 + part5 <==> Offered(config, m) {
      assert m in part1 + part2 + part3 + part4 + part5 <==> m in part1 || m in part2 || m in part3 || m in part4 || m in part5;
    }
    part1 + part2 + part3 + part4 + part5
  }

  datatype PaymentSummary = PaymentSummary(
    breakdown: Breakdown,
    methods: seq<PaymentMethod>,
    walletBalance: real,
    canUseWallet: bool,
    requiresGateway: bool,
    gatewayAmount: real)

  /** The shipment payment summary, priced as a wallet payment against the user's balance. */
  function ShipmentPaymentSummary(config: PaymentConfig, balance: real, value: real, shipping: real): (s: PaymentSummary)
    ensures s.breakdown == PaymentBreakdown(config, value, shipping, WalletMethod)
    ensures s.canUseWallet <==> balance >= s.breakdown.totalAmount
    ensures s.requiresGateway <==> !s.canUseWallet && config.walletEnabled
    ensures s.gatewayAmount >= 0.0
  {
    var b := PaymentBreakdown(config, value, shipping, WalletMethod);
    var ms := AvailableMethods(config);
    var can := balance >= b.totalAmount;
    PaymentSummary(b, ms, balance, can, !can && WalletMethod in ms,
                   if !can then MaxR(0.0, b.totalAmount - balance) else 0.0)
  }

  /** Wallet and gateway together pay exactly the total when the wallet falls short, and the gateway nothing otherwise. */
  lemma SummaryCoversTotal(config: PaymentConfig, balance: real, value: real, shipping: real)
    ensures
      var s := ShipmentPaymentSummary(config, balance, value, shipping);
      && (s.canUseWallet ==> s.gatewayAmount == 0.0)
      && (!s.canUseWallet ==> s.gatewayAmount > 0.0 && s.walletBalance + s.gatewayAmount == s.breakdown.totalAmount)
  {
  }
}

=== FILE: phone.dfy ===
/**
 Indian phone numbers and postal codes as the saved-address models validate
 them, and the Twilio Verify helpers that format a number before sending a
 verification. A phone number is normalised to "+91" and ten digits.
 */
module Phone {
  import opened Wrappers
  import opened Text

  const InvalidPhone: string := "Invalid Indian phone number"
  const InvalidPostal: string := "Indian postal code must be 6 digits"

  /** A ten-digit Indian mobile number: the first digit is 6, 7, 8 or 9. */
  predicate Mobile(d: string)
  {
    |d| == 10 && AllDigits(d) && d[0] in "6789"
  }

  /** A normalised number: "+91" and ten digits. */
  predicate Normalised(p: string)
  {
    |p| == 13 && p[..3] == "+91" && AllDigits(p[1..])
  }

  /**
   The Indian branches shared by `validate_phone` and `_format_phone_number`,
   as written, over the digits of the input: ten digits starting 6-9 get
   "+91", twelve digits starting "91" get "+", and thirteen digits starting
   "91" get "+" and all but the first digit.
   */
  function IndianNumberAsWritten(d: string): (r: Option<string>)
    ensures r.Some? <==> (|d| == 10 && |d| > 0 && d[0] in "6789") || (|d| in {12, 13} && StartsWith(d, "91"))
  {
    if |d| == 10 && d[0] in "6789" then Some("+91" + d)
    else if |d| == 12 && StartsWith(d, "91") then Some("+" + d)
    else if |d| == 13 && StartsWith(d, "91") then Some("+" + d[1..])
    else None
  }

  /**
   The thirteen-digit branch keeps the wrong digits: for every thirteen-digit
   input starting "91" (such as "9198765432100") the result starts "+1", is
   not an Indian number, and the same branches reject it when it is
   validated again.
   */
  lemma ThirteenDigitBranchAsWritten(d: string)
    requires |d| == 13 && AllDigits(d) && StartsWith(d, "91")
    ensures IndianNumberAsWritten(d) == Some("+" + d[1..])
    ensures !Normalised("+" + d[1..])
    ensures IndianNumberAsWritten(DigitsOf("+" + d[1..])).None?
  {
    var p := "+" + d[1..];
    assert d[1] == d[..2][1] == '1';
    assert p[..3][2] == p[2] == d[2] && p[1] == '1';
    DigitsOfAppend("+", d[1..]);
    assert DigitsOf(p) == d[1..];
    assert d[1..][0] == '1';
  }

  /**
   The Indian branches with the thirteen-digit case read as "91", one extra
   digit, then the ten-digit number, so that every branch yields "+91" and
   ten digits.
   */
  function IndianNumber(d: string): (r: Option<string>)
    requires AllDigits(d)
    ensures r.Some? <==> (|d| == 10 && d[0] in "6789") || (|d| in {12, 13} && StartsWith(d, "91"))
    ensures r.Some? ==> Normalised(r.value)
    ensures |d| == 10 && r.Some? ==> r.value == "+91" + d
    ensures |d| == 12 && r.Some? ==> r.value == "+" + d
    ensures |d| == 13 && r.Some? ==> r.value == "+91" + d[3..]
  {
    if |d| == 10 && d[0] in "6789" then Some("+91" + d)
    else if |d| == 12 && StartsWith(d, "91") then
      assert ("+" + d)[..3] == "+" + d[..2];
      Some("+" + d)
    else if |d| == 13 && StartsWith(d, "91") then
      assert ("+91" + d[3..])[..3] == "+91";
      assert ("+91" + d[3..])[1..] == "91" + d[3..];
      Some("+91" + d[3..])
    else None
  }

  /** A validated number as written: '+' and twelve digits. */
  predicate PlusTwelve(p: string)
  {
    |p| == 13 && p[0] == '+' && AllDigits(p[1..])
  }

  /**
   `validate_phone` as written: the digits of the input through the Indian
   branches, or the validation error.
   */
  function ValidatePhone(v: string): (r: Result<string, string>)
    ensures r.Success? <==> var d := DigitsOf(v);
                            (|d| == 10 && d[0] in "6789") || (|d| in {12, 13} && StartsWith(d, "91"))
    ensures r.Success? ==> PlusTwelve(r.value)
    ensures r.Success? && |DigitsOf(v)| != 13 ==> Normalised(r.value)
    ensures r.Failure? ==> r.error == InvalidPhone
  {
    var d := DigitsOf(v);
    match IndianNumberAsWritten(d)
    case Some(p) =>
      assert |d| == 12 ==> p[..3] == "+" + d[..2];
      Success(p)
    case None => Failure(InvalidPhone)
  }

  /** The validator with the corrected thirteen-digit branch. */
  function ValidatePhoneCorrected(v: string): (r: Result<string, string>)
    ensures r.Success? <==> var d := DigitsOf(v);
                            (|d| == 10 && d[0] in "6789") || (|d| in {12, 13} && StartsWith(d, "91"))
    ensures r.Success? ==> Normalised(r.value)
    ensures r.Failure? ==> r.error == InvalidPhone
  {
    match IndianNumber(DigitsOf(v))
    case Some(p) => Success(p)
    case None => Failure(InvalidPhone)
  }

  /** The two validators differ only on thirteen-digit inputs. */
  lemma CorrectedAgreesBelowThirteen(v: string)
    requires |DigitsOf(v)| != 13
    ensures ValidatePhoneCorrected(v) == ValidatePhone(v)
  {
  }

  /** The digits of a normalised number are "91" and its ten digits. */
  lemma NormalisedDigits(p: string)
    requires Normalised(p)
    ensures DigitsOf(p) == p[1..] && |p[1..]| == 12 && StartsWith(p[1..], "91")
  {
    assert p == [p[0]] + p[1..];
    DigitsOfAppend([p[0]], p[1..]);
    assert p[1..][..2] == p[..3][1..];
  }

  /** A normalised number goes through the twelve-digit branch unchanged. */
  lemma NormalisedFixed(p: string)
    requires Normalised(p)
    ensures IndianNumber(DigitsOf(p)) == Some(p)
    ensures IndianNumberAsWritten(DigitsOf(p)) == Some(p)
  {
    NormalisedDigits(p);
    assert p == "+" + p[1..];
  }

  /** A '+' and twelve digits validates again to itself, or is refused. */
  lemma PlusTwelveRevalidates(p: string)
    requires PlusTwelve(p)
    ensures ValidatePhone(p) == Success(p) || ValidatePhone(p) == Failure(InvalidPhone)
  {
    assert p == [p[0]] + p[1..];
    DigitsOfAppend([p[0]], p[1..]);
    assert DigitsOf(p) == p[1..];
  }

  /** The corrected validation is idempotent: a validated number validates to itself. */
  lemma CorrectedIdempotent(v: string)
    requires ValidatePhoneCorrected(v).Success?
    ensures ValidatePhoneCorrected(ValidatePhoneCorrected(v).value) == ValidatePhoneCorrected(v)
  {
    NormalisedFixed(ValidatePhoneCorrected(v).value);
  }

  /** As written, validation is idempotent on every input without thirteen digits. */
  lemma ValidatePhoneIdempotent(v: string)
    requires ValidatePhone(v).Success? && |DigitsOf(v)| != 13
    ensures ValidatePhone(ValidatePhone(v).value) == ValidatePhone(v)
  {
    NormalisedFixed(ValidatePhone(v).value);
  }

  /**
   As written, a thirteen-digit number starting "91" validates to '+' and its
   last twelve digits, which the same validator then refuses: "9100123456789"
   becomes "+100123456789". The corrected validator gives "+91" and the last
   ten digits.
   */
  lemma ThirteenDigitsValidate(d: string)
    requires |d| == 13 && AllDigits(d) && StartsWith(d, "91")
    ensures ValidatePhone(d) == Success("+" + d[1..])
    ensures ValidatePhone("+" + d[1..]) == Failure(InvalidPhone)
    ensures !Normalised("+" + d[1..])
    ensures ValidatePhoneCorrected(d) == Success("+91" + d[3..])
  {
    ThirteenDigitBranchAsWritten(d);
  }

  /** Each accepted form of a ten-digit mobile number normalises to the same "+91" form. */
  lemma MobileForms(d: string)
    requires Mobile(d)
    ensures ValidatePhone(d) == Success("+91" + d)
    ensures ValidatePhone("91" + d) == Success("+91" + d)
    ensures ValidatePhone("+91" + d) == Success("+91" + d)
  {
    assert ("91" + d)[..2] == "91";
    assert "+" + ("91" + d) == "+91" + d;
    DigitsOfAppend("91", d);
    DigitsOfAppend("+91", d);
    assert DigitsOf("+91") == "91";
  }

  /** A five-digit input is no phone number. */
  lemma ShortNumberRejected()
    ensures ValidatePhone("12345") == Failure(InvalidPhone)
  {
  }

  /**
   `validate_postal_code`, given the country the validator sees among the
   fields already validated: for India the code must be six digits.
   */
  function CheckPostal(v: string, country: Option<string>): (r: Result<string, string>)
    ensures r.Failure? <==> country == Some("India") && !(|v| == 6 && AllDigits(v))
    ensures r.Success? ==> r.value == v
    ensures r.Failure? ==> r.error == InvalidPostal
  {
    if country == Some("India") && !(|v| == 6 && AllDigits(v)) then Failure(InvalidPostal) else Success(v)
  }

  /**
   The stored-address and create-model checks as written, which are the same
   code: in both models `country` is declared after `postal_code`, so when
   the postal code is validated the country is not yet among the validated
   fields and the check sees none.
   */
  function PostalAsWritten(v: string, country: string): (r: Result<string, string>)
    ensures r == Success(v)
  {
    CheckPostal(v, None)
  }

  /** As written, a five-digit code for India is accepted. */
  lemma FiveDigitPostalAccepted()
    ensures PostalAsWritten("12345", "India").Success?
    ensures CreatePostal("12345", "India").Failure?
  {
  }

  /** The stored-address and create-model check against the address's own country. */
  function CreatePostal(v: string, country: string): (r: Result<string, string>)
    ensures r.Failure? <==> country == "India" && !(|v| == 6 && AllDigits(v))
    ensures r.Success? ==> r.value == v
  {
    CheckPostal(v, Some(country))
  }

  /**
   The update-model check as written: an absent value passes, and the
   country, again not yet validated, defaults to India, so every present code
   must be six digits whatever country the update names.
   */
  function UpdatePostalAsWritten(v: Option<string>, country: Option<string>): (r: Result<Option<string>, string>)
    ensures v.None? ==> r == Success(None)
    ensures v.Some? ==> (r.Success? <==> |v.value| == 6 && AllDigits(v.value))
  {
    match v
    case None => Success(None)
    case Some(code) =>
      match CheckPostal(code, Some("India"))
      case Success(c) => Success(Some(c))
      case Failure(e) => Failure(e)
  }

  /** As written, a UK postcode in an update naming the UK is rejected. */
  lemma UkPostcodeRejectedAsWritten()
    ensures UpdatePostalAsWritten(Some("SW1A1AA"), Some("UK")).Failure?
    ensures UpdatePostal(Some("SW1A1AA"), Some("UK")) == Success(Some("SW1A1AA"))
  {
  }

  /** The update-model check against the country the update names, India when it names none. */
  function UpdatePostal(v: Option<string>, country: Option<string>): (r: Result<Option<string>, string>)
    ensures v.None? ==> r == Success(None)
    ensures v.Some? ==> (r.Failure? <==> country.GetOr("India") == "India" && !(|v.value| == 6 && AllDigits(v.value)))
    ensures r.Success? ==> r.value == v
  {
    match v
    case None => Success(None)
    case Some(code) =>
      match CheckPostal(code, Some(country.GetOr("India")))
      case Success(c) => Success(Some(c))
      case Failure(e) => Failure(e)
  }

  /** The update check agrees with the create check whenever the update names a country. */
  lemma UpdateAgreesWithCreate(v: string, country: string)
    ensures UpdatePostal(Some(v), Some(country)).Success? <==> CreatePostal(v, country).Success?
  {
  }

  // Twilio Verify helpers

  function HasDigit(s: string): (b: bool)
    ensures b <==> exists i :: 0 <= i < |s| && IsDigit(s[i])
  {
    if s == [] then false
    else if IsDigit(s[0]) then true
    else
      assert forall i :: 1 <= i < |s| ==> s[i] == s[1..][i - 1];
      HasDigit(s[1..])
  }

  /** `_is_phone_number`: no '@' and at least one digit. */
  function IsPhoneNumber(contact: string): (b: bool)
    ensures b <==> '@' !in contact && exists i :: 0 <= i < |contact| && IsDigit(contact[i])
  {
    '@' !in contact && HasDigit(contact)
  }

  /** The fallbacks for a number outside the Indian branches: kept after a '+', else '+' and ten or more digits. */
  function OtherNumber(phone: string, d: string): (r: Option<string>)
    requires phone != ""
    ensures r.Some? <==> phone[0] == '+' || |d| >= 10
    ensures phone[0] == '+' ==> r == Some(phone)
    ensures phone[0] != '+' && r.Some? ==> r.value == "+" + d
  {
    if phone[0] == '+' then Some(phone)
    else if |d| >= 10 then Some("+" + d)
    else None
  }

  /**
   `_format_phone_number` as written: nothing for an empty input; the Indian
   branches of `validate_phone` (with the same thirteen-digit branch); any
   other number starting with '+' is kept as given, and any other with at
   least ten digits gets a '+'.
   */
  function FormatPhoneNumber(phone: string): (r: Option<string>)
    ensures phone == "" ==> r.None?
    ensures r.Some? ==> |r.value| > 0 && r.value[0] == '+'
    ensures phone != "" && ValidatePhone(phone).Success? ==> r == Some(ValidatePhone(phone).value)
    ensures phone != "" && ValidatePhone(phone).Failure? ==> r == OtherNumber(phone, DigitsOf(phone))
  {
    if phone == "" then None
    else
      var d := DigitsOf(phone);
      match IndianNumberAsWritten(d)
      case Some(p) => Some(p)
      case None => OtherNumber(phone, d)
  }

  /** `_format_phone_number` with the corrected thirteen-digit branch. */
  function FormatPhoneNumberCorrected(phone: string): (r: Option<string>)
    ensures phone == "" ==> r.None?
    ensures phone != "" && ValidatePhoneCorrected(phone).Success? ==> r == Some(ValidatePhoneCorrected(phone).value)
    ensures phone != "" && ValidatePhoneCorrected(phone).Failure? ==> r == OtherNumber(phone, DigitsOf(phone))
  {
    if phone == "" then None
    else
      var d := DigitsOf(phone);
      match IndianNumber(d)
      case Some(p) => Some(p)
      case None => OtherNumber(phone, d)
  }

  /**
   As written, a thirteen-digit number starting "91" (such as
   "9100123456789") is sent to Twilio as '+' and its last twelve digits
   ("+100123456789"), which is not an Indian number; corrected, it is "+91"
   and its last ten digits.
   */
  lemma FormatThirteenDigitsAsWritten(d: string)
    requires |d| == 13 && AllDigits(d) && StartsWith(d, "91")
    ensures FormatPhoneNumber(d) == Some("+" + d[1..]) && !Normalised("+" + d[1..])
    ensures FormatPhoneNumberCorrected(d) == Some("+91" + d[3..])
  {
    ThirteenDigitsValidate(d);
  }

  /** On every number the address book accepts, Twilio formatting gives the same result. */
  lemma FormatAgreesWithValidate(phone: string)
    requires ValidatePhone(phone).Success?
    ensures FormatPhoneNumber(phone) == Some(ValidatePhone(phone).value)
  {
  }

  /** Formatting a formatted number changes nothing, the thirteen-digit branch included. */
  lemma FormatIdempotent(phone: string)
    requires FormatPhoneNumber(phone).Some?
    ensures FormatPhoneNumber(FormatPhoneNumber(phone).value) == FormatPhoneNumber(phone)
  {
    var p := FormatPhoneNumber(phone).value;
    var d := DigitsOf(phone);
    if IndianNumberAsWritten(d).Some? {
      if |d| == 13 {
        assert p == "+" + d[1..];
        DigitsOfAppend("+", d[1..]);
        assert DigitsOf(p) == d[1..];
        assert d[1..][0] == d[1] == d[..2][1] == '1';
      } else {
        NormalisedFixed(p);
      }
    } else if phone[0] != '+' {
      assert p == "+" + d;
      DigitsOfAppend("+", d);
      assert DigitsOf(p) == d;
    }
  }

  datatype Channel = Sms | Call | Email

  /**
   The checks `send_verification` makes before calling Twilio: the service
   must be configured, and an SMS or call target must format. Success carries
   the target the request is sent to.
   */
  function SendVerificationTarget(configured: bool, to: string, channel: Channel): (r: Result<string, string>)
    ensures !configured ==> r == Failure("Twilio Verify service not configured")
    ensures configured && channel == Email ==> r == Success(to)
    ensures configured && channel != Email ==>
      (r.Success? <==> FormatPhoneNumber(to).Some?) && (r.Success? ==> r.value == FormatPhoneNumber(to).value)
    ensures r.Failure? && configured ==> r.error == "Invalid phone number format"
  {
    if !configured then Failure("Twilio Verify service not configured")
    else if channel != Email then
      match FormatPhoneNumber(to)
      case None => Failure("Invalid phone number format")
      case Some(p) => Success(p)
    else Success(to)
  }

  /** The target `check_verification` sends: a phone number is formatted when it can be, anything else goes as given. */
  function CheckVerificationTarget(to: string): (r: string)
    ensures IsPhoneNumber(to) && FormatPhoneNumber(to).Some? ==> r == FormatPhoneNumber(to).value
    ensures !IsPhoneNumber(to) || FormatPhoneNumber(to).None? ==> r == to
  {
    if IsPhoneNumber(to) then FormatPhoneNumber(to).GetOr(to) else to
  }

  /** Sending and checking address the same number for every SMS target that formats. */
  lemma SendAndCheckAgree(to: string)
    requires SendVerificationTarget(true, to, Sms).Success?
    requires IsPhoneNumber(to)
    ensures CheckVerificationTarget(to) == SendVerificationTarget(true, to, Sms).value
  {
  }
}

=== FILE: profile.dfy ===
/**
 The profile endpoints: the address and payment-method lists embedded in a
 user document, and the requests that start and confirm email and phone
 verification. Each list is edited as a whole and written back; ids are the
 uuids the models generate.
 */
module Profile {
  import opened Wrappers
  import Seqs
  import Otp
  import Phone

  datatype AddressKind = Pickup | Delivery | Both

  datatype ProfileAddress = ProfileAddress(
    id: string,
    addrLabel: string,
    contactName: string,
    contactPhone: string,
    street: string,
    landmark: Option<string>,
    city: string,
    state: string,
    postalCode: string,
    country: string,
    addressType: AddressKind,
    isDefault: bool,
    createdAt: int,
    updatedAt: int)

  /** The fields an address update may carry; None leaves a field as it is. */
  datatype ProfileAddressUpdate = ProfileAddressUpdate(
    addrLabel: Option<string>,
    contactName: Option<string>,
    contactPhone: Option<string>,
    street: Option<string>,
    landmark: Option<string>,
    city: Option<string>,
    state: Option<string>,
    postalCode: Option<string>,
    country: Option<string>,
    addressType: Option<AddressKind>,
    isDefault: Option<bool>)

  /** At most one default address of each type. */
  predicate OneDefaultPerType(xs: seq<ProfileAddress>)
  {
    forall i, j :: 0 <= i < j < |xs| && xs[i].addressType == xs[j].addressType ==> !(xs[i].isDefault && xs[j].isDefault)
  }

  predicate UniqueAddressIds(xs: seq<ProfileAddress>)
  {
    forall i, j :: 0 <= i < j < |xs| ==> xs[i].id != xs[j].id
  }

  /**
   `add_user_address`: a new default first clears the default on the
   addresses of the same type; the new address goes last.
   */
  function AddAddress(xs: seq<ProfileAddress>, a: ProfileAddress): (r: seq<ProfileAddress>)
    ensures |r| == |xs| + 1 && r[|xs|] == a
    ensures forall i :: 0 <= i < |xs| ==>
      r[i] == (if a.isDefault && xs[i].addressType == a.addressType then xs[i].(isDefault := false) else xs[i])
  {
    if a.isDefault then Seqs.Map(xs, (x: ProfileAddress) => if x.addressType == a.addressType then x.(isDefault := false) else x) + [a]
    else xs + [a]
  }

  /** Adding an address keeps at most one default per type, and a new default is the only one of its type. */
  lemma AddKeepsOneDefault(xs: seq<ProfileAddress>, a: ProfileAddress)
    requires OneDefaultPerType(xs)
    ensures OneDefaultPerType(AddAddress(xs, a))
    ensures a.isDefault ==> forall i :: 0 <= i < |xs| && xs[i].addressType == a.addressType ==> !AddAddress(xs, a)[i].isDefault
  {
    var r := AddAddress(xs, a);
    forall i, j | 0 <= i < j < |r| && r[i].addressType == r[j].addressType
      ensures !(r[i].isDefault && r[j].isDefault)
    {
      if j < |xs| {
        assert !(xs[i].isDefault && xs[j].isDefault);
      }
    }
  }

  /** The fields of an update written onto an address. */
  function Patch(a: ProfileAddress, u: ProfileAddressUpdate, now: int): (b: ProfileAddress)
    ensures b.id == a.id && b.createdAt == a.createdAt && b.updatedAt == now
    ensures b.addressType == u.addressType.GetOr(a.addressType) && b.isDefault == u.isDefault.GetOr(a.isDefault)
    ensures b.addrLabel == u.addrLabel.GetOr(a.addrLabel)
    ensures b.contactName == u.contactName.GetOr(a.contactName)
    ensures b.contactPhone == u.contactPhone.GetOr(a.contactPhone)
    ensures b.street == u.street.GetOr(a.street)
    ensures b.landmark == (if u.landmark.Some? then u.landmark else a.landmark)
    ensures b.city == u.city.GetOr(a.city)
    ensures b.state == u.state.GetOr(a.state)
    ensures b.postalCode == u.postalCode.GetOr(a.postalCode)
    ensures b.country == u.country.GetOr(a.country)
  {
    a.(addrLabel := u.addrLabel.GetOr(a.addrLabel),
       contactName := u.contactName.GetOr(a.contactName),
       contactPhone := u.contactPhone.GetOr(a.contactPhone),
       street := u.street.GetOr(a.street),
       landmark := if u.landmark.Some? then u.landmark else a.landmark,
       city := u.city.GetOr(a.city),
       state := u.state.GetOr(a.state),
       postalCode := u.postalCode.GetOr(a.postalCode),
       country := u.country.GetOr(a.country),
       addressType := u.addressType.GetOr(a.addressType),
       isDefault := u.isDefault.GetOr(a.isDefault),
       updatedAt := now)
  }

  /** An update without fields only moves the update time. */
  lemma EmptyPatchKeepsAddress(a: ProfileAddress, now: int)
    ensures Patch(a, ProfileAddressUpdate(None, None, None, None, None, None, None, None, None, None, None), now) == a.(updatedAt := now)
  {
  }

  function FirstWithId(xs: seq<ProfileAddress>, id: string): (r: Option<nat>)
    ensures r.Some? ==> r.value < |xs| && xs[r.value].id == id && forall k :: 0 <= k < r.value ==> xs[k].id != id
    ensures r.None? <==> forall k :: 0 <= k < |xs| ==> xs[k].id != id
  {
    if xs == [] then None
    else if xs[0].id == id then Some(0)
    else match FirstWithId(xs[1..], id)
         case None => None
         case Some(k) => Some(k + 1)
  }

  /** The types the updated addresses have after the update. */
  function PatchedTypes(xs: seq<ProfileAddress>, id: string, u: ProfileAddressUpdate): (ts: set<AddressKind>)
    ensures forall t :: t in ts <==> exists k :: 0 <= k < |xs| && xs[k].id == id && u.addressType.GetOr(xs[k].addressType) == t
  {
    set k | 0 <= k < |xs| && xs[k].id == id :: u.addressType.GetOr(xs[k].addressType)
  }

  /**
   `update_user_address`: 404 when no address has the id; otherwise every
   address with the id takes the given fields, and when the update sets
   `is_default` every other address of an updated type loses its default.
   The first updated address is returned.
   */
  function UpdateAddress(xs: seq<ProfileAddress>, id: string, u: ProfileAddressUpdate, now: int): (r: Result<(ProfileAddress, seq<ProfileAddress>), HttpError>)
    ensures r.Failure? <==> forall k :: 0 <= k < |xs| ==> xs[k].id != id
    ensures r.Failure? ==> r.error == NotFound
    ensures r.Success? ==> |r.value.1| == |xs|
    ensures r.Success? ==> forall k :: 0 <= k < |xs| ==>
      r.value.1[k] == (if xs[k].id == id then Patch(xs[k], u, now)
                       else if u.isDefault == Some(true) && xs[k].addressType in PatchedTypes(xs, id, u) then xs[k].(isDefault := false)
                       else xs[k])
    ensures r.Success? ==> r.value.0 == Patch(xs[FirstWithId(xs, id).value], u, now)
  {
    match FirstWithId(xs, id)
    case None => Failure(NotFound)
    case Some(m) =>
      var ts := PatchedTypes(xs, id, u);
      var ys := Seqs.Map(xs, (x: ProfileAddress) =>
        if x.id == id then Patch(x, u, now)
        else if u.isDefault == Some(true) && x.addressType in ts then x.(isDefault := false)
        else x);
      Success((ys[m], ys))
  }

  /**
   With unique ids, an update keeps at most one default per type when it sets
   or clears the default, or leaves the type alone; a new default is the only
   one of its type.
   */
  lemma UpdateKeepsOneDefault(xs: seq<ProfileAddress>, id: string, u: ProfileAddressUpdate, now: int)
    requires OneDefaultPerType(xs) && UniqueAddressIds(xs)
    requires u.isDefault.Some? || u.addressType.None?
    requires UpdateAddress(xs, id, u, now).Success?
    ensures OneDefaultPerType(UpdateAddress(xs, id, u, now).value.1)
  {
    var r := UpdateAddress(xs, id, u, now).value.1;
    var m := FirstWithId(xs, id).value;
    assert forall k :: 0 <= k < |xs| && xs[k].id == id ==> k == m;
    assert PatchedTypes(xs, id, u) == {r[m].addressType};
    forall i, j | 0 <= i < j < |r| && r[i].addressType == r[j].addressType
      ensures !(r[i].isDefault && r[j].isDefault)
    {
      assert !(xs[i].addressType == xs[j].addressType && xs[i].isDefault && xs[j].isDefault);
    }
  }

  /**
   Changing the type of a default address without touching `is_default`
   leaves two defaults of the new type: nothing clears the old one.
   */
  lemma TypeChangeKeepsTwoDefaults(a: ProfileAddress, b: ProfileAddress, now: int)
    requires a.addressType == Pickup && a.isDefault && b.addressType == Delivery && b.isDefault && a.id != b.id
    ensures var u := ProfileAddressUpdate(None, None, None, None, None, None, None, None, None, Some(Pickup), None);
      && OneDefaultPerType([a, b])
      && UpdateAddress([a, b], b.id, u, now).Success?
      && !OneDefaultPerType(UpdateAddress([a, b], b.id, u, now).value.1)
  {
    var u := ProfileAddressUpdate(None, None, None, None, None, None, None, None, None, Some(Pickup), None);
    assert [a, b][1].id == b.id;
    var r := UpdateAddress([a, b], b.id, u, now).value.1;
    assert r[0] == a && r[1].addressType == Pickup && r[1].isDefault;
  }

  /** `delete_user_address`: removes every address with the id, keeping the rest in order; 404 when none is removed. */
  function DeleteAddress(xs: seq<ProfileAddress>, id: string): (r: Result<seq<ProfileAddress>, HttpError>)
    ensures r.Failure? <==> forall k :: 0 <= k < |xs| ==> xs[k].id != id
    ensures r.Failure? ==> r.error == NotFound
    ensures r.Success? ==> |r.value| < |xs| && forall a :: a in r.value <==> a in xs && a.id != id
    ensures r.Success? ==> forall a :: multiset(r.value)[a] == if a.id != id then multiset(xs)[a] else 0
    ensures r.Success? ==> r.value == Seqs.Filter(xs, (a: ProfileAddress) => a.id != id)
  {
    var ys := Seqs.Filter(xs, (a: ProfileAddress) => a.id != id);
    forall a ensures a in ys <==> a in xs && a.id != id {
      Seqs.FilterMembers(xs, (a: ProfileAddress) => a.id != id, a);
    }
    forall a ensures multiset(ys)[a] == if a.id != id then multiset(xs)[a] else 0 {
      Seqs.FilterMultiplicity(xs, (a: ProfileAddress) => a.id != id, a);
    }
    if |ys| == |xs| then
      assert forall k :: 0 <= k < |xs| ==> xs[k].id != id by {
        Seqs.CountAllIff(xs, (a: ProfileAddress) => a.id != id);
      }
      Failure(NotFound)
    else
      assert exists k :: 0 <= k < |xs| && xs[k].id == id by {
        Seqs.CountAllIff(xs, (a: ProfileAddress) => a.id != id);
      }
      Success(ys)
  }

  /**
   Deleting from a list split in two deletes from each part in place: the
   addresses kept stay in their order.
   */
  lemma DeleteKeepsOrder(xs: seq<ProfileAddress>, ys: seq<ProfileAddress>, id: string)
    requires DeleteAddress(xs + ys, id).Success?
    ensures DeleteAddress(xs + ys, id).value
            == Seqs.Filter(xs, (a: ProfileAddress) => a.id != id) + Seqs.Filter(ys, (a: ProfileAddress) => a.id != id)
  {
    Seqs.FilterAppend(xs, ys, (a: ProfileAddress) => a.id != id);
  }

  /** Deleting keeps at most one default per type. */
  lemma DeleteKeepsOneDefault(xs: seq<ProfileAddress>, id: string)
    requires OneDefaultPerType(xs)
    requires DeleteAddress(xs, id).Success?
    ensures OneDefaultPerType(DeleteAddress(xs, id).value)
  {
    var rel := (a: ProfileAddress, b: ProfileAddress) => !(a.addressType == b.addressType && a.isDefault && b.isDefault);
    Seqs.FilterPairwise(xs, (a: ProfileAddress) => a.id != id, rel);
  }

  // Payment methods

  datatype MethodType = Card | Upi | NetBanking | WalletMethod

  datatype SavedMethod = SavedMethod(
    id: string,
    methodType: MethodType,
    methodLabel: string,
    maskedDetails: string,
    provider: Option<string>,
    isDefault: bool,
    isActive: bool,
    createdAt: int,
    updatedAt: int)

  datatype MethodUpdate = MethodUpdate(methodLabel: Option<string>, isDefault: Option<bool>, isActive: Option<bool>)

  /** At most one default payment method, whatever its type. */
  predicate OneDefaultMethod(ms: seq<SavedMethod>)
  {
    forall i, j :: 0 <= i < j < |ms| ==> !(ms[i].isDefault && ms[j].isDefault)
  }

  predicate UniqueMethodIds(ms: seq<SavedMethod>)
  {
    forall i, j :: 0 <= i < j < |ms| ==> ms[i].id != ms[j].id
  }

  /** `get_user_payment_methods`: the active methods, in order. */
  function ActiveMethods(ms: seq<SavedMethod>): (r: seq<SavedMethod>)
    ensures forall m :: m in r <==> m in ms && m.isActive
  {
    forall m ensures m in Seqs.Filter(ms, (m: SavedMethod) => m.isActive) <==> m in ms && m.isActive {
      Seqs.FilterMembers(ms, (m: SavedMethod) => m.isActive, m);
    }
    Seqs.Filter(ms, (m: SavedMethod) => m.isActive)
  }

  /** `add_payment_method`: a new default clears every other default, then the method goes last. */
  function AddMethod(ms: seq<SavedMethod>, m: SavedMethod): (r: seq<SavedMethod>)
    ensures |r| == |ms| + 1 && r[|ms|] == m
    ensures forall i :: 0 <= i < |ms| ==> r[i] == (if m.isDefault then ms[i].(isDefault := false) else ms[i])
  {
    if m.isDefault then Seqs.Map(ms, (x: SavedMethod) => x.(isDefault := false)) + [m] else ms + [m]
  }

  lemma AddMethodKeepsOneDefault(ms: seq<SavedMethod>, m: SavedMethod)
    requires OneDefaultMethod(ms)
    ensures OneDefaultMethod(AddMethod(ms, m))
    ensures m.isDefault ==> forall i :: 0 <= i < |ms| ==> !AddMethod(ms, m)[i].isDefault
  {
    var r := AddMethod(ms, m);
    forall i, j | 0 <= i < j < |r| ensures !(r[i].isDefault && r[j].isDefault) {
      if j < |ms| {
        assert !(ms[i].isDefault && ms[j].isDefault);
      }
    }
  }

  /** The fields of a method update written onto a method; type, details, provider and creation are kept. */
  function PatchMethod(m: SavedMethod, u: MethodUpdate, now: int): (b: SavedMethod)
    ensures b.methodLabel == u.methodLabel.GetOr(m.methodLabel) && b.isDefault == u.isDefault.GetOr(m.isDefault)
    ensures b.isActive == u.isActive.GetOr(m.isActive) && b.updatedAt == now
    ensures b.id == m.id && b.methodType == m.methodType && b.maskedDetails == m.maskedDetails
    ensures b.provider == m.provider && b.createdAt == m.createdAt
  {
    m.(methodLabel := u.methodLabel.GetOr(m.methodLabel), isDefault := u.isDefault.GetOr(m.isDefault),
       isActive := u.isActive.GetOr(m.isActive), updatedAt := now)
  }

  /**
   `update_payment_method`: 404 when no method has the id; otherwise each
   method with the id takes the given fields, and when the update sets
   `is_default` every other method loses its default.
   */
  function UpdateMethod(ms: seq<SavedMethod>, id: string, u: MethodUpdate, now: int): (r: Result<(SavedMethod, seq<SavedMethod>), HttpError>)
    ensures r.Failure? <==> forall k :: 0 <= k < |ms| ==> ms[k].id != id
    ensures r.Failure? ==> r.error == NotFound
    ensures r.Success? ==> |r.value.1| == |ms| && r.value.0 in r.value.1 && r.value.0.id == id
    ensures r.Success? ==> forall k :: 0 <= k < |ms| ==>
      r.value.1[k] == (if ms[k].id == id then PatchMethod(ms[k], u, now)
                       else if u.isDefault == Some(true) then ms[k].(isDefault := false) else ms[k])
  {
    var ys := Seqs.Map(ms, (x: SavedMethod) =>
      if x.id == id then PatchMethod(x, u, now) else if u.isDefault == Some(true) then x.(isDefault := false) else x);
    match MethodIndex(ms, id)
    case None => Failure(NotFound)
    case Some(k) => Success((ys[k], ys))
  }

  function MethodIndex(ms: seq<SavedMethod>, id: string): (r: Option<nat>)
    ensures r.Some? ==> r.value < |ms| && ms[r.value].id == id
    ensures r.None? <==> forall k :: 0 <= k < |ms| ==> ms[k].id != id
  {
    if ms == [] then None
    else if ms[0].id == id then Some(0)
    else match MethodIndex(ms[1..], id)
         case None => None
         case Some(k) => Some(k + 1)
  }

  /** With unique ids an update keeps at most one default, and setting the default makes the method the only one. */
  lemma UpdateMethodKeepsOneDefault(ms: seq<SavedMethod>, id: string, u: MethodUpdate, now: int)
    requires OneDefaultMethod(ms) && UniqueMethodIds(ms)
    requires UpdateMethod(ms, id, u, now).Success?
    ensures OneDefaultMethod(UpdateMethod(ms, id, u, now).value.1)
    ensures u.isDefault == Some(true) ==>
      forall k :: 0 <= k < |ms| ==> (UpdateMethod(ms, id, u, now).value.1[k].isDefault <==> ms[k].id == id)
  {
    var r := UpdateMethod(ms, id, u, now).value.1;
    forall i, j | 0 <= i < j < |r| ensures !(r[i].isDefault && r[j].isDefault) {
      assert ms[i].id != ms[j].id;
      assert !(ms[i].isDefault && ms[j].isDefault);
    }
  }

  /** `delete_payment_method`: soft; every method with the id becomes inactive, 404 when none has it. */
  function DeleteMethod(ms: seq<SavedMethod>, id: string, now: int): (r: Result<seq<SavedMethod>, HttpError>)
    ensures r.Failure? <==> forall k :: 0 <= k < |ms| ==> ms[k].id != id
    ensures r.Failure? ==> r.error == NotFound
    ensures r.Success? ==> |r.value| == |ms| && forall k :: 0 <= k < |ms| ==>
      r.value[k] == (if ms[k].id == id then ms[k].(isActive := false, updatedAt := now) else ms[k])
  {
    match MethodIndex(ms, id)
    case None => Failure(NotFound)
    case Some(_) => Success(Seqs.Map(ms, (x: SavedMethod) => if x.id == id then x.(isActive := false, updatedAt := now) else x))
  }

  /** A deleted method drops out of the listing, and the defaults are untouched. */
  lemma DeletedMethodNotListed(ms: seq<SavedMethod>, id: string, now: int)
    requires OneDefaultMethod(ms)
    requires DeleteMethod(ms, id, now).Success?
    ensures forall m :: m in ActiveMethods(DeleteMethod(ms, id, now).value) ==> m.id != id
    ensures OneDefaultMethod(DeleteMethod(ms, id, now).value)
  {
    var r := DeleteMethod(ms, id, now).value;
    forall i, j | 0 <= i < j < |r| ensures !(r[i].isDefault && r[j].isDefault) {
      assert !(ms[i].isDefault && ms[j].isDefault);
    }
  }

  // Verification requests

  datatype UserProfile = UserProfile(
    id: string,
    email: string,
    phone: string,
    isEmailVerified: bool,
    isPhoneVerified: bool,
    emailVerifiedAt: Option<int>)

  datatype VerifyError = AlreadyVerified | NoPhoneNumber | SendFailed(detail: string)

  /** The status code of each refusal. */
  function VerifyErrorCode(e: VerifyError): (c: nat)
    ensures c == 400 <==> !e.SendFailed?
    ensures c == 500 <==> e.SendFailed?
  {
    match e
    case AlreadyVerified => 400
    case NoPhoneNumber => 400
    case SendFailed(_) => 500
  }

  datatype VerifySent = VerifySent(provider: string, expiresInMinutes: nat)

  /** What the environment answers: whether Twilio Verify is configured and what it replies, and whether mail or SMS went out. */
  datatype SendEnv = SendEnv(twilioConfigured: bool, twilioReply: Result<(), string>, devWithoutSmtp: bool, emailSent: bool, smsSent: bool)

  /**
   `request_email_verification`: 400 when the email is already verified;
   otherwise Twilio Verify when it is configured and accepts, else a fresh
   OTP, which counts as sent in development without SMTP settings.
   */
  function RequestEmailVerification(user: UserProfile, env: SendEnv, otps: seq<Otp.OtpRecord>, draws: seq<nat>, now: int): (r: (Result<VerifySent, VerifyError>, seq<Otp.OtpRecord>))
    requires |draws| == Otp.DefaultLength && forall i :: 0 <= i < |draws| ==> draws[i] < 10
    ensures user.isEmailVerified ==> r == (Failure(AlreadyVerified), otps)
    ensures !user.isEmailVerified && env.twilioConfigured && env.twilioReply.Success? ==>
      r == (Success(VerifySent("twilio_verify", 10)), otps)
    ensures !user.isEmailVerified && !(env.twilioConfigured && env.twilioReply.Success?) ==>
      && r.1 == Otp.CreateOtp(otps, user.email, "verify_email", "email", draws, now).1
      && (r.0.Success? <==> env.devWithoutSmtp || env.emailSent)
      && (r.0.Success? ==> r.0.value == VerifySent("custom_email", Otp.ExpiryMinutes))
  {
    if user.isEmailVerified then (Failure(AlreadyVerified), otps)
    else if env.twilioConfigured && Phone.SendVerificationTarget(true, user.email, Phone.Email).Success? && env.twilioReply.Success? then
      (Success(VerifySent("twilio_verify", 10)), otps)
    else
      var created := Otp.CreateOtp(otps, user.email, "verify_email", "email", draws, now);
      if env.devWithoutSmtp || env.emailSent then (Success(VerifySent("custom_email", Otp.ExpiryMinutes)), created.1)
      else (Failure(SendFailed("Failed to send verification email")), created.1)
  }

  /**
   `request_phone_verification`: 400 when the phone is verified or missing;
   without Twilio Verify a fresh OTP is sent by SMS; with it, the number must
   format and Twilio must accept.
   */
  function RequestPhoneVerification(user: UserProfile, env: SendEnv, otps: seq<Otp.OtpRecord>, draws: seq<nat>, now: int): (r: (Result<VerifySent, VerifyError>, seq<Otp.OtpRecord>))
    requires |draws| == Otp.DefaultLength && forall i :: 0 <= i < |draws| ==> draws[i] < 10
    ensures user.isPhoneVerified ==> r == (Failure(AlreadyVerified), otps)
    ensures !user.isPhoneVerified && user.phone == "" ==> r == (Failure(NoPhoneNumber), otps)
    ensures !user.isPhoneVerified && user.phone != "" && !env.twilioConfigured ==>
      && r.1 == Otp.CreateOtp(otps, user.phone, "verify_phone", "phone", draws, now).1
      && (r.0.Success? <==> env.smsSent)
      && (r.0.Success? ==> r.0.value == VerifySent("custom_otp", Otp.ExpiryMinutes))
    ensures !user.isPhoneVerified && user.phone != "" && env.twilioConfigured ==>
      && r.1 == otps
      && (r.0.Success? <==> Phone.FormatPhoneNumber(user.phone).Some? && env.twilioReply.Success?)
      && (r.0.Success? ==> r.0.value == VerifySent("twilio_verify", 10))
  {
    if user.isPhoneVerified then (Failure(AlreadyVerified), otps)
    else if user.phone == "" then (Failure(NoPhoneNumber), otps)
    else if !env.twilioConfigured then
      var created := Otp.CreateOtp(otps, user.phone, "verify_phone", "phone", draws, now);
      if env.smsSent then (Success(VerifySent("custom_otp", Otp.ExpiryMinutes)), created.1)
      else (Failure(SendFailed("Failed to send verification SMS")), created.1)
    else
      match Phone.SendVerificationTarget(true, user.phone, Phone.Sms)
      case Failure(e) => (Failure(SendFailed(e)), otps)
      case Success(_) =>
        match env.twilioReply
        case Failure(e) => (Failure(SendFailed(e)), otps)
        case Success(_) => (Success(VerifySent("twilio_verify", 10)), otps)
  }

  /** `confirm_email_verification`: the OTP for "verify_email" must verify; then the email is marked verified. */
  function ConfirmEmailVerification(user: UserProfile, otps: seq<Otp.OtpRecord>, code: string, now: int): (r: (Result<UserProfile, string>, seq<Otp.OtpRecord>))
    ensures r.1 == Otp.VerifyOtp(otps, user.email, code, "verify_email", now).1
    ensures r.0.Success? <==> Otp.VerifyOtp(otps, user.email, code, "verify_email", now).0 == Otp.Verified
    ensures r.0.Success? ==> r.0.value == user.(isEmailVerified := true, emailVerifiedAt := Some(now))
    ensures r.0.Failure? ==> r.0.error == Otp.OutcomeMessage(Otp.VerifyOtp(otps, user.email, code, "verify_email", now).0)
  {
    var v := Otp.VerifyOtp(otps, user.email, code, "verify_email", now);
    if v.0 == Otp.Verified then (Success(user.(isEmailVerified := true, emailVerifiedAt := Some(now))), v.1)
    else (Failure(Otp.OutcomeMessage(v.0)), v.1)
  }

  /**
   Requesting an email verification through the OTP path and confirming it
   with the code sent, before it expires, verifies the email; a verified
   email cannot be asked for again.
   */
  lemma RequestThenConfirmEmail(user: UserProfile, env: SendEnv, otps: seq<Otp.OtpRecord>, draws: seq<nat>, now: int, later: int)
    requires |draws| == Otp.DefaultLength && forall i :: 0 <= i < |draws| ==> draws[i] < 10
    requires !user.isEmailVerified && !env.twilioConfigured && env.devWithoutSmtp
    requires Otp.OneWaitingPerPair(otps) && later <= now + Otp.ExpiryMinutes * 60
    ensures var req := RequestEmailVerification(user, env, otps, draws, now);
      var code := Otp.CreateOtp(otps, user.email, "verify_email", "email", draws, now).0.code;
      var conf := ConfirmEmailVerification(user, req.1, code, later);
      && req.0.Success?
      && conf.0.Success? && conf.0.value.isEmailVerified
      && RequestEmailVerification(conf.0.value, env, conf.1, draws, later).0 == Failure(AlreadyVerified)
  {
    Otp.CreateThenVerify(otps, user.email, "verify_email", "email", draws, now, later, "");
  }
}

=== FILE: quotes.dfy ===
/**
 Quotes: the quote record and its defaults, and the mock pricing the quote
 service uses for each of the five carriers, the ordering of the quotes, and
 the cheapest, fastest and recommended picks. Carrier availability (a random
 10% skip in the service) is a parameter.
 */
module Quotes {
  import opened Wrappers
  import opened Seqs
  import opened Shipments
  import Booking

  datatype QuoteStatus = Active | Expired | Used

  datatype ServiceLevel = Economy | StandardLevel | ExpressLevel | OvernightLevel | SameDayLevel

  datatype QuoteRequest = QuoteRequest(
    fromCountry: string,
    toCountry: string,
    weight: real,
    length: Option<real>,
    width: Option<real>,
    height: Option<real>,
    declaredValue: real,
    insuranceRequired: bool,
    signatureRequired: bool)

  datatype CarrierQuote = CarrierQuote(
    carrierName: string,
    serviceLevel: ServiceLevel,
    baseRate: real,
    fuelSurcharge: real,
    insuranceCost: real,
    additionalFees: real,
    totalCost: real,
    deliveryDays: int,
    features: seq<string>)

  datatype Quote = Quote(
    id: string,
    userId: Option<string>,
    request: QuoteRequest,
    carrierQuotes: seq<CarrierQuote>,
    status: QuoteStatus,
    createdAt: int,
    expiresAt: int,
    selectedCarrier: Option<string>,
    usedAt: Option<int>)

  const Hour: int := 3600

  /** A new quote is active for 24 hours and has not been used. */
  function NewQuote(id: string, userId: Option<string>, request: QuoteRequest, carrierQuotes: seq<CarrierQuote>, now: int): (q: Quote)
    ensures q.status == Active && q.expiresAt - q.createdAt == 24 * Hour
    ensures q.selectedCarrier.None? && q.usedAt.None?
    ensures q.carrierQuotes == carrierQuotes
  {
    Quote(id, userId, request, carrierQuotes, Active, now, now + 24 * Hour, None, None)
  }

  /** The five carriers, in the order the service asks them. */
  const Carriers: seq<string> := [XFasSelf, FedEx, Dhl, Aramex, Ups]

  predicate IsInternational(req: QuoteRequest) { req.fromCountry != req.toCountry }

  /** Python truthiness of an optional dimension: present and non-zero. */
  predicate Truthy(d: Option<real>) { d.Some? && d.value != 0.0 }

  function PerKgRate(carrier: string): (r: real)
    ensures carrier !in Carriers ==> r == 150.0
    ensures 85.0 <= r <= 180.0
  {
    if carrier == XFasSelf then 85.0
    else if carrier == FedEx then 165.0
    else if carrier == Dhl then 180.0
    else if carrier == Aramex then 140.0
    else if carrier == Ups then 170.0
    else 150.0
  }

  function Max(a: real, b: real): real { if a >= b then a else b }

  /** The weight charged: at least half a kilogram, and the volumetric weight L*W*H/5000 when all three dimensions are given. */
  function BillableWeight(req: QuoteRequest): (w: real)
    ensures w >= 0.5 && w >= req.weight
    ensures Truthy(req.length) && Truthy(req.width) && Truthy(req.height) ==>
              w >= req.length.value * req.width.value * req.height.value / 5000.0
    ensures w == Max(req.weight, 0.5) ||
            (Truthy(req.length) && Truthy(req.width) && Truthy(req.height) &&
             w == req.length.value * req.width.value * req.height.value / 5000.0)
  {
    var w := Max(req.weight, 0.5);
    if Truthy(req.length) && Truthy(req.width) && Truthy(req.height) then
      Max(w, req.length.value * req.width.value * req.height.value / 5000.0)
    else w
  }

  /** The minimum charge: 200 abroad, 100 at home. */
  function MinimumCharge(req: QuoteRequest): real
  {
    if IsInternational(req) then 200.0 else 100.0
  }

  /** The base rate: billable weight times the per-kg rate (2.5 times abroad), never below the minimum charge. */
  function BaseRate(carrier: string, req: QuoteRequest): (r: real)
    ensures r >= MinimumCharge(req)
    ensures r >= BillableWeight(req) * PerKgRate(carrier) * (if IsInternational(req) then 2.5 else 1.0)
    ensures r == MinimumCharge(req) ||
            r == BillableWeight(req) * PerKgRate(carrier) * (if IsInternational(req) then 2.5 else 1.0)
  {
    var perKg := PerKgRate(carrier) * (if IsInternational(req) then 2.5 else 1.0);
    assert BillableWeight(req) * perKg == BillableWeight(req) * PerKgRate(carrier) * (if IsInternational(req) then 2.5 else 1.0);
    Max(BillableWeight(req) * perKg, MinimumCharge(req))
  }

  /** A heavier parcel on the same route never gets a lower base rate. */
  lemma BaseRateMonotone(carrier: string, req: QuoteRequest, heavier: real)
    requires heavier >= req.weight
    ensures BaseRate(carrier, req) <= BaseRate(carrier, req.(weight := heavier))
  {
    var req2 := req.(weight := heavier);
    var k := PerKgRate(carrier) * (if IsInternational(req) then 2.5 else 1.0);
    assert BillableWeight(req) <= BillableWeight(req2);
    assert BillableWeight(req) * k <= BillableWeight(req2) * k by {
      assert (BillableWeight(req2) - BillableWeight(req)) * k >= 0.0;
    }
  }

  /** The service level and delivery days of each carrier; unknown carriers get STANDARD and 5 days. */
  function ServiceInfo(carrier: string): (info: (ServiceLevel, int))
    ensures carrier !in Carriers ==> info == (StandardLevel, 5)
    ensures info.0 in {StandardLevel, ExpressLevel}
  {
    if carrier == XFasSelf then (StandardLevel, 3)
    else if carrier == FedEx then (ExpressLevel, 3)
    else if carrier == Dhl then (ExpressLevel, 2)
    else if carrier == Aramex then (StandardLevel, 5)
    else if carrier == Ups then (StandardLevel, 4)
    else (StandardLevel, 5)
  }

  /** The quote service's delivery days and the booking service's estimate agree for every carrier. */
  lemma ServiceDaysMatchBookingEstimate(carrier: string)
    ensures ServiceInfo(carrier).1 == Booking.EstimatedDays(carrier)
  {
  }

  /** The feature list of a carrier's service. */
  function Features(carrier: string, level: ServiceLevel): (fs: seq<string>)
    ensures |fs| >= 2 && fs[..2] == ["Real-time tracking", "Insurance available"]
    ensures "Priority handling" in fs <==> level in {ExpressLevel, OvernightLevel}
    ensures "Customs clearance" in fs <==> carrier in {Dhl, FedEx}
    ensures "COD available" in fs <==> carrier == XFasSelf
    ensures "Carbon neutral shipping" in fs <==> carrier == Ups
  {
    var base := ["Real-time tracking", "Insurance available"];
    var withPriority := if level in {ExpressLevel, OvernightLevel} then base + ["Priority handling", "SMS notifications"] else base;
    var withCustoms := if carrier in {Dhl, FedEx} then withPriority + ["Customs clearance", "Duty management"] else withPriority;
    var withOwn := if carrier == XFasSelf then withCustoms + ["COD available", "Hyperlocal delivery", "Dedicated support"] else withCustoms;
    if carrier == Ups then withOwn + ["Carbon neutral shipping"] else withOwn
  }

  /** A carrier's mock quote, or None when the carrier is unavailable this time. */
  function MockCarrierQuote(carrier: string, req: QuoteRequest, available: bool): (r: Option<CarrierQuote>)
    ensures r.Some? <==> available
    ensures r.Some? ==>
      var q := r.value;
      && q.carrierName == carrier
      && q.baseRate == BaseRate(carrier, req)
      && q.fuelSurcharge == q.baseRate * 0.15
      && q.insuranceCost == (if req.insuranceRequired then req.declaredValue * 0.01 else 0.0)
      && q.additionalFees == (if req.signatureRequired then 50.0 else 0.0)
      && q.totalCost == q.baseRate + q.fuelSurcharge + q.insuranceCost + q.additionalFees
      && (q.serviceLevel, q.deliveryDays) == ServiceInfo(carrier)
  {
    if !available then None
    else
      var base := BaseRate(carrier, req);
      var fuel := base * 0.15;
      var insurance := if req.insuranceRequired then req.declaredValue * 0.01 else 0.0;
      var fees := if req.signatureRequired then 50.0 else 0.0;
      var (level, days) := ServiceInfo(carrier);
      Some(CarrierQuote(carrier, level, base, fuel, insurance, fees, base + fuel + insurance + fees, days, Features(carrier, level)))
  }

  /** With non-negative declared value, a quote costs at least 1.15 times the minimum charge. */
  lemma MockQuoteAtLeastMinimum(carrier: string, req: QuoteRequest)
    requires req.declaredValue >= 0.0
    ensures MockCarrierQuote(carrier, req, true).value.totalCost >= MinimumCharge(req) * 1.15
  {
  }

  predicate SortedByCost(qs: seq<CarrierQuote>)
  {
    forall i, j :: 0 <= i < j < |qs| ==> qs[i].totalCost <= qs[j].totalCost
  }

  /** The quotes that cost exactly `c`, in their order in `qs`. */
  function AtCost(qs: seq<CarrierQuote>, c: real): (r: seq<CarrierQuote>)
    ensures |r| <= |qs|
  {
    if qs == [] then [] else (if qs[0].totalCost == c then [qs[0]] else []) + AtCost(qs[1..], c)
  }

  /**
   Insertion goes in front of every quote of the same cost, so among quotes
   of one cost the inserted quote comes first and the others keep their order.
   */
  lemma {:induction false} InsertKeepsTies(q: CarrierQuote, qs: seq<CarrierQuote>, c: real)
    requires SortedByCost(qs)
    ensures AtCost(InsertByCost(q, qs), c) == (if q.totalCost == c then [q] else []) + AtCost(qs, c)
    decreases |qs|
  {
    if qs == [] || q.totalCost <= qs[0].totalCost {
      assert ([q] + qs)[1..] == qs;
    } else {
      var rest := InsertByCost(q, qs[1..]);
      InsertKeepsTies(q, qs[1..], c);
      assert ([qs[0]] + rest)[1..] == rest;
    }
  }

  /** Insert `q` before the first quote that costs at least as much. */
  function InsertByCost(q: CarrierQuote, qs: seq<CarrierQuote>): (r: seq<CarrierQuote>)
    requires SortedByCost(qs)
    ensures SortedByCost(r)
    ensures multiset(r) == multiset(qs) + multiset{q}
    ensures |r| == |qs| + 1
  {
    if qs == [] || q.totalCost <= qs[0].totalCost then [q] + qs
    else
      var rest := InsertByCost(q, qs[1..]);
      ConsSorted(qs[0], rest, q, qs[1..]);
      ConsMultiset(qs, rest, q);
      [qs[0]] + rest
  }

  /** Putting back the first quote in front of the insertion into the rest gives the insertion into all. */
  lemma ConsMultiset(qs: seq<CarrierQuote>, rest: seq<CarrierQuote>, q: CarrierQuote)
    requires qs != [] && multiset(rest) == multiset(qs[1..]) + multiset{q}
    ensures multiset([qs[0]] + rest) == multiset(qs) + multiset{q}
  {
    assert qs == [qs[0]] + qs[1..];
  }

  /** A quote no dearer than everything in a sorted sequence can go in front of it. */
  lemma ConsSorted(h: CarrierQuote, rest: seq<CarrierQuote>, q: CarrierQuote, tl: seq<CarrierQuote>)
    requires SortedByCost(rest) && multiset(rest) == multiset(tl) + multiset{q}
    requires forall k :: 0 <= k < |tl| ==> h.totalCost <= tl[k].totalCost
    requires h.totalCost <= q.totalCost
    ensures SortedByCost([h] + rest)
  {
    forall k | 0 <= k < |rest| ensures h.totalCost <= rest[k].totalCost {
      assert rest[k] in multiset(rest);
      if rest[k] != q {
        assert rest[k] in multiset(tl);
      }
    }
    var r := [h] + rest;
    assert forall k :: 1 <= k < |r| ==> r[k] == rest[k - 1];
  }

  /**
   `list.sort(key=total_cost)`: an ordering of the same quotes by ascending
   cost; the sort is stable, so quotes of equal cost keep their order.
   */
  function SortByCost(qs: seq<CarrierQuote>): (r: seq<CarrierQuote>)
    ensures SortedByCost(r)
    ensures multiset(r) == multiset(qs)
    ensures |r| == |qs|
    ensures forall c :: AtCost(r, c) == AtCost(qs, c)
  {
    if qs == [] then []
    else
      assert qs == [qs[0]] + qs[1..];
      var rest := SortByCost(qs[1..]);
      forall c ensures AtCost(InsertByCost(qs[0], rest), c) == AtCost(qs, c) {
        InsertKeepsTies(qs[0], rest, c);
      }
      InsertByCost(qs[0], rest)
  }

  /** The quotes of the available carriers, asked in the fixed carrier order. */
  function CollectQuotes(carriers: seq<string>, req: QuoteRequest, available: seq<bool>): (qs: seq<CarrierQuote>)
    requires |available| == |carriers|
    ensures |qs| <= |carriers|
    ensures forall i :: 0 <= i < |qs| ==> qs[i].carrierName in carriers
  {
    if carriers == [] then []
    else
      var first := MockCarrierQuote(carriers[0], req, available[0]);
      (if first.Some? then [first.value] else []) + CollectQuotes(carriers[1..], req, available[1..])
  }

  /** All carrier quotes for a request: at most five, each from a known carrier, in ascending cost. */
  function CarrierQuotes(req: QuoteRequest, available: seq<bool>): (qs: seq<CarrierQuote>)
    requires |available| == |Carriers|
    ensures |qs| <= 5
    ensures SortedByCost(qs)
    ensures multiset(qs) == multiset(CollectQuotes(Carriers, req, available))
    ensures forall c :: AtCost(qs, c) == AtCost(CollectQuotes(Carriers, req, available), c)
    ensures forall i :: 0 <= i < |qs| ==> qs[i].carrierName in Carriers
  {
    var collected := CollectQuotes(Carriers, req, available);
    var sorted := SortByCost(collected);
    forall i | 0 <= i < |sorted| ensures sorted[i].carrierName in Carriers {
      assert sorted[i] in multiset(collected);
    }
    sorted
  }

  /** There is one quote per available carrier, and none from an unavailable one. */
  lemma {:induction false} CollectQuotesCount(carriers: seq<string>, req: QuoteRequest, available: seq<bool>)
    requires |available| == |carriers|
    ensures |CollectQuotes(carriers, req, available)| == Count(available, (b: bool) => b)
    ensures (forall i :: 0 <= i < |available| ==> available[i]) ==> |CollectQuotes(carriers, req, available)| == |carriers|
    decreases |carriers|
  {
    if carriers != [] {
      CollectQuotesCount(carriers[1..], req, available[1..]);
      if forall i :: 0 <= i < |available| ==> available[i] {
        assert forall i :: 0 <= i < |available[1..]| ==> available[1..][i] == available[i + 1];
      }
    }
  }

  function Cost(q: CarrierQuote): real { q.totalCost }

  function Days(q: CarrierQuote): real { q.deliveryDays as real }

  /** Python's `max(q.total_cost for q in qs)` and friends. */
  function MaxCost(qs: seq<CarrierQuote>): real requires |qs| > 0 { qs[ArgMax(qs, Cost)].totalCost }
  function MinCost(qs: seq<CarrierQuote>): real requires |qs| > 0 { qs[ArgMin(qs, Cost)].totalCost }
  function MaxDays(qs: seq<CarrierQuote>): real requires |qs| > 0 { qs[ArgMax(qs, Days)].deliveryDays as real }
  function MinDays(qs: seq<CarrierQuote>): real requires |qs| > 0 { qs[ArgMin(qs, Days)].deliveryDays as real }

  /** The recommendation score of one quote among `qs`. */
  function Score(q: CarrierQuote, qs: seq<CarrierQuote>, req: QuoteRequest): real
    requires |qs| > 0
  {
    var levelScore := if q.serviceLevel == ExpressLevel then 3.0 else if q.serviceLevel == StandardLevel then 2.0 else 1.0;
    var costScore := if MaxCost(qs) > MinCost(qs) then 5.0 * (1.0 - (q.totalCost - MinCost(qs)) / (MaxCost(qs) - MinCost(qs))) else 0.0;
    var speedScore := if MaxDays(qs) > MinDays(qs) then 3.0 * (1.0 - (q.deliveryDays as real - MinDays(qs)) / (MaxDays(qs) - MinDays(qs))) else 0.0;
    var ownBonus := if q.carrierName == XFasSelf then 2.0 else 0.0;
    var valueBonus := if req.declaredValue > 10000.0 then
                        (if "Insurance available" in q.features then 2.0 else 0.0) + (if q.serviceLevel == ExpressLevel then 1.0 else 0.0)
                      else 0.0;
    var customsBonus := if IsInternational(req) && "Customs clearance" in q.features then 2.0 else 0.0;
    levelScore + costScore + speedScore + ownBonus + valueBonus + customsBonus
  }

  /** The recommended quote: None for no quotes, else the first quote with the highest score. */
  function Recommendation(qs: seq<CarrierQuote>, req: QuoteRequest): (r: Option<CarrierQuote>)
    ensures r.None? <==> qs == []
    ensures r.Some? ==> r.value in qs
    ensures r.Some? ==> forall k :: 0 <= k < |qs| ==> Score(qs[k], qs, req) <= Score(r.value, qs, req)
    ensures r.Some? ==> forall k :: 0 <= k < |qs| && Score(qs[k], qs, req) == Score(r.value, qs, req) ==> r.value in qs[..k + 1]
  {
    if qs == [] then None
    else
      var key := (q: CarrierQuote) => if |qs| > 0 then Score(q, qs, req) else 0.0;
      var i := ArgMax(qs, key);
      assert forall k :: 0 <= k < |qs| && Score(qs[k], qs, req) == Score(qs[i], qs, req) ==> qs[i] in qs[..k + 1] by {
        forall k | 0 <= k < |qs| && Score(qs[k], qs, req) == Score(qs[i], qs, req) ensures qs[i] in qs[..k + 1] {
          assert key(qs[k]) == key(qs[i]);
          Seqs.InPrefix(qs, i, k);
        }
      }
      Some(qs[i])
  }

  /** What `min(qs, key=total_cost)` returns: a listed quote of least cost, listed no later than any other of that cost. */
  predicate FirstCheapest(qs: seq<CarrierQuote>, q: CarrierQuote)
  {
    && q in qs
    && (forall k :: 0 <= k < |qs| ==> q.totalCost <= qs[k].totalCost)
    && (forall k :: 0 <= k < |qs| && qs[k].totalCost == q.totalCost ==> q in qs[..k + 1])
  }

  /** What `min(qs, key=delivery_days)` returns: a listed quote of fewest days, listed no later than any other as fast. */
  predicate FirstFastest(qs: seq<CarrierQuote>, q: CarrierQuote)
  {
    && q in qs
    && (forall k :: 0 <= k < |qs| ==> q.deliveryDays <= qs[k].deliveryDays)
    && (forall k :: 0 <= k < |qs| && qs[k].deliveryDays == q.deliveryDays ==> q in qs[..k + 1])
  }

  datatype QuoteResponse = QuoteResponse(
    totalQuotes: nat,
    cheapest: Option<CarrierQuote>,
    fastest: Option<CarrierQuote>,
    recommended: Option<CarrierQuote>)

  /** The quote response: the count and the cheapest, fastest and recommended quotes. */
  function ProcessQuoteResponse(quote: Quote): (r: QuoteResponse)
    ensures r.totalQuotes == |quote.carrierQuotes|
    ensures r.cheapest.None? <==> quote.carrierQuotes == []
    ensures r.fastest.None? <==> quote.carrierQuotes == []
    ensures r.cheapest.Some? ==> FirstCheapest(quote.carrierQuotes, r.cheapest.value)
    ensures r.fastest.Some? ==> FirstFastest(quote.carrierQuotes, r.fastest.value)
    ensures r.recommended == Recommendation(quote.carrierQuotes, quote.request)
  {
    var qs := quote.carrierQuotes;
    if qs == [] then QuoteResponse(0, None, None, None)
    else
      var c := ArgMin(qs, Cost);
      var f := ArgMin(qs, Days);
      LeastCostAndDays(qs, c, f);
      QuoteResponse(|qs|, Some(qs[c]), Some(qs[f]), Recommendation(qs, quote.request))
  }

  /**
   The positions `min` picks by cost and by days hold a cheapest and a
   fastest quote, each the first of its kind in the list.
   */
  lemma LeastCostAndDays(qs: seq<CarrierQuote>, c: nat, f: nat)
    requires qs != [] && c == ArgMin(qs, Cost) && f == ArgMin(qs, Days)
    ensures FirstCheapest(qs, qs[c]) && FirstFastest(qs, qs[f])
  {
    LeastCost(qs, c);
    LeastDays(qs, f);
  }

  lemma LeastCost(qs: seq<CarrierQuote>, c: nat)
    requires qs != [] && c == ArgMin(qs, Cost)
    ensures FirstCheapest(qs, qs[c])
  {
    forall k | 0 <= k < |qs| ensures qs[c].totalCost <= qs[k].totalCost {
      assert Cost(qs[c]) <= Cost(qs[k]);
    }
    forall k | 0 <= k < |qs| && qs[k].totalCost == qs[c].totalCost ensures qs[c] in qs[..k + 1] {
      assert Cost(qs[k]) == Cost(qs[c]);
      Seqs.InPrefix(qs, c, k);
    }
  }

  lemma LeastDays(qs: seq<CarrierQuote>, f: nat)
    requires qs != [] && f == ArgMin(qs, Days)
    ensures FirstFastest(qs, qs[f])
  {
    forall k | 0 <= k < |qs| ensures qs[f].deliveryDays <= qs[k].deliveryDays {
      assert Days(qs[f]) <= Days(qs[k]);
    }
    forall k | 0 <= k < |qs| && qs[k].deliveryDays == qs[f].deliveryDays ensures qs[f] in qs[..k + 1] {
      assert Days(qs[k]) == Days(qs[f]);
      Seqs.InPrefix(qs, f, k);
    }
  }


  /** On a sorted quote list the cheapest quote is the first one. */
  lemma CheapestOfSortedIsFirst(quote: Quote)
    requires quote.carrierQuotes != [] && SortedByCost(quote.carrierQuotes)
    ensures ProcessQuoteResponse(quote).cheapest.value.totalCost == quote.carrierQuotes[0].totalCost
  {
    var r := ProcessQuoteResponse(quote);
    SortedCheapestCost(quote.carrierQuotes, r.cheapest.value);
  }

  /** The first quote of cost `c` comes no later than any quote of that cost. */
  lemma {:induction false} AtCostHead(qs: seq<CarrierQuote>, c: real, k: nat)
    requires k < |qs| && qs[k].totalCost == c
    ensures AtCost(qs, c) != [] && AtCost(qs, c)[0] in qs[..k + 1]
    decreases k
  {
    if qs[0].totalCost != c {
      AtCostHead(qs[1..], c, k - 1);
      assert qs[1..][..k] == qs[1..k + 1];
    }
  }

  /**
   Because the sort is stable, the head of the sorted quotes is the quote
   `min(quotes, key=total_cost)` picks from the unsorted ones: the first
   cheapest in the order the carriers were asked.
   */
  lemma SortedHeadIsFirstCheapest(qs: seq<CarrierQuote>)
    requires qs != []
    ensures FirstCheapest(qs, SortByCost(qs)[0])
  {
    var r := SortByCost(qs);
    var h := r[0];
    assert h in multiset(qs);
    forall k | 0 <= k < |qs| ensures h.totalCost <= qs[k].totalCost {
      assert qs[k] in multiset(r);
    }
    forall k | 0 <= k < |qs| && qs[k].totalCost == h.totalCost ensures h in qs[..k + 1] {
      AtCostHead(qs, h.totalCost, k);
      assert AtCost(r, h.totalCost)[0] == h;
    }
  }

  lemma SortedCheapestCost(qs: seq<CarrierQuote>, q: CarrierQuote)
    requires qs != [] && SortedByCost(qs) && FirstCheapest(qs, q)
    ensures q.totalCost == qs[0].totalCost
  {
    var i :| 0 <= i < |qs| && qs[i] == q;
    assert i == 0 || qs[0].totalCost <= qs[i].totalCost;
  }
}

=== FILE: seqs.dfy ===
/** Sequence helpers: Python's `list.index`, counting and filtering by a predicate. */
module Seqs {
  import opened Wrappers

  /** The first position of `x` in `xs` (`xs.index(x)`), or None where Python raises ValueError. */
  function IndexOf<T(==)>(xs: seq<T>, x: T): (r: Option<nat>)
    ensures r.Some? ==> r.value < |xs| && xs[r.value] == x && x !in xs[..r.value]
    ensures r.None? <==> x !in xs
  {
    if xs == [] then None
    else if xs[0] == x then Some(0)
    else
      var rest := IndexOf(xs[1..], x);
      if rest.None? then None
      else
        assert xs[1..][..rest.value] == xs[1..rest.value + 1];
        Some(rest.value + 1)
  }

  /** The first position whose element satisfies `p` (Python's `next(i for i, x in enumerate(xs) if p(x))`), or None. */
  function FirstWhere<T>(xs: seq<T>, p: T -> bool): (r: Option<nat>)
    ensures r.None? <==> forall i :: 0 <= i < |xs| ==> !p(xs[i])
    ensures r.Some? ==> r.value < |xs| && p(xs[r.value]) && forall j :: 0 <= j < r.value ==> !p(xs[j])
  {
    if xs == [] then None
    else if p(xs[0]) then Some(0)
    else
      match FirstWhere(xs[1..], p)
      case None => None
      case Some(i) =>
        assert forall j :: 1 <= j < |xs| ==> xs[j] == xs[1..][j - 1];
        Some(i + 1)
  }

  /** How many elements satisfy `p`. */
  function Count<T>(xs: seq<T>, p: T -> bool): (n: nat)
    ensures n <= |xs|
  {
    if xs == [] then 0 else (if p(xs[0]) then 1 else 0) + Count(xs[1..], p)
  }

  /** Every element counts exactly when the count is the length. */
  lemma {:induction false} CountAllIff<T>(xs: seq<T>, p: T -> bool)
    ensures Count(xs, p) == |xs| <==> forall k :: 0 <= k < |xs| ==> p(xs[k])
    decreases |xs|
  {
    if xs != [] {
      CountAllIff(xs[1..], p);
      assert forall k :: 1 <= k < |xs| ==> xs[k] == xs[1..][k - 1];
    }
  }

  /** `f` applied to every element, in order. */
  function Map<T, U>(xs: seq<T>, f: T -> U): (r: seq<U>)
    ensures |r| == |xs| && forall i :: 0 <= i < |xs| ==> r[i] == f(xs[i])
  {
    seq(|xs|, i requires 0 <= i < |xs| => f(xs[i]))
  }

  /** The elements satisfying `p`, in order. */
  function Filter<T>(xs: seq<T>, p: T -> bool): (r: seq<T>)
    ensures |r| == Count(xs, p)
    ensures forall i :: 0 <= i < |r| ==> p(r[i]) && r[i] in xs
  {
    if xs == [] then [] else (if p(xs[0]) then [xs[0]] else []) + Filter(xs[1..], p)
  }

  /** Filtering keeps exactly the elements that satisfy the predicate. */
  lemma {:induction false} FilterMembers<T>(xs: seq<T>, p: T -> bool, x: T)
    ensures x in Filter(xs, p) <==> x in xs && p(x)
    decreases |xs|
  {
    if xs != [] {
      FilterMembers(xs[1..], p, x);
      assert xs == [xs[0]] + xs[1..];
    }
  }

  /** Filtering keeps every satisfying element as often as it occurs, and no other. */
  lemma {:induction false} FilterMultiplicity<T>(xs: seq<T>, p: T -> bool, x: T)
    ensures multiset(Filter(xs, p))[x] == if p(x) then multiset(xs)[x] else 0
    decreases |xs|
  {
    if xs != [] {
      FilterMultiplicity(xs[1..], p, x);
      assert xs == [xs[0]] + xs[1..];
    }
  }

  /** Filtering a concatenation filters each part in place: the order of what is kept is the order it had. */
  lemma {:induction false} FilterAppend<T>(xs: seq<T>, ys: seq<T>, p: T -> bool)
    ensures Filter(xs + ys, p) == Filter(xs, p) + Filter(ys, p)
    decreases |xs|
  {
    if xs != [] {
      FilterAppend(xs[1..], ys, p);
      assert (xs + ys)[1..] == xs[1..] + ys;
    } else {
      assert xs + ys == ys;
    }
  }

  /** A relation that holds between every earlier and later element still holds after filtering. */
  lemma {:induction false} FilterPairwise<T>(xs: seq<T>, p: T -> bool, rel: (T, T) -> bool)
    requires forall a, b :: 0 <= a < b < |xs| ==> rel(xs[a], xs[b])
    ensures forall a, b :: 0 <= a < b < |Filter(xs, p)| ==> rel(Filter(xs, p)[a], Filter(xs, p)[b])
    decreases |xs|
  {
    if xs != [] {
      var rest := Filter(xs[1..], p);
      FilterPairwise(xs[1..], p, rel);
      forall j | 0 <= j < |rest| ensures rel(xs[0], rest[j]) {
        var k :| 0 <= k < |xs[1..]| && xs[1..][k] == rest[j];
        assert xs[k + 1] == rest[j];
      }
    }
  }

  lemma {:induction false} CountAppend<T>(xs: seq<T>, ys: seq<T>, p: T -> bool)
    ensures Count(xs + ys, p) == Count(xs, p) + Count(ys, p)
    decreases |xs|
  {
    if xs == [] {
      assert xs + ys == ys;
    } else {
      CountAppend(xs[1..], ys, p);
      assert (xs + ys)[1..] == xs[1..] + ys;
    }
  }

  /** If two predicates exclude each other, their counts add up to the count of their disjunction. */
  lemma {:induction false} CountDisjoint<T>(xs: seq<T>, p: T -> bool, q: T -> bool, pq: T -> bool)
    requires forall x :: !(p(x) && q(x))
    requires forall x :: pq(x) == (p(x) || q(x))
    ensures Count(xs, pq) == Count(xs, p) + Count(xs, q)
    decreases |xs|
  {
    if xs != [] {
      CountDisjoint(xs[1..], p, q, pq);
    }
  }

  /**
   The position Python's `min(xs, key=key)` picks: a least key, and the first
   such position.
   */
  function ArgMin<T>(xs: seq<T>, key: T -> real): (i: nat)
    requires |xs| > 0
    ensures i < |xs|
    ensures forall k :: 0 <= k < |xs| ==> key(xs[i]) <= key(xs[k])
    ensures forall k :: 0 <= k < i ==> key(xs[k]) > key(xs[i])
    decreases |xs|
  {
    if |xs| == 1 then 0
    else
      var j := ArgMin(xs[1..], key) + 1;
      if key(xs[0]) <= key(xs[j]) then 0 else j
  }

  /**
   The position Python's `max(xs, key=key)` picks: a greatest key, and the
   first such position.
   */
  function ArgMax<T>(xs: seq<T>, key: T -> real): (i: nat)
    requires |xs| > 0
    ensures i < |xs|
    ensures forall k :: 0 <= k < |xs| ==> key(xs[k]) <= key(xs[i])
    ensures forall k :: 0 <= k < i ==> key(xs[k]) < key(xs[i])
    decreases |xs|
  {
    if |xs| == 1 then 0
    else
      var j := ArgMax(xs[1..], key) + 1;
      if key(xs[0]) >= key(xs[j]) then 0 else j
  }

  /** An element at or before position `k` is in the prefix up to `k`. */
  lemma InPrefix<T>(xs: seq<T>, i: nat, k: nat)
    requires i <= k < |xs|
    ensures xs[i] in xs[..k + 1]
  {
    assert xs[..k + 1][i] == xs[i];
  }

  /** `xs` without its element at `i`. */
  function RemoveAt<T>(xs: seq<T>, i: nat): (r: seq<T>)
    requires i < |xs|
    ensures |r| == |xs| - 1
    ensures multiset(r) + multiset{xs[i]} == multiset(xs)
  {
    assert xs == xs[..i] + [xs[i]] + xs[i + 1..];
    xs[..i] + xs[i + 1..]
  }

  /** Every element of `xs` is in it as a multiset element and has a key at most the greatest. */
  lemma BelowMax<T>(xs: seq<T>, key: T -> real, m: nat, x: T)
    requires |xs| > 0 && m == ArgMax(xs, key)
    requires x in multiset(xs)
    ensures key(x) <= key(xs[m])
  {
    assert x in xs;
  }

  /** Membership in a sub-multiset implies membership in the sequence. */
  lemma InSub<T>(a: seq<T>, b: seq<T>, x: T)
    requires multiset(a) <= multiset(b) && x in a
    ensures x in b
  {
    assert x in multiset(a);
  }

  lemma TailBelowMax<T>(xs: seq<T>, key: T -> real, m: nat, tail: seq<T>)
    requires |xs| > 0 && m == ArgMax(xs, key)
    requires multiset(tail) <= multiset(RemoveAt(xs, m))
    ensures forall j :: 0 <= j < |tail| ==> key(tail[j]) <= key(xs[m])
  {
    forall j | 0 <= j < |tail| ensures key(tail[j]) <= key(xs[m]) {
      assert tail[j] in multiset(tail);
      BelowMax(xs, key, m, tail[j]);
    }
  }

  lemma ConsSubMultiset<T>(xs: seq<T>, m: nat, tail: seq<T>)
    requires m < |xs| && multiset(tail) <= multiset(RemoveAt(xs, m))
    ensures multiset([xs[m]] + tail) <= multiset(xs)
  {
    assert multiset([xs[m]] + tail) == multiset{xs[m]} + multiset(tail);
  }

  /** An element other than the removed one is still there after removal. */
  lemma StillThere<T>(xs: seq<T>, i: nat, x: T)
    requires i < |xs| && x in xs && x != xs[i]
    ensures x in RemoveAt(xs, i)
  {
    var j :| 0 <= j < |xs| && xs[j] == x;
    if j < i { assert RemoveAt(xs, i)[j] == x; } else { assert RemoveAt(xs, i)[j - 1] == x; }
  }

  /**
   Python's `sorted(xs, key=key, reverse=True)[:k]`: repeatedly the first
   element with the greatest key, which is what a stable descending sort
   puts first.
   */
  function TopBy<T>(xs: seq<T>, key: T -> real, k: nat): (r: seq<T>)
    ensures |r| == if k < |xs| then k else |xs|
    decreases k
  {
    if k == 0 || xs == [] then []
    else
      var m := ArgMax(xs, key);
      [xs[m]] + TopBy(RemoveAt(xs, m), key, k - 1)
  }

  /** One step of `TopBy`: the first element with the greatest key, then the top of the rest. */
  lemma TopByStep<T>(xs: seq<T>, key: T -> real, k: nat, r: seq<T>)
    requires k > 0 && xs != [] && r == TopBy(xs, key, k)
    ensures r == [xs[ArgMax(xs, key)]] + TopBy(RemoveAt(xs, ArgMax(xs, key)), key, k - 1)
  {
  }

  /** The top `k` are taken from `xs`: a sub-multiset of it. */
  lemma {:induction false} TopBySub<T>(xs: seq<T>, key: T -> real, k: nat, r: seq<T>)
    requires r == TopBy(xs, key, k)
    ensures multiset(r) <= multiset(xs)
    decreases k
  {
    if k > 0 && xs != [] {
      var m := ArgMax(xs, key);
      var tail := TopBy(RemoveAt(xs, m), key, k - 1);
      TopBySub(RemoveAt(xs, m), key, k - 1, tail);
      TopByStep(xs, key, k, r);
      ConsSubMultiset(xs, m, tail);
    }
  }

  /** One step of `TopBySorted`: the greatest element followed by a descending tail drawn from the rest is descending. */
  lemma SortedStep<T>(xs: seq<T>, key: T -> real, k: nat, r: seq<T>, m: nat, tail: seq<T>)
    requires k > 0 && xs != [] && r == TopBy(xs, key, k)
    requires m == ArgMax(xs, key) && tail == TopBy(RemoveAt(xs, m), key, k - 1)
    requires multiset(tail) <= multiset(RemoveAt(xs, m))
    requires Descending(tail, key)
    ensures Descending(r, key)
  {
    TailBelowMax(xs, key, m, tail);
    TopByStep(xs, key, k, r);
    assert r[0] == xs[m];
    assert forall i :: 1 <= i < |r| ==> r[i] == tail[i - 1];
  }

  /** Each element's key is at most that of every earlier one. */
  predicate Descending<T>(r: seq<T>, key: T -> real)
  {
    forall i, j :: 0 <= i < j < |r| ==> key(r[j]) <= key(r[i])
  }

  /** The top `k` come in descending order of key. */
  lemma {:induction false} TopBySorted<T>(xs: seq<T>, key: T -> real, k: nat, r: seq<T>)
    requires r == TopBy(xs, key, k)
    ensures Descending(r, key)
    decreases k
  {
    if k > 0 && xs != [] {
      var m := ArgMax(xs, key);
      var tail := TopBy(RemoveAt(xs, m), key, k - 1);
      TopBySub(RemoveAt(xs, m), key, k - 1, tail);
      TopBySorted(RemoveAt(xs, m), key, k - 1, tail);
      SortedStep(xs, key, k, r, m, tail);
    }
  }

  /** Whatever is not in `[head] + tail` is neither `head` nor in `tail`. */
  lemma NotInCons<T>(r: seq<T>, head: T, tail: seq<T>, x: T)
    requires r == [head] + tail && x !in r
    ensures x != head && x !in tail
  {
    assert r[0] == head;
    assert forall i :: 0 <= i < |tail| ==> tail[i] == r[i + 1];
  }

  /** The facts one step of `TopByLeavesSmaller` needs about the first element taken and the rest. */
  lemma LeavesStep<T>(xs: seq<T>, key: T -> real, k: nat, r: seq<T>, x: T, m: nat, rest: seq<T>, tail: seq<T>)
    requires r == TopBy(xs, key, k) && x in xs && x !in r && |r| > 0
    requires m == ArgMax(xs, key) && rest == RemoveAt(xs, m) && tail == TopBy(rest, key, k - 1)
    ensures r == [xs[m]] + tail
    ensures key(x) <= key(xs[m]) && x in rest && x !in tail
  {
    TopByStep(xs, key, k, r);
    NotInCons(r, xs[m], tail, x);
    BelowMax(xs, key, m, x);
    StillThere(xs, m, x);
  }

  /** The last element of `[head] + tail` bounds `x` when the head and the last of `tail` do. */
  lemma LastOfCons<T>(r: seq<T>, head: T, tail: seq<T>, key: T -> real, x: T)
    requires r == [head] + tail && key(x) <= key(head)
    requires |tail| > 0 ==> key(x) <= key(tail[|tail| - 1])
    ensures key(x) <= key(r[|r| - 1])
  {
    if |tail| > 0 {
      assert r[|r| - 1] == tail[|tail| - 1];
    }
  }

  /** Nothing left out of the top `k` has a greater key than the last one taken. */
  lemma {:induction false} TopByLeavesSmaller<T>(xs: seq<T>, key: T -> real, k: nat, r: seq<T>, x: T)
    requires r == TopBy(xs, key, k)
    requires x in xs && x !in r && |r| > 0
    ensures key(x) <= key(r[|r| - 1])
    decreases k
  {
    assert k > 0 && xs != [];
    var m := ArgMax(xs, key);
    var rest := RemoveAt(xs, m);
    var tail := TopBy(rest, key, k - 1);
    LeavesStep(xs, key, k, r, x, m, rest, tail);
    if |tail| > 0 {
      TopByLeavesSmaller(rest, key, k - 1, tail, x);
    }
    LastOfCons(r, xs[m], tail, key, x);
  }
}

=== FILE: shipment.dfy ===
/**
 The shipment record and its enumerations. A stored shipment document also
 carries the cancellation and reschedule fields the order endpoints add to it;
 they are optional here, as they are absent from a freshly created document.
 Times are seconds on one clock; money is `real` rupees.
 */
module Shipments {
  import opened Wrappers
  import opened Text

  /** The five carriers the platform quotes and books. */
  const XFasSelf: string := "XFas Self Network"
  const FedEx: string := "FedEx International"
  const Dhl: string := "DHL Express"
  const Aramex: string := "Aramex International"
  const Ups: string := "UPS Worldwide"

  /** The hub every booking and booking-route cancellation event is recorded at. */
  const Hub: string := "XFas Logistics Hub"

  datatype Status =
    | Draft | Booked | PickupScheduled | PickedUp | InTransit
    | OutForDelivery | Delivered | Returned | Cancelled | Lost

  /** All statuses, in declaration order. */
  const AllStatuses: seq<Status> :=
    [Draft, Booked, PickupScheduled, PickedUp, InTransit, OutForDelivery, Delivered, Returned, Cancelled, Lost]

  /** The string value each status is stored as. */
  function StatusValue(st: Status): string
  {
    match st
    case Draft => "draft"
    case Booked => "booked"
    case PickupScheduled => "pickup_scheduled"
    case PickedUp => "picked_up"
    case InTransit => "in_transit"
    case OutForDelivery => "out_for_delivery"
    case Delivered => "delivered"
    case Returned => "returned"
    case Cancelled => "cancelled"
    case Lost => "lost"
  }

  /** `ShipmentStatus(s)`: the status whose value is `s`, if any. */
  function ParseStatus(s: string): (r: Option<Status>)
    ensures r.Some? ==> StatusValue(r.value) == s
  {
    if s == "draft" then Some(Draft)
    else if s == "booked" then Some(Booked)
    else if s == "pickup_scheduled" then Some(PickupScheduled)
    else if s == "picked_up" then Some(PickedUp)
    else if s == "in_transit" then Some(InTransit)
    else if s == "out_for_delivery" then Some(OutForDelivery)
    else if s == "delivered" then Some(Delivered)
    else if s == "returned" then Some(Returned)
    else if s == "cancelled" then Some(Cancelled)
    else if s == "lost" then Some(Lost)
    else None
  }

  /** The enumeration has exactly ten members, each stored under its own value, and parsing inverts the stored value. */
  lemma StatusValuesRoundTrip()
    ensures |AllStatuses| == 10
    ensures forall st: Status :: st in AllStatuses
    ensures forall i, j :: 0 <= i < j < |AllStatuses| ==> StatusValue(AllStatuses[i]) != StatusValue(AllStatuses[j])
    ensures forall st: Status :: ParseStatus(StatusValue(st)) == Some(st)
  {
    forall st: Status ensures st in AllStatuses && ParseStatus(StatusValue(st)) == Some(st) {
      match st
      case Draft => case Booked => case PickupScheduled => case PickedUp => case InTransit =>
      case OutForDelivery => case Delivered => case Returned => case Cancelled => case Lost =>
    }
  }

  /** Every stored value is lower-case letters and underscores. */
  predicate IsStatusText(s: string)
  {
    forall i :: 0 <= i < |s| ==> IsLower(s[i]) || s[i] == '_'
  }

  lemma StatusValueText(st: Status)
    ensures IsStatusText(StatusValue(st))
  {
  }

  datatype PaymentStatus = PaymentPending | Paid | PaymentFailed | Refunded

  datatype ServiceType = Standard | Express | Overnight | Economy | SameDay

  datatype Address = Address(
    name: string, phone: string, email: string, street: string,
    city: string, state: string, postalCode: string, country: string)

  datatype PackageInfo = PackageInfo(
    length: real, width: real, height: real, weight: real, declaredValue: real)

  datatype CarrierInfo = CarrierInfo(
    carrierName: string,
    serviceType: ServiceType,
    trackingNumber: Option<string>,
    estimatedDelivery: Option<int>,
    carrierReference: Option<string>)

  datatype TrackingEvent = TrackingEvent(timestamp: int, status: string, location: string, description: string)

  datatype PaymentInfo = PaymentInfo(amount: real, currency: string, status: PaymentStatus)

  /** Fields the order-cancel endpoint writes. */
  datatype Cancellation = Cancellation(reason: string, cancelledAt: int, cancelledBy: string, refundRequested: bool)

  datatype Shipment = Shipment(
    id: string,
    userId: string,
    quoteId: Option<string>,
    shipmentNumber: string,
    sender: Address,
    recipient: Address,
    package: PackageInfo,
    carrier: CarrierInfo,
    status: Status,
    events: seq<TrackingEvent>,
    payment: PaymentInfo,
    insuranceRequired: bool,
    signatureRequired: bool,
    createdAt: int,
    updatedAt: int,
    pickupDate: Option<int>,
    deliveryDate: Option<int>,
    notes: Option<string>,
    cancellation: Option<Cancellation>,
    rescheduledAt: Option<int>,
    rescheduleReason: Option<string>,
    rescheduleCount: Option<nat>)

  /** A booking or shipment creation request. */
  datatype ShipmentCreate = ShipmentCreate(
    quoteId: Option<string>,
    sender: Address,
    recipient: Address,
    package: PackageInfo,
    carrierName: string,
    serviceType: ServiceType,
    insuranceRequired: bool,
    signatureRequired: bool,
    notes: Option<string>)

  /** The partial update a client may send: all three fields optional. */
  datatype ShipmentUpdate = ShipmentUpdate(status: Option<Status>, trackingNumber: Option<string>, notes: Option<string>)

  predicate IsHex(c: char) { IsDigit(c) || 'a' <= c <= 'f' || 'A' <= c <= 'F' }

  predicate IsUpperHex(c: char) { IsDigit(c) || 'A' <= c <= 'F' }

  /** The default shipment number: "XF" and the first eight characters of a uuid4 string, upper-cased. */
  function ShipmentNumber(uuid: string): (r: string)
    requires |uuid| >= 8 && forall i :: 0 <= i < 8 ==> IsHex(uuid[i])
    ensures |r| == 10 && r[..2] == "XF"
    ensures forall i :: 2 <= i < 10 ==> IsUpperHex(r[i])
    ensures Lower(r[2..]) == Lower(uuid[..8])
  {
    var u := Upper(uuid[..8]);
    forall i | 0 <= i < 8
      ensures IsUpperHex(u[i]) && ToLowerChar(u[i]) == ToLowerChar(uuid[i])
    {
      var c := uuid[i];
      assert IsHex(c) && u[i] == ToUpperChar(c);
      if 'a' <= c <= 'f' {
        assert 'A' as int <= u[i] as int <= 'F' as int;
      }
    }
    "XF" + u
  }

  /** A shipment as the model's defaults build it: a draft with no events, no tracking number, no dates. */
  function NewShipment(
    id: string, userId: string, quoteId: Option<string>, number: string,
    sender: Address, recipient: Address, package: PackageInfo,
    carrier: CarrierInfo, payment: PaymentInfo,
    insurance: bool, signature: bool, notes: Option<string>, now: int): (s: Shipment)
    ensures s.status == Draft && s.events == []
    ensures s.pickupDate.None? && s.deliveryDate.None?
    ensures s.createdAt == now && s.updatedAt == now
    ensures s.cancellation.None? && s.rescheduleCount.None?
  {
    Shipment(id, userId, quoteId, number, sender, recipient, package, carrier,
             Draft, [], payment, insurance, signature, now, now, None, None, notes, None, None, None, None)
  }

  /** Statuses a shipment moves through while it is on its way. */
  predicate InFlight(st: Status)
  {
    st in {Booked, PickupScheduled, PickedUp, InTransit, OutForDelivery}
  }
}

=== FILE: shipment_routes.dfy ===
/**
 The generic shipment endpoints: draft creation with the default pricing,
 public tracking by shipment number or AWB, and the guards in front of
 payment initiation.
 */
module ShipmentRoutes {
  import opened Wrappers
  import opened Shipments
  import opened Quotes
  import opened BookingRoutes

  /** The fallback price: 200, plus 1% of the declared value with insurance, plus 50 with a signature. */
  function DefaultShippingCost(req: ShipmentCreate): real
  {
    var base := 200.0;
    var withInsurance := if req.insuranceRequired then base + req.package.declaredValue * 0.01 else base;
    if req.signatureRequired then withInsurance + 50.0 else withInsurance
  }

  /** The price of a new shipment: the matching quote entry's total if there is one, else the fallback. */
  function ShippingCost(quotes: seq<Quote>, req: ShipmentCreate): (c: real)
    ensures SelectCarrierQuote(quotes, req.quoteId, req.carrierName).Some? ==>
              c == SelectCarrierQuote(quotes, req.quoteId, req.carrierName).value.totalCost
    ensures SelectCarrierQuote(quotes, req.quoteId, req.carrierName).None? ==> c == DefaultShippingCost(req)
  {
    match SelectCarrierQuote(quotes, req.quoteId, req.carrierName)
    case Some(cq) => cq.totalCost
    case None => DefaultShippingCost(req)
  }

  /** Without a quote the fallback never goes below 200 for a non-negative declared value, and adds up its parts. */
  lemma DefaultShippingCostBounds(req: ShipmentCreate)
    requires req.package.declaredValue >= 0.0
    ensures 200.0 <= DefaultShippingCost(req) <= 250.0 + req.package.declaredValue * 0.01
    ensures !req.insuranceRequired && !req.signatureRequired ==> DefaultShippingCost(req) == 200.0
  {
  }

  /** POST /shipments: a DRAFT with one "Created" event, a pending payment of the computed price and no tracking number. */
  function CreateShipment(store: Store, quotes: seq<Quote>, req: ShipmentCreate, user: string, id: string, number: string, now: int): (r: (Store, Shipment))
    ensures r.0 == store + [r.1]
    ensures r.1.status == Draft && r.1.userId == user
    ensures r.1.events == [TrackingEvent(now, "Created", Hub, "Shipment created and awaiting payment")]
    ensures r.1.payment == PaymentInfo(ShippingCost(quotes, req), "INR", PaymentPending)
    ensures r.1.carrier.trackingNumber.None? && r.1.carrier.carrierName == req.carrierName
  {
    var carrier := CarrierInfo(req.carrierName, req.serviceType, None, None, None);
    var payment := PaymentInfo(ShippingCost(quotes, req), "INR", PaymentPending);
    var draft := NewShipment(id, user, req.quoteId, number, req.sender, req.recipient, req.package, carrier, payment,
                             req.insuranceRequired, req.signatureRequired, req.notes, now);
    var s := draft.(events := [TrackingEvent(now, "Created", Hub, "Shipment created and awaiting payment")]);
    (store + [s], s)
  }

  /** Booking and plain shipment creation price a quoted carrier identically. */
  lemma QuotedPriceAgrees(store: Store, quotes: seq<Quote>, req: ShipmentCreate, user: string,
                          awbDraws: seq<nat>, id: string, number: string, now: int)
    requires |awbDraws| == 10 && forall i :: 0 <= i < 10 ==> awbDraws[i] < 10
    requires SelectCarrierQuote(quotes, req.quoteId, req.carrierName).Some?
    ensures CreateBookingRoute(store, quotes, req, user, awbDraws, id, number, now).2.payment.amount
         == CreateShipment(store, quotes, req, user, id, number, now).1.payment.amount
  {
  }

  /** GET /shipments/track/{t}: the first shipment whose shipment number or carrier tracking number is `t`. */
  function TrackShipment(store: Store, t: string): (r: Result<Shipment, HttpError>)
    ensures r.Success? ==> r.value in store && (r.value.shipmentNumber == t || r.value.carrier.trackingNumber == Some(t))
    ensures r.Failure? <==> forall k :: 0 <= k < |store| ==> store[k].shipmentNumber != t && store[k].carrier.trackingNumber != Some(t)
    ensures r.Failure? ==> r.error == NotFound
  {
    if store == [] then Failure(NotFound)
    else if store[0].shipmentNumber == t || store[0].carrier.trackingNumber == Some(t) then Success(store[0])
    else TrackShipment(store[1..], t)
  }

  /** Whatever the booking route tracks by AWB, this endpoint tracks too. */
  lemma TrackShipmentCoversAwb(store: Store, awb: string)
    requires TrackByAwb(store, awb).Success?
    ensures TrackShipment(store, awb).Success?
  {
  }

  /** POST /shipments/{id}/pay, up to the payment call: 404, then 403, then 400 for a shipment already paid. */
  function InitiatePaymentGuard(store: Store, id: string, user: string): (r: Result<Shipment, HttpError>)
    ensures Guard(store, id, user).Failure? ==> r == Failure(Guard(store, id, user).error)
    ensures Guard(store, id, user).Success? ==>
              var s := store[Guard(store, id, user).value];
              && (r.Failure? <==> s.payment.status == Paid)
              && (r.Failure? ==> r.error == BadRequest)
              && (r.Success? ==> r.value == s)
  {
    match Guard(store, id, user)
    case Failure(e) => Failure(e)
    case Success(i) => if store[i].payment.status == Paid then Failure(BadRequest) else Success(store[i])
  }

  /**
   The payment guard checks in the booking routes' order: an unknown id is
   404 for every caller, another user's shipment is 403 even when it is
   already paid, and a shipment that passes is the one `GetBooking` shows.
   */
  lemma PaymentGuardOrder(store: Store, id: string, user: string, other: string)
    ensures InitiatePaymentGuard(store, id, user) == Failure(NotFound) <==> FindById(store, id).None?
    ensures InitiatePaymentGuard(store, id, user) == Failure(NotFound) <==> InitiatePaymentGuard(store, id, other) == Failure(NotFound)
    ensures FindById(store, id).Some? && store[FindById(store, id).value].userId != user ==>
              InitiatePaymentGuard(store, id, user) == Failure(Forbidden)
    ensures InitiatePaymentGuard(store, id, user).Success? ==> GetBooking(store, id, user) == InitiatePaymentGuard(store, id, user)
  {
    NotFoundBeforeForbidden(store, id, user, other);
  }
}

=== FILE: sms.dfy ===
/**
 The SMS service: three gateway providers (Fast2SMS, MSG91, Twilio) and a
 console provider for development, tried in order until one succeeds. The
 gateways' HTTP replies are parameters; each provider's own checks (missing
 credentials, number format) are modelled as written.
 */
module Sms {
  import opened Wrappers
  import opened Text
  import Seqs
  import Phone

  datatype ProviderName = Fast2Sms | Msg91 | Twilio | Console

  function ProviderLabel(p: ProviderName): string
  {
    match p
    case Fast2Sms => "fast2sms"
    case Msg91 => "msg91"
    case Twilio => "twilio"
    case Console => "console"
  }

  /** A provider's answer: success, with a message or the error, and who answered. */
  datatype SendResult = SendResult(success: bool, text: string, provider: string)

  /** What a gateway said to the request: whether it accepted it, and its error message otherwise. */
  datatype GatewayReply = GatewayReply(accepted: bool, error: string)

  // Fast2SMS

  /** Fast2SMS cleaning as written: every "+91", then every "91", '-' and ' ' are removed. */
  function CleanFast2SmsAsWritten(phone: string): (r: string)
    ensures |r| <= |phone|
  {
    var a := ReplaceAll(phone, "+91", "");
    var b := ReplaceAll(a, "91", "");
    var c := ReplaceAll(b, "-", "");
    RemoveAllShorter(phone, "+91");
    RemoveAllShorter(a, "91");
    RemoveAllShorter(b, "-");
    RemoveAllShorter(c, " ");
    ReplaceAll(c, " ", "")
  }

  /** Fast2SMS takes ten characters starting 6, 7, 8 or 9. */
  predicate Fast2SmsAccepts(clean: string)
  {
    |clean| == 10 && clean[0] in "6789"
  }

  /** A string of digits has nothing for `replace` to remove when the pattern holds a non-digit. */
  lemma DigitsUnchanged(d: string, pat: string, k: nat)
    requires AllDigits(d) && |pat| > 0 && k < |pat| && !IsDigit(pat[k])
    ensures ReplaceAll(d, pat, "") == d
  {
    AbsentCharNotContained(d, pat, k);
    RemoveAllShorter(d, pat);
  }

  /**
   The mobile number 9123456789 loses its leading "91" along with the
   country code: as written it is cleaned to "23456789" and refused.
   */
  lemma Fast2SmsRefusesMobileAsWritten()
    ensures Phone.Mobile("9123456789")
    ensures CleanFast2SmsAsWritten("9123456789") == "23456789"
    ensures !Fast2SmsAccepts(CleanFast2SmsAsWritten("9123456789"))
  {
    SampleMobile();
    var t := "23456789";
    assert "9123456789" == "91" + t;
    forall i | 0 <= i < |t| ensures t[i] != '1' {}
    Fast2SmsAsWrittenStrips("9123456789", t);
  }

  /** As written, a mobile number made of "91" and digits without '1' is cleaned down to those digits. */
  lemma Fast2SmsAsWrittenStrips(d: string, t: string)
    requires Phone.Mobile(d) && d == "91" + t && forall i :: 0 <= i < |t| ==> t[i] != '1'
    ensures CleanFast2SmsAsWritten(d) == t && !Fast2SmsAccepts(t)
  {
    DigitsUnchanged(d, "+91", 0);
    LeadingNinetyOneRemoved(d, t);
    assert forall i :: 0 <= i < |t| ==> t[i] == d[i + 2];
    DigitsUnchanged(t, "-", 0);
    DigitsUnchanged(t, " ", 0);
  }

  /** Deleting every "91" from "91" and a string without '1' leaves that string. */
  lemma LeadingNinetyOneRemoved(s: string, t: string)
    requires s == "91" + t && forall i :: 0 <= i < |t| ==> t[i] != '1'
    ensures ReplaceAll(s, "91", "") == t
  {
    RemoveLeading("91", t);
    AbsentCharNotContained(t, "91", 1);
    RemoveAllShorter(t, "91");
  }

  /** Removes the separators, then one leading country code: "+91", or "91" in front of ten more characters. */
  function CleanFast2Sms(phone: string): (r: string)
    ensures |r| <= |phone|
  {
    var s := ReplaceAll(ReplaceAll(phone, "-", ""), " ", "");
    RemoveAllShorter(phone, "-");
    RemoveAllShorter(ReplaceAll(phone, "-", ""), " ");
    if StartsWith(s, "+91") then s[3..]
    else if StartsWith(s, "91") && |s| == 12 then s[2..]
    else s
  }

  /** Every way of writing a mobile number cleans back to its ten digits, and Fast2SMS accepts it. */
  lemma CleanFast2SmsMobile(d: string)
    requires Phone.Mobile(d)
    ensures CleanFast2Sms(d) == d && CleanFast2Sms("91" + d) == d && CleanFast2Sms("+91" + d) == d
    ensures Fast2SmsAccepts(CleanFast2Sms(d))
  {
    DigitsUnchanged(d, "-", 0);
    DigitsUnchanged(d, " ", 0);
    assert AllDigits("91" + d);
    DigitsUnchanged("91" + d, "-", 0);
    DigitsUnchanged("91" + d, " ", 0);
    SignedUnchanged(d);
    assert ("91" + d)[2..] == d;
    assert ("+91" + d)[3..] == d;
    assert ("+91" + d)[..3] == "+91";
    assert !StartsWith(d, "+91");
  }

  /** "+91" and digits has no separators to remove. */
  lemma SignedUnchanged(d: string)
    requires AllDigits(d)
    ensures ReplaceAll(ReplaceAll("+91" + d, "-", ""), " ", "") == "+91" + d
  {
    var s := "+91" + d;
    forall i | 0 <= i < |s| ensures s[i] != '-' && s[i] != ' ' {
      if i >= 3 { assert s[i] == d[i - 3]; }
    }
    AbsentCharNotContained(s, "-", 0);
    RemoveAllShorter(s, "-");
    AbsentCharNotContained(s, " ", 0);
    RemoveAllShorter(s, " ");
  }

  /**
   Fast2SMS as written: refuses without an API key, then refuses a number
   that the as-written cleaning does not reduce to a mobile number, and
   otherwise reports what the gateway replied.
   */
  function Fast2SmsSend(apiKey: Option<string>, phone: string, reply: GatewayReply): (r: SendResult)
    ensures r.provider == "fast2sms"
    ensures apiKey.None? ==> r == SendResult(false, "Fast2SMS API key not configured", "fast2sms")
    ensures apiKey.Some? && !Fast2SmsAccepts(CleanFast2SmsAsWritten(phone)) ==> r == SendResult(false, "Invalid Indian phone number format", "fast2sms")
    ensures r.success <==> apiKey.Some? && Fast2SmsAccepts(CleanFast2SmsAsWritten(phone)) && reply.accepted
    ensures !r.success && apiKey.Some? && Fast2SmsAccepts(CleanFast2SmsAsWritten(phone)) ==> r.text == reply.error
  {
    Fast2SmsWith(apiKey, CleanFast2SmsAsWritten(phone), reply)
  }

  /** Fast2SMS with the corrected cleaning, which removes only a leading country code. */
  function Fast2SmsSendCorrected(apiKey: Option<string>, phone: string, reply: GatewayReply): (r: SendResult)
    ensures r.provider == "fast2sms"
    ensures apiKey.None? ==> r == SendResult(false, "Fast2SMS API key not configured", "fast2sms")
    ensures r.success <==> apiKey.Some? && Fast2SmsAccepts(CleanFast2Sms(phone)) && reply.accepted
  {
    Fast2SmsWith(apiKey, CleanFast2Sms(phone), reply)
  }

  /** The Fast2SMS checks and reply, given the cleaned number. */
  function Fast2SmsWith(apiKey: Option<string>, clean: string, reply: GatewayReply): SendResult
  {
    if apiKey.None? then SendResult(false, "Fast2SMS API key not configured", "fast2sms")
    else if !Fast2SmsAccepts(clean) then SendResult(false, "Invalid Indian phone number format", "fast2sms")
    else if reply.accepted then SendResult(true, "SMS sent successfully", "fast2sms")
    else SendResult(false, reply.error, "fast2sms")
  }

  /** As written, a mobile number without the digit 1 is cleaned to itself. */
  lemma Fast2SmsAsWrittenKeepsOneless(d: string)
    requires Phone.Mobile(d) && forall i :: 0 <= i < |d| ==> d[i] != '1'
    ensures CleanFast2SmsAsWritten(d) == d
  {
    DigitsUnchanged(d, "+91", 0);
    AbsentCharNotContained(d, "91", 1);
    RemoveAllShorter(d, "91");
    DigitsUnchanged(d, "-", 0);
    DigitsUnchanged(d, " ", 0);
  }

  /**
   As written, Fast2SMS delivers to a mobile number without the digit 1
   whenever the gateway accepts, but refuses every mobile number made of
   "91" and digits without 1 (such as 9123456789) before calling the
   gateway; the corrected cleaning sends both.
   */
  lemma Fast2SmsSendMobiles(key: string, d: string, t: string, reply: GatewayReply)
    requires Phone.Mobile(d) && Phone.Mobile("91" + t) && forall i :: 0 <= i < |t| ==> t[i] != '1'
    requires forall i :: 0 <= i < |d| ==> d[i] != '1'
    ensures Fast2SmsSend(Some(key), d, reply).success <==> reply.accepted
    ensures Fast2SmsSend(Some(key), "91" + t, reply) == SendResult(false, "Invalid Indian phone number format", "fast2sms")
    ensures Fast2SmsSendCorrected(Some(key), d, reply).success <==> reply.accepted
    ensures Fast2SmsSendCorrected(Some(key), "91" + t, reply).success <==> reply.accepted
  {
    Fast2SmsAsWrittenKeepsOneless(d);
    Fast2SmsAsWrittenStrips("91" + t, t);
    CleanFast2SmsMobile(d);
    CleanFast2SmsMobile("91" + t);
  }

  // MSG91

  /** MSG91 cleaning as written: '+', '-' and ' ' removed, and "91" put in front of ten characters not starting "91". */
  function CleanMsg91AsWritten(phone: string): (r: string)
    ensures CleanMsg91(phone) == r || CleanMsg91(phone) == "91" + r
  {
    var s := ReplaceAll(ReplaceAll(ReplaceAll(phone, "+", ""), "-", ""), " ", "");
    if !StartsWith(s, "91") && |s| == 10 then "91" + s else s
  }

  /** As written, the mobile number 9123456789 is sent without its country code. */
  lemma Msg91DropsCountryCodeAsWritten()
    ensures Phone.Mobile("9123456789")
    ensures CleanMsg91AsWritten("9123456789") == "9123456789"
    ensures CleanMsg91("9123456789") == "91" + "9123456789"
  {
    SampleMobile();
    Msg91KeepsNinetyOneMobile("9123456789");
    CleanMsg91Mobile("9123456789");
  }

  /** As written, MSG91 sends a mobile number that starts with 9 and 1 as it is, without a country code. */
  lemma Msg91KeepsNinetyOneMobile(d: string)
    requires Phone.Mobile(d) && StartsWith(d, "91")
    ensures CleanMsg91AsWritten(d) == d
  {
    DigitsUnchanged(d, "+", 0);
    DigitsUnchanged(d, "-", 0);
    DigitsUnchanged(d, " ", 0);
  }

  /** The sample number 9123456789 is a mobile number starting with 9 and 1. */
  lemma SampleMobile()
    ensures Phone.Mobile("9123456789") && StartsWith("9123456789", "91")
  {
    var d := "9123456789";
    forall i | 0 <= i < |d| ensures IsDigit(d[i]) {}
    assert d[..2] == "91";
  }

  /** MSG91 cleaning with every ten-character number taken as lacking the country code. */
  function CleanMsg91(phone: string): (r: string)
  {
    var s := ReplaceAll(ReplaceAll(ReplaceAll(phone, "+", ""), "-", ""), " ", "");
    if |s| == 10 then "91" + s else s
  }

  /** Every way of writing a mobile number reaches MSG91 as "91" and its ten digits. */
  lemma CleanMsg91Mobile(d: string)
    requires Phone.Mobile(d)
    ensures CleanMsg91(d) == "91" + d && CleanMsg91("91" + d) == "91" + d && CleanMsg91("+91" + d) == "91" + d
  {
    DigitsUnchanged(d, "+", 0);
    DigitsUnchanged(d, "-", 0);
    DigitsUnchanged(d, " ", 0);
    assert AllDigits("91" + d);
    DigitsUnchanged("91" + d, "+", 0);
    DigitsUnchanged("91" + d, "-", 0);
    DigitsUnchanged("91" + d, " ", 0);
    PlusDropped(d);
  }

  /** Removing '+' from "+91" and digits leaves "91" and the digits. */
  lemma PlusDropped(d: string)
    requires AllDigits(d)
    ensures ReplaceAll("+91" + d, "+", "") == "91" + d
  {
    assert ("+91" + d)[1..] == "91" + d;
    assert AllDigits("91" + d);
    DigitsUnchanged("91" + d, "+", 0);
  }

  /** The longest prefix of `s` without whitespace. */
  function TakeWord(s: string): (w: string)
    ensures |w| <= |s| && w == s[..|w|] && NoSpace(w)
    ensures |w| < |s| ==> IsSpace(s[|w|])
    ensures |s| > 0 && !IsSpace(s[0]) ==> |w| > 0
  {
    if s == [] || IsSpace(s[0]) then []
    else [s[0]] + TakeWord(s[1..])
  }

  /** Python's `s.split()`: the maximal runs of non-whitespace, in order. */
  function Words(s: string): seq<string>
    decreases |s|
  {
    var t := LStrip(s);
    if t == [] then []
    else
      var w := TakeWord(t);
      [w] + Words(t[|w|..])
  }

  /** Every word of a split is a non-empty run of non-whitespace. */
  lemma {:induction false} WordsAreWords(s: string)
    ensures forall i :: 0 <= i < |Words(s)| ==> |Words(s)[i]| > 0 && NoSpace(Words(s)[i])
    decreases |s|
  {
    var t := LStrip(s);
    if t != [] {
      var w := TakeWord(t);
      var rest := Words(t[|w|..]);
      WordsAreWords(t[|w|..]);
      assert Words(s) == [w] + rest;
      forall i | 0 <= i < |Words(s)| ensures |Words(s)[i]| > 0 && NoSpace(Words(s)[i]) {
        if i > 0 {
          assert Words(s)[i] == rest[i - 1];
        }
      }
    }
  }

  /** A token MSG91 takes for the code: all digits, at least four of them. */
  predicate OtpToken(w: string)
  {
    |w| >= 4 && AllDigits(w)
  }

  /** The position of the first token that looks like a code. */
  function FirstOtpToken(ws: seq<string>): (r: Option<nat>)
    ensures r.None? <==> forall i :: 0 <= i < |ws| ==> !OtpToken(ws[i])
    ensures r.Some? ==> r.value < |ws| && OtpToken(ws[r.value]) && forall j :: 0 <= j < r.value ==> !OtpToken(ws[j])
  {
    if ws == [] then None
    else if OtpToken(ws[0]) then Some(0)
    else
      match FirstOtpToken(ws[1..])
      case None => None
      case Some(i) => Some(i + 1)
  }

  /** The code MSG91 extracts: the first token that looks like a code, or "". */
  function ExtractOtp(message: string): (r: string)
    ensures r == "" <==> forall i :: 0 <= i < |Words(message)| ==> !OtpToken(Words(message)[i])
    ensures r != "" ==> OtpToken(r) && r == Words(message)[FirstOtpToken(Words(message)).value]
  {
    match FirstOtpToken(Words(message))
    case None => ""
    case Some(i) => Words(message)[i]
  }

  /** How MSG91 is called: the OTP template when one is configured and a code was found, else a plain flow message. */
  datatype Msg91Route = Template(otp: string) | Flow

  /**
   MSG91: refuses without an auth key; otherwise picks the route and
   reports what the gateway replied.
   */
  function Msg91Send(authKey: Option<string>, templateId: Option<string>, message: string, reply: GatewayReply): (r: (Option<Msg91Route>, SendResult))
    ensures r.1.provider == "msg91"
    ensures authKey.None? <==> r.0.None?
    ensures authKey.None? ==> r.1 == SendResult(false, "MSG91 auth key not configured", "msg91")
    ensures r.0.Some? ==> (r.0.value.Template? <==> templateId.Some? && ExtractOtp(message) != "")
    ensures r.0 == Some(Template(ExtractOtp(message))) || r.0 == Some(Flow) || r.0.None?
    ensures r.1.success <==> authKey.Some? && reply.accepted
  {
    if authKey.None? then (None, SendResult(false, "MSG91 auth key not configured", "msg91"))
    else
      var otp := ExtractOtp(message);
      var route := if templateId.Some? && otp != "" then Template(otp) else Flow;
      (Some(route), if reply.accepted then SendResult(true, "SMS sent successfully", "msg91") else SendResult(false, reply.error, "msg91"))
  }

  // Twilio

  /** The number Twilio SMS is addressed to, as written: a '+' is added, with "91" only for ten characters not starting "91". */
  function TwilioNumberAsWritten(phone: string): (r: string)
    ensures |r| > 0 && r[0] == '+'
  {
    if StartsWith(phone, "+") then phone
    else if StartsWith(phone, "91") then "+" + phone
    else if |phone| == 10 then "+91" + phone
    else "+" + phone
  }

  /** As written, the mobile number 9123456789 is addressed as "+9123456789", which lacks the country code. */
  lemma TwilioDropsCountryCodeAsWritten()
    ensures TwilioNumberAsWritten("9123456789") == "+9123456789"
    ensures TwilioNumber("9123456789") == "+919123456789"
  {
  }

  /** The Twilio SMS number with every ten-character number taken as lacking the country code. */
  function TwilioNumber(phone: string): (r: string)
    ensures |r| > 0 && r[0] == '+'
  {
    if StartsWith(phone, "+") then phone
    else if |phone| == 10 then "+91" + phone
    else "+" + phone
  }

  /** Every way of writing a mobile number reaches Twilio in the form the address book stores. */
  lemma TwilioNumberMobile(d: string)
    requires Phone.Mobile(d)
    ensures TwilioNumber(d) == "+91" + d && TwilioNumber("91" + d) == "+91" + d && TwilioNumber("+91" + d) == "+91" + d
    ensures Phone.ValidatePhone(d) == Success(TwilioNumber(d))
  {
    TwilioForms(d);
    Phone.MobileForms(d);
  }

  /** The three ways of writing a mobile number all get the "+91" form. */
  lemma TwilioForms(d: string)
    requires Phone.Mobile(d)
    ensures TwilioNumber(d) == "+91" + d && TwilioNumber("91" + d) == "+91" + d && TwilioNumber("+91" + d) == "+91" + d
  {
    assert d[0] != '+' && ("91" + d)[0] != '+';
    assert ("+91" + d)[..1] == "+";
    assert "+" + ("91" + d) == "+91" + d;
  }

  /** Twilio SMS: refuses unless the account, token and sender number are all set, then reports the reply. */
  function TwilioSend(accountSid: Option<string>, authToken: Option<string>, fromNumber: Option<string>, reply: GatewayReply): (r: SendResult)
    ensures r.provider == "twilio"
    ensures r.success <==> accountSid.Some? && authToken.Some? && fromNumber.Some? && reply.accepted
    ensures !(accountSid.Some? && authToken.Some? && fromNumber.Some?) ==> r.text == "Twilio credentials not configured"
  {
    if !(accountSid.Some? && authToken.Some? && fromNumber.Some?) then SendResult(false, "Twilio credentials not configured", "twilio")
    else if reply.accepted then SendResult(true, "SMS sent successfully", "twilio")
    else SendResult(false, reply.error, "twilio")
  }

  // The service

  /**
   The environment the service reads. The mode and the preferred provider
   are the raw values, None only when the variable is unset (a variable set
   to "" is Some("")); a credential is None when unset or empty, since the
   providers test it for truth.
   */
  datatype Env = Env(
    smsMode: Option<string>,
    smsProvider: Option<string>,
    fast2smsKey: Option<string>,
    msg91Key: Option<string>,
    msg91Template: Option<string>,
    twilioSid: Option<string>,
    twilioToken: Option<string>,
    twilioFrom: Option<string>)

  /** What each gateway would reply if called. */
  datatype Replies = Replies(fast2sms: GatewayReply, msg91: GatewayReply, twilio: GatewayReply)

  /** Development mode: SMS_MODE unset, or set to "development" in any case. */
  predicate Development(env: Env)
  {
    Lower(env.smsMode.GetOr("development")) == "development"
  }

  /** An unset mode is development; a mode set to "" or "production" is not. */
  lemma ModeSettings(env: Env)
    ensures env.smsMode.None? ==> Development(env)
    ensures env.smsMode == Some("") ==> !Development(env)
    ensures env.smsMode == Some("production") ==> !Development(env)
    ensures env.smsMode == Some("DEVELOPMENT") ==> Development(env)
  {
  }

  /** The gateway named by the preferred-provider setting, Fast2SMS when it names none of the three. */
  function PreferredGateway(env: Env): ProviderName
  {
    var pref := Lower(env.smsProvider.GetOr("fast2sms"));
    if pref == "msg91" then Msg91 else if pref == "twilio" then Twilio else Fast2Sms
  }

  /**
   The providers in the order they are tried: the console alone in
   development; otherwise the preferred gateway first, the other two in a
   fixed order, and the console last.
   */
  function ProviderOrder(env: Env): (ps: seq<ProviderName>)
    ensures Development(env) ==> ps == [Console]
    ensures !Development(env) ==> |ps| == 4 && ps[3] == Console
    ensures !Development(env) ==> Fast2Sms in ps && Msg91 in ps && Twilio in ps
    ensures !Development(env) ==> ps[0] == PreferredGateway(env)
    ensures |ps| > 0 && ps[|ps| - 1] == Console
    ensures forall i :: 0 <= i < |ps| - 1 ==> ps[i] != Console
  {
    if Development(env) then [Console]
    else
      var pref := Lower(env.smsProvider.GetOr("fast2sms"));
      var gateways :=
        if pref == "msg91" then [Msg91, Fast2Sms, Twilio]
        else if pref == "twilio" then [Twilio, Fast2Sms, Msg91]
        else [Fast2Sms, Msg91, Twilio];
      gateways + [Console]
  }

  /** One provider's attempt at sending. */
  function Attempt(p: ProviderName, env: Env, replies: Replies, phone: string, message: string): (r: SendResult)
    ensures r.provider == ProviderLabel(p)
    ensures p == Console ==> r.success
  {
    match p
    case Fast2Sms => Fast2SmsSend(env.fast2smsKey, phone, replies.fast2sms)
    case Msg91 => Msg91Send(env.msg91Key, env.msg91Template, message, replies.msg91).1
    case Twilio => TwilioSend(env.twilioSid, env.twilioToken, env.twilioFrom, replies.twilio)
    case Console => SendResult(true, "SMS sent successfully (console mode)", "console")
  }

  /** The position of the first provider whose attempt succeeds. */
  function FirstSuccess(ps: seq<ProviderName>, env: Env, replies: Replies, phone: string, message: string): (r: Option<nat>)
    ensures r.None? <==> forall i :: 0 <= i < |ps| ==> !Attempt(ps[i], env, replies, phone, message).success
    ensures r.Some? ==> r.value < |ps| && Attempt(ps[r.value], env, replies, phone, message).success
    ensures r.Some? ==> forall j :: 0 <= j < r.value ==> !Attempt(ps[j], env, replies, phone, message).success
  {
    Seqs.FirstWhere(ps, (q: ProviderName) => Attempt(q, env, replies, phone, message).success)
  }

  /**
   Tries the providers in order: the first success is returned, and the
   providers after it are never asked; otherwise the last failure, or a
   generic failure when there was no provider.
   */
  function SendVia(ps: seq<ProviderName>, env: Env, replies: Replies, phone: string, message: string): (r: SendResult)
    ensures r.success <==> exists i :: 0 <= i < |ps| && Attempt(ps[i], env, replies, phone, message).success
    ensures r.success ==> r == Attempt(ps[FirstSuccess(ps, env, replies, phone, message).value], env, replies, phone, message)
    ensures !r.success && |ps| > 0 ==> r == Attempt(ps[|ps| - 1], env, replies, phone, message)
    ensures ps == [] ==> r == SendResult(false, "All SMS providers failed", "none")
  {
    match FirstSuccess(ps, env, replies, phone, message)
    case Some(i) => Attempt(ps[i], env, replies, phone, message)
    case None =>
      if ps == [] then SendResult(false, "All SMS providers failed", "none")
      else Attempt(ps[|ps| - 1], env, replies, phone, message)
  }

  /** `send_sms`: the providers in their configured order. */
  function SendSms(env: Env, replies: Replies, phone: string, message: string): (r: SendResult)
    ensures r.success
    ensures Development(env) ==> r.provider == "console"
  {
    var ps := ProviderOrder(env);
    var r := SendVia(ps, env, replies, phone, message);
    assert Attempt(ps[|ps| - 1], env, replies, phone, message).success;
    r
  }

  /** Outside development, a gateway that accepts the message is used whenever every gateway before it refused. */
  lemma PreferredGatewayFirst(env: Env, replies: Replies, phone: string, message: string)
    requires !Development(env)
    requires Attempt(ProviderOrder(env)[0], env, replies, phone, message).success
    ensures SendSms(env, replies, phone, message) == Attempt(ProviderOrder(env)[0], env, replies, phone, message)
  {
  }

  /** With no gateway credentials at all, production sends land on the console. */
  lemma NoCredentialsMeansConsole(env: Env, replies: Replies, phone: string, message: string)
    requires !Development(env)
    requires env.fast2smsKey.None? && env.msg91Key.None? && env.twilioSid.None?
    ensures SendSms(env, replies, phone, message).provider == "console"
  {
    var ps := ProviderOrder(env);
    var i := FirstSuccess(ps, env, replies, phone, message).value;
    assert ps[i] == Console;
  }
}

=== FILE: text.dfy ===
/**
 ASCII string helpers shared by the components: character classes, Python's
 strip/upper/lower/title/replace, and decimal rendering of naturals.
 Strings are `seq<char>`; only the ASCII behaviour of the Python methods is
 modelled.
 */
module Text {

  predicate IsDigit(c: char) { '0' <= c <= '9' }

  predicate IsLower(c: char) { 'a' <= c <= 'z' }

  predicate IsUpper(c: char) { 'A' <= c <= 'Z' }

  predicate IsLetter(c: char) { IsLower(c) || IsUpper(c) }

  /**
   Python's `str.isspace` restricted to ASCII, which is also what `strip()`,
   `split()` and the `\s` of `re` treat as whitespace: space, tab, line feed,
   vertical tab, form feed, carriage return, and the separators 0x1C-0x1F.
   */
  predicate IsSpace(c: char)
  {
    c == ' ' || '\t' <= c <= '\r' || '\U{001C}' <= c <= '\U{001F}'
  }

  predicate AllDigits(s: string)
  {
    forall i :: 0 <= i < |s| ==> IsDigit(s[i])
  }

  predicate NoSpace(s: string)
  {
    forall i :: 0 <= i < |s| ==> !IsSpace(s[i])
  }

  predicate StartsWith(s: string, p: string)
  {
    |p| <= |s| && s[..|p|] == p
  }

  /** Python's `sub in s`. */
  predicate Contains(s: string, sub: string)
    decreases |s|
  {
    StartsWith(s, sub) || (|s| > 0 && Contains(s[1..], sub))
  }

  function DigitChar(d: nat): (c: char)
    requires d < 10
    ensures IsDigit(c)
  {
    ('0' as int + d) as char
  }

  function DigitValue(c: char): (d: nat)
    requires IsDigit(c)
    ensures d < 10 && DigitChar(d) == c
  {
    c as int - '0' as int
  }

  function ToUpperChar(c: char): (u: char)
    ensures IsLower(c) ==> IsUpper(u) && u as int == c as int - 32
    ensures !IsLower(c) ==> u == c
  {
    if IsLower(c) then (c as int - 32) as char else c
  }

  function ToLowerChar(c: char): (l: char)
    ensures IsUpper(c) ==> IsLower(l) && l as int == c as int + 32
    ensures !IsUpper(c) ==> l == c
  {
    if IsUpper(c) then (c as int + 32) as char else c
  }

  /** Python's `str.upper()` on ASCII. */
  function Upper(s: string): (r: string)
    ensures |r| == |s|
    ensures forall i :: 0 <= i < |s| ==> r[i] == ToUpperChar(s[i])
  {
    seq(|s|, i requires 0 <= i < |s| => ToUpperChar(s[i]))
  }

  /** Python's `str.lower()` on ASCII. */
  function Lower(s: string): (r: string)
    ensures |r| == |s|
    ensures forall i :: 0 <= i < |s| ==> r[i] == ToLowerChar(s[i])
  {
    seq(|s|, i requires 0 <= i < |s| => ToLowerChar(s[i]))
  }

  /** Upper-casing leaves a string without lower-case letters as it is. */
  lemma UpperNoLower(s: string)
    requires forall i :: 0 <= i < |s| ==> !IsLower(s[i])
    ensures Upper(s) == s
  {
  }

  /** Upper-casing leaves no lower-case letter and keeps a string's plain ends plain. */
  lemma UpperKeepsEnds(s: string)
    requires s == [] || (!IsSpace(s[0]) && !IsSpace(s[|s| - 1]))
    ensures forall i :: 0 <= i < |s| ==> !IsLower(Upper(s)[i])
    ensures Upper(s) == [] || (!IsSpace(Upper(s)[0]) && !IsSpace(Upper(s)[|s| - 1]))
  {
  }

  /** Lower-casing leaves a string without upper-case letters as it is. */
  lemma LowerNoUpper(s: string)
    requires forall i :: 0 <= i < |s| ==> !IsUpper(s[i])
    ensures Lower(s) == s
  {
  }

  /** Lower-casing forgets an earlier upper-casing. */
  lemma LowerUpper(s: string)
    ensures Lower(Upper(s)) == Lower(s)
  {
    forall i | 0 <= i < |s|
      ensures Lower(Upper(s))[i] == Lower(s)[i]
    {
      var c := s[i];
      if IsLower(c) {
        assert ToUpperChar(c) as int == c as int - 32;
      }
    }
  }

  /** Lower-casing twice is lower-casing once. */
  lemma LowerLower(s: string)
    ensures Lower(Lower(s)) == Lower(s)
  {
  }

  /** One decimal digit per random draw, in order. */
  function DigitString(draws: seq<nat>): (r: string)
    requires forall i :: 0 <= i < |draws| ==> draws[i] < 10
    ensures |r| == |draws| && AllDigits(r)
    ensures forall i :: 0 <= i < |draws| ==> DigitValue(r[i]) == draws[i]
  {
    if draws == [] then [] else [DigitChar(draws[0])] + DigitString(draws[1..])
  }

  /** The digits of `s`, in order (`re.sub(r'\D', '', s)`). */
  function DigitsOf(s: string): (r: string)
    ensures AllDigits(r)
    ensures |r| <= |s|
    ensures AllDigits(s) ==> r == s
  {
    if s == [] then []
    else (if IsDigit(s[0]) then [s[0]] else []) + DigitsOf(s[1..])
  }

  /** Keeping the digits distributes over concatenation. */
  lemma {:induction false} DigitsOfAppend(a: string, b: string)
    ensures DigitsOf(a + b) == DigitsOf(a) + DigitsOf(b)
    decreases |a|
  {
    if a == [] {
      assert a + b == b;
    } else {
      DigitsOfAppend(a[1..], b);
      var ab := a + b;
      assert ab[0] == a[0] && ab[1..] == a[1..] + b;
      assert DigitsOf(ab) == (if IsDigit(a[0]) then [a[0]] else []) + DigitsOf(a[1..] + b);
      assert DigitsOf(a) == (if IsDigit(a[0]) then [a[0]] else []) + DigitsOf(a[1..]);
    }
  }

  /** Python's `str.lstrip()`. */
  function LStrip(s: string): (r: string)
    ensures |r| <= |s| && r == s[|s| - |r|..]
    ensures r == [] || !IsSpace(r[0])
    ensures forall i :: 0 <= i < |s| - |r| ==> IsSpace(s[i])
  {
    if s != [] && IsSpace(s[0]) then
      var r := LStrip(s[1..]);
      assert s[1..][|s| - 1 - |r|..] == s[|s| - |r|..];
      assert forall i :: 1 <= i < |s| - |r| ==> s[i] == s[1..][i - 1];
      r
    else s
  }

  /** Python's `str.rstrip()`. */
  function RStrip(s: string): (r: string)
    ensures |r| <= |s| && r == s[..|r|]
    ensures r == [] || !IsSpace(r[|r| - 1])
    ensures forall i :: |r| <= i < |s| ==> IsSpace(s[i])
  {
    if s != [] && IsSpace(s[|s| - 1]) then RStrip(s[..|s| - 1]) else s
  }

  /** Where `Contains` holds, the substring sits at some position. */
  lemma {:induction false} ContainsAt(s: string, sub: string) returns (i: nat)
    requires Contains(s, sub)
    ensures i + |sub| <= |s| && s[i..i + |sub|] == sub
    decreases |s|
  {
    if StartsWith(s, sub) {
      i := 0;
    } else {
      var j := ContainsAt(s[1..], sub);
      assert s[1..][j..j + |sub|] == s[j + 1..j + 1 + |sub|];
      i := j + 1;
    }
  }

  /** Python's `str.strip()`. */
  function Strip(s: string): (r: string)
    ensures |r| <= |s|
    ensures r == [] || (!IsSpace(r[0]) && !IsSpace(r[|r| - 1]))
  {
    RStrip(LStrip(s))
  }

  /** Stripping leaves a string that neither starts nor ends with a space as it is. */
  lemma StripKeepsPlainEnds(s: string)
    requires |s| > 0 && !IsSpace(s[0]) && !IsSpace(s[|s| - 1])
    ensures Strip(s) == s
  {
  }

  lemma StripNoSpace(s: string)
    requires NoSpace(s)
    ensures Strip(s) == s
  {
    assert LStrip(s) == s;
  }

  /** Every occurrence of character `a` replaced by `b` (`str.replace` with one-character arguments). */
  function ReplaceChar(s: string, a: char, b: char): (r: string)
    ensures |r| == |s|
    ensures forall i :: 0 <= i < |s| ==> r[i] == (if s[i] == a then b else s[i])
  {
    seq(|s|, i requires 0 <= i < |s| => if s[i] == a then b else s[i])
  }

  /** Python's `s.replace(pat, rep)`: non-overlapping occurrences, left to right. */
  function ReplaceAll(s: string, pat: string, rep: string): (r: string)
    requires |pat| > 0
    decreases |s|
  {
    if |s| < |pat| then s
    else if s[..|pat|] == pat then rep + ReplaceAll(s[|pat|..], pat, rep)
    else [s[0]] + ReplaceAll(s[1..], pat, rep)
  }

  /** Deleting a substring never lengthens a string, and changes nothing when the substring does not occur. */
  lemma {:induction false} RemoveAllShorter(s: string, pat: string)
    requires |pat| > 0
    ensures |ReplaceAll(s, pat, "")| <= |s|
    ensures !Contains(s, pat) ==> ReplaceAll(s, pat, "") == s
    decreases |s|
  {
    if |s| < |pat| {
    } else if s[..|pat|] == pat {
      RemoveAllShorter(s[|pat|..], pat);
    } else {
      RemoveAllShorter(s[1..], pat);
    }
  }

  /** Deleting a pattern from a string that starts with it deletes that first occurrence and goes on with the rest. */
  lemma RemoveLeading(pat: string, t: string)
    requires |pat| > 0
    ensures ReplaceAll(pat + t, pat, "") == ReplaceAll(t, pat, "")
  {
    var s := pat + t;
    assert s[..|pat|] == pat && s[|pat|..] == t;
  }

  /** A string that lacks one of the characters of `sub` does not contain `sub`. */
  lemma {:induction false} AbsentCharNotContained(s: string, sub: string, k: nat)
    requires k < |sub|
    requires forall i :: 0 <= i < |s| ==> s[i] != sub[k]
    ensures !Contains(s, sub)
    decreases |s|
  {
    if |s| > 0 {
      AbsentCharNotContained(s[1..], sub, k);
    }
    assert !StartsWith(s, sub) by {
      if |sub| <= |s| {
        assert s[..|sub|][k] == s[k];
      }
    }
  }

  function TitleFrom(s: string, afterLetter: bool): (r: string)
    ensures |r| == |s|
    decreases |s|
  {
    if s == [] then []
    else
      var c := if !IsLetter(s[0]) then s[0]
               else if afterLetter then ToLowerChar(s[0]) else ToUpperChar(s[0]);
      [c] + TitleFrom(s[1..], IsLetter(s[0]))
  }

  /** Python's `str.title()` on ASCII: each run of letters gets an upper-case first letter and lower-case rest. */
  function Title(s: string): (r: string)
    ensures |r| == |s|
    ensures |s| > 0 && IsLower(s[0]) ==> IsUpper(r[0])
  {
    TitleFrom(s, false)
  }

  lemma {:induction false} LowerTitleFrom(s: string, afterLetter: bool)
    ensures Lower(TitleFrom(s, afterLetter)) == Lower(s)
    decreases |s|
  {
    if s != [] {
      LowerTitleFrom(s[1..], IsLetter(s[0]));
      var t := TitleFrom(s, afterLetter);
      assert t[1..] == TitleFrom(s[1..], IsLetter(s[0]));
      assert ToLowerChar(t[0]) == ToLowerChar(s[0]);
      forall i | 0 <= i < |s|
        ensures Lower(t)[i] == Lower(s)[i]
      {
        if i > 0 {
          assert Lower(t)[i] == Lower(t[1..])[i - 1];
          assert Lower(s)[i] == Lower(s[1..])[i - 1];
        }
      }
    }
  }

  /** Title-casing only changes letter case: lower-casing undoes it. */
  lemma LowerTitle(s: string)
    ensures Lower(Title(s)) == Lower(s)
  {
    LowerTitleFrom(s, false);
  }

  /** Decimal rendering of a natural number, as Python's `str(n)`. */
  function Dec(n: nat): (r: string)
    ensures |r| >= 1 && AllDigits(r)
    ensures n >= 10 ==> |r| >= 2
    decreases n
  {
    if n < 10 then [DigitChar(n)] else Dec(n / 10) + [DigitChar(n % 10)]
  }

  /** The number a string of decimal digits denotes. */
  function DecValue(s: string): (v: nat)
    requires AllDigits(s)
    decreases |s|
  {
    if s == [] then 0 else DecValue(s[..|s| - 1]) * 10 + DigitValue(s[|s| - 1])
  }

  /** Reading back the decimal rendering gives the number. */
  lemma {:induction false} DecRoundTrip(n: nat)
    ensures DecValue(Dec(n)) == n
    decreases n
  {
    if n >= 10 {
      DecRoundTrip(n / 10);
      var d := Dec(n);
      assert d[..|d| - 1] == Dec(n / 10);
    }
  }

  /** Distinct numbers render differently. */
  lemma DecInjective(a: nat, b: nat)
    requires Dec(a) == Dec(b)
    ensures a == b
  {
    DecRoundTrip(a);
    DecRoundTrip(b);
  }
}

=== FILE: tracking.dfy ===
/**
 The tracking views: progress percentage, milestone classification and
 timestamps, the next-update estimate, the AWB format validator, the second
 progression table, bulk tracking by AWB and its summary. The clock is a
 parameter.
 */
module Tracking {
  import opened Wrappers
  import opened Text
  import opened Seqs
  import opened Shipments
  import opened Booking
  import opened BookingRoutes

  const Hour: int := 3600

  /** The whole forward path, starting from a draft. */
  const FullPath: seq<Status> := [Draft] + Progression

  /** The progress bar value of a status. */
  function ProgressPercentage(st: Status): (p: nat)
    ensures p <= 100
    ensures p == 100 <==> st in {Delivered, Returned}
    ensures p == 0 <==> st in {Draft, Cancelled, Lost}
  {
    match st
    case Draft => 0
    case Booked => 15
    case PickupScheduled => 25
    case PickedUp => 40
    case InTransit => 60
    case OutForDelivery => 85
    case Delivered => 100
    case Returned => 100
    case Cancelled => 0
    case Lost => 0
  }

  /** Progress strictly increases along DRAFT, BOOKED, ..., DELIVERED. */
  lemma ProgressMonotone()
    ensures forall i, j :: 0 <= i < j < |FullPath| ==> ProgressPercentage(FullPath[i]) < ProgressPercentage(FullPath[j])
  {
    assert FullPath == [Draft, Booked, PickupScheduled, PickedUp, InTransit, OutForDelivery, Delivered];
  }

  /** Every demo step raises the progress bar. */
  lemma ProgressAdvances(st: Status)
    requires Successor(st).Some?
    ensures ProgressPercentage(Successor(st).value) > ProgressPercentage(st)
  {
  }

  // Milestones

  datatype MilestoneState = Completed | Current | Pending

  datatype Milestone = Milestone(id: string, title: string, state: MilestoneState, timestamp: Option<int>)

  /** Milestone `k` (0 = booked, ..., 5 = delivered) is reached by the status `Progression[k]`. */
  const MilestoneIds: seq<string> := ["booked", "pickup_scheduled", "picked_up", "in_transit", "out_for_delivery", "delivered"]

  const MilestoneTitles: seq<string> :=
    ["Booking Confirmed", "Pickup Scheduled", "Package Picked Up", "In Transit", "Out for Delivery", "Delivered"]

  /** The state of milestone `k` as the tracking view lists it: explicit status lists per milestone. */
  function MilestoneStateOf(k: nat, st: Status): MilestoneState
    requires k < 6
  {
    if k == 0 then
      if st in {Booked, PickupScheduled, PickedUp, InTransit, OutForDelivery, Delivered} then Completed else Pending
    else if k == 1 then
      if st in {PickupScheduled, PickedUp, InTransit, OutForDelivery, Delivered} then Completed
      else if st == Booked then Current else Pending
    else if k == 2 then
      if st in {PickedUp, InTransit, OutForDelivery, Delivered} then Completed
      else if st == PickupScheduled then Current else Pending
    else if k == 3 then
      if st in {InTransit, OutForDelivery, Delivered} then Completed
      else if st == PickedUp then Current else Pending
    else if k == 4 then
      if st in {OutForDelivery, Delivered} then Completed
      else if st == InTransit then Current else Pending
    else
      if st == Delivered then Completed
      else if st == OutForDelivery then Current else Pending
  }

  /**
   The reference classification by position on the forward path: completed at
   or after the milestone, current one step before it, pending otherwise and
   for every status off the path.
   */
  function StateByPosition(k: nat, st: Status): MilestoneState
  {
    match PathPosition(st)
    case None => Pending
    case Some(i) => if i >= k then Completed else if i + 1 == k then Current else Pending
  }

  /** The per-milestone status lists are exactly the classification by path position. */
  lemma MilestoneStateByPosition(k: nat, st: Status)
    requires k < 6
    ensures MilestoneStateOf(k, st) == StateByPosition(k, st)
  {
    match st
    case Booked =>
    case PickupScheduled =>
    case PickedUp =>
    case InTransit =>
    case OutForDelivery =>
    case Delivered =>
    case _ =>
  }

  /** The keywords an event is searched for, per milestone; none for booked and delivered. */
  function Keywords(k: nat): (kws: seq<string>)
    ensures k == 0 || k >= 5 ==> kws == []
  {
    if k == 1 then ["scheduled", "pickup scheduled"]
    else if k == 2 then ["picked up", "collected", "pickup"]
    else if k == 3 then ["in transit", "departed", "forwarded"]
    else if k == 4 then ["out for delivery", "delivery", "final mile"]
    else []
  }

  /** An event mentions a keyword when its status or its description contains it, ignoring case. */
  predicate Mentions(e: TrackingEvent, kw: string)
  {
    Contains(Lower(e.status), Lower(kw)) || Contains(Lower(e.description), Lower(kw))
  }

  /** The inner keyword loop: does some keyword, tried in order, match the event? */
  function MentionsAny(e: TrackingEvent, kws: seq<string>): (b: bool)
    ensures b <==> exists j :: 0 <= j < |kws| && Mentions(e, kws[j])
    decreases |kws|
  {
    if kws == [] then false
    else if Mentions(e, kws[0]) then true
    else
      var b := MentionsAny(e, kws[1..]);
      assert b ==> exists j :: 0 <= j < |kws| && Mentions(e, kws[j]) by {
        if b {
          var j :| 0 <= j < |kws| - 1 && Mentions(e, kws[1..][j]);
          assert Mentions(e, kws[j + 1]);
        }
      }
      b
  }

  /** The position of the newest event mentioning some keyword (events are scanned newest first). */
  function LastMention(events: seq<TrackingEvent>, kws: seq<string>): (r: Option<nat>)
    ensures r.None? <==> forall i :: 0 <= i < |events| ==> !MentionsAny(events[i], kws)
    ensures r.Some? ==> r.value < |events| && MentionsAny(events[r.value], kws)
    ensures r.Some? ==> forall j :: r.value < j < |events| ==> !MentionsAny(events[j], kws)
    decreases |events|
  {
    if events == [] then None
    else if MentionsAny(events[|events| - 1], kws) then Some(|events| - 1)
    else LastMention(events[..|events| - 1], kws)
  }

  /** The timestamp of a milestone read off the events: that of the newest matching event, if any. */
  function MilestoneTimestamp(events: seq<TrackingEvent>, kws: seq<string>): (t: Option<int>)
    ensures t.None? <==> forall i :: 0 <= i < |events| ==> !MentionsAny(events[i], kws)
    ensures kws == [] ==> t.None?
    ensures t.Some? ==> exists i :: 0 <= i < |events| && events[i].timestamp == t.value && MentionsAny(events[i], kws)
  {
    match LastMention(events, kws)
    case None => None
    case Some(i) => Some(events[i].timestamp)
  }

  /** The six milestones of a shipment, with states and timestamps. */
  function Milestones(s: Shipment): (ms: seq<Milestone>)
    ensures |ms| == 6
    ensures forall k :: 0 <= k < 6 ==> ms[k].id == MilestoneIds[k] && ms[k].state == StateByPosition(k, s.status)
    ensures ms[0].timestamp == Some(s.createdAt)
    ensures forall k :: 1 <= k < 5 ==> ms[k].timestamp == MilestoneTimestamp(s.events, Keywords(k))
    ensures ms[5].timestamp == (if s.status == Delivered then s.deliveryDate else None)
  {
    forall k | 0 <= k < 6
      ensures MilestoneStateOf(k, s.status) == StateByPosition(k, s.status)
    {
      MilestoneStateByPosition(k, s.status);
    }
    seq(6, k requires 0 <= k < 6 =>
      Milestone(MilestoneIds[k], MilestoneTitles[k], MilestoneStateOf(k, s.status),
                if k == 0 then Some(s.createdAt)
                else if k == 5 then (if s.status == Delivered then s.deliveryDate else None)
                else MilestoneTimestamp(s.events, Keywords(k))))
  }

  /**
   The completed milestones form a prefix, at most one milestone is current
   and it comes right after the completed ones, the first milestone is never
   current, and every milestone is pending exactly for the statuses off the
   forward path.
   */
  lemma MilestonesShape(s: Shipment)
    ensures forall j, k :: 0 <= j < k < 6 && Milestones(s)[k].state == Completed ==> Milestones(s)[j].state == Completed
    ensures forall j, k :: 0 <= j < 6 && 0 <= k < 6 && Milestones(s)[j].state == Current && Milestones(s)[k].state == Current ==> j == k
    ensures forall k :: 0 < k < 6 && Milestones(s)[k].state == Current ==> Milestones(s)[k - 1].state == Completed
    ensures Milestones(s)[0].state != Current
    ensures (forall k :: 0 <= k < 6 ==> Milestones(s)[k].state == Pending) <==> s.status in {Draft, Cancelled, Returned, Lost}
  {
    var ms := Milestones(s);
    PositionShape(s.status);
  }

  /** The shape of the positional classification, milestone by milestone, for one status. */
  lemma PositionShape(st: Status)
    ensures forall j, k :: 0 <= j < k < 6 && StateByPosition(k, st) == Completed ==> StateByPosition(j, st) == Completed
    ensures forall j, k :: 0 <= j < 6 && 0 <= k < 6 && StateByPosition(j, st) == Current && StateByPosition(k, st) == Current ==> j == k
    ensures forall k :: 0 < k < 6 && StateByPosition(k, st) == Current ==> StateByPosition(k - 1, st) == Completed
    ensures StateByPosition(0, st) != Current
    ensures (forall k :: 0 <= k < 6 ==> StateByPosition(k, st) == Pending) <==> PathPosition(st).None?
  {
    if PathPosition(st).Some? {
      assert StateByPosition(0, st) == Completed;
    }
  }

  /** Each of the four searched milestones lists its own status, spelt with spaces, among its keywords. */
  lemma KeywordOfLabel(k: nat) returns (j: nat)
    requires 1 <= k < 5
    ensures j < |Keywords(k)| && Keywords(k)[j] == ReplaceChar(StatusValue(Progression[k]), '_', ' ')
  {
    if k == 1 {
      j := 1;
      assert Progression[k] == PickupScheduled;
      var r := ReplaceChar("pickup_scheduled", '_', ' ');
      forall i | 0 <= i < 16 ensures r[i] == "pickup scheduled"[i] {}
    } else if k == 2 {
      j := 0;
      assert Progression[k] == PickedUp;
      var r := ReplaceChar("picked_up", '_', ' ');
      forall i | 0 <= i < 9 ensures r[i] == "picked up"[i] {}
    } else if k == 3 {
      j := 0;
      assert Progression[k] == InTransit;
      var r := ReplaceChar("in_transit", '_', ' ');
      forall i | 0 <= i < 10 ensures r[i] == "in transit"[i] {}
    } else {
      j := 0;
      assert Progression[k] == OutForDelivery;
      var r := ReplaceChar("out_for_delivery", '_', ' ');
      forall i | 0 <= i < 16 ensures r[i] == "out for delivery"[i] {}
    }
  }

  /**
   An event carrying the label of a milestone's status (as the status-update
   primitive writes it) gives that milestone a timestamp, from that event or a
   newer one.
   */
  lemma StatusEventStampsMilestone(events: seq<TrackingEvent>, k: nat, i: nat)
    requires 1 <= k < 5 && i < |events|
    requires events[i].status == StatusLabel(Progression[k])
    ensures MilestoneTimestamp(events, Keywords(k)).Some?
    ensures LastMention(events, Keywords(k)).value >= i
  {
    var st := Progression[k];
    LowerStatusLabel(st);
    var j := KeywordOfLabel(k);
    var kw := Keywords(k)[j];
    assert Lower(events[i].status) == kw && Lower(kw) == kw;
    assert StartsWith(Lower(events[i].status), Lower(kw));
    assert Mentions(events[i], kw);
    MentionStamps(events, Keywords(k), i, j);
  }

  /** An event mentioning one of the keywords gives the milestone a timestamp, from that event or a later one. */
  lemma MentionStamps(events: seq<TrackingEvent>, kws: seq<string>, i: nat, j: nat)
    requires i < |events| && j < |kws| && Mentions(events[i], kws[j])
    ensures MilestoneTimestamp(events, kws).Some? && LastMention(events, kws).value >= i
  {
    assert MentionsAny(events[i], kws);
  }

  /**
   The "pickup" keyword of the picked-up milestone also matches a "Pickup
   Scheduled" event, so a shipment that has only had its pickup scheduled
   already shows a picked-up timestamp.
   */
  lemma PickupScheduledStampsPickedUp(t: int, location: string, description: string)
    ensures MilestoneTimestamp([TrackingEvent(t, StatusLabel(PickupScheduled), location, description)], Keywords(2)) == Some(t)
  {
    var e := TrackingEvent(t, StatusLabel(PickupScheduled), location, description);
    PickupMentioned(e);
    assert MentionsAny(e, Keywords(2));
    assert LastMention([e], Keywords(2)) == Some(0);
  }

  lemma PickupMentioned(e: TrackingEvent)
    requires e.status == StatusLabel(PickupScheduled)
    ensures Mentions(e, Keywords(2)[2])
  {
    LowerPickupLabel();
    PickupPrefix();
    ContainsStart("pickup scheduled", "pickup");
  }

  lemma PickupPrefix()
    ensures StartsWith("pickup scheduled", Lower("pickup"))
    ensures Lower("pickup") == "pickup"
  {
    LowerIs("pickup", "pickup");
    assert "pickup scheduled"[..6] == "pickup";
  }

  lemma LowerPickupLabel()
    ensures Lower(StatusLabel(PickupScheduled)) == "pickup scheduled"
  {
    LowerStatusLabel(PickupScheduled);
    var j := KeywordOfLabel(1);
  }

  lemma ContainsStart(s: string, p: string)
    requires StartsWith(s, p)
    ensures Contains(s, p)
  {
  }

  // Next update estimate

  datatype NextUpdate = NextUpdate(expectedStatus: string, estimatedTime: int, description: string)

  /** The expected next status, the hours until it, and a description, for the statuses in the table. */
  function NextUpdateTable(st: Status): Option<(string, int, string)>
  {
    match st
    case Booked => Some(("Pickup Scheduled", 2, "Pickup will be scheduled soon"))
    case PickupScheduled => Some(("Picked Up", 24, "Package will be picked up within 24 hours"))
    case PickedUp => Some(("In Transit", 4, "Package will start moving to destination"))
    case InTransit => Some(("Out for Delivery", 12, "Package will reach destination hub"))
    case OutForDelivery => Some(("Delivered", 8, "Package will be delivered today"))
    case _ => None
  }

  /**
   The next-update estimate: none for a delivered shipment or a status outside
   the table; otherwise the successor's name, due between 2 and 24 hours from now.
   */
  function EstimateNextUpdate(s: Shipment, now: int): (r: Option<NextUpdate>)
    ensures r.None? <==> Successor(s.status).None?
    ensures r.Some? ==> now + 2 * Hour <= r.value.estimatedTime <= now + 24 * Hour
  {
    if s.status == Delivered then None
    else
      match NextUpdateTable(s.status)
      case None => None
      case Some((expected, hours, description)) => Some(NextUpdate(expected, now + hours * Hour, description))
  }

  /** The expected status an estimate names is the successor status, up to letter case and '_' for ' '. */
  lemma NextUpdateNamesSuccessor(s: Shipment, now: int)
    requires Successor(s.status).Some?
    ensures Lower(EstimateNextUpdate(s, now).value.expectedStatus) == ReplaceChar(StatusValue(Successor(s.status).value), '_', ' ')
  {
    var x := EstimateNextUpdate(s, now).value.expectedStatus;
    var n := Successor(s.status).value;
    assert x == NextUpdateTable(s.status).value.0;
    LowerExpected(s.status);
  }

  lemma LowerExpected(st: Status)
    requires Successor(st).Some?
    ensures Lower(NextUpdateTable(st).value.0) == ReplaceChar(StatusValue(Successor(st).value), '_', ' ')
  {
    match st
    case Booked => LowerIs("Pickup Scheduled", "pickup_scheduled");
    case PickupScheduled => LowerIs("Picked Up", "picked_up");
    case PickedUp => LowerIs("In Transit", "in_transit");
    case InTransit => LowerIs("Out for Delivery", "out_for_delivery");
    case OutForDelivery => LowerIs("Delivered", "delivered");
  }

  lemma LowerIs(a: string, v: string)
    requires |a| == |v| && forall i :: 0 <= i < |a| ==> ToLowerChar(a[i]) == (if v[i] == '_' then ' ' else v[i])
    ensures Lower(a) == ReplaceChar(v, '_', ' ')
  {
  }

  // AWB format

  /** Carrier prefix followed by exactly ten digits. */
  predicate CarrierAwb(a: string)
  {
    |a| == 12 && a[..2] in {"XF", "FX", "DH", "AR", "UP"} && AllDigits(a[2..])
  }

  /** Ten to fifteen digits alone. */
  predicate NumericAwb(a: string)
  {
    10 <= |a| <= 15 && AllDigits(a)
  }

  /** The AWB format check: not empty, at least six characters once stripped, then one of the patterns after strip and upper-case. */
  function ValidateAwb(awb: string): (ok: bool)
    ensures ok ==> 10 <= |Strip(awb)| <= 15
    ensures ok <==> CarrierAwb(Upper(Strip(awb))) || NumericAwb(Upper(Strip(awb)))
  {
    if awb == [] || |Strip(awb)| < 6 then false
    else
      var a := Upper(Strip(awb));
      CarrierAwb(a) || NumericAwb(a)
  }

  /** A generated AWB has no spaces and no lower-case letters. */
  lemma GeneratedAwbPlain(carrier: string, draws: seq<nat>)
    requires |draws| == 10 && forall i :: 0 <= i < 10 ==> draws[i] < 10
    ensures NoSpace(GenerateAwb(carrier, draws))
    ensures forall i :: 0 <= i < 12 ==> !IsLower(GenerateAwb(carrier, draws)[i])
  {
    var awb := GenerateAwb(carrier, draws);
    var p := AwbPrefix(carrier);
    forall i | 0 <= i < |awb|
      ensures !IsSpace(awb[i]) && !IsLower(awb[i])
    {
      if i >= 2 {
        assert IsDigit(awb[2..][i - 2]);
      } else {
        assert awb[i] == p[i];
      }
    }
  }

  /** Every AWB the booking service generates passes the format check. */
  lemma GeneratedAwbValid(carrier: string, draws: seq<nat>)
    requires |draws| == 10 && forall i :: 0 <= i < 10 ==> draws[i] < 10
    ensures ValidateAwb(GenerateAwb(carrier, draws))
  {
    var awb := GenerateAwb(carrier, draws);
    GeneratedAwbPlain(carrier, draws);
    StripNoSpace(awb);
    UpperNoLower(awb);
    assert Upper(Strip(awb)) == awb;
    assert CarrierAwb(awb);
  }

  // Second progression table

  /** The string-keyed successor table of the tracking simulation. */
  const NextStatusTable: map<string, string> := map[
    "booked" := "pickup_scheduled",
    "pickup_scheduled" := "picked_up",
    "picked_up" := "in_transit",
    "in_transit" := "out_for_delivery",
    "out_for_delivery" := "delivered"]

  /** The tracking simulation's next status: the table entry when the random draw `roll` falls below 0.3, else None. */
  function NextStatusValue(current: string, roll: real): (r: Option<string>)
    ensures r.Some? ==> roll < 0.3 && current in NextStatusTable
  {
    if roll < 0.3 && current in NextStatusTable then Some(NextStatusTable[current]) else None
  }

  /** The string table agrees with the demo step's successor on every status, and knows no other strings. */
  lemma NextStatusAgreesWithSuccessor(st: Status)
    ensures NextStatusValue(StatusValue(st), 0.0) ==
      (match Successor(st) case None => None case Some(n) => Some(StatusValue(n)))
    ensures forall v :: v in NextStatusTable ==> ParseStatus(v).Some? && ParseStatus(NextStatusTable[v]).Some?
  {
  }

  // Bulk tracking

  /** Python's `awb.strip().upper()`: no surrounding whitespace and no lower-case letter. */
  function NormalizeAwb(awb: string): (r: string)
    ensures |r| <= |awb|
    ensures forall i :: 0 <= i < |r| ==> !IsLower(r[i])
    ensures r == [] || (!IsSpace(r[0]) && !IsSpace(r[|r| - 1]))
  {
    var t := Strip(awb);
    UpperKeepsEnds(t);
    Upper(t)
  }

  /** Normalising a normalised AWB changes nothing. */
  lemma NormalizeAwbIdempotent(awb: string)
    ensures NormalizeAwb(NormalizeAwb(awb)) == NormalizeAwb(awb)
  {
    var r := NormalizeAwb(awb);
    if r != [] {
      StripKeepsPlainEnds(r);
    }
    UpperNoLower(r);
  }

  /** Whether the expected delivery has passed for a shipment not yet delivered. */
  predicate IsDelayed(s: Shipment, now: int)
  {
    s.carrier.estimatedDelivery.Some? && now > s.carrier.estimatedDelivery.value && s.status != Delivered
  }

  /** The enhanced view of one tracked shipment. */
  datatype TrackingInfo = TrackingInfo(
    id: string,
    awb: Option<string>,
    status: Status,
    progress: nat,
    carrier: string,
    declaredValue: real,
    milestones: seq<Milestone>,
    nextUpdate: Option<NextUpdate>,
    delayed: bool)

  function EnhancedInfo(s: Shipment, now: int): (t: TrackingInfo)
    ensures t.id == s.id && t.awb == s.carrier.trackingNumber && t.status == s.status
    ensures t.progress == ProgressPercentage(s.status) && t.progress <= 100
    ensures t.delayed ==> s.status != Delivered
    ensures |t.milestones| == 6
  {
    TrackingInfo(s.id, s.carrier.trackingNumber, s.status, ProgressPercentage(s.status),
                 s.carrier.carrierName, s.package.declaredValue, Milestones(s),
                 EstimateNextUpdate(s, now), IsDelayed(s, now))
  }

  datatype BulkResult = BulkResult(trackedCount: nat, notFoundCount: nat, shipments: seq<TrackingInfo>, notFound: seq<string>)

  /** The entries left once normalised, empty ones dropped, in order. */
  function NormalizedEntries(awbs: seq<string>): (r: seq<string>)
    ensures forall i :: 0 <= i < |r| ==> r[i] != []
    decreases |awbs|
  {
    if awbs == [] then []
    else
      var a := NormalizeAwb(awbs[0]);
      (if a != [] then [a] else []) + NormalizedEntries(awbs[1..])
  }

  /** The result for one normalised, non-empty entry. */
  function TrackOne(store: Store, a: string, now: int): (r: BulkResult)
    ensures r.trackedCount + r.notFoundCount == 1
    ensures r.trackedCount == |r.shipments| && r.notFoundCount == |r.notFound|
    ensures forall i :: 0 <= i < |r.shipments| ==> r.shipments[i].awb == Some(a)
    ensures forall i :: 0 <= i < |r.notFound| ==>
      r.notFound[i] == a && forall j :: 0 <= j < |store| ==> store[j].carrier.trackingNumber != Some(a)
  {
    match TrackByAwb(store, a)
    case Success(s) => BulkResult(1, 0, [EnhancedInfo(s, now)], [])
    case Failure(_) => BulkResult(0, 1, [], [a])
  }

  /** Whether a normalised entry names a stored shipment. */
  function FoundIn(store: Store): string -> bool
  {
    (a: string) => TrackByAwb(store, a).Success?
  }

  /** Whether a normalised entry names no stored shipment. */
  function MissingIn(store: Store): string -> bool
  {
    (a: string) => TrackByAwb(store, a).Failure?
  }

  /** The enriched record of the shipment each entry names, in order. */
  function InfoOf(store: Store, es: seq<string>, now: int): (r: seq<TrackingInfo>)
    requires forall i :: 0 <= i < |es| ==> TrackByAwb(store, es[i]).Success?
    ensures |r| == |es|
    ensures forall i :: 0 <= i < |es| ==> r[i] == EnhancedInfo(TrackByAwb(store, es[i]).value, now)
  {
    if es == [] then []
    else [EnhancedInfo(TrackByAwb(store, es[0]).value, now)] + InfoOf(store, es[1..], now)
  }

  /**
   Tracks each entry of the list in order: normalised, skipped if empty,
   looked up by exact tracking number. The entries found give their
   enriched records in entry order, and the others are listed as not
   found, in entry order.
   */
  function TrackMultiple(store: Store, awbs: seq<string>, now: int): (r: BulkResult)
    ensures r.notFound == Seqs.Filter(NormalizedEntries(awbs), MissingIn(store))
    ensures r.shipments == InfoOf(store, Seqs.Filter(NormalizedEntries(awbs), FoundIn(store)), now)
    ensures r.trackedCount == |r.shipments| && r.notFoundCount == |r.notFound|
    ensures r.trackedCount + r.notFoundCount == |NormalizedEntries(awbs)|
    ensures forall i :: 0 <= i < |r.shipments| ==> r.shipments[i].awb.Some? && r.shipments[i].awb.value in NormalizedEntries(awbs)
    ensures forall i :: 0 <= i < |r.notFound| ==>
      r.notFound[i] in NormalizedEntries(awbs) && forall j :: 0 <= j < |store| ==> store[j].carrier.trackingNumber != Some(r.notFound[i])
    decreases |awbs|
  {
    if awbs == [] then BulkResult(0, 0, [], [])
    else
      var rest := TrackMultiple(store, awbs[1..], now);
      var a := NormalizeAwb(awbs[0]);
      var es := NormalizedEntries(awbs[1..]);
      if a == [] then
        assert NormalizedEntries(awbs) == es;
        rest
      else
        assert NormalizedEntries(awbs) == [a] + es;
        var head := TrackOne(store, a, now);
        TrackStepNotFound(store, a, es, now, rest.notFound);
        TrackStepShipments(store, a, es, now, rest.shipments);
        BulkResult(head.trackedCount + rest.trackedCount, head.notFoundCount + rest.notFoundCount,
                   head.shipments + rest.shipments, head.notFound + rest.notFound)
  }

  /** One entry in front of the rest: its not-found listing goes in front of the rest's. */
  lemma TrackStepNotFound(store: Store, a: string, es: seq<string>, now: int, notFound: seq<string>)
    requires notFound == Seqs.Filter(es, MissingIn(store))
    ensures TrackOne(store, a, now).notFound + notFound == Seqs.Filter([a] + es, MissingIn(store))
  {
    Seqs.FilterAppend([a], es, MissingIn(store));
    assert [a][1..] == [];
    if TrackByAwb(store, a).Success? {
      assert Seqs.Filter([a], MissingIn(store)) == [];
    } else {
      assert Seqs.Filter([a], MissingIn(store)) == [a];
    }
  }

  /** One entry in front of the rest: its record, if found, goes in front of the rest's. */
  lemma TrackStepShipments(store: Store, a: string, es: seq<string>, now: int, shipments: seq<TrackingInfo>)
    requires shipments == InfoOf(store, Seqs.Filter(es, FoundIn(store)), now)
    ensures TrackOne(store, a, now).shipments + shipments == InfoOf(store, Seqs.Filter([a] + es, FoundIn(store)), now)
  {
    var found := Seqs.Filter(es, FoundIn(store));
    assert ([a] + es)[1..] == es;
    if TrackByAwb(store, a).Success? {
      assert Seqs.Filter([a] + es, FoundIn(store)) == [a] + found;
      assert ([a] + found)[1..] == found;
    } else {
      assert Seqs.Filter([a] + es, FoundIn(store)) == found;
    }
  }

  /**
   Entry by entry: a listed entry naming a stored shipment has that
   shipment's record among the results and is not listed as not found; an
   entry naming none is listed as not found.
   */
  lemma TrackMultipleEntries(store: Store, awbs: seq<string>, now: int, e: string)
    requires e in NormalizedEntries(awbs)
    ensures var r := TrackMultiple(store, awbs, now);
      TrackByAwb(store, e).Success? ==> EnhancedInfo(TrackByAwb(store, e).value, now) in r.shipments && e !in r.notFound
    ensures var r := TrackMultiple(store, awbs, now);
      TrackByAwb(store, e).Failure? ==> e in r.notFound
  {
    var es := NormalizedEntries(awbs);
    var r := TrackMultiple(store, awbs, now);
    Seqs.FilterMembers(es, MissingIn(store), e);
    if TrackByAwb(store, e).Success? {
      var found := Seqs.Filter(es, FoundIn(store));
      Seqs.FilterMembers(es, FoundIn(store), e);
      InfoOfMember(store, found, now, e);
    }
  }

  /** A found entry among others has its record among theirs. */
  lemma {:induction false} InfoOfMember(store: Store, es: seq<string>, now: int, e: string)
    requires forall i :: 0 <= i < |es| ==> TrackByAwb(store, es[i]).Success?
    requires e in es
    ensures TrackByAwb(store, e).Success? && EnhancedInfo(TrackByAwb(store, e).value, now) in InfoOf(store, es, now)
  {
    if es[0] != e {
      InfoOfMember(store, es[1..], now, e);
    }
  }

  // Bulk tracking summary

  /** A dictionary of counts built as `counts[x] = counts.get(x, 0) + 1` over the list. */
  function Tally<K(!new)>(xs: seq<K>): (m: map<K, nat>)
    ensures forall k :: k in m <==> k in xs
    ensures forall k :: k in m ==> m[k] == multiset(xs)[k]
    decreases |xs|
  {
    if xs == [] then map[]
    else
      var p := xs[..|xs| - 1];
      var x := xs[|xs| - 1];
      assert xs == p + [x];
      var m := Tally(p);
      m[x := (if x in m then m[x] else 0) + 1]
  }

  function CountOf<K>(m: map<K, nat>, k: K): nat
  {
    if k in m then m[k] else 0
  }

  /** The counts of `m` added up over the keys listed in `ks`. */
  function SumOver<K>(m: map<K, nat>, ks: seq<K>): nat
    decreases |ks|
  {
    if ks == [] then 0 else CountOf(m, ks[0]) + SumOver(m, ks[1..])
  }

  ghost predicate Distinct<K>(ks: seq<K>)
  {
    forall i, j :: 0 <= i < j < |ks| ==> ks[i] != ks[j]
  }

  /** Changing the count of a key listed once changes the sum by the same amount; an unlisted key does not count. */
  lemma {:induction false} SumOverUpdate<K>(m: map<K, nat>, ks: seq<K>, x: K, v: nat)
    requires Distinct(ks)
    ensures x in ks ==> SumOver(m[x := v], ks) + CountOf(m, x) == SumOver(m, ks) + v
    ensures x !in ks ==> SumOver(m[x := v], ks) == SumOver(m, ks)
    decreases |ks|
  {
    if ks != [] {
      assert Distinct(ks[1..]) by {
        forall i, j | 0 <= i < j < |ks| - 1 ensures ks[1..][i] != ks[1..][j] {
          assert ks[1..][i] == ks[i + 1] && ks[1..][j] == ks[j + 1];
        }
      }
      SumOverUpdate(m, ks[1..], x, v);
      if ks[0] == x {
        assert x !in ks[1..] by {
          forall j | 0 <= j < |ks| - 1 ensures ks[1..][j] != x {
            assert ks[1..][j] == ks[j + 1];
          }
        }
      }
    }
  }

  /** Over a key list without repeats that covers every entry, the tallied counts add up to the number of entries. */
  lemma {:induction false} TallySum<K(!new)>(xs: seq<K>, ks: seq<K>)
    requires Distinct(ks)
    requires forall i :: 0 <= i < |xs| ==> xs[i] in ks
    ensures SumOver(Tally(xs), ks) == |xs|
    decreases |xs|
  {
    if xs == [] {
      SumOverEmpty(ks);
    } else {
      var p := xs[..|xs| - 1];
      var x := xs[|xs| - 1];
      TallySum(p, ks);
      var m := Tally(p);
      SumOverUpdate(m, ks, x, CountOf(m, x) + 1);
    }
  }

  lemma {:induction false} SumOverEmpty<K>(ks: seq<K>)
    ensures SumOver(map[], ks) == 0
    decreases |ks|
  {
    if ks != [] {
      SumOverEmpty(ks[1..]);
    }
  }

  datatype Summary = Summary(
    totalShipments: nat,
    statusCounts: map<Status, nat>,
    carrierCounts: map<string, nat>,
    totalDeclaredValue: real,
    delayedShipments: nat,
    onTimePercentage: real)

  function TotalValue(infos: seq<TrackingInfo>): real
    decreases |infos|
  {
    if infos == [] then 0.0 else TotalValue(infos[..|infos| - 1]) + infos[|infos| - 1].declaredValue
  }

  function DelayedCount(infos: seq<TrackingInfo>): (n: nat)
    ensures n <= |infos|
    decreases |infos|
  {
    if infos == [] then 0 else DelayedCount(infos[..|infos| - 1]) + (if infos[|infos| - 1].delayed then 1 else 0)
  }

  /** A percentage of a part in a positive whole lies between 0 and 100. */
  lemma PercentBounds(part: nat, whole: nat)
    requires 0 < whole && part <= whole
    ensures 0.0 <= (part as real / whole as real) * 100.0 <= 100.0
  {
    var q := part as real / whole as real;
    assert q * whole as real == part as real;
  }

  /** The bulk summary; None stands for the empty dictionary returned for an empty list. */
  function TrackingSummary(infos: seq<TrackingInfo>): (r: Option<Summary>)
    ensures r.None? <==> infos == []
    ensures r.Some? ==> r.value.totalShipments == |infos| && r.value.delayedShipments <= |infos|
    ensures r.Some? ==> 0.0 <= r.value.onTimePercentage <= 100.0
    ensures r.Some? ==> forall st :: st in r.value.statusCounts ==> r.value.statusCounts[st] == multiset(StatusesOf(infos))[st]
  {
    if infos == [] then None
    else
      var n := |infos|;
      var d := DelayedCount(infos);
      PercentBounds(n - d, n);
      Some(Summary(n, Tally(StatusesOf(infos)), Tally(CarriersOf(infos)), TotalValue(infos), d,
                   ((n - d) as real / n as real) * 100.0))
  }

  function StatusesOf(infos: seq<TrackingInfo>): (r: seq<Status>)
    ensures |r| == |infos| && forall i :: 0 <= i < |infos| ==> r[i] == infos[i].status
  {
    seq(|infos|, i requires 0 <= i < |infos| => infos[i].status)
  }

  function CarriersOf(infos: seq<TrackingInfo>): (r: seq<string>)
    ensures |r| == |infos| && forall i :: 0 <= i < |infos| ==> r[i] == infos[i].carrier
  {
    seq(|infos|, i requires 0 <= i < |infos| => infos[i].carrier)
  }

  /** The status distribution of a summary adds up to its total. */
  lemma SummaryCountsSum(infos: seq<TrackingInfo>)
    requires infos != []
    ensures SumOver(TrackingSummary(infos).value.statusCounts, AllStatuses) == TrackingSummary(infos).value.totalShipments
  {
    StatusValuesRoundTrip();
    TallySum(StatusesOf(infos), AllStatuses);
  }
}

=== FILE: wrappers.dfy ===
/** Optional values and results with an error, used by every other module. */
module Wrappers {

  datatype Option<T> = None | Some(value: T)
  {
    predicate IsSome() { this.Some? }

    function GetOr(default: T): (r: T)
      ensures this.Some? ==> r == this.value
      ensures this.None? ==> r == default
    {
      match this
      case Some(v) => v
      case None => default
    }
  }

  datatype Result<T, E> = Success(value: T) | Failure(error: E)
  {
    predicate IsFailure() { this.Failure? }
  }

  /** The HTTP status an endpoint rejects a request with. */
  datatype HttpError = BadRequest | Forbidden | NotFound

  function Code(e: HttpError): (c: nat)
    ensures 400 <= c < 500
  {
    match e
    case BadRequest => 400
    case Forbidden => 403
    case NotFound => 404
  }
}
